=== FILE: README.md ===
# Where your taxes go: a Dafny model of the fiscal engine

This project models the computational core of *where-your-taxes-go*, a UK
public-finance explainer, and proves properties of that model. It covers
five parts.

1. **The tax estimator** (`api/tax_model.py`, `api/main.py`, `api/models.py`):
   - per-year rate tables and policy overrides;
   - the tapered personal allowance and the basic, higher and additional
     bands, with the basic-band extension for relief-at-source pension
     contributions and gift aid;
   - the Scottish schedule;
   - employee and self-employed National Insurance;
   - VAT on disposable spending;
   - council tax by region and band;
   - savings, dividend and student-loan charges;
   - the marriage-allowance transfer, household totals, effective rate,
     take-home pay, the low/high uncertainty range and the year-over-year
     comparison.
2. **Attribution and regions** (`api/attribution.py`, `api/regional.py`):
   - the user's pro-rata share of national revenue;
   - the per-service contributions, sorted and paginated;
   - regional balances from ONS rows;
   - donor-to-recipient flows;
   - the official-borrowing record.
3. **CSV export** (`api/main.py`): `csv.DictWriter` output, with a parser for
   the same quoting rule to state the round trip.
4. **Data scripts** (`data/scripts/*.py`):
   - the PESA and departmental sheet extraction (`to_number` and the label
     classifiers);
   - the ONS regional extraction (latest year column, row by prefix) and the
     council-to-region lookup;
   - `slugify`, `parse_year_label` and `normalize_rows`;
   - the release period read from a bulletin URL.
5. **Client helpers** (`web/app.js`):
   - cleaning function labels;
   - COFOG category lookup and aggregation by category;
   - the service sort;
   - table paging;
   - the pie chart's remainder slice;
   - the borrowing context panel.

## Conventions

- **Money is `real`.** Every `round(x, 2)` of the source is `Rounding.Round2`,
  and `round(x, k)` in general is `Rounding.RoundTo`.
- **Tables are association lists.** Python dictionaries and JavaScript
  objects keyed by strings are sequences of pairs, read with
  `Tables.Lookup` (the first entry wins). They are updated with `Tables.Put`,
  which keeps the key's first position, as a Python `dict` does.
- **Built-ins you cannot see are parameters.** Parsers such as `float()`,
  `int()`, `Number()` and `parseFloat` are function parameters
  (`parseFloat`, `parseInt`). `str(float)` is the `render` parameter. The
  postcode web service is the `service` parameter. The locale collation of
  `String.prototype.localeCompare` is the `collate` parameter. Properties are
  proved for every such function; those that need an assumption state it in
  their `requires`, such as `TotalPreorder(collate)`.
- **Workbooks are functions.** A worksheet (`Worksheet.Sheet`) is a function
  from (row, column) to a cell, together with the sheet's extent.
- **Errors are values.** Python exceptions (`ValueError`, `KeyError`,
  `ZeroDivisionError`) are `Failure` results.

## Model

| member | source | states |
|---|---|---|
| TaxParams.GetTaxParameters | api/tax_model.py:25-30 | every year shares the default table except the NI main rate, which is 12% for 2023-24 and 8% otherwise; the table is valid |
| TaxParams.UnknownYearFallsBack | api/tax_model.py:243-244 | an unlisted tax year gets the latest year's parameters |
| TaxParams.ApplyPolicyOverrides | api/main.py:89-129 | each overridable rate or allowance takes the override when present and the base otherwise; thresholds never change; valid overrides keep the table valid |
| TaxParams.EmptyOverridesChangeNothing | api/main.py:89-129 | an override object with every field absent leaves the parameters unchanged |
| IncomeTax.TaperedAllowance | api/tax_model.py:85-105 | the allowance is whole up to £100,000, falls £1 per £2 above it, never goes negative and is zero from 100,000 + 2 × allowance upwards |
| IncomeTax.Taxable | api/tax_model.py:85-105 | taxable income is zero exactly when income is within the tapered allowance, and is income minus that allowance otherwise |
| IncomeTax.SplitBands | api/tax_model.py:85-105 | the basic, higher and additional amounts are non-negative and partition taxable income; basic is capped by its band, higher by the higher band's width, and each band fills before the next gets anything |
| IncomeTax.BandSplitPartitions | api/tax_model.py:85-105 | with reliefs, the three band amounts partition the taxable income and the basic band widens by the extension |
| IncomeTax.NoExtensionIsPlain | api/tax_model.py:67-82 | the relief-aware calculation with no extension equals the plain `estimate_income_tax` |
| IncomeTax.ZeroWithinAllowance | api/tax_model.py:85-105 | no income tax is due on income within the tapered allowance |
| IncomeTax.IncomeTaxNonNegative | api/tax_model.py:85-105 | income tax is never negative for non-negative rates |
| IncomeTax.IncomeTaxMonotone | api/tax_model.py:85-105 | more income never means less income tax |
| IncomeTax.LadderIsSchedule | api/tax_model.py:108-129 | the Scottish band-by-band ladder equals a closed-form piecewise schedule |
| IncomeTax.ScotlandZero | api/tax_model.py:108-129 | no Scottish income tax is due within the tapered allowance |
| IncomeTax.ScotlandMonotone | api/tax_model.py:108-129 | Scottish income tax never falls as income rises |
| IncomeTax.BandLoop | api/tax_model.py:117-128 | the imperative band loop computes the recursive ladder's total |
| IncomeTax.ScotlandLoop | api/tax_model.py:108-129 | the imperative Scottish loop computes the closed-form schedule |
| NationalInsurance.EmployeeNIIsSchedule | api/tax_model.py:132-140 | employee NI is the rounded piecewise schedule: nothing below the primary threshold, the main rate up to the upper limit, the upper rate beyond it |
| NationalInsurance.ScheduleBranches | api/tax_model.py:132-140 | the schedule takes exactly the three branch values of the source |
| NationalInsurance.EmployeeNIBounds | api/tax_model.py:132-140 | employee NI is zero at or below the primary threshold and never negative |
| NationalInsurance.EmployeeNIMonotone | api/tax_model.py:132-140 | employee NI never falls as income rises |
| NationalInsurance.SelfEmployedNIShape | api/tax_model.py:143-148 | no NI below £12,570; otherwise the flat class 2 charge plus 6% up to £50,270 and 2% above it |
| Levies.VatFractionIsRate | api/tax_model.py:151-161 | the VAT share of a VAT-inclusive price lies in [0, 1) |
| Levies.Disposable | api/tax_model.py:151-161 | disposable income is non-negative and at least income minus income tax and NI |
| Levies.VatOnSpendMonotone | api/tax_model.py:151-161 | VAT is zero with no vatable spend, grows with disposable income and with the ratio, and never exceeds the vatable spend |
| Levies.VatMonotone | api/tax_model.py:151-161 | more income tax leaves less disposable income and so no more VAT; a higher ratio gives no less VAT |
| Levies.RegionAverageIsWhole | api/tax_model.py:35-49 | every region's average charge, including the England fallback, is positive and a whole number of pence |
| Levies.BandDIsAverage | api/tax_model.py:164-173 | band D, "auto" and any unlisted band are charged the region's average |
| Levies.BandMultipliersAscend | api/tax_model.py:51-60 | the band multipliers are positive and rise from A to H |
| Levies.CouncilTaxForBand | api/tax_model.py:164-173 | a listed band is charged the region average scaled by its multiplier and rounded |
| Levies.CouncilTaxBandsOrdered | api/tax_model.py:164-173 | a band with a larger multiplier is never charged less |
| Levies.CouncilTaxForIsCents | api/tax_model.py:164-173 | every council charge is non-negative whole pence |
| Levies.CouncilTaxIgnoresPadding | api/tax_model.py:164-173 | surrounding whitespace on the region or the band does not change the charge |
| Levies.SavingsRate | api/tax_model.py:176-189 | the savings rate is strictly between 0 and 1 |
| Levies.SavingsTaxShape | api/tax_model.py:176-189 | interest within the personal savings allowance is untaxed; the tax is non-negative and grows with interest |
| Levies.DividendRate | api/tax_model.py:192-203 | the dividend rate is strictly between 0 and 1 |
| Levies.DividendTaxShape | api/tax_model.py:192-203 | dividends within the allowance are untaxed; the tax is non-negative and grows with dividends and with income |
| Levies.PlanTableRates | api/tax_model.py:206-212 | every listed plan has a positive rate and none is called "none" |
| Levies.PlanRateNonNegative | api/tax_model.py:215-220 | a plan's rate is non-negative, and an unknown plan repays at rate zero |
| Levies.RepaymentShape | api/tax_model.py:215-220 | nothing is repaid at or below the threshold; above it the rate applies to the excess, rounded; repayment grows with income |
| Levies.ListedPlanRepayment | api/tax_model.py:206-220 | a listed plan repays its own rate on income above its own threshold |
| Levies.StudentLoanShape | api/tax_model.py:215-220 | plan "none" and unknown plans repay nothing; repayment is non-negative and grows with income |
| Levies.UnknownPlanRepaysNothing | api/tax_model.py:215-220 | a plan missing from the table repays nothing |
| Household.AdjustedIncome | api/main.py:134-137 | adjusted income is the gross minus salary sacrifice and other deductions, floored at zero |
| Household.AdjustedPartnerIncome | api/main.py:138 | the partner's adjusted income is never negative and is the partner's income when that is non-negative |
| Household.PersonTaxWholePence | api/main.py:77-86 | a person's income tax and NI are non-negative whole pence |
| Household.PrimaryTaxWholePence | api/main.py:141-154 | the primary earner's charges are non-negative whole pence |
| Household.PrimaryTaxSelection | api/main.py:141-154 | the rest of the UK uses the relief-aware calculation; Scotland ignores the reliefs; self-employed and mixed workers' NI ignores the table's NI rates |
| Household.MarriageAllowance | api/main.py:156-168 | without eligibility nothing changes; the credit is at most £252 and at most the larger tax; it is taken from the larger tax, and from the primary earner on a tie |
| Household.MarriageAllowanceExact | api/main.py:156-168 | the credit is min(£252, larger tax); both taxes stay non-negative whole pence; their sum falls by exactly the credit |
| Household.LookupCouncil | api/tax_model.py:223-240 | an empty postcode never asks the service; a lookup succeeds exactly when the stripped postcode gets a reply, and then carries the replied postcode (the one sent when the reply has none), admin district as the council name, region and country, each "" when missing |
| Household.LookupIgnoresPadding | api/tax_model.py:223-240 | whitespace around the postcode does not change the lookup |
| Household.ChooseCouncil | api/main.py:181-185 | the lookup region is the lookup's own region ("" without a lookup); the region used is that region when non-empty and the request's region otherwise; a given council name wins, and without one the looked-up admin district is reported |
| Household.PostcodeRegionWins | api/main.py:181-185 | a postcode whose lookup names a region overrides the request's region |
| Household.CouncilChargeWholePence | api/main.py:186-190 | the council charge, overridden or estimated, is non-negative whole pence |
| Household.Total | api/main.py:194 | the total is whole pence |
| Household.TotalIsSum | api/main.py:194 | for whole-pence components the total is exactly their sum and is non-negative |
| Household.TotalMonotone | api/main.py:194 | raising any component never lowers the total |
| Household.VatRatioLow | api/main.py:198 | the low VAT ratio lies between 0 and the given ratio |
| Household.VatRatioHigh | api/main.py:199 | the high VAT ratio lies between the given ratio and 1 |
| Household.CouncilBoundsBracket | api/main.py:202-203 | the council bounds bracket the charge, and coincide with it when the charge is an override |
| Estimator.Parameters | api/main.py:133 | the request's parameters are valid for a valid request and are the year table when no overrides are given |
| Estimator.CoupleTaxesExact | api/main.py:141-171 | after the marriage transfer the couple's charges are whole pence and sum as the transfer promises |
| Estimator.ComponentsWholePence | api/main.py:141-193 | every component of a valid request's estimate is non-negative whole pence |
| Estimator.EffectiveRate | api/main.py:195 | the rate is zero for zero gross income and otherwise within 5·10⁻⁷ of total over gross |
| Estimator.TakeHome | api/main.py:196 | take-home is within half a penny of gross minus total, and exactly that for whole-pence inputs |
| Estimator.TotalIsSumOfCharges | api/main.py:170-194 | the total is the sum of the whole-pence charges; household income tax is both earners' tax less a credit between 0 and £252 |
| Estimator.ComponentsAtFields | api/main.py:198-208 | a bound recomputes only VAT (at the bound's ratio) and council tax (at the bound's factor) |
| Estimator.VatBracket | api/main.py:198-201 | VAT at the low ratio ≤ VAT at the chosen ratio ≤ VAT at the high ratio |
| Estimator.LowBracket | api/main.py:204 | the low total is non-negative and at most the central total |
| Estimator.HighBracket | api/main.py:205-208 | the high total is at least the central total |
| Estimator.UncertaintyBracketsTotal | api/main.py:198-208 | for every valid request, 0 ≤ low ≤ total ≤ high |
| Estimator.OverrideFixesCouncilBounds | api/main.py:186-203 | an overridden council charge is the rounded override and both bounds keep it |
| Estimator.ServiceOnlyAffectsCouncilTax | api/main.py:181-190 | the postcode service changes nothing but council tax, and nothing at all under an override |
| Estimator.EstimateRates | api/main.py:195-246 | the estimate's effective rate and take-home obey their rounding bounds; the household has two adults exactly when partner income is positive |
| Estimator.CompareRequest | api/main.py:258-262 | the comparison request differs from the original only in its tax year, and asks for no further comparison |
| Estimator.CompareTotals | api/main.py:263-272 | the comparison reports the other year's total; the delta is their difference; the percentage is zero for a zero base and otherwise within 5·10⁻⁵ of delta over base |
| Estimator.TaxEstimate | api/main.py:256-273 | the response is the year's estimate plus a comparison block exactly when one is requested |
| Estimator.ComparisonIsDifference | api/main.py:256-273 | the block names the compared year and its total, the delta is that total minus the selected one, and the compared request asks for no comparison |
| Requests.DefaultTaxEstimateRequest | api/models.py:25-46 | the defaults are valid exactly when the income is positive; they name the latest year, a 0.6 ratio, England, no comparison, "auto" band, no loan plan and no overrides |
| Requests.DefaultSpendingBreakdownRequest | api/models.py:67-92 | valid exactly for positive income; top N defaults to 12 |
| Requests.DefaultServicesImpactRequest | api/models.py:109-135 | valid exactly for positive income; page 1 of size 20 |
| Requests.DefaultRegionalFlowsRequestValid | api/models.py:162-167 | the default flows request is valid; page size 501 and page 0 are rejected |
| Rounding.RoundNonNegative | api/tax_model.py:63-64 | rounding a non-negative amount gives a non-negative amount |
| Rounding.RoundMonotone | api/tax_model.py:63-64 | rounding preserves order |
| Rounding.RoundError | api/tax_model.py:63-64 | rounding to k places moves a value by at most half a unit in the k-th place |
| Rounding.Round2Exact | api/tax_model.py:63-64 | whole pence are left unchanged |
| Rounding.Round2IsCents | api/tax_model.py:63-64 | the result is always whole pence |
| Rounding.Round2Idempotent | api/tax_model.py:63-64 | rounding twice is rounding once |
| Paging.Paginate | api/attribution.py:27-31 | the count is the full length; for page ≥ 1 the page is the window starting at (page − 1) × size |
| Paging.PagesUpToPrefix | api/attribution.py:27-31 | the first k pages, concatenated, are the first k × size items |
| Paging.AllPagesReassemble | api/attribution.py:27-31 | concatenating every page gives back the whole list |
| Paging.PageBeyondEndEmpty | api/attribution.py:27-31 | a page past the last is empty rather than an error |
| Attribution.LoadTotalUkRevenue | api/attribution.py:34-45 | succeeds exactly when some row is the UK receipts row of the year, and otherwise fails with the source's message |
| Attribution.RevenueIsFirstMatch | api/attribution.py:34-45 | the total is the amount of the first matching row |
| Attribution.SharePercentIsSpendShare | api/attribution.py:54-71 | a service's share of the user's tax equals its share of national revenue |
| Attribution.BuildAll | api/attribution.py:48-78 | succeeds exactly when revenue loads and is non-zero; reports the rounded total and share; the services are a permutation of the selected sub-function rows' contributions |
| Attribution.BuildAllSorted | api/attribution.py:48-78 | one service per selected row, in descending contribution, with equal contributions keeping dataset order |
| Attribution.ContributionsProRata | api/attribution.py:54-75 | the contributions add up to the user's tax times total spending over total revenue |
| Attribution.ContributionsAddUpToTax | api/attribution.py:54-75 | when spending equals revenue, the contributions add up to exactly the user's tax |
| Attribution.BuildPaginated | api/attribution.py:81-104 | the page is the requested window of the sorted list, and the count covers every selected row |
| Attribution.ServicePagesReassemble | api/attribution.py:81-104 | the pages of the service list reassemble the whole sorted list |
| Attribution.BuildBreakdown | api/attribution.py:107-127 | the breakdown is the first top-N services of the sorted list |
| Regional.LastRowOf | api/regional.py:46-55 | finds the last counted row for a region code, with no counted row for that code after it |
| Regional.IndexIsLastRow | api/regional.py:46-55 | the per-code index holds the last matching row's name and amount, as a Python dict comprehension does |
| Regional.BalancesSpec | api/regional.py:42-70 | the balances are a permutation of one balance per indexed region, sorted by name, with ties in index order |
| Regional.BalanceOfRegion | api/regional.py:58-68 | every balance carries its region's last revenue row, its last spending row or zero, and their rounded difference |
| Regional.RegionHasBalance | api/regional.py:46-68 | every counted revenue row's region gets a balance |
| Regional.FlowsFrom | api/regional.py:85-99 | each flow runs from the donor to a recipient, is at least £0.01m, and carries the flow value rounded to 4 places |
| Regional.AllFlows | api/regional.py:83-99 | every flow kept is such a donor-to-recipient flow |
| Regional.FlowsFromComplete | api/regional.py:85-99 | every recipient whose flow from the donor reaches £0.01m gets that flow, rounded to 4 places |
| Regional.AllFlowsComplete | api/regional.py:83-99 | every donor-recipient pair whose flow reaches £0.01m is kept |
| Regional.KeptIsDirected | api/regional.py:83-99 | a kept flow goes from a region in surplus to a region in deficit |
| Regional.FlowsSpec | api/regional.py:73-101 | flows are in descending value and always run from surplus to deficit; when both sides exist the list is a permutation of the donor-by-donor flows, holds a flow exactly when it is a kept donor-to-recipient flow, and keeps equal flows in donor-then-recipient order |
| Regional.FlowsComplete | api/regional.py:73-99 | any region in surplus and any in deficit make both totals positive, and their flow is listed whenever it reaches £0.01m |
| Regional.NoFlowsWithoutBothSides | api/regional.py:78-82 | with no surplus or no deficit anywhere there are no flows |
| Regional.DonorTransferIs | api/regional.py:85-88 | before the £0.01m filter, a donor sends its weighted share of the transfer total |
| Regional.TransferTotalScaled | api/regional.py:83-99 | before the filter, all donors send the transfer total times their net over the surplus |
| Regional.FlowsConserve | api/regional.py:78-99 | before the filter, the flows move exactly min(surplus, deficit) |
| Borrowing.ReferencePeriodOf | api/regional.py:155-166 | the reference period is the stripped field, else the legacy year label, else "Unknown reference period"; it is never empty |
| Borrowing.ReleasePeriodOf | api/regional.py:154-165 | the release period is the stripped field when present; it is never empty |
| Borrowing.LoadOfficialBorrowing | api/regional.py:146-167 | no file or no rows gives no record; otherwise it succeeds exactly when the amount parses and the URL column exists, and copies the fields |
| Borrowing.ReleaseFallsBackToUrl | api/regional.py:158-160 | without a release period, the last path segment of the URL, trailing slashes dropped, is used |
| Borrowing.ReleaseUnknownWithoutSegment | api/regional.py:158-165 | a URL of only slashes gives the "Unknown release" placeholder |
| Borrowing.BorrowingMethod | api/main.py:379 | the method is "official" exactly when an official record exists, and the implied gap otherwise |
| BorrowingRelease.CleanUrl | data/scripts/fetch_official_borrowing.py:29-30 | `urlsplit`'s cleaning leaves only characters it keeps |
| BorrowingRelease.SplitScheme | data/scripts/fetch_official_borrowing.py:29-30 | a scheme, when split off, is followed by ':' and the remainder is the rest of the URL |
| BorrowingRelease.StripParams | data/scripts/fetch_official_borrowing.py:29-30 | the path keeps its prefix up to the first ';' in its last segment |
| BorrowingRelease.UrlPath | data/scripts/fetch_official_borrowing.py:29-30 | the path contains no query or fragment delimiter |
| BorrowingRelease.SchemeOf | data/scripts/fetch_official_borrowing.py:29-30 | a plain scheme followed by ':' is split off exactly |
| BorrowingRelease.UrlPathOfHttps | data/scripts/fetch_official_borrowing.py:29-30 | the path of an https URL is exactly the part after the host |
| BorrowingRelease.FindMonth | data/scripts/fetch_official_borrowing.py:23-26 | finds a month whose name starts the slug and is followed by four digits, or shows that none does |
| BorrowingRelease.ReleasePeriodOfSlug | data/scripts/fetch_official_borrowing.py:29-36 | a slug matching no month is returned as is; a matching slug becomes the capitalised month, a space and the year |
| BorrowingRelease.CapitalizeByLower | data/scripts/fetch_official_borrowing.py:34 | capitalising depends only on the lower-cased text, so every spelling of a month gives one title |
| BorrowingRelease.MatchIsUnique | data/scripts/fetch_official_borrowing.py:23-26 | a slug matches at most one month |
| BorrowingRelease.ReleasePeriodOfMonthYear | data/scripts/fetch_official_borrowing.py:29-36 | "<month><yyyy>" becomes "<Month> <yyyy>" |
| BorrowingRelease.RewrittenIffMatch | data/scripts/fetch_official_borrowing.py:29-36 | the slug is rewritten exactly when some month matches it |
| BorrowingRelease.JanuaryTitle | data/scripts/fetch_official_borrowing.py:18 | the January bulletin's month reads "January" |
| BorrowingRelease.ReleasePeriodOfBulletin | data/scripts/fetch_official_borrowing.py:29-36 | for an https bulletin URL ending in "<month><yyyy>", the release period is "<Month> <yyyy>" |
| BorrowingRelease.Decimal | data/scripts/fetch_official_borrowing.py:52 | `str(int)` is a non-empty digit string |
| BorrowingRelease.ReferencePeriod | data/scripts/fetch_official_borrowing.py:49-52 | the reference period starts "FYE March " and, for a year without a leading zero, ends with that year |
| BorrowingRelease.DecimalOfDigits | data/scripts/fetch_official_borrowing.py:49-52 | printing a parsed digit string gives it back when it has no leading zero |
| CsvWriter.QuoteField | api/main.py:385-391 | a field is quoted when it holds a delimiter, quote or line break, or is the only field of an empty record; otherwise it is written as is |
| CsvWriter.FormatRecord | api/main.py:385-391 | every record ends with "\r\n" |
| CsvWriter.DictToList | api/main.py:385-391 | succeeds exactly when the row has no key outside the field names, giving one cell per field name and "" for a missing key |
| CsvWriter.RecordsOf | api/main.py:385-391 | succeeds exactly when no row has an extra key, giving one record per row |
| CsvWriter.RowsToCsv | api/main.py:385-391 | succeeds exactly when no row has an extra key, which raises `ValueError` in the source |
| CsvWriter.FieldRoundTrip | api/main.py:385-391 | parsing a written field gives back the field and leaves the rest of the text |
| CsvWriter.RecordRoundTrip | api/main.py:385-391 | parsing a written record gives back its fields |
| CsvWriter.DocumentRoundTrip | api/main.py:385-391 | parsing a written document gives back every record |
| CsvWriter.CsvRoundTrip | api/main.py:385-391 | parsing the export gives the header and then each row's value for each column, commas and quotes included |
| CsvWriter.ZipCells | api/main.py:472-498 | a row built from distinct column names and cells writes back exactly those cells |
| CsvWriter.ExportReadsBack | api/main.py:472-498 | an export whose rows have only known keys reads back as the header followed by the cells |
| CsvWriter.ServicesExport | api/main.py:472-484 | the services CSV reads back as its header and one record per service |
| CsvWriter.BalancesExport | api/main.py:486-498 | the regional balances CSV reads back as its header and one record per region |
| HmtExtract.CleanText | data/scripts/extract_hmt_phase1.py:27 | the cleaned text has no comma and no surrounding whitespace |
| HmtExtract.ToNumber | data/scripts/extract_hmt_phase1.py:22-33 | blank cells give nothing; numbers are kept; text parses after commas and padding are removed, with "" and "-" giving nothing |
| HmtExtract.CommaIgnored | data/scripts/extract_hmt_phase1.py:27 | a thousands comma does not change the number read |
| HmtExtract.ToNumberByCleanText | data/scripts/extract_hmt_phase1.py:27-33 | a text cell's number is the parse of its cleaned text, unless that is empty or "-" |
| HmtExtract.PaddingIgnored | data/scripts/extract_hmt_phase1.py:27 | whitespace around a text cell does not change the number read |
| HmtExtract.SubFunctionCodeMeaning | data/scripts/extract_hmt_phase1.py:41 | the scan for `^\d+\.\d+\s` succeeds exactly when the label splits as digits, '.', digits, whitespace |
| HmtExtract.HeadingCodeMeaning | data/scripts/extract_hmt_phase1.py:43 | the scan for `^\d+\.\s` succeeds exactly when the label starts with digits, '.', whitespace |
| HmtExtract.ClassifyFunctionLabel | data/scripts/extract_hmt_phase1.py:36-45 | each row type holds exactly when its test passes and every earlier test fails, in the source's order |
| HmtExtract.SubFunctionLabel | data/scripts/extract_hmt_phase1.py:41-42 | "a.b name" is a sub-function |
| HmtExtract.HeadingLabel | data/scripts/extract_hmt_phase1.py:43-44 | "a. name" is a function heading |
| HmtExtract.UnspacedCodeIsOther | data/scripts/extract_hmt_phase1.py:36-45 | a code not followed by whitespace is "other" |
| HmtExtract.ClassifyDepartmentLabel | data/scripts/extract_hmt_phase1.py:78-84 | "total " in any case is a total; otherwise a leading '(' is a note |
| HmtExtract.TotalInAnyCase | data/scripts/extract_hmt_phase1.py:37-38 | "total " in any letter case is a total for both classifiers |
| HmtExtract.FunctionalRows | data/scripts/extract_hmt_phase1.py:52-65 | one output per row with a truthy label and a number, in order, carrying that number |
| HmtExtract.DepartmentalRows | data/scripts/extract_hmt_phase1.py:95-109 | one output per row with a truthy label and a number, in order, carrying that number |
| HmtExtract.ExtractFunctional | data/scripts/extract_hmt_phase1.py:48-65 | at most one row per sheet row, each labelled by the classifier and dated 2024-25 |
| HmtExtract.ExtractDepartmental | data/scripts/extract_hmt_phase1.py:87-109 | at most one row per sheet row, each labelled by the classifier and dated 2024-25 |
| NormalizedSpending.StripCode | data/scripts/build_normalized_spending.py:22 | removing the leading code keeps a suffix and leaves text without a leading digit alone |
| NormalizedSpending.TwoPartCodeRemoved | data/scripts/build_normalized_spending.py:22 | "a.b" and its trailing whitespace are removed |
| NormalizedSpending.OnePartCodeRemoved | data/scripts/build_normalized_spending.py:22 | "a" followed by whitespace is removed |
| NormalizedSpending.DropParensKeeps | data/scripts/build_normalized_spending.py:23 | text without '(' is unchanged |
| NormalizedSpending.DropParensGroup | data/scripts/build_normalized_spending.py:23 | a parenthesised group on one line, with no ')' inside, is removed and the text before it kept |
| NormalizedSpending.Collapse | data/scripts/build_normalized_spending.py:24 | only slug characters and single underscores remain; an underscore stands exactly for a run of other characters |
| NormalizedSpending.CollapseJoin | data/scripts/build_normalized_spending.py:24 | two words separated by any run of non-slug characters are joined by one underscore |
| NormalizedSpending.TrimmedShape | data/scripts/build_normalized_spending.py:24 | trimming underscores keeps the slug shape |
| NormalizedSpending.Slugify | data/scripts/build_normalized_spending.py:20-25 | a slug holds only [a-z0-9_], never starts or ends with '_' and never doubles it |
| NormalizedSpending.SlugOfWord | data/scripts/build_normalized_spending.py:20-25 | a lower-case word is its own slug |
| NormalizedSpending.SlugJoinsWords | data/scripts/build_normalized_spending.py:20-25 | two words separated by punctuation or spaces slug to "a_b" |
| NormalizedSpending.YearBeforeDash | data/scripts/build_normalized_spending.py:28-31 | "2024-25" reads as the year before the dash |
| NormalizedSpending.YearBeforeTo | data/scripts/build_normalized_spending.py:28-33 | "2022 to 2023" reads as the year before "to" |
| NormalizedSpending.Convert | data/scripts/build_normalized_spending.py:42-95 | a row converts exactly when its year label and amount parse, and then carries them with the given columns |
| NormalizedSpending.NormalizeKept | data/scripts/build_normalized_spending.py:42-95 | succeeds exactly when every kept row converts, giving one output per kept row in order |
| NormalizedSpending.NormalizeRows | data/scripts/build_normalized_spending.py:42-97 | the output is the functional, then the departmental, then the regional rows, and it fails when any section fails |
| NormalizedSpending.FunctionalRowsNormalized | data/scripts/build_normalized_spending.py:45-61 | each functional output comes from a sub-function or total row and is national, UK-wide, slugged by function, with no department |
| NormalizedSpending.DepartmentalRowsNormalized | data/scripts/build_normalized_spending.py:63-79 | each departmental output comes from a line item and is national, slugged by department, with no function |
| OnsExtract.LatestYearColUpTo | data/scripts/extract_ons_phase1.py:35-45 | finds the right-most year header from column 2 on, or shows that there is none |
| OnsExtract.FindLatestYearCol | data/scripts/extract_ons_phase1.py:35-45 | the loop returns that header and column, and fails with the source's message when there is none |
| OnsExtract.FirstColumnNeverChosen | data/scripts/extract_ons_phase1.py:38 | a year header in column 1 alone is not found |
| OnsExtract.FirstFrom | data/scripts/extract_ons_phase1.py:48-54 | finds the first row meeting the test, or shows that none does |
| OnsExtract.FindRowByPrefix | data/scripts/extract_ons_phase1.py:48-54 | the loop returns the first row whose label starts with the prefix, ignoring case and padding, and otherwise fails |
| OnsExtract.FloatOfCell | data/scripts/extract_ons_phase1.py:66 | numbers are kept, blanks fail, text must parse |
| OnsExtract.SheetRow | data/scripts/extract_ons_phase1.py:60-76 | a sheet row succeeds exactly when the sheet, its year column, its prefix row and the cell's number all exist, and carries the sheet's name and code |
| OnsExtract.ExtractRegional | data/scripts/extract_ons_phase1.py:57-76 | succeeds exactly when every sheet succeeds, with one row per sheet in order |
| OnsExtract.OneRowPerGeography | data/scripts/extract_ons_phase1.py:17-32 | the revenue extract has 14 rows, one per geography, in table order |
| OnsExtract.LookupRowOf | data/scripts/extract_ons_phase1.py:141-150 | a record converts exactly when its four columns exist, and their values are stripped |
| OnsExtract.LookupRows | data/scripts/extract_ons_phase1.py:141-150 | succeeds exactly when every record converts, one output per record |
| OnsExtract.LookupSpec | data/scripts/extract_ons_phase1.py:137-152 | the lookup is a permutation of the converted records, sorted by council code, with ties in file order |
| Sorting.SortSpec | api/attribution.py:77 | the sort is a stable permutation: sorted, same multiset, ties in input order |
| Tables.Lookup | api/tax_model.py:35-60 | finds an entry with the key, or reports that none exists |
| Tables.Put | api/regional.py:46-55 | the key now maps to the new value and every other key is unchanged |
| Tables.PutExisting | api/regional.py:46-55 | re-assigning a key keeps every key's position |
| ClientLabels.CollapseSpaces | web/app.js:196-201 | the result has only plain single spaces, is empty only for empty input, and starts with a space exactly when the input starts with whitespace |
| ClientLabels.CollapseKeepsWords | web/app.js:196-201 | every non-whitespace character is kept, in order |
| ClientLabels.CollapseRun | web/app.js:196-201 | a run made only of whitespace becomes one space |
| ClientLabels.CollapseSplit | web/app.js:196-201 | a non-whitespace character is kept in place and the text on each side of it collapses independently, so with CollapseRun the result is fixed for every input |
| ClientLabels.TrimKeepsWords | web/app.js:196-201 | `.trim()` removes whitespace only |
| ClientLabels.CollapseKeeps | web/app.js:196-201 | single-spaced text is unchanged |
| ClientLabels.Normalised | web/app.js:196-201 | the cleaned label has single spaces and no surrounding whitespace, and keeps the raw label's non-whitespace characters in order |
| ClientLabels.SplitCode | web/app.js:196-201 | either no code is found and the name is the whole text, or the text is the code, a space and the name |
| ClientLabels.CleanFunctionLabel | web/app.js:196-201 | the cleaned label splits into a digits-or-digits.digits code and a name, or has no code; the code's and the name's non-whitespace characters together are the raw label's |
| ClientLabels.SplitKeepsWords | web/app.js:196-201 | splitting off the code loses only the space after it |
| ClientLabels.CodeFound | web/app.js:196-201 | "code name" splits into that code and name |
| ClientLabels.LabelRoundTrip | web/app.js:196-201 | cleaning "code name" gives back the code and name |
| ClientLabels.UncodedLabelKept | web/app.js:196-201 | a clean label not starting with a digit is kept whole with no code |
| ClientLabels.CategoryFromCode | web/app.js:219-223 | an empty code is "Other"; otherwise the division before the first '.' names the category, or "Other" |
| ClientLabels.SubCodeInDivision | web/app.js:219-223 | a sub-code falls in its division's category |
| ClientLabels.SwappedLookup | web/app.js:215-217 | inverting a table with distinct names finds each name's code |
| ClientLabels.CategoryRoundTrip | web/app.js:203-223 | each COFOG division's category maps back to that division and forward to the category |
| ClientGroups.GroupIndex | web/app.js:225-245 | finds the group with the category, or reports that there is none |
| ClientGroups.AddTo | web/app.js:236-241 | adding an item to a group adds every amount and keeps the group's labels |
| ClientGroups.AggregateSpec | web/app.js:225-245 | one group per category in order of first appearance, each summing exactly its items |
| ClientGroups.TotalsPreserved | web/app.js:225-245 | aggregation preserves the total of every amount |
| ClientGroups.BeforeIsPreorder | web/app.js:247-256 | each sort key and direction gives a total preorder when the collation is one |
| ClientGroups.SortServices | web/app.js:247-256 | the sorted table is a permutation of the services |
| ClientGroups.SortServicesSpec | web/app.js:247-256 | the table is a stable permutation, ordered by the chosen key and direction |
| ClientView.TablePage | web/app.js:551-561 | there is at least one page; the page is clamped into range; start and end lie within the rows; every page but the last is full |
| ClientView.TablePageIsPaginate | web/app.js:557-561 | the rows shown are the server-side page of the same number and size |
| ClientView.TablePagesCoverRows | web/app.js:557-561 | the table's pages together show every row once |
| ClientView.BorrowingContext | web/app.js:677-701 | totals are the regional sums; borrowing is the official figure or the implied gap; percentages are zero without a base; people-to-fund is missing exactly when borrowing is positive and the user pays no tax; with borrowing at or below zero it is 0 |
| ClientView.BorrowingVsRevenue | web/app.js:689-690 | the percentage of revenue times revenue is 100 times borrowing |
| ClientView.BorrowingVsSpending | web/app.js:691-692 | the percentage of spending times spending is 100 times borrowing |
| ClientView.UserShareProportional | web/app.js:693-697 | the user's share of borrowing is borrowing in proportion to their tax over revenue |
| ClientView.PeopleFundBorrowing | web/app.js:698-701 | that many people, each paying the user's tax, raise exactly the borrowing |
| ClientView.OtherServicesAreTheTail | web/app.js:412-421 | the "other services" share is exactly the shares beyond the top 15 |
| ClientView.PieSlices | web/app.js:411-434 | the pie draws the top 15 services; the remainder slice is drawn exactly when the undrawn shares, max(0, total - top), plus the unattributed tax, max(0, 100 - total), exceed 0.01, and it carries those two parts |
| ClientView.PieCompletes | web/app.js:411-434 | with non-negative shares, the remainder slice is drawn exactly when the drawn slices fall short of max(100, total) by more than 0.01, and then the pie sums to exactly max(100, total); shares above 100 arise when spending exceeds revenue |

## Left out

- Rounding.Round2: rounds ties away from zero on exact reals. Python's `round(x, 2)` rounds the IEEE double half-to-even, so `round(0.125, 2)` is 0.12 and `round(2.675, 2)` is 2.67, where Round2 gives 0.13 and 2.68. This holds for every rounded amount in the estimator, the attribution and the regions.
- Rounding.RoundTo: has the same tie rule as Round2 for 4, 6 and 10 places.
- Floating point: money, rates and ratios are exact reals, not binary doubles. Representation error, accumulation order in `sum`/`reduce`, and JavaScript's `toFixed` are not modelled.
- NormalizedSpending.Slugify: lower-cases and matches digits in ASCII only, where Python's `str.lower()`, `\d` and `\s` are Unicode-aware. For example, Python maps "K" (Kelvin sign) to "k", but the model drops it.
- NormalizedSpending.Prepared: has the same ASCII-only lower-casing and digit class as Slugify.
- HmtExtract.ClassifyFunctionLabel: `lower()`, `\d` and `\s` are ASCII case mapping, ASCII digits and Python's whitespace set. Other Unicode digits, such as Arabic-Indic ones, are not codes here.
- HmtExtract.ClassifyDepartmentLabel: `lower()` is ASCII case mapping.
- HmtExtract.SubFunctionCode: `\d` is ASCII digits only.
- HmtExtract.ToNumber: the cell types are blank, number and text. Boolean and date cells from the workbook reader are not modelled.
- Text.Lower: is ASCII case mapping for every `lower()` and `toLowerCase()` of the source.
- Text.IsDigit: is ASCII digits for every `\d` of the source.
- BorrowingRelease.SlugMatches: the month match is `re.IGNORECASE` on ASCII letters. Python's Unicode case folds, such as "auguſt" matching "august", are not modelled.
- BorrowingRelease.FindMonth: has the same ASCII-only case-insensitive match as SlugMatches.
- BorrowingRelease.UrlPath: follows `urlsplit` for well-formed URLs. Its `ValueError` paths are not modelled: an invalid bracketed IPv6 host and NFKC-normalised netloc characters.
- ClientView.BorrowingContext: reports people-to-fund as absent when the user's tax is zero and borrowing is positive. JavaScript divides by zero there and shows `Infinity`.
- ClientView.TablePage: takes the limit as "all" or a number. The `NaN` that `Number()` yields for other strings is not modelled.
- ClientLabels.CategoryFromCode: the COFOG tables are association lists. JavaScript object behaviour is not modelled: prototype keys such as "constructor" or "__proto__" resolve to inherited members, and integer-like keys are enumerated first in numeric order.
- ClientGroups.AggregateByCategory: groups by category in first-appearance order, as a `Map` would. The JavaScript object's integer-key ordering and prototype keys are not modelled, and the table of majors is a parameter.
- ClientGroups.SortServices: the locale order of `localeCompare` is the `collate` parameter. The model proves its results for every total-preorder collation but does not fix one. Code-unit order (`Text.LexLe`) is one instance (`ClientGroups.CodeUnitOrderIsPreorder`).
- Built-in parsers and printers: `float()`, `int()`, `Number()` and `str(float)` are the parameters `parseFloat`, `parseInt` and `render`. Properties hold for any such function, and no concrete parser is given.
- Household.LookupCouncil: `lookup_council_from_postcode` calls postcodes.io. The reply is the `service` parameter, and its `lru_cache`, the network timeout and the exception-to-`None` path are folded into that reply. A field that is missing and a field present with JSON `null` both read as "": in the source `.get` returns `None` for a null field, `estimate_tax` reports that `None` as the council name or lookup region, and the response model rejects it, so such a request fails where the model returns an estimate.
- Levies.Vat: requires `vatRate != -1`, where Python raises `ZeroDivisionError`. A valid request never reaches that rate.
- Levies.StudentLoanShape: states the zero cases and monotonicity. The repayment formula itself is stated by Levies.ListedPlanRepayment.
- Estimator.EstimateTaxTotals: requires the VAT rate to be computable (`Estimator.VatComputable`), for the same reason as Levies.Vat. Its one `ensures` is that there is no comparison. Its results are stated by the lemmas named in the table.
- File and workbook input/output: reading and writing CSV and parquet files, `load_workbook`, the directory layout, the byte-order mark, the `lru_cache` on the readers and `retrieved_at` timestamps are not modelled. Rows arrive as sequences.
- fetch_official_borrowing.py `main`: the HTTP fetch and the HTML figure pattern are not modelled. Only the URL-to-release-period function and the reference-period format are.
- `DictReader` `KeyError` paths in `normalize_rows`: a missing column is not modelled. Rows are records with the columns present.
- CSV cells: `None` and non-string values reach the writer through `render`. The writer's handling of `None` as "" is the missing-key rule.
- The `source_table` column is carried through unchanged and not checked.
- FastAPI validation messages, HTTP routing, the front end's DOM, themes, Sankey layout, scenarios and share URLs are presentation and are not part of this model.
- `build_regional_flows.py` and `build_frontend_bundle.py` only write files computed by the modelled functions, so they are not modelled.

=== FILE: arith.dfy ===
/** Python's `max` and `min` on money, and on counts and indices. */
module Arith {

  function Max(a: real, b: real): (r: real)
    ensures r >= a && r >= b && (r == a || r == b)
  {
    if a >= b then a else b
  }

  function Min(a: real, b: real): (r: real)
    ensures r <= a && r <= b && (r == a || r == b)
  {
    if a <= b then a else b
  }

  function MaxInt(a: int, b: int): (r: int)
    ensures r >= a && r >= b && (r == a || r == b)
  {
    if a >= b then a else b
  }

  function MinInt(a: int, b: int): (r: int)
    ensures r <= a && r <= b && (r == a || r == b)
  {
    if a <= b then a else b
  }
}

=== FILE: attribution.dfy ===
/** Pro-rata attribution of a household's tax across public services
    (`api/attribution.py`): the user's share of UK revenue is applied to each
    service's national spend, the services are sorted by contribution and
    served whole, as a page, or as a top-N list. */
module Attribution {
  import opened Wrappers
  import opened Rounding
  import opened Sums
  import opened Sorting
  import opened Paging
  import opened Arith
  import opened Datasets

  const UkCode := "K02000001"
  const ReceiptsMetric := "total_current_receipts_excl_north_sea_oil_gas"
  const SubFunction := "sub_function"

  /** The UK receipts row of `year`. */
  predicate IsUkReceipts(r: OnsRow, year: string)
  {
    r.year == year && r.geographyCode == UkCode && r.metric == ReceiptsMetric
  }

  function NoRevenueRow(year: string): string
  {
    "No UK revenue row found for year '" + year + "'"
  }

  /** `load_total_uk_revenue_m_gbp`, row selection only: the amount of the
      first UK receipts row of the year, an error when there is none. */
  function LoadTotalUkRevenue(rows: seq<OnsRow>, year: string): (r: Result<real, string>)
    ensures r.Success? <==> exists i :: 0 <= i < |rows| && IsUkReceipts(rows[i], year)
    ensures r.Failure? ==> r.error == NoRevenueRow(year)
  {
    var matches := Filter(rows, row => IsUkReceipts(row, year));
    if |matches| == 0 then Failure(NoRevenueRow(year))
    else
      assert matches[0] in rows;
      Success(matches[0].amount)
  }

  /** The amount returned is that of the first matching row, whatever follows it. */
  lemma RevenueIsFirstMatch(rows: seq<OnsRow>, year: string, i: int)
    requires 0 <= i < |rows| && IsUkReceipts(rows[i], year)
    requires forall j :: 0 <= j < i ==> !IsUkReceipts(rows[j], year)
    ensures LoadTotalUkRevenue(rows, year) == Success(rows[i].amount)
  {
    FilterFirst(rows, row => IsUkReceipts(row, year), i);
  }

  /** The user's tax in £m as a fraction of UK revenue (in £m). */
  function UserShare(userTax: real, totalRevenue: real): real
    requires totalRevenue != 0.0
  {
    (userTax / 1000000.0) / totalRevenue
  }

  /** A service's spend (in £m) scaled by the user's share, in pounds. */
  function Contribution(spending: real, share: real): real
  {
    spending * share * 1000000.0
  }

  /** The contribution as a percentage of the user's tax; zero without tax. */
  function SharePercent(contribution: real, userTax: real): real
  {
    if userTax != 0.0 then contribution / userTax * 100.0 else 0.0
  }

  /** Before rounding, a service's share of the user's tax is its share of UK
      revenue: the user's own tax cancels out. */
  lemma SharePercentIsSpendShare(spending: real, userTax: real, totalRevenue: real)
    requires userTax != 0.0 && totalRevenue != 0.0
    ensures SharePercent(Contribution(spending, UserShare(userTax, totalRevenue)), userTax)
      == spending / totalRevenue * 100.0
  {
    var share := UserShare(userTax, totalRevenue);
    ShareTimesMillion(userTax, totalRevenue);
    assert Contribution(spending, share) == spending * (userTax / totalRevenue);
    assert spending * (userTax / totalRevenue) / userTax == spending / totalRevenue;
  }

  /** One entry of the service list, with the rounding of the response. */
  datatype ServiceContribution = ServiceContribution(
    functionLabel: string, spending: real, contribution: real, sharePercent: real)

  function ServiceOf(r: SpendingRow, share: real, userTax: real): ServiceContribution
  {
    var c := Contribution(r.amount, share);
    ServiceContribution(r.functionLabel, Round2(r.amount), Round2(c), RoundTo(SharePercent(c, userTax), 4))
  }

  predicate IsSelected(r: SpendingRow, spendingYear: string)
  {
    r.year == spendingYear && r.rowType == SubFunction
  }

  /** The sub-function rows of the spending year, in file order. */
  function SelectRows(rows: seq<SpendingRow>, spendingYear: string): seq<SpendingRow>
  {
    Filter(rows, r => IsSelected(r, spendingYear))
  }

  function ServicesOf(rows: seq<SpendingRow>, share: real, userTax: real): seq<ServiceContribution>
  {
    seq(|rows|, i requires 0 <= i < |rows| => ServiceOf(rows[i], share, userTax))
  }

  /** The order of `services.sort(key=contribution, reverse=True)`: larger
      contributions first. Python's reverse sort is stable too. */
  predicate ByContribution(a: ServiceContribution, b: ServiceContribution)
  {
    a.contribution >= b.contribution
  }

  lemma ByContributionIsPreorder()
    ensures TotalPreorder(ByContribution)
  {
  }

  /** What `_build_all_service_contributions` returns. */
  datatype AllContributions = AllContributions(totalRevenue: real, userShare: real, services: seq<ServiceContribution>)

  const DivisionByZero := "float division by zero"

  /** `_build_all_service_contributions`: an error when there is no UK revenue
      row, or when its amount is zero (Python divides by it). */
  function BuildAll(userTax: real, revenueRows: seq<OnsRow>, spendingRows: seq<SpendingRow>,
                    revenueYear: string, spendingYear: string): (r: Result<AllContributions, string>)
    ensures var total := LoadTotalUkRevenue(revenueRows, revenueYear);
      r.Success? <==> total.Success? && total.value != 0.0
    ensures r.Success? ==>
      var total := LoadTotalUkRevenue(revenueRows, revenueYear).value;
      && r.value.totalRevenue == Round2(total)
      && r.value.userShare == RoundTo(UserShare(userTax, total), 10)
      && multiset(r.value.services) == multiset(ServicesOf(SelectRows(spendingRows, spendingYear), UserShare(userTax, total), userTax))
  {
    var total := LoadTotalUkRevenue(revenueRows, revenueYear);
    if total.Failure? then Failure(total.error)
    else if total.value == 0.0 then Failure(DivisionByZero)
    else
      var share := UserShare(userTax, total.value);
      var services := ServicesOf(SelectRows(spendingRows, spendingYear), share, userTax);
      Success(AllContributions(Round2(total.value), RoundTo(share, 10), Sort(services, ByContribution)))
  }

  /** The full list: one entry per selected row, largest contribution first,
      entries of equal contribution in file order. */
  lemma BuildAllSorted(userTax: real, revenueRows: seq<OnsRow>, spendingRows: seq<SpendingRow>,
                       revenueYear: string, spendingYear: string)
    requires BuildAll(userTax, revenueRows, spendingRows, revenueYear, spendingYear).Success?
    ensures var all := BuildAll(userTax, revenueRows, spendingRows, revenueYear, spendingYear).value;
      && |all.services| == |SelectRows(spendingRows, spendingYear)|
      && (forall i, j :: 0 <= i < j < |all.services| ==> all.services[i].contribution >= all.services[j].contribution)
      && forall z :: TiesOf(all.services, ByContribution, z) ==
           TiesOf(ServicesOf(SelectRows(spendingRows, spendingYear),
             UserShare(userTax, LoadTotalUkRevenue(revenueRows, revenueYear).value), userTax), ByContribution, z)
  {
    var total := LoadTotalUkRevenue(revenueRows, revenueYear).value;
    var services := ServicesOf(SelectRows(spendingRows, spendingYear), UserShare(userTax, total), userTax);
    ByContributionIsPreorder();
    SortSpec(services, ByContribution);
  }

  function Amount(r: SpendingRow): real
  {
    r.amount
  }

  /** The user's unrounded contribution to the service of row `r`. */
  function RowContribution(r: SpendingRow, userTax: real, totalRevenue: real): real
    requires totalRevenue != 0.0
  {
    Contribution(r.amount, UserShare(userTax, totalRevenue))
  }

  /** The contributions of a set of services, unrounded. */
  function ContributionSum(rows: seq<SpendingRow>, userTax: real, totalRevenue: real): real
    requires totalRevenue != 0.0
  {
    SumOf(rows, (r: SpendingRow) => RowContribution(r, userTax, totalRevenue))
  }

  /** The unrounded contributions of a set of services add up to the user's
      share of their combined spend. */
  lemma ContributionsProRata(rows: seq<SpendingRow>, userTax: real, totalRevenue: real)
    requires totalRevenue != 0.0
    ensures ContributionSum(rows, userTax, totalRevenue) == userTax * SumOf(rows, Amount) / totalRevenue
  {
    ContributionSumScaled(rows, userTax, totalRevenue);
    DivTimes(userTax, totalRevenue, SumOf(rows, Amount));
  }

  /** When the services' combined spend is the whole of UK revenue, the
      unrounded contributions add up to the user's tax. */
  lemma ContributionsAddUpToTax(rows: seq<SpendingRow>, userTax: real, totalRevenue: real)
    requires totalRevenue != 0.0 && SumOf(rows, Amount) == totalRevenue
    ensures ContributionSum(rows, userTax, totalRevenue) == userTax
  {
    ContributionSumScaled(rows, userTax, totalRevenue);
    CancelShare(userTax, totalRevenue);
  }

  lemma CancelShare(a: real, b: real)
    requires b != 0.0
    ensures (a / b) * b == a
  {
  }

  lemma ContributionSumScaled(rows: seq<SpendingRow>, userTax: real, totalRevenue: real)
    requires totalRevenue != 0.0
    ensures ContributionSum(rows, userTax, totalRevenue) == (userTax / totalRevenue) * SumOf(rows, Amount)
  {
    var g := (r: SpendingRow) => RowContribution(r, userTax, totalRevenue);
    forall i | 0 <= i < |rows|
      ensures g(rows[i]) == (userTax / totalRevenue) * Amount(rows[i])
    {
      ContributionIsScaled(rows[i].amount, userTax, totalRevenue);
    }
    SumScale(rows, Amount, g, userTax / totalRevenue);
  }

  lemma ContributionIsScaled(spending: real, userTax: real, totalRevenue: real)
    requires totalRevenue != 0.0
    ensures Contribution(spending, UserShare(userTax, totalRevenue)) == (userTax / totalRevenue) * spending
  {
    var share := UserShare(userTax, totalRevenue);
    ShareTimesMillion(userTax, totalRevenue);
    assert spending * share * 1000000.0 == spending * (share * 1000000.0);
  }

  lemma DivTimes(a: real, b: real, x: real)
    requires b != 0.0
    ensures (a / b) * x == a * x / b
  {
  }

  lemma ShareTimesMillion(userTax: real, totalRevenue: real)
    requires totalRevenue != 0.0
    ensures UserShare(userTax, totalRevenue) * 1000000.0 == userTax / totalRevenue
  {
    var a := userTax / 1000000.0;
    assert a * 1000000.0 == userTax;
    assert (a / totalRevenue) * 1000000.0 == (a * 1000000.0) / totalRevenue;
  }

  /** The response of `build_service_contributions_paginated`. */
  datatype ServicesPage = ServicesPage(
    totalRevenue: real, userTotalTax: real, userShare: real, spendingYear: string, revenueYear: string,
    page: int, pageSize: int, totalItems: nat, services: seq<ServiceContribution>)

  function BuildPaginated(userTax: real, revenueRows: seq<OnsRow>, spendingRows: seq<SpendingRow>,
                          revenueYear: string, spendingYear: string, page: int, pageSize: int): (r: Result<ServicesPage, string>)
    ensures var all := BuildAll(userTax, revenueRows, spendingRows, revenueYear, spendingYear);
      && (r.Success? <==> all.Success?)
      && (r.Success? ==>
        && r.value.totalItems == |SelectRows(spendingRows, spendingYear)|
        && r.value.userTotalTax == Round2(userTax)
        && r.value.services == Paginate(all.value.services, page, pageSize).0)
    ensures r.Success? && page >= 1 && pageSize >= 0 ==>
      r.value.services == Window(BuildAll(userTax, revenueRows, spendingRows, revenueYear, spendingYear).value.services,
        PageStart(page, pageSize), pageSize)
  {
    var all := BuildAll(userTax, revenueRows, spendingRows, revenueYear, spendingYear);
    if all.Failure? then Failure(all.error)
    else
      var (items, count) := Paginate(all.value.services, page, pageSize);
      Success(ServicesPage(all.value.totalRevenue, Round2(userTax), all.value.userShare, spendingYear, revenueYear,
        page, pageSize, count, items))
  }

  /** The pages of size `pageSize`, read in order, give back the full list. */
  lemma ServicePagesReassemble(userTax: real, revenueRows: seq<OnsRow>, spendingRows: seq<SpendingRow>,
                               revenueYear: string, spendingYear: string, pageSize: nat)
    requires pageSize >= 1
    requires BuildAll(userTax, revenueRows, spendingRows, revenueYear, spendingYear).Success?
    ensures var all := BuildAll(userTax, revenueRows, spendingRows, revenueYear, spendingYear).value.services;
      PagesUpTo(all, pageSize, PageCount(|all|, pageSize)) == all
  {
    AllPagesReassemble(BuildAll(userTax, revenueRows, spendingRows, revenueYear, spendingYear).value.services, pageSize);
  }

  /** The response of `build_service_contributions`. */
  datatype Breakdown = Breakdown(
    totalRevenue: real, userTotalTax: real, userShare: real, spendingYear: string, revenueYear: string,
    services: seq<ServiceContribution>)

  /** `build_service_contributions`: the first page of size `topN`. */
  function BuildBreakdown(userTax: real, revenueRows: seq<OnsRow>, spendingRows: seq<SpendingRow>,
                          revenueYear: string, spendingYear: string, topN: int): (r: Result<Breakdown, string>)
    ensures var all := BuildAll(userTax, revenueRows, spendingRows, revenueYear, spendingYear);
      && (r.Success? <==> all.Success?)
      && (r.Success? && topN >= 0 ==>
        r.value.services == all.value.services[..MinInt(topN, |all.value.services|)])
  {
    var raw := BuildPaginated(userTax, revenueRows, spendingRows, revenueYear, spendingYear, 1, topN);
    if raw.Failure? then Failure(raw.error)
    else
      var v := raw.value;
      Success(Breakdown(v.totalRevenue, v.userTotalTax, v.userShare, v.spendingYear, v.revenueYear, v.services))
  }
}

=== FILE: borrowing.dfy ===
/** The official UK borrowing figure (`load_official_uk_borrowing`) and the
    borrowing method tag the regional-flows response reports. The stored file
    is given as its parsed records: `None` when the file does not exist. */
module Borrowing {
  import opened Wrappers
  import opened Tables
  import opened Text

  /** One CSV record: column name to cell text. */
  type Record = seq<(string, string)>

  datatype OfficialBorrowing = OfficialBorrowing(
    amountBn: real,
    releasePeriod: string,
    referencePeriod: string,
    sourceUrl: string)

  const UnknownRelease := "Unknown release"
  const UnknownReference := "Unknown reference period"

  /** `row.get(key, "")`. */
  function Get(row: Record, key: string): string
  {
    Lookup(row, key).GetOr("")
  }

  /** The stripped reference period, or the stripped year label of the older
      file layout, or the unknown marker. */
  function ReferencePeriodOf(row: Record): (r: string)
    ensures r != []
    ensures Strip(Get(row, "reference_period")) != [] ==> r == Strip(Get(row, "reference_period"))
    ensures Strip(Get(row, "reference_period")) == [] && Strip(Get(row, "year_label")) != []
      ==> r == Strip(Get(row, "year_label"))
    ensures Strip(Get(row, "reference_period")) == [] && Strip(Get(row, "year_label")) == []
      ==> r == UnknownReference
  {
    var reference := Strip(Get(row, "reference_period"));
    var fallback := if reference != [] then reference else Strip(Get(row, "year_label"));
    if fallback != [] then fallback else UnknownReference
  }

  /** The stripped release period, or the last segment of the source URL, or
      the unknown marker. */
  function ReleasePeriodOf(row: Record): (r: string)
    ensures r != []
    ensures Strip(Get(row, "release_period")) != [] ==> r == Strip(Get(row, "release_period"))
  {
    var release := Strip(Get(row, "release_period"));
    var sourceUrl := Get(row, "source_url");
    var fallback := if release != [] then release else if sourceUrl != [] then LastSegment(sourceUrl) else [];
    if fallback != [] then fallback else UnknownRelease
  }

  /** `load_official_uk_borrowing`: the first record of the stored file. A
      missing `amount_b_gbp` or `source_url` column, or an amount `parseFloat`
      rejects, is an error, as `row[...]` and `float(...)` raise. */
  function LoadOfficialBorrowing(file: Option<seq<Record>>, parseFloat: string -> Option<real>)
    : (r: Result<Option<OfficialBorrowing>, string>)
    ensures (file.None? || file.value == []) ==> r == Success(None)
    ensures file.Some? && file.value != [] ==>
      var row := file.value[0];
      && (r.Success? <==>
            Lookup(row, "amount_b_gbp").Some?
            && parseFloat(Lookup(row, "amount_b_gbp").value).Some?
            && Lookup(row, "source_url").Some?)
      && (r.Success? ==>
            && r.value.Some?
            && r.value.value.amountBn == parseFloat(Get(row, "amount_b_gbp")).value
            && r.value.value.sourceUrl == Get(row, "source_url")
            && r.value.value.releasePeriod == ReleasePeriodOf(row)
            && r.value.value.referencePeriod == ReferencePeriodOf(row))
  {
    if file.None? || file.value == [] then Success(None)
    else
      var row := file.value[0];
      var amountCell := Lookup(row, "amount_b_gbp");
      if amountCell.None? then Failure("KeyError: amount_b_gbp")
      else
        var amount := parseFloat(amountCell.value);
        if amount.None? then Failure("ValueError: amount_b_gbp")
        else
          var release := ReleasePeriodOf(row);
          var reference := ReferencePeriodOf(row);
          var sourceUrl := Lookup(row, "source_url");
          if sourceUrl.None? then Failure("KeyError: source_url")
          else Success(Some(OfficialBorrowing(amount.value, release, reference, sourceUrl.value)))
  }

  /** When the release period is blank the last segment of the source URL
      stands in for it; a URL without one gives the unknown marker. */
  lemma ReleaseFallsBackToUrl(row: Record, dir: string, seg: string, slashes: nat)
    requires Strip(Get(row, "release_period")) == []
    requires Get(row, "source_url") == dir + seg + seq(slashes, _ => '/')
    requires dir == [] || dir[|dir| - 1] == '/'
    requires '/' !in seg && seg != []
    ensures ReleasePeriodOf(row) == seg
  {
    LastSegmentOf(dir, seg, slashes);
  }

  /** A source URL that is nothing but slashes leaves the release unknown, the
      same as an empty one. */
  lemma ReleaseUnknownWithoutSegment(row: Record)
    requires Strip(Get(row, "release_period")) == []
    requires forall i :: 0 <= i < |Get(row, "source_url")| ==> Get(row, "source_url")[i] == '/'
    ensures ReleasePeriodOf(row) == UnknownRelease
  {
    var url := Get(row, "source_url");
    TrimEndPadding([], url, IsChar('/'));
    assert [] + url == url;
  }

  /** The method tag: the official figure exactly when one was loaded. */
  function BorrowingMethod(official: Option<OfficialBorrowing>): (tag: string)
    ensures tag == "official_psnb_ex" <==> official.Some?
    ensures official.None? ==> tag == "implied_gap_from_regional_dataset"
  {
    if official.Some? then "official_psnb_ex" else "implied_gap_from_regional_dataset"
  }
}

=== FILE: borrowing_release.dfy ===
/** The release period and reference period the borrowing fetcher writes
    (`extract_release_period_from_url` and the `FYE March` label). The path
    of the URL is found the way `urllib.parse.urlparse` finds it. */
module BorrowingRelease {
  import opened Wrappers
  import opened Text
  import opened Sorting

  /** Leading characters `urlsplit` drops: C0 controls and space. */
  predicate IsC0OrSpace(c: char)
  {
    c <= ' '
  }

  /** Tab, carriage return and line feed are removed anywhere in a URL. */
  predicate IsSafeUrlChar(c: char)
  {
    c != '\t' && c != '\r' && c != '\n'
  }

  predicate IsSchemeChar(c: char)
  {
    IsAsciiLower(c) || IsAsciiUpper(c) || IsDigit(c) || c == '+' || c == '-' || c == '.'
  }

  /** The network location ends at the first `/`, `?` or `#`. */
  predicate IsNetlocEnd(c: char)
  {
    c == '/' || c == '?' || c == '#'
  }

  /** The path ends at the query or the fragment. */
  predicate IsPathEnd(c: char)
  {
    c == '?' || c == '#'
  }

  predicate IsParamStart(c: char)
  {
    c == ';'
  }

  /** The schemes whose last path segment may carry `;parameters`. */
  predicate UsesParams(scheme: string)
  {
    scheme in {"", "ftp", "hdl", "prospero", "http", "imap", "https", "shttp",
      "rtsp", "rtsps", "rtspu", "sip", "sips", "mms", "sftp", "tel"}
  }

  /** The URL after the leading controls and the unsafe characters are removed. */
  function CleanUrl(url: string): (r: string)
    ensures forall i :: 0 <= i < |r| ==> IsSafeUrlChar(r[i])
  {
    var r := Filter(TrimStart(url, IsC0OrSpace), IsSafeUrlChar);
    assert forall i :: 0 <= i < |r| ==> r[i] in r;
    r
  }

  /** The lower-cased scheme and the rest of the URL, when the text before the
      first `:` is a scheme: an ASCII letter followed by scheme characters. */
  function SplitScheme(url: string): (r: (string, string))
    ensures r.0 == [] ==> r.1 == url
    ensures r.0 != [] ==> |r.0| < |url| && url[|r.0|] == ':' && r.1 == url[|r.0| + 1..]
  {
    var i := IndexOf(url, ":");
    if i > 0 && (IsAsciiLower(url[0]) || IsAsciiUpper(url[0]))
       && forall k :: 0 <= k < i ==> IsSchemeChar(url[k])
    then
      assert url[i..i + 1] == ":";
      (Lower(url[..i]), url[i + 1..])
    else ([], url)
  }

  /** What follows a `//network-location`, when there is one. */
  function AfterNetloc(rest: string): (r: string)
    ensures |r| <= |rest| && r == rest[|rest| - |r|..]
  {
    if StartsWith(rest, "//") then
      var t := rest[2..];
      t[|TakeUntil(t, IsNetlocEnd)|..]
    else rest
  }

  /** `_splitparams`: the last segment is cut at its first `;`. */
  function StripParams(path: string): (r: string)
    ensures |r| <= |path| && r == path[..|r|]
    ensures forall i :: LastCut(path, '/') <= i < |r| ==> r[i] != ';'
  {
    var cut := LastCut(path, '/');
    path[..cut] + TakeUntil(path[cut..], IsParamStart)
  }

  /** A path without `;` keeps all of itself. */
  lemma StripParamsKeeps(path: string)
    requires forall i :: 0 <= i < |path| ==> path[i] != ';'
    ensures StripParams(path) == path
  {
    var cut := LastCut(path, '/');
    TakeUntilOf(path[cut..], [], IsParamStart);
    assert path[cut..] + [] == path[cut..];
    assert path[..cut] + path[cut..] == path;
  }

  /** The path within what follows the scheme. */
  function PathOf(scheme: string, rest: string): (r: string)
    ensures forall i :: 0 <= i < |r| ==> !IsPathEnd(r[i])
  {
    var path := TakeUntil(AfterNetloc(rest), IsPathEnd);
    if UsesParams(scheme) then StripParams(path) else path
  }

  /** `urlparse(url).path`. */
  function UrlPath(url: string): (r: string)
    ensures forall i :: 0 <= i < |r| ==> !IsPathEnd(r[i])
  {
    var split := SplitScheme(CleanUrl(url));
    PathOf(split.0, split.1)
  }

  /** A scheme as written in lower case: a letter, then scheme characters. */
  predicate PlainScheme(scheme: string)
  {
    && |scheme| > 0 && IsAsciiLower(scheme[0])
    && forall i :: 0 <= i < |scheme| ==> IsSchemeChar(scheme[i]) && !IsAsciiUpper(scheme[i])
  }

  /** A URL is split at the colon after its scheme. */
  lemma SchemeOf(scheme: string, rest: string)
    requires PlainScheme(scheme)
    ensures SplitScheme(scheme + ":" + rest) == (scheme, rest)
  {
    var url := scheme + ":" + rest;
    var k := |scheme|;
    assert url[k..][..1] == ":";
    forall j | 0 <= j < k
      ensures !StartsWith(url[j..], ":")
    {
      assert url[j..][..1] == [scheme[j]];
    }
    IndexOfIs(url, ":", k);
    assert url[..k] == scheme;
    assert Lower(scheme) == scheme;
  }

  /** After `//host` the path runs to the query or fragment. */
  lemma PathAfterHost(host: string, path: string)
    requires forall i :: 0 <= i < |host| ==> !IsNetlocEnd(host[i])
    requires path == [] || path[0] == '/'
    requires forall i :: 0 <= i < |path| ==> !IsPathEnd(path[i])
    ensures TakeUntil(AfterNetloc("//" + host + path), IsPathEnd) == path
  {
    AfterHost(host, path);
    TakeUntilOf(path, [], IsPathEnd);
    assert path + [] == path;
  }

  lemma AfterHost(host: string, path: string)
    requires forall i :: 0 <= i < |host| ==> !IsNetlocEnd(host[i])
    requires path == [] || path[0] == '/'
    ensures AfterNetloc("//" + host + path) == path
  {
    var rest := "//" + host + path;
    assert StartsWith(rest, "//");
    assert rest[2..] == host + path;
    TakeUntilOf(host, path, IsNetlocEnd);
    assert (host + path)[|host|..] == path;
  }

  /** A URL starting with a letter and without removed characters is kept as is. */
  lemma CleanUrlKeeps(url: string)
    requires |url| > 0 && IsAsciiLower(url[0])
    requires forall i :: 0 <= i < |url| ==> IsSafeUrlChar(url[i])
    ensures CleanUrl(url) == url
  {
    assert TrimStart(url, IsC0OrSpace) == url;
    FilterAll(url, IsSafeUrlChar);
  }

  lemma CleanPlainUrl(scheme: string, rest: string)
    requires PlainScheme(scheme)
    requires forall i :: 0 <= i < |rest| ==> IsSafeUrlChar(rest[i])
    ensures CleanUrl(scheme + ":" + rest) == scheme + ":" + rest
  {
    var url := scheme + ":" + rest;
    assert forall i :: 0 <= i < |scheme| ==> url[i] == scheme[i];
    assert forall i :: |scheme| < i < |url| ==> url[i] == rest[i - |scheme| - 1];
    CleanUrlKeeps(url);
  }

  lemma PathOfParamScheme(scheme: string, host: string, path: string)
    requires UsesParams(scheme)
    requires forall i :: 0 <= i < |host| ==> !IsNetlocEnd(host[i])
    requires path == [] || path[0] == '/'
    requires forall i :: 0 <= i < |path| ==> !IsPathEnd(path[i]) && path[i] != ';'
    ensures PathOf(scheme, "//" + host + path) == path
  {
    PathAfterHost(host, path);
    StripParamsKeeps(path);
  }

  /** The path of an `https` URL is what follows its host, when neither has a
      query, fragment, parameters or removed characters. */
  lemma UrlPathOfHttps(host: string, path: string)
    requires forall i :: 0 <= i < |host| ==> !IsNetlocEnd(host[i]) && IsSafeUrlChar(host[i])
    requires path == [] || path[0] == '/'
    requires forall i :: 0 <= i < |path| ==> !IsPathEnd(path[i]) && IsSafeUrlChar(path[i]) && path[i] != ';'
    ensures UrlPath("https://" + host + path) == path
  {
    var rest := "//" + host + path;
    var url := "https://" + host + path;
    HttpsIsPlain();
    PathOfParamScheme("https", host, path);
    HttpsSplit(host, path);
    assert UrlPath(url) == PathOf("https", rest);
  }

  /** An `https` URL cleans to itself and splits after its scheme. */
  lemma HttpsSplit(host: string, path: string)
    requires forall i :: 0 <= i < |host| ==> IsSafeUrlChar(host[i])
    requires forall i :: 0 <= i < |path| ==> IsSafeUrlChar(path[i])
    ensures SplitScheme(CleanUrl("https://" + host + path)) == ("https", "//" + host + path)
  {
    var rest := "//" + host + path;
    assert "https://" + host + path == "https" + ":" + rest;
    SafeHostPath(host, path);
    HttpsIsPlain();
    CleanPlainUrl("https", rest);
    SchemeOf("https", rest);
  }

  lemma SafeHostPath(host: string, path: string)
    requires forall i :: 0 <= i < |host| ==> IsSafeUrlChar(host[i])
    requires forall i :: 0 <= i < |path| ==> IsSafeUrlChar(path[i])
    ensures forall i :: 0 <= i < |"//" + host + path| ==> IsSafeUrlChar(("//" + host + path)[i])
  {
    var rest := "//" + host + path;
    assert forall i :: 2 <= i < 2 + |host| ==> rest[i] == host[i - 2];
    assert forall i :: 2 + |host| <= i < |rest| ==> rest[i] == path[i - 2 - |host|];
  }

  lemma HttpsIsPlain()
    ensures PlainScheme("https") && UsesParams("https")
  {
  }

  /** The English month names, as the release slug spells them. */
  function MonthName(m: nat): string
    requires m < 12
  {
    match m
    case 0 => "january"
    case 1 => "february"
    case 2 => "march"
    case 3 => "april"
    case 4 => "may"
    case 5 => "june"
    case 6 => "july"
    case 7 => "august"
    case 8 => "september"
    case 9 => "october"
    case 10 => "november"
    case _ => "december"
  }

  /** The slug is month `m`, in any ASCII case, followed by exactly four digits. */
  predicate SlugMatches(slug: string, m: nat)
    requires m < 12
  {
    var n := |MonthName(m)|;
    && |slug| == n + 4
    && Lower(slug[..n]) == MonthName(m)
    && forall i :: n <= i < |slug| ==> IsDigit(slug[i])
  }

  /** The first month from `from` on that the slug matches. */
  function FindMonth(slug: string, from: nat): (r: Option<nat>)
    requires from <= 12
    ensures r.Some? ==> from <= r.value < 12 && SlugMatches(slug, r.value)
    ensures r.None? ==> forall m :: from <= m < 12 ==> !SlugMatches(slug, m)
    decreases 12 - from
  {
    if from == 12 then None
    else if SlugMatches(slug, from) then Some(from)
    else FindMonth(slug, from + 1)
  }

  /** `str.capitalize` on ASCII letters: the first letter upper case, the rest lower. */
  function Capitalize(s: string): (r: string)
    ensures |r| == |s|
  {
    if s == [] then [] else [UpperChar(s[0])] + Lower(s[1..])
  }

  /** `extract_release_period_from_url` once the slug is known: a month and a
      year become "Month YYYY", anything else is returned unchanged. */
  function ReleasePeriodOfSlug(slug: string): (r: string)
    ensures (forall m :: 0 <= m < 12 ==> !SlugMatches(slug, m)) ==> r == slug
    ensures forall m :: 0 <= m < 12 && SlugMatches(slug, m) ==>
      r == Capitalize(MonthName(m)) + " " + slug[|MonthName(m)|..]
  {
    var m := FindMonth(slug, 0);
    if m.None? then slug
    else
      var n := |MonthName(m.value)|;
      forall k | 0 <= k < 12 && SlugMatches(slug, k)
        ensures k == m.value
      {
        MatchIsUnique(slug, k, m.value);
      }
      CapitalizeByLower(slug[..n], MonthName(m.value));
      Capitalize(slug[..n]) + " " + slug[n..]
  }

  /** `extract_release_period_from_url`. */
  function ReleasePeriodFromUrl(url: string): string
  {
    ReleasePeriodOfSlug(LastSegment(UrlPath(url)))
  }

  /** Capitalising depends only on the lower-case spelling. */
  lemma CapitalizeByLower(s: string, t: string)
    requires Lower(s) == Lower(t)
    ensures Capitalize(s) == Capitalize(t)
  {
    if s != [] {
      assert LowerChar(s[0]) == Lower(s)[0] == Lower(t)[0] == LowerChar(t[0]);
      assert Lower(s[1..]) == Lower(s)[1..];
      assert Lower(t[1..]) == Lower(t)[1..];
    }
  }

  /** Month names are lower case, so lowering one changes nothing. */
  lemma MonthNameIsLower(m: nat)
    requires m < 12
    ensures |MonthName(m)| >= 3
    ensures forall i :: 0 <= i < |MonthName(m)| ==> IsAsciiLower(MonthName(m)[i])
    ensures Lower(MonthName(m)) == MonthName(m)
  {
    var name := MonthName(m);
    assert forall i :: 0 <= i < |name| ==> IsAsciiLower(name[i]);
    assert forall i :: 0 <= i < |name| ==> Lower(name)[i] == name[i];
  }

  /** Month names are distinct: the first three letters tell them apart. */
  lemma MonthNameInjective(a: nat, b: nat)
    requires a < 12 && b < 12 && MonthName(a) == MonthName(b)
    ensures a == b
  {
    MonthNameIsLower(a);
    assert MonthName(a)[..3] == MonthName(b)[..3];
  }

  /** At most one month matches a slug. */
  lemma MatchIsUnique(slug: string, a: nat, b: nat)
    requires a < 12 && b < 12
    requires SlugMatches(slug, a) && SlugMatches(slug, b)
    ensures a == b
  {
    MonthNameInjective(a, b);
  }

  /** A month followed by a four-digit year gives "Month YYYY". */
  lemma ReleasePeriodOfMonthYear(m: nat, year: string)
    requires m < 12 && |year| == 4
    requires forall i :: 0 <= i < 4 ==> IsDigit(year[i])
    ensures ReleasePeriodOfSlug(MonthName(m) + year) == Capitalize(MonthName(m)) + " " + year
  {
    var slug := MonthName(m) + year;
    var n := |MonthName(m)|;
    assert slug[..n] == MonthName(m) && slug[n..] == year;
    MonthNameIsLower(m);
    assert SlugMatches(slug, m);
  }

  /** A slug is rewritten exactly when it is a month and a year. */
  lemma RewrittenIffMatch(slug: string)
    ensures ReleasePeriodOfSlug(slug) != slug <==> exists m :: 0 <= m < 12 && SlugMatches(slug, m)
  {
    if m :| 0 <= m < 12 && SlugMatches(slug, m) {
      MatchIsRewritten(slug, m);
    }
  }

  /** A rewritten period has a space where the slug has the year's first digit. */
  lemma MatchIsRewritten(slug: string, m: nat)
    requires m < 12 && SlugMatches(slug, m)
    ensures ReleasePeriodOfSlug(slug) != slug
  {
    var n := |MonthName(m)|;
    var r := ReleasePeriodOfSlug(slug);
    assert r == Capitalize(MonthName(m)) + " " + slug[n..];
    assert r[n] == ' ';
    assert IsDigit(slug[n]);
  }

  /** The bulletin's slug: January is capitalised as "January". */
  lemma JanuaryTitle()
    ensures Capitalize(MonthName(0)) == "January"
  {
    assert Lower("anuary") == "anuary";
  }

  /** An `https` URL whose path ends in a month and year gives "Month YYYY";
      the bulletin URL has this shape, ending in `january2026`. */
  lemma ReleasePeriodOfBulletin(host: string, dir: string, m: nat, year: string)
    requires forall i :: 0 <= i < |host| ==> !IsNetlocEnd(host[i]) && IsSafeUrlChar(host[i])
    requires |dir| > 0 && dir[0] == '/' && dir[|dir| - 1] == '/'
    requires forall i :: 0 <= i < |dir| ==> !IsPathEnd(dir[i]) && IsSafeUrlChar(dir[i]) && dir[i] != ';'
    requires m < 12 && |year| == 4
    requires forall i :: 0 <= i < 4 ==> IsDigit(year[i])
    ensures ReleasePeriodFromUrl("https://" + host + dir + MonthName(m) + year)
      == Capitalize(MonthName(m)) + " " + year
  {
    var seg := MonthName(m) + year;
    var path := dir + seg;
    SlugIsPlain(m, year);
    assert "https://" + host + dir + MonthName(m) + year == "https://" + host + path;
    UrlPathOfHttps(host, path);
    assert dir + seg + seq(0, _ => '/') == path;
    LastSegmentOf(dir, seg, 0);
    ReleasePeriodOfMonthYear(m, year);
  }

  /** A month-and-year slug has only letters and digits. */
  lemma SlugIsPlain(m: nat, year: string)
    requires m < 12 && |year| == 4
    requires forall i :: 0 <= i < 4 ==> IsDigit(year[i])
    ensures forall i :: 0 <= i < |MonthName(m) + year| ==>
      var c := (MonthName(m) + year)[i];
      IsAsciiLower(c) || IsDigit(c)
    ensures '/' !in MonthName(m) + year
  {
    MonthNameIsLower(m);
  }

  /** The value of a string of decimal digits. */
  function DigitsValue(d: string): nat
    requires forall i :: 0 <= i < |d| ==> IsDigit(d[i])
  {
    if |d| == 0 then 0
    else
      var last := d[|d| - 1] as int - '0' as int;
      assert IsDigit(d[|d| - 1]);
      10 * DigitsValue(d[..|d| - 1]) + last
  }

  /** `str(n)`: the decimal digits of `n`, without leading zeros. */
  function Decimal(n: nat): (r: string)
    ensures |r| > 0 && forall i :: 0 <= i < |r| ==> IsDigit(r[i])
  {
    if n < 10 then [('0' as int + n) as char]
    else Decimal(n / 10) + [('0' as int + n % 10) as char]
  }

  /** The reference period written for a four-digit year read by `int(...)`. */
  function ReferencePeriod(yearDigits: string): (r: string)
    requires |yearDigits| == 4 && forall i :: 0 <= i < 4 ==> IsDigit(yearDigits[i])
    ensures StartsWith(r, "FYE March ")
    ensures yearDigits[0] != '0' ==> r == "FYE March " + yearDigits
  {
    DecimalOfDigits(yearDigits);
    "FYE March " + Decimal(DigitsValue(yearDigits))
  }

  /** Printing the value of digits without a leading zero gives the digits back. */
  lemma {:induction false} DecimalOfDigits(d: string)
    requires |d| > 0 && forall i :: 0 <= i < |d| ==> IsDigit(d[i])
    ensures d[0] != '0' || |d| == 1 ==> Decimal(DigitsValue(d)) == d
    decreases |d|
  {
    if |d| > 1 && d[0] != '0' {
      var init := d[..|d| - 1];
      DecimalOfDigits(init);
      DigitsAtLeastOne(init);
      var n := DigitsValue(d);
      assert n / 10 == DigitsValue(init) && n % 10 == d[|d| - 1] as int - '0' as int;
      assert init + [d[|d| - 1]] == d;
    }
  }

  lemma {:induction false} DigitsAtLeastOne(d: string)
    requires |d| > 0 && forall i :: 0 <= i < |d| ==> IsDigit(d[i])
    requires d[0] != '0'
    ensures DigitsValue(d) >= 1
    decreases |d|
  {
    if |d| > 1 {
      DigitsAtLeastOne(d[..|d| - 1]);
    }
  }
}

=== FILE: client_groups.dfy ===
/** The web client's services table: `aggregateByCategory`, which folds the
    service rows into one row per COFOG category, and `sortServices`, which
    orders the rows by the chosen column and direction. */
module ClientGroups {
  import opened Wrappers
  import opened Text
  import opened Tables
  import opened Sorting
  import opened Sums
  import opened ClientLabels

  /** The three numeric columns of a service row. */
  datatype Measure = Contribution | Share | Spending

  /** One row of the services table as the client holds it: the label, the
      name and code split from it, the category, and the three amounts. */
  datatype Service = Service(
    functionLabel: string,
    name: string,
    code: string,
    category: string,
    contributionGbp: real,
    sharePercent: real,
    spendingM: real)

  function Amount(s: Service, m: Measure): real
  {
    match m
    case Contribution => s.contributionGbp
    case Share => s.sharePercent
    case Spending => s.spendingM
  }

  function AmountOf(m: Measure): Service -> real
  {
    (s: Service) => Amount(s, m)
  }

  /** `s._category || "Other"`. */
  function GroupKey(s: Service): (k: string)
    ensures k != []
  {
    if s.category == [] then "Other" else s.category
  }

  /** The rows that fall in category `key`. */
  function InGroup(key: string): Service -> bool
  {
    (s: Service) => GroupKey(s) == key
  }

  /** A table from category name to division number. */
  type CodeTable = seq<(string, string)>

  /** The empty category row `aggregateByCategory` starts each category with;
      its code is the category's entry in `majors` (the client passes
      `CofogMajorByCategory()`), or "" when there is none. */
  function NewGroup(key: string, majors: CodeTable): Service
  {
    Service(key, key, Lookup(majors, key).GetOr(""), key, 0.0, 0.0, 0.0)
  }

  /** Adds a row's three amounts to a category row. */
  function AddTo(g: Service, s: Service): (r: Service)
    ensures r.functionLabel == g.functionLabel && r.name == g.name && r.code == g.code && r.category == g.category
    ensures forall m :: Amount(r, m) == Amount(g, m) + Amount(s, m)
  {
    g.(contributionGbp := g.contributionGbp + s.contributionGbp,
       sharePercent := g.sharePercent + s.sharePercent,
       spendingM := g.spendingM + s.spendingM)
  }

  /** The position of the category row for `key`, or `|groups|` when there is
      none yet. */
  function GroupIndex(groups: seq<Service>, key: string): (j: nat)
    ensures j <= |groups|
    ensures j < |groups| ==> groups[j].category == key
    ensures forall i :: 0 <= i < j ==> groups[i].category != key
  {
    if groups == [] then 0
    else if groups[0].category == key then 0
    else 1 + GroupIndex(groups[1..], key)
  }

  /** One step of the `forEach`: add the row to its category, creating the
      category at the end when it is new. */
  function AddItem(groups: seq<Service>, s: Service, majors: CodeTable): (r: seq<Service>)
    ensures |r| == |groups| || |r| == |groups| + 1
  {
    var key := GroupKey(s);
    var j := GroupIndex(groups, key);
    if j < |groups| then groups[j := AddTo(groups[j], s)]
    else groups + [AddTo(NewGroup(key, majors), s)]
  }

  /** `aggregateByCategory`: the rows folded left to right into category rows,
      listed in insertion order. */
  function AggregateByCategory(items: seq<Service>, majors: CodeTable): (r: seq<Service>)
    ensures |r| <= |items|
  {
    if items == [] then []
    else AddItem(AggregateByCategory(items[..|items| - 1], majors), items[|items| - 1], majors)
  }

  /** The position of the first row in category `key`, or `|items|`. */
  function FirstIndex(items: seq<Service>, key: string): (i: nat)
    ensures i <= |items|
    ensures i < |items| ==> GroupKey(items[i]) == key
    ensures forall j :: 0 <= j < i ==> GroupKey(items[j]) != key
  {
    if items == [] then 0
    else if GroupKey(items[0]) == key then 0
    else 1 + FirstIndex(items[1..], key)
  }

  /** The sum of one amount over the rows of category `key`. */
  function GroupTotal(items: seq<Service>, key: string, m: Measure): real
  {
    SumOf(Filter(items, InGroup(key)), AmountOf(m))
  }

  /** The category rows hold distinct categories. */
  ghost predicate DistinctCategories(groups: seq<Service>)
  {
    forall i, j :: 0 <= i < j < |groups| ==> groups[i].category != groups[j].category
  }

  /** Every category row names its category in its label, name and code. */
  predicate Labelled(groups: seq<Service>, majors: CodeTable)
  {
    forall j :: 0 <= j < |groups| ==>
      && groups[j].functionLabel == groups[j].category
      && groups[j].name == groups[j].category
      && groups[j].code == Lookup(majors, groups[j].category).GetOr("")
  }

  /** Every category has a row, and every row's category has a category row. */
  ghost predicate Covers(groups: seq<Service>, items: seq<Service>)
  {
    && (forall j :: 0 <= j < |groups| ==> FirstIndex(items, groups[j].category) < |items|)
    && (forall i :: 0 <= i < |items| ==> GroupIndex(groups, GroupKey(items[i])) < |groups|)
  }

  /** Category rows appear in the order their categories first appear. */
  ghost predicate FirstAppearanceOrder(groups: seq<Service>, items: seq<Service>)
  {
    forall i, j :: 0 <= i < j < |groups| ==>
      FirstIndex(items, groups[i].category) < FirstIndex(items, groups[j].category)
  }

  /** Each category row's amounts are the sums over the rows of its category. */
  ghost predicate Summed(groups: seq<Service>, items: seq<Service>)
  {
    forall j, m :: 0 <= j < |groups| ==> Amount(groups[j], m) == GroupTotal(items, groups[j].category, m)
  }

  /** `groups` is the aggregation of `items`. */
  ghost predicate Aggregated(groups: seq<Service>, items: seq<Service>, majors: CodeTable)
  {
    && DistinctCategories(groups)
    && Labelled(groups, majors)
    && Covers(groups, items)
    && FirstAppearanceOrder(groups, items)
    && Summed(groups, items)
  }

  /** Appending a row leaves earlier first positions alone and gives a new
      category the last position. */
  lemma FirstIndexSnoc(p: seq<Service>, s: Service, key: string)
    ensures FirstIndex(p, key) < |p| ==> FirstIndex(p + [s], key) == FirstIndex(p, key)
    ensures FirstIndex(p, key) == |p| && GroupKey(s) == key ==> FirstIndex(p + [s], key) == |p|
  {
    var q := p + [s];
    assert forall j :: 0 <= j < |p| ==> q[j] == p[j];
    assert q[|p|] == s;
  }

  /** Appending a row adds its amount to its own category's total only. */
  lemma GroupTotalSnoc(p: seq<Service>, s: Service, key: string, m: Measure)
    ensures GroupTotal(p + [s], key, m)
      == GroupTotal(p, key, m) + (if GroupKey(s) == key then Amount(s, m) else 0.0)
  {
    FilterAppend(p, [s], InGroup(key));
    var tail := Filter([s], InGroup(key));
    assert tail == if GroupKey(s) == key then [s] else [];
    SumAppend(Filter(p, InGroup(key)), tail, AmountOf(m));
  }

  /** A category no row belongs to totals zero. */
  lemma GroupTotalAbsent(p: seq<Service>, key: string, m: Measure)
    requires FirstIndex(p, key) == |p|
    ensures GroupTotal(p, key, m) == 0.0
  {
    FilterNone(p, InGroup(key));
  }

  /** Categories left unchanged keep their positions. */
  lemma GroupIndexSameCategories(a: seq<Service>, b: seq<Service>, key: string)
    requires |a| == |b| && forall j :: 0 <= j < |a| ==> a[j].category == b[j].category
    ensures GroupIndex(a, key) == GroupIndex(b, key)
  {
    var x := GroupIndex(a, key);
    var y := GroupIndex(b, key);
    assert x < |a| ==> b[x].category == key;
    assert y < |b| ==> a[y].category == key;
  }

  /** Appending a category row keeps the positions of the others. */
  lemma GroupIndexAppend(a: seq<Service>, g: Service, key: string)
    requires GroupIndex(a, key) < |a|
    ensures GroupIndex(a + [g], key) == GroupIndex(a, key)
  {
    var x := GroupIndex(a, key);
    var y := GroupIndex(a + [g], key);
    assert forall j :: 0 <= j < |a| ==> (a + [g])[j] == a[j];
  }

  /** The row's category is new exactly when no earlier row had it. */
  lemma NewCategoryIsAbsent(groups: seq<Service>, p: seq<Service>, key: string)
    requires Covers(groups, p) && GroupIndex(groups, key) == |groups|
    ensures FirstIndex(p, key) == |p|
  {
  }

  /** Two lists of category rows with the same categories in the same places. */
  predicate SameCategories(a: seq<Service>, b: seq<Service>)
  {
    |a| == |b| && forall j :: 0 <= j < |a| ==> a[j].category == b[j].category
  }

  /** Adding to an existing category changes only amounts. */
  lemma ExistingShape(groups: seq<Service>, s: Service, majors: CodeTable)
    requires GroupIndex(groups, GroupKey(s)) < |groups|
    ensures var r := AddItem(groups, s, majors);
      && |r| == |groups|
      && forall j :: 0 <= j < |r| ==>
           && r[j].category == groups[j].category
           && r[j].functionLabel == groups[j].functionLabel
           && r[j].name == groups[j].name
           && r[j].code == groups[j].code
  {
    var j := GroupIndex(groups, GroupKey(s));
    assert j < |groups|;
  }

  /** Adding to an existing category changes no category and no label. */
  lemma ExistingKeepsCategories(groups: seq<Service>, s: Service, majors: CodeTable)
    requires GroupIndex(groups, GroupKey(s)) < |groups|
    ensures SameCategories(AddItem(groups, s, majors), groups)
    ensures Labelled(groups, majors) ==> Labelled(AddItem(groups, s, majors), majors)
  {
    ExistingShape(groups, s, majors);
  }

  lemma SameCategoriesDistinct(a: seq<Service>, b: seq<Service>)
    requires SameCategories(a, b) && DistinctCategories(b)
    ensures DistinctCategories(a)
  {
  }

  /** Appending a row keeps every first position that already existed. */
  lemma FirstIndicesKept(p: seq<Service>, s: Service)
    ensures forall c :: FirstIndex(p, c) < |p| ==> FirstIndex(p + [s], c) == FirstIndex(p, c)
  {
    forall c | FirstIndex(p, c) < |p|
      ensures FirstIndex(p + [s], c) == FirstIndex(p, c)
    {
      FirstIndexSnoc(p, s, c);
    }
  }

  /** Category rows with unchanged categories still cover the rows after one
      more row of a category they already hold. */
  lemma CoversSame(r: seq<Service>, groups: seq<Service>, p: seq<Service>, s: Service)
    requires SameCategories(r, groups) && Covers(groups, p)
    requires GroupIndex(groups, GroupKey(s)) < |groups|
    ensures Covers(r, p + [s])
  {
    var q := p + [s];
    FirstIndicesKept(p, s);
    forall i | 0 <= i < |q|
      ensures GroupIndex(r, GroupKey(q[i])) < |r|
    {
      var key := GroupKey(q[i]);
      GroupIndexSameCategories(r, groups, key);
      if i < |p| {
        assert q[i] == p[i];
      }
    }
  }

  lemma ExistingCovers(groups: seq<Service>, p: seq<Service>, s: Service, majors: CodeTable)
    requires Covers(groups, p) && GroupIndex(groups, GroupKey(s)) < |groups|
    ensures Covers(AddItem(groups, s, majors), p + [s])
  {
    ExistingKeepsCategories(groups, s, majors);
    CoversSame(AddItem(groups, s, majors), groups, p, s);
  }

  lemma ExistingOrder(groups: seq<Service>, p: seq<Service>, s: Service, majors: CodeTable)
    requires Covers(groups, p) && FirstAppearanceOrder(groups, p)
    requires GroupIndex(groups, GroupKey(s)) < |groups|
    ensures FirstAppearanceOrder(AddItem(groups, s, majors), p + [s])
  {
    ExistingKeepsCategories(groups, s, majors);
    FirstIndicesKept(p, s);
  }

  lemma ExistingSummed(groups: seq<Service>, p: seq<Service>, s: Service, majors: CodeTable)
    requires DistinctCategories(groups) && Summed(groups, p)
    requires GroupIndex(groups, GroupKey(s)) < |groups|
    ensures Summed(AddItem(groups, s, majors), p + [s])
  {
    var r := AddItem(groups, s, majors);
    var j := GroupIndex(groups, GroupKey(s));
    assert r == groups[j := AddTo(groups[j], s)];
    forall i, m | 0 <= i < |r|
      ensures Amount(r[i], m) == GroupTotal(p + [s], r[i].category, m)
    {
      GroupTotalSnoc(p, s, r[i].category, m);
      if i == j {
        assert Amount(r[i], m) == Amount(groups[j], m) + Amount(s, m);
      } else {
        assert r[i] == groups[i] && groups[i].category != groups[j].category;
      }
    }
  }

  /** Adding a row to an existing category keeps the aggregation. */
  lemma AddExisting(groups: seq<Service>, p: seq<Service>, s: Service, majors: CodeTable)
    requires Aggregated(groups, p, majors)
    requires GroupIndex(groups, GroupKey(s)) < |groups|
    ensures Aggregated(AddItem(groups, s, majors), p + [s], majors)
  {
    ExistingKeepsCategories(groups, s, majors);
    SameCategoriesDistinct(AddItem(groups, s, majors), groups);
    ExistingCovers(groups, p, s, majors);
    ExistingOrder(groups, p, s, majors);
    ExistingSummed(groups, p, s, majors);
  }

  /** A new category's row goes at the end with its own label. */
  lemma NewShape(groups: seq<Service>, s: Service, majors: CodeTable)
    requires GroupIndex(groups, GroupKey(s)) == |groups|
    ensures AddItem(groups, s, majors) == groups + [AddTo(NewGroup(GroupKey(s), majors), s)]
  {
    var j := GroupIndex(groups, GroupKey(s));
    assert j == |groups|;
  }

  lemma NewKeepsCategories(groups: seq<Service>, s: Service, majors: CodeTable)
    requires DistinctCategories(groups) && Labelled(groups, majors)
    requires GroupIndex(groups, GroupKey(s)) == |groups|
    ensures DistinctCategories(AddItem(groups, s, majors)) && Labelled(AddItem(groups, s, majors), majors)
  {
    NewShape(groups, s, majors);
  }

  lemma NewCovers(groups: seq<Service>, p: seq<Service>, s: Service, majors: CodeTable)
    requires Covers(groups, p) && GroupIndex(groups, GroupKey(s)) == |groups|
    ensures Covers(AddItem(groups, s, majors), p + [s])
  {
    var key := GroupKey(s);
    var g := AddTo(NewGroup(key, majors), s);
    var r := AddItem(groups, s, majors);
    var q := p + [s];
    NewShape(groups, s, majors);
    NewCategoryIsAbsent(groups, p, key);
    FirstIndexSnoc(p, s, key);
    FirstIndicesKept(p, s);
    forall i | 0 <= i < |q|
      ensures GroupIndex(r, GroupKey(q[i])) < |r|
    {
      if i < |p| {
        assert q[i] == p[i];
        GroupIndexAppend(groups, g, GroupKey(q[i]));
      } else {
        assert r[|groups|].category == key;
      }
    }
  }

  lemma NewOrder(groups: seq<Service>, p: seq<Service>, s: Service, majors: CodeTable)
    requires Covers(groups, p) && FirstAppearanceOrder(groups, p)
    requires GroupIndex(groups, GroupKey(s)) == |groups|
    ensures FirstAppearanceOrder(AddItem(groups, s, majors), p + [s])
  {
    var key := GroupKey(s);
    var r := AddItem(groups, s, majors);
    NewShape(groups, s, majors);
    NewCategoryIsAbsent(groups, p, key);
    FirstIndexSnoc(p, s, key);
    FirstIndicesKept(p, s);
  }

  /** The new category row holds the new row's amounts, which are its
      category's totals. */
  lemma NewRowSummed(p: seq<Service>, s: Service, majors: CodeTable, m: Measure)
    requires FirstIndex(p, GroupKey(s)) == |p|
    ensures var g := AddTo(NewGroup(GroupKey(s), majors), s);
      Amount(g, m) == GroupTotal(p + [s], g.category, m)
  {
    GroupTotalSnoc(p, s, GroupKey(s), m);
    GroupTotalAbsent(p, GroupKey(s), m);
  }

  /** An old category row keeps its totals when a row of another category
      arrives. */
  lemma OtherRowSummed(g: Service, p: seq<Service>, s: Service, m: Measure)
    requires Amount(g, m) == GroupTotal(p, g.category, m) && g.category != GroupKey(s)
    ensures Amount(g, m) == GroupTotal(p + [s], g.category, m)
  {
    GroupTotalSnoc(p, s, g.category, m);
  }

  lemma NewSummed(groups: seq<Service>, p: seq<Service>, s: Service, majors: CodeTable)
    requires Covers(groups, p) && Summed(groups, p)
    requires GroupIndex(groups, GroupKey(s)) == |groups|
    ensures Summed(AddItem(groups, s, majors), p + [s])
  {
    var key := GroupKey(s);
    var r := AddItem(groups, s, majors);
    NewShape(groups, s, majors);
    NewCategoryIsAbsent(groups, p, key);
    forall i, m | 0 <= i < |r|
      ensures Amount(r[i], m) == GroupTotal(p + [s], r[i].category, m)
    {
      if i == |groups| {
        NewRowSummed(p, s, majors, m);
      } else {
        OtherRowSummed(groups[i], p, s, m);
      }
    }
  }

  /** Adding a row of a new category appends its category row. */
  lemma AddNew(groups: seq<Service>, p: seq<Service>, s: Service, majors: CodeTable)
    requires Aggregated(groups, p, majors)
    requires GroupIndex(groups, GroupKey(s)) == |groups|
    ensures Aggregated(AddItem(groups, s, majors), p + [s], majors)
  {
    NewKeepsCategories(groups, s, majors);
    NewCovers(groups, p, s, majors);
    NewOrder(groups, p, s, majors);
    NewSummed(groups, p, s, majors);
  }

  /** One step of the fold keeps the aggregation. */
  lemma AddItemKeeps(groups: seq<Service>, p: seq<Service>, s: Service, items: seq<Service>, majors: CodeTable)
    requires Aggregated(groups, p, majors) && items == p + [s]
    ensures Aggregated(AddItem(groups, s, majors), items, majors)
  {
    if GroupIndex(groups, GroupKey(s)) < |groups| {
      AddExisting(groups, p, s, majors);
    } else {
      AddNew(groups, p, s, majors);
    }
  }

  /** A non-empty sequence is its prefix and its last element. */
  lemma LastSplit<T>(s: seq<T>)
    requires s != []
    ensures s == s[..|s| - 1] + [s[|s| - 1]]
  {
  }

  /** The fold keeps the aggregation at every step. */
  lemma {:induction false} AggregateSpec(items: seq<Service>, majors: CodeTable)
    ensures Aggregated(AggregateByCategory(items, majors), items, majors)
  {
    if items != [] {
      var p := items[..|items| - 1];
      var s := items[|items| - 1];
      LastSplit(items);
      AggregateSpec(p, majors);
      AddItemKeeps(AggregateByCategory(p, majors), p, s, items, majors);
    }
  }

  /** Replacing one element changes the sum by the difference. */
  lemma SumUpdate<T>(s: seq<T>, j: int, x: T, f: T -> real)
    requires 0 <= j < |s|
    ensures SumOf(s[j := x], f) == SumOf(s, f) - f(s[j]) + f(x)
  {
    var t := s[j := x];
    assert s == s[..j] + [s[j]] + s[j + 1..];
    assert t == s[..j] + [x] + s[j + 1..];
    SumAppend(s[..j] + [s[j]], s[j + 1..], f);
    SumAppend(s[..j], [s[j]], f);
    SumAppend(s[..j] + [x], s[j + 1..], f);
    SumAppend(s[..j], [x], f);
  }

  /** Aggregation preserves each column's total. */
  lemma {:induction false} TotalsPreserved(items: seq<Service>, majors: CodeTable, m: Measure)
    ensures SumOf(AggregateByCategory(items, majors), AmountOf(m)) == SumOf(items, AmountOf(m))
  {
    if items != [] {
      var p := items[..|items| - 1];
      var s := items[|items| - 1];
      var groups := AggregateByCategory(p, majors);
      TotalsPreserved(p, majors, m);
      SumSnoc(items, AmountOf(m));
      var j := GroupIndex(groups, GroupKey(s));
      if j < |groups| {
        SumUpdate(groups, j, AddTo(groups[j], s), AmountOf(m));
      } else {
        var g := AddTo(NewGroup(GroupKey(s), majors), s);
        SumAppend(groups, [g], AmountOf(m));
      }
    }
  }

  /** The columns `sortServices` can order by. */
  datatype SortKey = ByName | ByCode | ByAmount(m: Measure)

  datatype Direction = Ascending | Descending

  /** Whether `a` may come before `b`: the comparator `(...) * dir` is not
      positive. Names and codes compare with the browser's `localeCompare`,
      which is a parameter here: `collate(x, y)` holds when
      `x.localeCompare(y) <= 0`. A missing code is the empty string. */
  function Before(key: SortKey, dir: Direction, collate: (string, string) -> bool): (Service, Service) -> bool
  {
    (a: Service, b: Service) =>
      match key
      case ByName => if dir == Ascending then collate(a.name, b.name) else collate(b.name, a.name)
      case ByCode => if dir == Ascending then collate(a.code, b.code) else collate(b.code, a.code)
      case ByAmount(m) => if dir == Ascending then Amount(a, m) <= Amount(b, m) else Amount(b, m) <= Amount(a, m)
  }

  /** A collation compared either way round is a total preorder. */
  lemma CollatedIsPreorder(f: Service -> string, dir: Direction, collate: (string, string) -> bool,
                           before: (Service, Service) -> bool)
    requires TotalPreorder(collate)
    requires forall a, b :: before(a, b) == if dir == Ascending then collate(f(a), f(b)) else collate(f(b), f(a))
    ensures TotalPreorder(before)
  {
  }

  /** Every column and direction gives a total preorder on rows. */
  lemma BeforeIsPreorder(key: SortKey, dir: Direction, collate: (string, string) -> bool)
    requires TotalPreorder(collate)
    ensures TotalPreorder(Before(key, dir, collate))
  {
    match key
    case ByName =>
      CollatedIsPreorder((s: Service) => s.name, dir, collate, Before(key, dir, collate));
    case ByCode =>
      CollatedIsPreorder((s: Service) => s.code, dir, collate, Before(key, dir, collate));
    case ByAmount(m) =>
  }

  /** Code-unit order, the collation of a locale without tailoring, is one
      collation the sort accepts. */
  lemma CodeUnitOrderIsPreorder()
    ensures TotalPreorder((x: string, y: string) => LexLe(x, y))
  {
    forall a, b
      ensures LexLe(a, b) || LexLe(b, a)
    {
      LexLeTotal(a, b);
    }
    forall a, b, c | LexLe(a, b) && LexLe(b, c)
      ensures LexLe(a, c)
    {
      LexLeTransitive(a, b, c);
    }
  }

  /** `sortServices`: a sorted copy; the input is not changed. */
  function SortServices(items: seq<Service>, key: SortKey, dir: Direction, collate: (string, string) -> bool)
    : (r: seq<Service>)
    ensures multiset(r) == multiset(items)
  {
    Sort(items, Before(key, dir, collate))
  }

  /** The sorted rows are a permutation of the rows, in the chosen order, with
      rows the comparator ties kept in their original order. */
  lemma SortServicesSpec(items: seq<Service>, key: SortKey, dir: Direction, collate: (string, string) -> bool)
    requires TotalPreorder(collate)
    ensures var r := SortServices(items, key, dir, collate);
      && multiset(r) == multiset(items)
      && (forall i, j :: 0 <= i < j < |r| ==> Before(key, dir, collate)(r[i], r[j]))
      && forall z :: TiesOf(r, Before(key, dir, collate), z) == TiesOf(items, Before(key, dir, collate), z)
  {
    BeforeIsPreorder(key, dir, collate);
    SortSpec(items, Before(key, dir, collate));
  }
}

=== FILE: client_labels.dfy ===
/** The web client's label helpers: `cleanFunctionLabel`, which normalises a
    spending label's whitespace and splits off a leading COFOG code, and
    `categoryFromCode`, which names the COFOG division of a code. */
module ClientLabels {
  import opened Wrappers
  import opened Text
  import opened Tables

  /** Every character of `s` in the whitespace class `ws` is a plain space. */
  predicate PlainSpaces(s: string, ws: char -> bool)
  {
    forall i :: 0 <= i < |s| && ws(s[i]) ==> s[i] == ' '
  }

  /** No two spaces are adjacent in `s`. */
  ghost predicate SingleSpaced(s: string)
  {
    forall i, j :: 0 <= i < j < |s| && j == i + 1 ==> !(s[i] == ' ' && s[j] == ' ')
  }

  /** The shape `cleanFunctionLabel` gives a label: plain single spaces and
      no space at either end. */
  ghost predicate Canonical(s: string, ws: char -> bool)
  {
    PlainSpaces(s, ws) && SingleSpaced(s) && (s == [] || (s[0] != ' ' && s[|s| - 1] != ' '))
  }

  /** `s.replace(/\s+/g, " ")` for the whitespace class `ws`: every
      whitespace run becomes one space. */
  function CollapseSpaces(s: string, ws: char -> bool): (r: string)
    requires ws(' ')
    ensures PlainSpaces(r, ws) && SingleSpaced(r)
    ensures r == [] <==> s == []
    ensures r != [] ==> (r[0] == ' ' <==> ws(s[0]))
    decreases |s|
  {
    if s == [] then []
    else if ws(s[0]) then
      var rest := TrimStart(s, ws);
      assert |rest| < |s| by {
        TrimStartShrinks(s, ws);
      }
      " " + CollapseSpaces(rest, ws)
    else [s[0]] + CollapseSpaces(s[1..], ws)
  }

  /** The shape survives dropping the first character. */
  lemma ShapeOfTail(s: string, ws: char -> bool)
    requires s != [] && PlainSpaces(s, ws) && SingleSpaced(s)
    ensures PlainSpaces(s[1..], ws) && SingleSpaced(s[1..])
  {
    assert forall i :: 0 <= i < |s[1..]| ==> s[1..][i] == s[i + 1];
  }

  /** A single leading space is all that trimming the start removes. */
  lemma SingleLeadingSpace(s: string, ws: char -> bool)
    requires s != [] && ws(s[0]) && (|s| == 1 || !ws(s[1]))
    ensures TrimStart(s, ws) == s[1..]
  {
    TrimStartKeeps(s[1..], ws);
  }

  /** A leading space followed by kept text is kept. */
  lemma CollapseKeepsSpace(s: string, ws: char -> bool)
    requires ws(' ') && s != [] && s[0] == ' ' && (|s| == 1 || !ws(s[1]))
    requires CollapseSpaces(s[1..], ws) == s[1..]
    ensures CollapseSpaces(s, ws) == s
  {
    SingleLeadingSpace(s, ws);
    assert s == " " + s[1..];
  }

  /** A leading non-space followed by kept text is kept. */
  lemma CollapseKeepsWord(s: string, ws: char -> bool)
    requires ws(' ') && s != [] && !ws(s[0])
    requires CollapseSpaces(s[1..], ws) == s[1..]
    ensures CollapseSpaces(s, ws) == s
  {
    assert s == [s[0]] + s[1..];
  }

  /** Text already in plain single spaces is left as it is. */
  lemma {:induction false} CollapseKeeps(s: string, ws: char -> bool)
    requires ws(' ') && PlainSpaces(s, ws) && SingleSpaced(s)
    ensures CollapseSpaces(s, ws) == s
    decreases |s|
  {
    if s != [] {
      ShapeOfTail(s, ws);
      CollapseKeeps(s[1..], ws);
      if ws(s[0]) {
        assert |s| == 1 || !ws(s[1]) by {
          if |s| > 1 {
            assert s[0] == ' ' && !(s[0] == ' ' && s[1] == ' ');
          }
        }
        CollapseKeepsSpace(s, ws);
      } else {
        CollapseKeepsWord(s, ws);
      }
    }
  }

  /** The characters of `s` outside the whitespace class `ws`, in order: the
      label's words with the whitespace between them taken out. */
  function Words(s: string, ws: char -> bool): string
  {
    if s == [] then [] else (if ws(s[0]) then [] else [s[0]]) + Words(s[1..], ws)
  }

  lemma {:induction false} WordsAppend(a: string, b: string, ws: char -> bool)
    ensures Words(a + b, ws) == Words(a, ws) + Words(b, ws)
    decreases |a|
  {
    if a == [] {
      assert a + b == b;
    } else {
      assert (a + b)[1..] == a[1..] + b;
      WordsAppend(a[1..], b, ws);
    }
  }

  /** Whitespace alone has no words. */
  lemma {:induction false} WordsOfSpaces(s: string, ws: char -> bool)
    requires forall i :: 0 <= i < |s| ==> ws(s[i])
    ensures Words(s, ws) == []
    decreases |s|
  {
    if s != [] {
      WordsOfSpaces(s[1..], ws);
    }
  }

  /** Leading whitespace adds no words. */
  lemma SpacesThenWords(p: string, u: string, ws: char -> bool)
    requires forall i :: 0 <= i < |p| ==> ws(p[i])
    ensures Words(p + u, ws) == Words(u, ws)
  {
    WordsAppend(p, u, ws);
    WordsOfSpaces(p, ws);
  }

  /** Trailing whitespace adds no words. */
  lemma WordsThenSpaces(u: string, p: string, ws: char -> bool)
    requires forall i :: 0 <= i < |p| ==> ws(p[i])
    ensures Words(u + p, ws) == Words(u, ws)
  {
    WordsAppend(u, p, ws);
    WordsOfSpaces(p, ws);
  }

  lemma TrimStartKeepsWords(s: string, ws: char -> bool)
    ensures Words(TrimStart(s, ws), ws) == Words(s, ws)
  {
    var u := TrimStart(s, ws);
    var p := s[..|s| - |u|];
    assert s == p + u;
    assert forall i :: 0 <= i < |p| ==> p[i] == s[i];
    SpacesThenWords(p, u, ws);
  }

  lemma TrimEndKeepsWords(s: string, ws: char -> bool)
    ensures Words(TrimEnd(s, ws), ws) == Words(s, ws)
  {
    var e := TrimEnd(s, ws);
    var p := s[|e|..];
    assert s == e + p;
    assert forall i :: 0 <= i < |p| ==> p[i] == s[|e| + i];
    WordsThenSpaces(e, p, ws);
  }

  /** Trimming both ends removes whitespace only. */
  lemma TrimKeepsWords(s: string, ws: char -> bool)
    ensures Words(Trim(s, ws), ws) == Words(s, ws)
  {
    TrimStartKeepsWords(s, ws);
    TrimEndKeepsWords(TrimStart(s, ws), ws);
  }

  /** Collapsing whitespace keeps every word character, in order. */
  lemma {:induction false} CollapseKeepsWords(s: string, ws: char -> bool)
    requires ws(' ')
    ensures Words(CollapseSpaces(s, ws), ws) == Words(s, ws)
    decreases |s|
  {
    if s != [] {
      if ws(s[0]) {
        var rest := TrimStart(s, ws);
        TrimStartShrinks(s, ws);
        CollapseKeepsWords(rest, ws);
        TrimStartKeepsWords(s, ws);
        WordsAppend(" ", CollapseSpaces(rest, ws), ws);
      } else {
        CollapseKeepsWords(s[1..], ws);
        WordsAppend([s[0]], CollapseSpaces(s[1..], ws), ws);
      }
    }
  }

  /** A run of whitespace collapses to one space. */
  lemma CollapseRun(w: string, ws: char -> bool)
    requires ws(' ') && w != [] && forall i :: 0 <= i < |w| ==> ws(w[i])
    ensures CollapseSpaces(w, ws) == " "
  {
    TrimStartPadding(w, [], ws);
    assert w + [] == w;
  }

  /** Trimming the start stops at a character it keeps. */
  lemma {:induction false} TrimStartStops(a: string, y: string, ws: char -> bool)
    requires y != [] && !ws(y[0])
    ensures TrimStart(a + y, ws) == TrimStart(a, ws) + y
    decreases |a|
  {
    if a == [] {
      assert a + y == y;
      TrimStartKeeps(y, ws);
    } else if ws(a[0]) {
      assert (a + y)[1..] == a[1..] + y;
      TrimStartStops(a[1..], y, ws);
    }
  }

  /** `CollapseSplit` when the text before the kept character is empty. */
  lemma CollapseSplitEmpty(c: char, b: string, ws: char -> bool)
    requires ws(' ') && !ws(c)
    ensures CollapseSpaces([c] + b, ws) == [c] + CollapseSpaces(b, ws)
  {
    assert ([c] + b)[1..] == b;
  }

  /** One step of the collapse at a word character. */
  lemma CollapseWordStep(s: string, ws: char -> bool)
    requires ws(' ') && s != [] && !ws(s[0])
    ensures CollapseSpaces(s, ws) == [s[0]] + CollapseSpaces(s[1..], ws)
  {
  }

  /** One step of the collapse at a whitespace run. */
  lemma CollapseSpaceStep(s: string, ws: char -> bool)
    requires ws(' ') && s != [] && ws(s[0])
    ensures CollapseSpaces(s, ws) == " " + CollapseSpaces(TrimStart(s, ws), ws)
  {
  }

  lemma Regroup(whole: string, left: string, h: string, x: string, m: string, y: string)
    requires whole == h + (x + m + y) && left == h + x
    ensures whole == left + m + y
  {
  }

  /** Trimming the start of `a + [c] + b` stops at `c` at the latest. */
  lemma TrimStartBefore(a: string, c: char, b: string, ws: char -> bool)
    requires !ws(c)
    ensures TrimStart(a + [c] + b, ws) == TrimStart(a, ws) + [c] + b
  {
    assert a + [c] + b == a + ([c] + b);
    TrimStartStops(a, [c] + b, ws);
    assert TrimStart(a, ws) + ([c] + b) == TrimStart(a, ws) + [c] + b;
  }

  /** The collapse of `a + [c] + b` at a leading whitespace run of `a`. */
  lemma CollapseSpaceHead(a: string, c: char, b: string, ws: char -> bool)
    requires ws(' ') && !ws(c) && a != [] && ws(a[0])
    ensures CollapseSpaces(a + [c] + b, ws) == " " + CollapseSpaces(TrimStart(a, ws) + [c] + b, ws)
  {
    var s := a + [c] + b;
    assert s[0] == a[0];
    CollapseSpaceStep(s, ws);
    TrimStartBefore(a, c, b, ws);
  }

  /** `CollapseSplit` at a leading whitespace run, given the split of the
      text after the run. */
  lemma CollapseSplitSpace(a: string, c: char, b: string, ws: char -> bool)
    requires ws(' ') && !ws(c) && a != [] && ws(a[0])
    requires var u := TrimStart(a, ws);
      CollapseSpaces(u + [c] + b, ws) == CollapseSpaces(u, ws) + [c] + CollapseSpaces(b, ws)
    ensures CollapseSpaces(a + [c] + b, ws) == CollapseSpaces(a, ws) + [c] + CollapseSpaces(b, ws)
  {
    CollapseSpaceHead(a, c, b, ws);
    CollapseSpaceStep(a, ws);
    Regroup(CollapseSpaces(a + [c] + b, ws), CollapseSpaces(a, ws), " ",
      CollapseSpaces(TrimStart(a, ws), ws), [c], CollapseSpaces(b, ws));
  }

  /** The collapse of `a + [c] + b` at a leading word character of `a`. */
  lemma CollapseWordHead(a: string, c: char, b: string, ws: char -> bool)
    requires ws(' ') && a != [] && !ws(a[0])
    ensures CollapseSpaces(a + [c] + b, ws) == [a[0]] + CollapseSpaces(a[1..] + [c] + b, ws)
  {
    var s := a + [c] + b;
    assert s[0] == a[0] && s[1..] == a[1..] + [c] + b;
    CollapseWordStep(s, ws);
  }

  /** `CollapseSplit` at a leading word character, given the split of the
      rest. */
  lemma CollapseSplitWord(a: string, c: char, b: string, ws: char -> bool)
    requires ws(' ') && !ws(c) && a != [] && !ws(a[0])
    requires CollapseSpaces(a[1..] + [c] + b, ws) == CollapseSpaces(a[1..], ws) + [c] + CollapseSpaces(b, ws)
    ensures CollapseSpaces(a + [c] + b, ws) == CollapseSpaces(a, ws) + [c] + CollapseSpaces(b, ws)
  {
    CollapseWordHead(a, c, b, ws);
    CollapseWordStep(a, ws);
    Regroup(CollapseSpaces(a + [c] + b, ws), CollapseSpaces(a, ws), [a[0]],
      CollapseSpaces(a[1..], ws), [c], CollapseSpaces(b, ws));
  }

  /** A character outside the whitespace class is kept, and the text on
      either side of it collapses on its own. With `CollapseRun` this fixes
      the result for every input. */
  lemma {:induction false} CollapseSplit(a: string, c: char, b: string, ws: char -> bool)
    requires ws(' ') && !ws(c)
    ensures CollapseSpaces(a + [c] + b, ws) == CollapseSpaces(a, ws) + [c] + CollapseSpaces(b, ws)
    decreases |a|
  {
    if a == [] {
      assert a + [c] + b == [c] + b;
      CollapseSplitEmpty(c, b, ws);
    } else if ws(a[0]) {
      TrimStartShrinks(a, ws);
      CollapseSplit(TrimStart(a, ws), c, b, ws);
      CollapseSplitSpace(a, c, b, ws);
    } else {
      CollapseSplit(a[1..], c, b, ws);
      CollapseSplitWord(a, c, b, ws);
    }
  }

  /** Plain single spacing survives taking a slice. */
  lemma SliceShape(s: string, a: int, b: int, ws: char -> bool)
    requires 0 <= a <= b <= |s| && PlainSpaces(s, ws) && SingleSpaced(s)
    ensures PlainSpaces(s[a..b], ws) && SingleSpaced(s[a..b])
  {
    assert forall i :: 0 <= i < b - a ==> s[a..b][i] == s[a + i];
  }

  /** Trimming the start keeps plain single spacing. */
  lemma TrimStartShape(s: string, ws: char -> bool)
    requires PlainSpaces(s, ws) && SingleSpaced(s)
    ensures PlainSpaces(TrimStart(s, ws), ws) && SingleSpaced(TrimStart(s, ws))
  {
    var u := TrimStart(s, ws);
    SliceShape(s, |s| - |u|, |s|, ws);
    assert s[|s| - |u|..|s|] == u;
  }

  /** Trimming the end keeps plain single spacing and the first character. */
  lemma TrimEndShape(u: string, ws: char -> bool)
    requires PlainSpaces(u, ws) && SingleSpaced(u)
    ensures PlainSpaces(TrimEnd(u, ws), ws) && SingleSpaced(TrimEnd(u, ws))
    ensures TrimEnd(u, ws) != [] ==> TrimEnd(u, ws)[0] == u[0]
  {
    var t := TrimEnd(u, ws);
    SliceShape(u, 0, |t|, ws);
    assert u[0..|t|] == t;
  }

  /** Plain single spacing survives trimming, and the ends lose their spaces. */
  lemma TrimmedCanonical(s: string, ws: char -> bool)
    requires ws(' ') && PlainSpaces(s, ws) && SingleSpaced(s)
    ensures Canonical(Trim(s, ws), ws)
  {
    TrimStartShape(s, ws);
    TrimEndShape(TrimStart(s, ws), ws);
  }

  /** `.trim()`. */
  function JsTrim(s: string): string
  {
    Trim(s, IsJsSpace)
  }

  /** The whitespace-normalised label: JavaScript whitespace runs collapsed,
      ends trimmed. */
  function Normalised(raw: string): (t: string)
    ensures Canonical(t, IsJsSpace)
    ensures Words(t, IsJsSpace) == Words(raw, IsJsSpace)
  {
    assert IsJsSpace(' ');
    TrimmedCanonical(CollapseSpaces(raw, IsJsSpace), IsJsSpace);
    CollapseKeepsWords(raw, IsJsSpace);
    TrimKeepsWords(CollapseSpaces(raw, IsJsSpace), IsJsSpace);
    JsTrim(CollapseSpaces(raw, IsJsSpace))
  }

  /** A COFOG code as the label pattern accepts it: digits, optionally
      followed by a dot and more digits. */
  predicate IsCode(c: string)
  {
    var k := DigitRun(c);
    k > 0 && (k == |c| || (c[k] == '.' && k + 1 < |c| && DigitRun(c[k + 1..]) == |c| - k - 1))
  }

  /** Where the code pattern `[0-9]+(?:\.[0-9]+)?` followed by a space ends
      at the start of `t`: the index of that space, or 0 when there is no
      such code. */
  function CodeEnd(t: string): (e: nat)
    ensures e <= |t|
    ensures e > 0 ==> e < |t| && t[e] == ' ' && IsCode(t[..e])
  {
    var k := DigitRun(t);
    if k == 0 || k == |t| then 0
    else if t[k] == ' ' then
      CodePrefix(t, k, k);
      k
    else if t[k] == '.' && k + 1 < |t| then
      var m := DigitRun(t[k + 1..]);
      if m > 0 && k + 1 + m < |t| && t[k + 1 + m] == ' ' then
        CodePrefix(t, k, k + 1 + m);
        k + 1 + m
      else 0
    else 0
  }

  /** The leading digit run of `t`, on its own, is a code. */
  lemma PlainCodePrefix(t: string, k: nat)
    requires 0 < k <= |t| && k == DigitRun(t)
    ensures IsCode(t[..k])
  {
    DigitRunOf(t[..k], []);
    assert t[..k] + [] == t[..k];
  }

  /** The leading digit run of `t`, a dot and the digit run after it form a
      code. */
  lemma DottedCodePrefix(t: string, k: nat, e: nat)
    requires 0 < k && k + 1 < e <= |t| && k == DigitRun(t) && t[k] == '.'
    requires DigitRun(t[k + 1..]) == e - k - 1
    ensures IsCode(t[..e])
  {
    var c := t[..e];
    assert c == t[..k] + c[k..];
    DigitRunOf(t[..k], c[k..]);
    var d2 := c[k + 1..];
    assert d2 == t[k + 1..][..e - k - 1];
    DigitRunOf(d2, []);
    assert d2 + [] == d2;
  }

  /** The digit run of a prefix that extends past it is unchanged. */
  lemma CodePrefix(t: string, k: nat, e: nat)
    requires 0 < k <= e <= |t| && k == DigitRun(t)
    requires e == k || (t[k] == '.' && k + 1 < e && DigitRun(t[k + 1..]) == e - k - 1)
    ensures IsCode(t[..e])
  {
    if e == k {
      PlainCodePrefix(t, k);
    } else {
      DottedCodePrefix(t, k, e);
    }
  }

  datatype Label = Label(code: string, name: string)

  /** `/^([0-9]+(?:\.[0-9]+)?)\s+(.*)$/` on a canonical label: the code, one
      space, and the rest as the name; no match leaves the code empty. On
      canonical text the whitespace between code and name is exactly one
      space and the rest holds no line terminator. */
  function SplitCode(t: string): (r: Label)
    ensures r.code == [] ==> r.name == t
    ensures r.code != [] ==> IsCode(r.code) && t == r.code + " " + r.name
  {
    var e := CodeEnd(t);
    if e == 0 then Label("", t)
    else
      assert t == t[..e] + " " + t[e + 1..];
      Label(t[..e], t[e + 1..])
  }

  /** `cleanFunctionLabel`. */
  function CleanFunctionLabel(raw: string): (r: Label)
    ensures Canonical(Normalised(raw), IsJsSpace)
    ensures r.code == [] ==> r.name == Normalised(raw)
    ensures r.code != [] ==> IsCode(r.code) && Normalised(raw) == r.code + " " + r.name
    ensures Words(r.code, IsJsSpace) + Words(r.name, IsJsSpace) == Words(raw, IsJsSpace)
  {
    assert IsJsSpace(' ');
    SplitKeepsWords(Normalised(raw), IsJsSpace);
    SplitCode(Normalised(raw))
  }

  /** Splitting off the code loses only the space after it. */
  lemma SplitKeepsWords(t: string, ws: char -> bool)
    requires ws(' ')
    ensures var r := SplitCode(t);
      Words(r.code, ws) + Words(r.name, ws) == Words(t, ws)
  {
    var r := SplitCode(t);
    if r.code != [] {
      WordsAppend(r.code + " ", r.name, ws);
      WordsAppend(r.code, " ", ws);
    }
  }

  /** A digits-only code, a space and a name split back into that code and
      name. */
  lemma PlainCodeFound(d: string, name: string)
    requires d != [] && forall i :: 0 <= i < |d| ==> IsDigit(d[i])
    ensures SplitCode(d + " " + name) == Label(d, name)
  {
    var t := d + " " + name;
    assert t == d + (" " + name);
    DigitRunOf(d, " " + name);
    assert t[|d|] == ' ';
    assert CodeEnd(t) == |d|;
    assert t[..|d|] == d;
    assert t[|d| + 1..] == name;
  }

  /** The code pattern ends after a dotted code followed by a space. */
  lemma DottedCodeEnd(d: string, d2: string, name: string)
    requires d != [] && forall i :: 0 <= i < |d| ==> IsDigit(d[i])
    requires d2 != [] && forall i :: 0 <= i < |d2| ==> IsDigit(d2[i])
    ensures CodeEnd(d + "." + d2 + " " + name) == |d| + 1 + |d2|
  {
    var tail := " " + name;
    var t := d + "." + d2 + " " + name;
    var k := |d|;
    assert DigitRun(t) == k by {
      assert t == d + ("." + (d2 + tail));
      DigitRunOf(d, "." + (d2 + tail));
    }
    assert t[k] == '.' && t[k + 1..] == d2 + tail;
    assert DigitRun(t[k + 1..]) == |d2| by {
      DigitRunOf(d2, tail);
    }
    assert t[k + 1 + |d2|] == ' ';
  }

  /** A dotted code, a space and a name split back into that code and name. */
  lemma DottedCodeFound(d: string, d2: string, name: string)
    requires d != [] && forall i :: 0 <= i < |d| ==> IsDigit(d[i])
    requires d2 != [] && forall i :: 0 <= i < |d2| ==> IsDigit(d2[i])
    ensures SplitCode(d + "." + d2 + " " + name) == Label(d + "." + d2, name)
  {
    var t := d + "." + d2 + " " + name;
    var e := |d| + 1 + |d2|;
    DottedCodeEnd(d, d2, name);
    assert t[..e] == d + "." + d2 && t[e + 1..] == name;
  }

  /** A code, a space and a name are split back into that code and name. */
  lemma CodeFound(code: string, name: string)
    requires IsCode(code)
    ensures SplitCode(code + " " + name) == Label(code, name)
  {
    var k := DigitRun(code);
    if k == |code| {
      PlainCodeFound(code, name);
    } else {
      assert code == code[..k] + "." + code[k + 1..];
      DottedCodeFound(code[..k], code[k + 1..], name);
    }
  }

  /** Canonical text is left as it is by collapsing and trimming. */
  lemma CanonicalKept(s: string, ws: char -> bool)
    requires ws(' ') && Canonical(s, ws)
    ensures Trim(CollapseSpaces(s, ws), ws) == s
  {
    CollapseKeeps(s, ws);
    if s != [] {
      TrimStartKeeps(s, ws);
      TrimEndKeeps(s, ws);
    }
  }

  /** A word without whitespace, a space and a canonical name form canonical
      text. */
  lemma JoinCanonical(w: string, name: string, ws: char -> bool)
    requires w != [] && forall i :: 0 <= i < |w| ==> w[i] != ' ' && !ws(w[i])
    requires Canonical(name, ws) && name != []
    ensures Canonical(w + " " + name, ws)
  {
    var t := w + " " + name;
    assert forall i :: 0 <= i < |w| ==> t[i] == w[i];
    assert forall i :: |w| < i < |t| ==> t[i] == name[i - |w| - 1];
  }

  /** A code holds only digits and a dot, none of them whitespace. */
  lemma CodeHasNoSpace(code: string)
    requires IsCode(code)
    ensures forall i :: 0 <= i < |code| ==> code[i] != ' ' && !IsJsSpace(code[i])
  {
    var k := DigitRun(code);
    forall i | 0 <= i < |code|
      ensures IsDigit(code[i]) || code[i] == '.'
    {
      if i > k {
        assert code[i] == code[k + 1..][i - k - 1];
      }
    }
  }

  /** A canonical label with a code in front splits into exactly that code and
      name; cleaning does not disturb it. */
  lemma LabelRoundTrip(code: string, name: string)
    requires IsCode(code) && Canonical(name, IsJsSpace) && name != []
    ensures CleanFunctionLabel(code + " " + name) == Label(code, name)
  {
    CodeHasNoSpace(code);
    JoinCanonical(code, name, IsJsSpace);
    CanonicalKept(code + " " + name, IsJsSpace);
    CodeFound(code, name);
  }

  /** A canonical label that does not start with a digit is its own name. */
  lemma UncodedLabelKept(raw: string)
    requires Canonical(raw, IsJsSpace) && (raw == [] || !IsDigit(raw[0]))
    ensures CleanFunctionLabel(raw) == Label("", raw)
  {
    CanonicalKept(raw, IsJsSpace);
  }

  /** `COFOG_CATEGORY`: COFOG division number to division name. */
  const CofogCategory: seq<(string, string)> := [
    ("1", "General public services"),
    ("2", "Defence"),
    ("3", "Public order and safety"),
    ("4", "Economic affairs"),
    ("5", "Environment protection"),
    ("6", "Housing and community amenities"),
    ("7", "Health"),
    ("8", "Recreation, culture and religion"),
    ("9", "Education"),
    ("10", "Social protection")
  ]

  /** `Object.entries(t).map(([k, v]) => [v, k])`. */
  function Swapped(table: seq<(string, string)>): (r: seq<(string, string)>)
    ensures |r| == |table|
    ensures forall i :: 0 <= i < |r| ==> r[i] == (table[i].1, table[i].0)
  {
    if table == [] then [] else [(table[0].1, table[0].0)] + Swapped(table[1..])
  }

  /** `COFOG_MAJOR_BY_CATEGORY`: division name back to division number. */
  function CofogMajorByCategory(): seq<(string, string)>
  {
    Swapped(CofogCategory)
  }

  /** `categoryFromCode`: the division named by the text before the first
      dot; an empty code or an unknown division is "Other". */
  function CategoryFromCode(code: string): (r: string)
    ensures code == [] ==> r == "Other"
    ensures code != [] ==> var major := BeforeFirst(code, ".");
      && (Lookup(CofogCategory, major).Some? ==> r == Lookup(CofogCategory, major).value)
      && (Lookup(CofogCategory, major).None? ==> r == "Other")
  {
    if code == [] then "Other"
    else Lookup(CofogCategory, BeforeFirst(code, ".")).GetOr("Other")
  }

  /** The text before the first dot of `major + "." + rest` is `major`. */
  lemma BeforeFirstDot(major: string, rest: string)
    requires '.' !in major
    ensures BeforeFirst(major + "." + rest, ".") == major
  {
    var s := major + "." + rest;
    assert StartsWith(s[|major|..], ".");
    forall j | 0 <= j < |major|
      ensures !StartsWith(s[j..], ".")
    {
      assert s[j..][0] == major[j];
    }
    IndexOfIs(s, ".", |major|);
    assert s[..|major|] == major;
  }

  /** Only the division number matters: a sub-function code falls in the
      category of its division. */
  lemma SubCodeInDivision(major: string, rest: string)
    requires '.' !in major && major != []
    ensures CategoryFromCode(major + "." + rest) == CategoryFromCode(major)
  {
    BeforeFirstDot(major, rest);
    NoDotKeepsCode(major);
  }

  /** No value appears twice. */
  predicate DistinctValues(table: seq<(string, string)>)
  {
    forall i, j :: 0 <= i < j < |table| ==> table[i].1 != table[j].1
  }

  /** With distinct values, the swapped table maps each value back to its key. */
  lemma SwappedLookup(table: seq<(string, string)>, i: int)
    requires DistinctValues(table) && 0 <= i < |table|
    ensures Lookup(Swapped(table), table[i].1) == Some(table[i].0)
  {
    LookupEntry(Swapped(table), i);
  }

  /** The COFOG division numbers are distinct. */
  lemma CofogKeysDistinct()
    ensures DistinctKeys(CofogCategory)
  {
  }

  /** The COFOG division names are distinct. */
  lemma CofogNamesDistinct()
    ensures DistinctValues(CofogCategory)
  {
  }

  /** No COFOG division number holds a dot. */
  lemma CofogKeysUndotted()
    ensures forall i :: 0 <= i < |CofogCategory| ==> '.' !in CofogCategory[i].0 && CofogCategory[i].0 != []
  {
  }

  /** Division names are distinct, so the reverse table undoes the forward
      one; and each division number names its own division. */
  lemma CategoryRoundTrip(i: int)
    requires 0 <= i < |CofogCategory|
    ensures Lookup(CofogMajorByCategory(), CofogCategory[i].1) == Some(CofogCategory[i].0)
    ensures CategoryFromCode(CofogCategory[i].0) == CofogCategory[i].1
  {
    CofogKeysDistinct();
    CofogNamesDistinct();
    CofogKeysUndotted();
    SwappedLookup(CofogCategory, i);
    var major := CofogCategory[i].0;
    LookupEntry(CofogCategory, i);
    NoDotKeepsCode(major);
    assert major != [];
  }

  /** A code without a dot is its own division number. */
  lemma NoDotKeepsCode(major: string)
    requires '.' !in major
    ensures BeforeFirst(major, ".") == major
  {
    CharNotContained(major, '.');
  }
}

=== FILE: client_view.dfy ===
/** The web client's view arithmetic: the services-table page clamp, the
    borrowing context figures, and the "Everything else" slice of the pie. */
module ClientView {
  import opened Wrappers
  import opened Arith
  import opened Sums
  import Paging
  import opened Regional
  import opened ClientGroups
  import Attribution

  /** The table's rows-per-page setting: "all" or a number. */
  datatype TableLimit = All | Rows(n: int)

  /** The page shown, the page count, and the shown slice `[start, end)`. */
  datatype PageView = PageView(page: int, pages: int, start: int, end: int)

  /** The table paging in `renderServices`: the limit is at least one row,
      there is always at least one page, the requested page is clamped into
      range, and the slice is cut at the last row. */
  function TablePage(n: nat, limit: TableLimit, page: int): (v: PageView)
    ensures var size := MaxInt(1, if limit.All? then n else limit.n);
      && v.pages == MaxInt(1, Paging.PageCount(n, size))
      && 1 <= v.page <= v.pages
      && (1 <= page <= v.pages ==> v.page == page)
      && (page < 1 ==> v.page == 1)
      && (page > v.pages ==> v.page == v.pages)
      && 0 <= v.start <= v.end <= n
      && v.start == (v.page - 1) * size
      && v.end - v.start <= size
      && (v.page < v.pages ==> v.end - v.start == size)
  {
    var size := MaxInt(1, if limit.All? then n else limit.n);
    var pages := MaxInt(1, Paging.PageCount(n, size));
    var p := MinInt(MaxInt(1, page), pages);
    var start := (p - 1) * size;
    LastPageStarts(n, size, p, pages);
    PageView(p, pages, start, MinInt(start + size, n))
  }

  /** Every page up to the last starts inside the rows, and every page before
      the last is full. */
  lemma LastPageStarts(n: nat, size: int, p: int, pages: int)
    requires size >= 1 && pages == MaxInt(1, Paging.PageCount(n, size)) && 1 <= p <= pages
    ensures 0 <= (p - 1) * size <= n
    ensures p < pages ==> (p - 1) * size + size <= n
  {
    var q := Paging.PageCount(n, size);
    Paging.MulLeft(0, p - 1, size);
    if n == 0 {
      assert q == 0 by {
        assert (size - 1) / size == 0;
      }
      assert p == 1;
    } else {
      PageCountBound(n, size);
      Paging.MulLeft(p - 1, q - 1, size);
      Paging.MulPredecessor(q, size);
      if p < pages {
        Paging.MulLeft(p, q - 1, size);
        Paging.MulPredecessor(p + 1, size);
      }
    }
  }

  /** With at least one row, the page count is positive and all but one
      page's worth of rows come before the last page. */
  lemma PageCountBound(n: nat, size: int)
    requires size >= 1 && n >= 1
    ensures Paging.PageCount(n, size) >= 1
    ensures Paging.PageCount(n, size) * size <= n + size - 1
  {
    var m := n + size - 1;
    var q := m / size;
    assert m == q * size + m % size;
    assert 0 <= m % size < size;
    assert q * size > 0;
  }

  /** The rows the table shows are the server's page of the same size. */
  lemma TablePageIsPaginate<T>(rows: seq<T>, limit: TableLimit, page: int)
    ensures var v := TablePage(|rows|, limit, page);
      var size := MaxInt(1, if limit.All? then |rows| else limit.n);
      rows[v.start..v.end] == Paging.Paginate(rows, v.page, size).0
  {
  }

  /** The table's pages, read one after another, show every row once. */
  lemma TablePagesCoverRows<T>(rows: seq<T>, limit: TableLimit)
    ensures var size := MaxInt(1, if limit.All? then |rows| else limit.n);
      Paging.PagesUpTo(rows, size, TablePage(|rows|, limit, 1).pages) == rows
  {
    var size := MaxInt(1, if limit.All? then |rows| else limit.n);
    var pages := TablePage(|rows|, limit, 1).pages;
    if |rows| == 0 {
      assert pages == 1;
      Paging.PageBeyondEndEmpty(rows, size, 1);
      assert Paging.PagesUpTo(rows, size, 1) == Paging.PagesUpTo(rows, size, 0) + Paging.Paginate(rows, 1, size).0;
    } else {
      PageCountBound(|rows|, size);
      assert pages == Paging.PageCount(|rows|, size);
      Paging.AllPagesReassemble(rows, size);
    }
  }

  /** The figures `renderBorrowingContext` shows. `peopleToFund` is `None`
      where the division by a zero tax total yields an infinite count. */
  datatype BorrowingView = BorrowingView(
    totalRevenueM: real,
    totalSpendingM: real,
    impliedBorrowingM: real,
    borrowingM: real,
    pctOfRevenue: real,
    pctOfSpending: real,
    userShareGbp: real,
    peopleToFund: Option<real>)

  function RevenueInM(b: RegionBalance): real
  {
    b.contribution
  }

  function SpendingInM(b: RegionBalance): real
  {
    b.spending
  }

  /** `renderBorrowingContext`: the official figure (billions, converted to
      millions) when the response carries one, otherwise the gap between the
      regions' spending and revenue; percentages and the user's share are zero
      when their denominator is not positive. */
  function BorrowingContext(balances: seq<RegionBalance>, officialBn: Option<real>, userTaxGbp: real)
    : (v: BorrowingView)
    ensures v.totalRevenueM == SumOf(balances, RevenueInM)
    ensures v.totalSpendingM == SumOf(balances, SpendingInM)
    ensures v.impliedBorrowingM == Max(0.0, v.totalSpendingM - v.totalRevenueM)
    ensures officialBn.Some? ==> v.borrowingM == officialBn.value * 1000.0
    ensures officialBn.None? ==> v.borrowingM == v.impliedBorrowingM && v.borrowingM >= 0.0
    ensures v.totalRevenueM <= 0.0 ==> v.pctOfRevenue == 0.0 && v.userShareGbp == 0.0
    ensures v.totalSpendingM <= 0.0 ==> v.pctOfSpending == 0.0
    ensures v.borrowingM <= 0.0 ==> v.peopleToFund == Some(0.0)
    ensures v.borrowingM > 0.0 ==> (v.peopleToFund.None? <==> userTaxGbp == 0.0)
  {
    var revenue := SumOf(balances, RevenueInM);
    var spending := SumOf(balances, SpendingInM);
    var implied := Max(0.0, spending - revenue);
    var borrowing := if officialBn.Some? then officialBn.value * 1000.0 else implied;
    var pctRevenue := if revenue > 0.0 then (borrowing / revenue) * 100.0 else 0.0;
    var pctSpending := if spending > 0.0 then (borrowing / spending) * 100.0 else 0.0;
    var share := if revenue > 0.0 then borrowing * 1000000.0 * (userTaxGbp / (revenue * 1000000.0)) else 0.0;
    var people :=
      if borrowing <= 0.0 then Some(0.0)
      else if userTaxGbp == 0.0 then None
      else Some((borrowing * 1000000.0) / userTaxGbp);
    BorrowingView(revenue, spending, implied, borrowing, pctRevenue, pctSpending, share, people)
  }

  /** The first percentage is the borrowing as a percentage of revenue,
      whenever revenue is positive. */
  lemma BorrowingVsRevenue(balances: seq<RegionBalance>, officialBn: Option<real>, userTaxGbp: real)
    ensures var v := BorrowingContext(balances, officialBn, userTaxGbp);
      v.totalRevenueM > 0.0 ==> v.pctOfRevenue * v.totalRevenueM == v.borrowingM * 100.0
  {
    var v := BorrowingContext(balances, officialBn, userTaxGbp);
    if v.totalRevenueM > 0.0 {
      Attribution.CancelShare(v.borrowingM, v.totalRevenueM);
    }
  }

  /** The second percentage is the borrowing as a percentage of spending,
      whenever spending is positive. */
  lemma BorrowingVsSpending(balances: seq<RegionBalance>, officialBn: Option<real>, userTaxGbp: real)
    ensures var v := BorrowingContext(balances, officialBn, userTaxGbp);
      v.totalSpendingM > 0.0 ==> v.pctOfSpending * v.totalSpendingM == v.borrowingM * 100.0
  {
    var v := BorrowingContext(balances, officialBn, userTaxGbp);
    if v.totalSpendingM > 0.0 {
      Attribution.CancelShare(v.borrowingM, v.totalSpendingM);
    }
  }

  /** The user's share of borrowing is borrowing in proportion to the user's
      share of revenue: the million-pound scaling cancels. */
  lemma UserShareProportional(balances: seq<RegionBalance>, officialBn: Option<real>, userTaxGbp: real)
    ensures var v := BorrowingContext(balances, officialBn, userTaxGbp);
      v.totalRevenueM > 0.0 ==> v.userShareGbp * v.totalRevenueM == v.borrowingM * userTaxGbp
  {
    var v := BorrowingContext(balances, officialBn, userTaxGbp);
    if v.totalRevenueM > 0.0 {
      var r := v.totalRevenueM;
      var b := v.borrowingM;
      var t := userTaxGbp;
      var x := t / (r * 1000000.0);
      Attribution.CancelShare(t, r * 1000000.0);
      assert v.userShareGbp == b * 1000000.0 * x;
      assert b * 1000000.0 * x * r == b * (x * (r * 1000000.0));
    }
  }

  /** The number of people funding the borrowing, times the user's tax, is
      the borrowing in pounds. */
  lemma PeopleFundBorrowing(balances: seq<RegionBalance>, officialBn: Option<real>, userTaxGbp: real)
    ensures var v := BorrowingContext(balances, officialBn, userTaxGbp);
      v.borrowingM > 0.0 && v.peopleToFund.Some? ==> v.peopleToFund.value * userTaxGbp == v.borrowingM * 1000000.0
  {
  }

  /** The services the pie draws individually. */
  const PieTopCount := 15

  /** The "Everything else" slice: the services beyond the top fifteen plus
      the tax not attributed to any service. */
  datatype RemainderSlice = RemainderSlice(
    contributionGbp: real,
    sharePercent: real,
    otherServicesPct: real,
    unattributedPct: real)

  function Prefix<T>(s: seq<T>, k: nat): (r: seq<T>)
    ensures |r| == if |s| < k then |s| else k
    ensures forall i :: 0 <= i < |r| ==> r[i] == s[i]
  {
    if |s| < k then s else s[..k]
  }

  /** `renderPie`'s slices: the first fifteen services, and the remainder
      slice when it exceeds 0.01 percent. */
  function PieSlices(services: seq<Service>, userTotalTax: real): (r: (seq<Service>, Option<RemainderSlice>))
    ensures |r.0| == (if |services| < PieTopCount then |services| else PieTopCount)
    ensures forall i :: 0 <= i < |r.0| ==> r.0[i] == services[i]
    ensures r.1.Some? ==> var slice := r.1.value;
      && slice.sharePercent > 0.01
      && slice.otherServicesPct >= 0.0 && slice.unattributedPct >= 0.0
      && slice.sharePercent == slice.otherServicesPct + slice.unattributedPct
      && slice.contributionGbp == userTotalTax * slice.sharePercent / 100.0
    ensures r.1.None? ==> SumOf(services, AmountOf(Share)) - SumOf(r.0, AmountOf(Share)) <= 0.01
    ensures var total := SumOf(services, AmountOf(Share));
      var other := Max(0.0, total - SumOf(r.0, AmountOf(Share)));
      var unattributed := Max(0.0, 100.0 - total);
      && (r.1.Some? <==> other + unattributed > 0.01)
      && (r.1.Some? ==> r.1.value.otherServicesPct == other && r.1.value.unattributedPct == unattributed)
  {
    var top := Prefix(services, PieTopCount);
    var totalPct := SumOf(services, AmountOf(Share));
    var topPct := SumOf(top, AmountOf(Share));
    var otherPct := Max(0.0, totalPct - topPct);
    var unattributedPct := Max(0.0, 100.0 - totalPct);
    var restPct := Max(0.0, otherPct + unattributedPct);
    if restPct > 0.01 then
      (top, Some(RemainderSlice((userTotalTax * restPct) / 100.0, restPct, otherPct, unattributedPct)))
    else (top, None)
  }

  /** With non-negative shares, the services beyond the top fifteen are
      exactly the "other services" part of the remainder. */
  lemma OtherServicesAreTheTail(services: seq<Service>)
    requires forall i :: 0 <= i < |services| ==> services[i].sharePercent >= 0.0
    ensures var top := Prefix(services, PieTopCount);
      var tail := services[|top|..];
      Max(0.0, SumOf(services, AmountOf(Share)) - SumOf(top, AmountOf(Share))) == SumOf(tail, AmountOf(Share))
  {
    var top := Prefix(services, PieTopCount);
    var tail := services[|top|..];
    assert services == top + tail;
    SumAppend(top, tail, AmountOf(Share));
    SumNonNegative(tail, AmountOf(Share));
  }

  /** The remainder arithmetic: with a non-negative tail, the remainder is
      what the drawn part lacks of 100, or of the total when the shares
      exceed 100. */
  lemma RemainderFillsPie(total: real, top: real, tail: real)
    requires total == top + tail && tail >= 0.0
    ensures Max(0.0, Max(0.0, total - top) + Max(0.0, 100.0 - total)) == Max(100.0, total) - top
  {
  }

  /** With non-negative shares, the pie's slices add up to 100 percent, or
      to the total share when spending exceeds revenue and the shares pass
      100, whenever the remainder is drawn; it is drawn exactly when the
      drawn slices fall short of that by more than 0.01. */
  lemma PieCompletes(services: seq<Service>, userTotalTax: real)
    requires forall i :: 0 <= i < |services| ==> services[i].sharePercent >= 0.0
    ensures var r := PieSlices(services, userTotalTax);
      var drawn := SumOf(r.0, AmountOf(Share));
      var whole := Max(100.0, SumOf(services, AmountOf(Share)));
      && (r.1.Some? <==> whole - drawn > 0.01)
      && (r.1.Some? ==> drawn + r.1.value.sharePercent == whole)
      && (r.1.None? ==> drawn >= whole - 0.01)
  {
    var top := Prefix(services, PieTopCount);
    var tail := services[|top|..];
    assert services == top + tail;
    SumAppend(top, tail, AmountOf(Share));
    SumNonNegative(tail, AmountOf(Share));
    RemainderFillsPie(SumOf(services, AmountOf(Share)), SumOf(top, AmountOf(Share)), SumOf(tail, AmountOf(Share)));
  }
}

=== FILE: csv_writer.dfy ===
/** `_rows_to_csv`: the export's CSV text, written the way `csv.DictWriter`
    writes with the default dialect (comma separator, `"` quote character,
    doubled quotes, CRLF line ends, minimal quoting), which follows section 2
    of RFC 4180. A reader of that format is defined independently below, and
    reading the text back gives the header and every row's cells. Cells are
    given already rendered as text. */
module CsvWriter {
  import opened Wrappers
  import opened Tables
  import Attribution
  import Regional

  /** One row: column name to rendered cell, as the exported dict. */
  type Row = seq<(string, string)>

  /** Characters that force a field into quotes. */
  predicate IsSpecial(c: char)
  {
    c == ',' || c == '"' || c == '\r' || c == '\n'
  }

  /** Characters that end an unquoted field when reading. */
  predicate IsFieldEnd(c: char)
  {
    c == ',' || c == '\r' || c == '\n'
  }

  predicate Plain(f: string)
  {
    forall i :: 0 <= i < |f| ==> !IsSpecial(f[i])
  }

  /** Each `"` doubled. */
  function Escape(f: string): (r: string)
    ensures |r| >= |f|
  {
    if |f| == 0 then []
    else (if f[0] == '"' then "\"\"" else [f[0]]) + Escape(f[1..])
  }

  /** One field as written: quoted when it holds a special character, and
      when it is the only field of its record and empty, so that the record
      is not a blank line. */
  function QuoteField(f: string, alone: bool): (r: string)
    ensures !Plain(f) || (alone && f == []) ==> |r| >= 2 && r[0] == '"'
    ensures Plain(f) && !(alone && f == []) ==> r == f
  {
    if !Plain(f) || (alone && f == []) then "\"" + Escape(f) + "\"" else f
  }

  /** Fields of a record with at least two fields, comma-separated. */
  function Join(fs: seq<string>): string
    requires |fs| >= 1
  {
    QuoteField(fs[0], false) + (if |fs| == 1 then "" else "," + Join(fs[1..]))
  }

  /** One record as written, with its line end. */
  function FormatRecord(fs: seq<string>): (r: string)
    ensures |r| >= 2 && r[|r| - 2..] == "\r\n"
  {
    (if |fs| == 0 then "" else if |fs| == 1 then QuoteField(fs[0], true) else Join(fs)) + "\r\n"
  }

  /** The records one after the other. */
  function Concat(records: seq<seq<string>>): string
  {
    if |records| == 0 then "" else FormatRecord(records[0]) + Concat(records[1..])
  }

  /** `row.get(key, "")`: a column the row lacks is written empty. */
  function Get(row: Row, key: string): string
  {
    Lookup(row, key).GetOr("")
  }

  /** A key of the row that is not a column. */
  predicate HasExtraKey(row: Row, fieldnames: seq<string>)
  {
    exists i :: 0 <= i < |row| && row[i].0 !in fieldnames
  }

  /** `DictWriter._dict_to_list`: the cells in column order, or the error the
      writer raises for a key that is not a column. */
  function DictToList(row: Row, fieldnames: seq<string>): (r: Result<seq<string>, string>)
    ensures r.Success? <==> !HasExtraKey(row, fieldnames)
    ensures r.Success? ==>
      && |r.value| == |fieldnames|
      && forall j :: 0 <= j < |fieldnames| ==> r.value[j] == Get(row, fieldnames[j])
  {
    if HasExtraKey(row, fieldnames) then Failure("ValueError: dict contains fields not in fieldnames")
    else Success(seq(|fieldnames|, j requires 0 <= j < |fieldnames| => Get(row, fieldnames[j])))
  }

  /** The cells of every row, or the first row's error. */
  function RecordsOf(rows: seq<Row>, fieldnames: seq<string>): (r: Result<seq<seq<string>>, string>)
    ensures r.Success? <==> forall i :: 0 <= i < |rows| ==> !HasExtraKey(rows[i], fieldnames)
    ensures r.Success? ==>
      && |r.value| == |rows|
      && forall i :: 0 <= i < |rows| ==> r.value[i] == DictToList(rows[i], fieldnames).value
  {
    if |rows| == 0 then Success([])
    else
      var first := DictToList(rows[0], fieldnames);
      if first.Failure? then Failure(first.error)
      else
        var more := RecordsOf(rows[1..], fieldnames);
        if more.Failure? then Failure(more.error)
        else
          assert forall i :: 1 <= i < |rows| ==> rows[i] == rows[1..][i - 1];
          Success([first.value] + more.value)
  }

  /** `_rows_to_csv`: the header line, then one line per row. */
  function RowsToCsv(rows: seq<Row>, fieldnames: seq<string>): (r: Result<string, string>)
    ensures r.Success? <==> forall i :: 0 <= i < |rows| ==> !HasExtraKey(rows[i], fieldnames)
  {
    var records := RecordsOf(rows, fieldnames);
    if records.Failure? then Failure(records.error)
    else Success(Concat([fieldnames] + records.value))
  }

  // A reader for the same format.

  /** The rest of a quoted field after its opening quote: its text and what
      follows the closing quote. */
  function ParseQuoted(s: string): (r: Option<(string, string)>)
    ensures r.Some? ==> |r.value.1| < |s|
  {
    if |s| == 0 then None
    else if s[0] == '"' then
      if |s| > 1 && s[1] == '"' then
        var more := ParseQuoted(s[2..]);
        if more.None? then None else Some(("\"" + more.value.0, more.value.1))
      else Some(([], s[1..]))
    else
      var more := ParseQuoted(s[1..]);
      if more.None? then None else Some(([s[0]] + more.value.0, more.value.1))
  }

  /** The text before the first field end. */
  function Unquoted(s: string): (r: string)
    ensures |r| <= |s| && r == s[..|r|]
    ensures forall i :: 0 <= i < |r| ==> !IsFieldEnd(r[i])
    ensures |r| == |s| || IsFieldEnd(s[|r|])
  {
    if |s| == 0 || IsFieldEnd(s[0]) then [] else [s[0]] + Unquoted(s[1..])
  }

  /** One field and what follows it. */
  function ParseField(s: string): (r: Option<(string, string)>)
    ensures r.Some? ==> |r.value.1| <= |s|
  {
    if |s| > 0 && s[0] == '"' then ParseQuoted(s[1..])
    else
      var f := Unquoted(s);
      Some((f, s[|f|..]))
  }

  /** The fields of one record and what follows its line end. */
  function ParseFields(s: string): (r: Option<(seq<string>, string)>)
    ensures r.Some? ==> |r.value.1| < |s|
    decreases |s|
  {
    var field := ParseField(s);
    if field.None? then None
    else
      var rest := field.value.1;
      if |rest| > 0 && rest[0] == ',' then
        var more := ParseFields(rest[1..]);
        if more.None? then None else Some(([field.value.0] + more.value.0, more.value.1))
      else if |rest| >= 2 && rest[0] == '\r' && rest[1] == '\n' then Some(([field.value.0], rest[2..]))
      else None
  }

  /** Every record of a text. */
  function ParseDocument(s: string): Option<seq<seq<string>>>
    decreases |s|
  {
    if |s| == 0 then Some([])
    else
      var first := ParseFields(s);
      if first.None? then None
      else
        var more := ParseDocument(first.value.1);
        if more.None? then None else Some([first.value.0] + more.value)
  }

  // Reading back what was written.

  /** An escaped field and its closing quote read back as the field. */
  lemma {:induction false} EscapeRoundTrip(f: string, rest: string)
    requires rest == [] || rest[0] != '"'
    ensures ParseQuoted(Escape(f) + "\"" + rest) == Some((f, rest))
    decreases |f|
  {
    var s := Escape(f) + "\"" + rest;
    if |f| == 0 {
      assert s == "\"" + rest;
      assert s[1..] == rest;
    } else {
      EscapeRoundTrip(f[1..], rest);
      var tail := Escape(f[1..]) + "\"" + rest;
      if f[0] == '"' {
        assert s == "\"\"" + tail;
        assert s[2..] == tail;
      } else {
        assert s == [f[0]] + tail;
        assert s[1..] == tail;
      }
      assert [f[0]] + f[1..] == f;
    }
  }

  lemma {:induction false} UnquotedOf(f: string, rest: string)
    requires forall i :: 0 <= i < |f| ==> !IsFieldEnd(f[i])
    requires rest == [] || IsFieldEnd(rest[0])
    ensures Unquoted(f + rest) == f
    decreases |f|
  {
    if |f| == 0 {
      assert f + rest == rest;
    } else {
      assert (f + rest)[1..] == f[1..] + rest;
      UnquotedOf(f[1..], rest);
    }
  }

  /** A written field reads back as itself, whatever separator follows it. */
  lemma FieldRoundTrip(f: string, alone: bool, rest: string)
    requires rest == [] || rest[0] == ',' || rest[0] == '\r'
    ensures ParseField(QuoteField(f, alone) + rest) == Some((f, rest))
  {
    if !Plain(f) || (alone && f == []) {
      var s := "\"" + Escape(f) + "\"" + rest;
      assert s[1..] == Escape(f) + "\"" + rest;
      EscapeRoundTrip(f, rest);
    } else {
      UnquotedOf(f, rest);
      assert (f + rest)[|f|..] == rest;
      if f == [] {
        assert f + rest == rest;
      }
    }
  }

  /** A field followed by a comma is the first of the record's fields. */
  lemma ParseFieldsComma(s: string, f: string, tail: string)
    requires ParseField(s) == Some((f, tail)) && |tail| > 0 && tail[0] == ','
    ensures var more := ParseFields(tail[1..]);
      ParseFields(s) == if more.None? then None else Some(([f] + more.value.0, more.value.1))
  {
  }

  /** A field followed by a line end is the last of the record's fields. */
  lemma ParseFieldsEnd(s: string, f: string, rest: string)
    requires ParseField(s) == Some((f, "\r\n" + rest))
    ensures ParseFields(s) == Some(([f], rest))
  {
    assert ("\r\n" + rest)[2..] == rest;
  }

  /** Fields joined by commas and followed by a line end read back as those fields. */
  lemma {:induction false} JoinRoundTrip(fs: seq<string>, rest: string)
    requires |fs| >= 1
    ensures ParseFields(Join(fs) + "\r\n" + rest) == Some((fs, rest))
    decreases |fs|
  {
    var field := QuoteField(fs[0], false);
    if |fs| == 1 {
      var tail := "\r\n" + rest;
      assert Join(fs) + "\r\n" + rest == field + tail;
      FieldRoundTrip(fs[0], false, tail);
      ParseFieldsEnd(field + tail, fs[0], rest);
      assert [fs[0]] == fs;
    } else {
      var inner := Join(fs[1..]) + "\r\n" + rest;
      var tail := [','] + inner;
      assert Join(fs) + "\r\n" + rest == field + tail;
      FieldRoundTrip(fs[0], false, tail);
      ParseFieldsComma(field + tail, fs[0], tail);
      assert tail[1..] == inner;
      JoinRoundTrip(fs[1..], rest);
      assert [fs[0]] + fs[1..] == fs;
    }
  }

  /** A written record reads back as its fields. */
  lemma RecordRoundTrip(fs: seq<string>, rest: string)
    requires |fs| >= 1
    ensures ParseFields(FormatRecord(fs) + rest) == Some((fs, rest))
  {
    if |fs| == 1 {
      var field := QuoteField(fs[0], true);
      var tail := "\r\n" + rest;
      assert FormatRecord(fs) + rest == field + tail;
      FieldRoundTrip(fs[0], true, tail);
      ParseFieldsEnd(field + tail, fs[0], rest);
      assert [fs[0]] == fs;
    } else {
      assert FormatRecord(fs) + rest == Join(fs) + "\r\n" + rest;
      JoinRoundTrip(fs, rest);
    }
  }

  /** Written records read back as themselves, in order. */
  lemma {:induction false} DocumentRoundTrip(records: seq<seq<string>>)
    requires forall i :: 0 <= i < |records| ==> |records[i]| >= 1
    ensures ParseDocument(Concat(records)) == Some(records)
    decreases |records|
  {
    if |records| > 0 {
      RecordRoundTrip(records[0], Concat(records[1..]));
      DocumentRoundTrip(records[1..]);
      assert [records[0]] + records[1..] == records;
    }
  }

  /** The CSV text reads back as the header followed by each row's cells in
      column order, a missing column being empty. */
  lemma CsvRoundTrip(rows: seq<Row>, fieldnames: seq<string>)
    requires |fieldnames| >= 1
    requires RowsToCsv(rows, fieldnames).Success?
    ensures var doc := ParseDocument(RowsToCsv(rows, fieldnames).value);
      && doc.Some? && |doc.value| == |rows| + 1 && doc.value[0] == fieldnames
      && forall i, j :: 0 <= i < |rows| && 0 <= j < |fieldnames| ==>
           |doc.value[i + 1]| == |fieldnames| && doc.value[i + 1][j] == Get(rows[i], fieldnames[j])
  {
    var records := RecordsOf(rows, fieldnames).value;
    var all := [fieldnames] + records;
    assert forall i :: 1 <= i < |all| ==> all[i] == records[i - 1];
    DocumentRoundTrip(all);
  }

  // The two exports.

  const ServiceColumns: seq<string> :=
    ["function_label", "spending_amount_m_gbp", "user_contribution_gbp", "share_of_user_tax_percent"]

  const BalanceColumns: seq<string> :=
    ["geography_code", "geography_name", "contribution_m_gbp", "spending_m_gbp", "net_balance_m_gbp"]

  /** A dict with `keys` in order, holding `cells`. */
  function Zip(keys: seq<string>, cells: seq<string>): (row: Row)
    requires |keys| == |cells|
    ensures |row| == |keys| && forall i :: 0 <= i < |keys| ==> row[i] == (keys[i], cells[i])
  {
    seq(|keys|, i requires 0 <= i < |keys| => (keys[i], cells[i]))
  }

  /** A row holding exactly the columns, once each, gives back its cells. */
  lemma ZipCells(keys: seq<string>, cells: seq<string>)
    requires |keys| == |cells|
    requires forall i, j :: 0 <= i < j < |keys| ==> keys[i] != keys[j]
    ensures !HasExtraKey(Zip(keys, cells), keys)
    ensures DictToList(Zip(keys, cells), keys).value == cells
  {
    var row := Zip(keys, cells);
    assert forall i :: 0 <= i < |row| ==> row[i].0 == keys[i];
    assert DistinctKeys(row);
    forall j | 0 <= j < |keys|
      ensures Get(row, keys[j]) == cells[j]
    {
      LookupEntry(row, j);
    }
  }

  /** A service's dumped fields, amounts rendered by `render`. */
  function ServiceRow(s: Attribution.ServiceContribution, render: real -> string): Row
  {
    Zip(ServiceColumns, ServiceCellsOf(s, render))
  }

  /** A region's dumped fields, amounts rendered by `render`. */
  function BalanceRow(b: Regional.RegionBalance, render: real -> string): Row
  {
    Zip(BalanceColumns, BalanceCellsOf(b, render))
  }

  function ServiceRows(services: seq<Attribution.ServiceContribution>, render: real -> string): (rows: seq<Row>)
    ensures |rows| == |services| && forall i :: 0 <= i < |services| ==> rows[i] == ServiceRow(services[i], render)
  {
    seq(|services|, i requires 0 <= i < |services| => ServiceRow(services[i], render))
  }

  function ServiceTable(services: seq<Attribution.ServiceContribution>, render: real -> string): (cells: seq<seq<string>>)
    ensures |cells| == |services| && forall i :: 0 <= i < |services| ==> cells[i] == ServiceCellsOf(services[i], render)
  {
    seq(|services|, i requires 0 <= i < |services| => ServiceCellsOf(services[i], render))
  }

  lemma ServiceColumnsDistinct()
    ensures forall i, j :: 0 <= i < j < |ServiceColumns| ==> ServiceColumns[i] != ServiceColumns[j]
  {
  }

  function BalanceRows(balances: seq<Regional.RegionBalance>, render: real -> string): (rows: seq<Row>)
    ensures |rows| == |balances| && forall i :: 0 <= i < |balances| ==> rows[i] == BalanceRow(balances[i], render)
  {
    seq(|balances|, i requires 0 <= i < |balances| => BalanceRow(balances[i], render))
  }

  function BalanceTable(balances: seq<Regional.RegionBalance>, render: real -> string): (cells: seq<seq<string>>)
    ensures |cells| == |balances| && forall i :: 0 <= i < |balances| ==> cells[i] == BalanceCellsOf(balances[i], render)
  {
    seq(|balances|, i requires 0 <= i < |balances| => BalanceCellsOf(balances[i], render))
  }

  lemma BalanceColumnsDistinct()
    ensures forall i, j :: 0 <= i < j < |BalanceColumns| ==> BalanceColumns[i] != BalanceColumns[j]
  {
  }

  /** Rows whose keys are all columns export without error and read back as
      the header followed by their cells. */
  lemma ExportReadsBack(rows: seq<Row>, fieldnames: seq<string>, cells: seq<seq<string>>)
    requires |fieldnames| >= 1 && |cells| == |rows|
    requires forall i :: 0 <= i < |rows| ==> !HasExtraKey(rows[i], fieldnames)
    requires forall i :: 0 <= i < |rows| ==> DictToList(rows[i], fieldnames).value == cells[i]
    ensures RowsToCsv(rows, fieldnames).Success?
    ensures ParseDocument(RowsToCsv(rows, fieldnames).value) == Some([fieldnames] + cells)
  {
    var records := RecordsOf(rows, fieldnames).value;
    assert records == cells;
    var all := [fieldnames] + cells;
    assert forall i :: 1 <= i < |all| ==> all[i] == cells[i - 1];
    DocumentRoundTrip(all);
  }

  function ServiceCellsOf(s: Attribution.ServiceContribution, render: real -> string): seq<string>
  {
    [s.functionLabel, render(s.spending), render(s.contribution), render(s.sharePercent)]
  }

  function BalanceCellsOf(b: Regional.RegionBalance, render: real -> string): seq<string>
  {
    [b.geographyCode, b.geographyName, render(b.contribution), render(b.spending), render(b.netBalance)]
  }

  /** The services export: every dumped field is a column, so the export
      never fails, and it reads back as the header and each service's fields. */
  lemma ServicesExport(services: seq<Attribution.ServiceContribution>, render: real -> string)
    ensures var rows := ServiceRows(services, render);
      var cells := ServiceTable(services, render);
      && RowsToCsv(rows, ServiceColumns).Success?
      && ParseDocument(RowsToCsv(rows, ServiceColumns).value) == Some([ServiceColumns] + cells)
  {
    var rows := ServiceRows(services, render);
    var cells := ServiceTable(services, render);
    forall i | 0 <= i < |services|
      ensures !HasExtraKey(rows[i], ServiceColumns)
      ensures DictToList(rows[i], ServiceColumns).value == cells[i]
    {
      ServiceColumnsDistinct();
      ZipCells(ServiceColumns, cells[i]);
    }
    ExportReadsBack(rows, ServiceColumns, cells);
  }

  /** The balances export: never fails, and reads back as the header and each
      region's fields. */
  lemma BalancesExport(balances: seq<Regional.RegionBalance>, render: real -> string)
    ensures var rows := BalanceRows(balances, render);
      var cells := BalanceTable(balances, render);
      && RowsToCsv(rows, BalanceColumns).Success?
      && ParseDocument(RowsToCsv(rows, BalanceColumns).value) == Some([BalanceColumns] + cells)
  {
    var rows := BalanceRows(balances, render);
    var cells := BalanceTable(balances, render);
    forall i | 0 <= i < |balances|
      ensures !HasExtraKey(rows[i], BalanceColumns)
      ensures DictToList(rows[i], BalanceColumns).value == cells[i]
    {
      BalanceColumnsDistinct();
      ZipCells(BalanceColumns, cells[i]);
    }
    ExportReadsBack(rows, BalanceColumns, cells);
  }
}

=== FILE: datasets.dfy ===
/** The processed rows the API reads. CSV reading and `float()` are not
    modelled: numeric columns arrive already parsed. */
module Datasets {

  /** A row of the ONS regional revenue or expenditure file. */
  datatype OnsRow = OnsRow(year: string, geographyCode: string, geographyName: string, metric: string, amount: real)

  /** A row of the functional spending file. */
  datatype SpendingRow = SpendingRow(year: string, rowType: string, functionLabel: string, amount: real)
}

=== FILE: estimator.dfy ===
/** The household estimate of `/tax/estimate`: `_estimate_tax_totals`
    assembles the charges, the total, the effective rate, take-home pay and
    the uncertainty range; `tax_estimate` adds the comparison with another
    tax year. */
module Estimator {
  import opened Wrappers
  import opened Arith
  import opened Rounding
  import opened TaxParams
  import opened Levies
  import opened Requests
  import opened Household

  /** A VAT rate of -1 would divide by zero; every other request can be computed. */
  predicate VatComputable(req: TaxEstimateRequest)
  {
    req.policyOverrides.None? || req.policyOverrides.value.vatRate != Some(-1.0)
  }

  /** The tax year's table with the request's policy overrides applied. */
  function Parameters(req: TaxEstimateRequest): (p: TaxParameters)
    ensures VatComputable(req) ==> p.vatRate != -1.0
    ensures ValidTaxEstimateRequest(req) ==> ValidParameters(p)
    ensures req.policyOverrides.None? ==> p == GetTaxParameters(req.taxYear)
  {
    ApplyPolicyOverrides(GetTaxParameters(req.taxYear), req.policyOverrides)
  }

  // The couple's income tax and NI

  /** Both adults' taxes, the marriage allowance outcome, and the household's
      income tax (after the credit) and NI, each rounded to pence. */
  datatype CoupleTax = CoupleTax(
    primary: PersonTax, partner: PersonTax, marriage: MarriageOutcome, incomeTax: real, ni: real)

  /** The marriage allowance applied to two adults' taxes, and the household
      totals rounded to pence. */
  function Couple(primary: PersonTax, partner: PersonTax, eligible: bool): CoupleTax
  {
    var m := MarriageAllowance(eligible, primary.incomeTax, partner.incomeTax);
    CoupleTax(primary, partner, m, Round2(m.primaryTax + m.partnerTax), Round2(primary.ni + partner.ni))
  }

  function CoupleTaxes(req: TaxEstimateRequest, p: TaxParameters): CoupleTax
  {
    var a := AdjustedIncome(req);
    var b := AdjustedPartnerIncome(req);
    Couple(PrimaryTax(req, p, a), ComputePersonTax(b, p, 0.0), MarriageEligible(req.marriageAllowanceTransfer, a, b, p))
  }

  /** The household's income tax is exactly the two adults' income tax less
      the marriage credit, its NI exactly their NI, and the credit lies between
      zero and the fixed amount. */
  predicate CoupleExact(c: CoupleTax)
  {
    && WholePence(c.primary) && WholePence(c.partner)
    && c.incomeTax == c.primary.incomeTax + c.partner.incomeTax - c.marriage.credit
    && c.ni == c.primary.ni + c.partner.ni
    && 0.0 <= c.marriage.credit <= MarriageAllowanceCredit
    && c.incomeTax >= 0.0 && c.ni >= 0.0 && IsCents(c.incomeTax) && IsCents(c.ni)
  }

  lemma CoupleIsExact(primary: PersonTax, partner: PersonTax, eligible: bool)
    requires WholePence(primary) && WholePence(partner)
    ensures CoupleExact(Couple(primary, partner, eligible))
  {
    var c := Couple(primary, partner, eligible);
    MarriageAllowanceExact(eligible, primary.incomeTax, partner.incomeTax);
    var m := c.marriage;
    CentsAdd(m.primaryTax, m.partnerTax);
    Round2Exact(m.primaryTax + m.partnerTax);
    CentsAdd(primary.ni, partner.ni);
    Round2Exact(primary.ni + partner.ni);
  }

  /** Under a valid table the household's taxes are exact in this sense. */
  lemma CoupleTaxesExact(req: TaxEstimateRequest, p: TaxParameters)
    requires ValidParameters(p)
    ensures CoupleExact(CoupleTaxes(req, p))
  {
    var a := AdjustedIncome(req);
    var b := AdjustedPartnerIncome(req);
    PrimaryTaxWholePence(req, p, a);
    PersonTaxWholePence(b, p, 0.0);
    CoupleIsExact(PrimaryTax(req, p, a), ComputePersonTax(b, p, 0.0), MarriageEligible(req.marriageAllowanceTransfer, a, b, p));
  }

  // The seven charges

  /** Adjusted household income, from which disposable income is worked out. */
  function AdjustedHouseholdIncome(req: TaxEstimateRequest): real
  {
    AdjustedIncome(req) + AdjustedPartnerIncome(req)
  }

  function HouseholdComponents(req: TaxEstimateRequest, service: string -> PostcodeReply): Components
    requires VatComputable(req)
  {
    var p := Parameters(req);
    var couple := CoupleTaxes(req, p);
    var a := AdjustedIncome(req);
    Components(
      incomeTax := couple.incomeTax,
      ni := couple.ni,
      vat := Vat(AdjustedHouseholdIncome(req), couple.incomeTax, couple.ni, req.vatableSpendRatio, p),
      council := CouncilCharge(req.councilTaxOverride, ChooseCouncil(req, service).regionUsed, req.councilTaxBand),
      savings := SavingsTax(a, req.savingsInterest),
      dividend := DividendTax(a, req.dividendIncome),
      studentLoan := StudentLoanRepayment(a, req.studentLoanPlan))
  }

  /** The charges with the VAT worked out at another spend ratio and the
      council tax at a bound; the rest unchanged. */
  function ComponentsAt(req: TaxEstimateRequest, c: Components, ratio: real, councilFactor: real): Components
    requires VatComputable(req)
  {
    c.(vat := Vat(AdjustedHouseholdIncome(req), c.incomeTax, c.ni, ratio, Parameters(req)),
       council := CouncilBound(c.council, req.councilTaxOverride.Some?, councilFactor))
  }

  lemma VatWholePence(income: real, incomeTax: real, ni: real, ratio: real, p: TaxParameters)
    requires p.vatRate >= 0.0 && ratio >= 0.0
    ensures Vat(income, incomeTax, ni, ratio, p) >= 0.0
    ensures IsCents(Vat(income, incomeTax, ni, ratio, p))
  {
    VatMonotone(income, incomeTax, incomeTax, ni, ratio, ratio, p);
    Round2IsCents(VatOnSpend(Disposable(income, incomeTax, ni), ratio, p.vatRate));
  }

  lemma SavingsWholePence(income: real, interest: real, dividends: real)
    ensures SavingsTax(income, interest) >= 0.0 && IsCents(SavingsTax(income, interest))
    ensures DividendTax(income, dividends) >= 0.0 && IsCents(DividendTax(income, dividends))
  {
    ZeroIsCents();
    SavingsTaxShape(income, interest, interest);
    Round2IsCents(Excess(interest, SavingsAllowance(income), SavingsRate(income)));
    DividendTaxShape(income, income, dividends, dividends);
    Round2IsCents(Excess(dividends, DividendAllowance, DividendRate(income)));
  }

  lemma StudentLoanWholePence(income: real, plan: string)
    ensures StudentLoanRepayment(income, plan) >= 0.0 && IsCents(StudentLoanRepayment(income, plan))
  {
    ZeroIsCents();
    StudentLoanShape(income, income, plan);
    var (threshold, rate) := PlanTerms(plan);
    Round2IsCents(Max(0.0, income - threshold) * rate);
  }

  /** For a valid request every charge is a non-negative whole number of pence. */
  lemma ComponentsWholePence(req: TaxEstimateRequest, service: string -> PostcodeReply)
    requires ValidTaxEstimateRequest(req)
    ensures AllWholePence(HouseholdComponents(req, service))
  {
    var p := Parameters(req);
    var couple := CoupleTaxes(req, p);
    var a := AdjustedIncome(req);
    CoupleTaxesExact(req, p);
    VatWholePence(AdjustedHouseholdIncome(req), couple.incomeTax, couple.ni, req.vatableSpendRatio, p);
    CouncilChargeWholePence(req.councilTaxOverride, ChooseCouncil(req, service).regionUsed, req.councilTaxBand);
    SavingsWholePence(a, req.savingsInterest, req.dividendIncome);
    StudentLoanWholePence(a, req.studentLoanPlan);
  }

  // The estimate

  /** The assumptions echoed back with the estimate. */
  datatype Assumptions = Assumptions(
    taxYear: string, vatableSpendRatio: real, vatRate: real, niMainRate: real, niUpperRate: real,
    adjustedIncome: real, adjustedPartnerIncome: real,
    pensionSalarySacrifice: real, pensionReliefAtSource: real, giftAid: real, otherPreTaxDeductions: real,
    councilTaxBand: string, councilName: string, postcodeLookupRegion: string, councilTaxRegionUsed: string,
    nation: string, employmentType: string, studentLoanPlan: string,
    policySimulationActive: bool, marriageAllowanceCredit: real)

  datatype HouseholdSummary = HouseholdSummary(
    householdIncome: real, partnerIncome: real, adults: nat, marriageAllowanceTransfer: bool)

  datatype Comparison = Comparison(compareTaxYear: string, total: real, delta: real, deltaPercent: real)

  datatype Estimate = Estimate(
    annualIncome: real,
    charges: Components,
    total: real,
    effectiveRate: real,
    assumptions: Assumptions,
    household: HouseholdSummary,
    comparison: Option<Comparison>,
    takeHome: real,
    low: real,
    high: real)

  /** Total tax over gross household income, to six places; zero for no income. */
  function EffectiveRate(total: real, gross: real): (r: real)
    ensures gross == 0.0 ==> r == 0.0
    ensures gross != 0.0 ==> -0.0000005 <= r - total / gross <= 0.0000005
  {
    var ratio := if gross != 0.0 then total / gross else 0.0;
    RoundZero(6);
    RoundError(ratio, 6);
    RoundTo(ratio, 6)
  }

  /** Gross household income less the total, to pence. */
  function TakeHome(gross: real, total: real): (r: real)
    ensures -0.005 <= r - (gross - total) <= 0.005
    ensures IsCents(gross) && IsCents(total) ==> r == gross - total
  {
    RoundError(gross - total, 2);
    if IsCents(gross) && IsCents(total) then
      CentsAdd(gross, total);
      Round2Exact(gross - total);
      Round2(gross - total)
    else
      Round2(gross - total)
  }

  /** `_estimate_tax_totals`. The postcode service is a parameter. */
  function EstimateTaxTotals(req: TaxEstimateRequest, service: string -> PostcodeReply): (e: Estimate)
    requires VatComputable(req)
    ensures e.comparison.None?
  {
    var p := Parameters(req);
    var couple := CoupleTaxes(req, p);
    var c := HouseholdComponents(req, service);
    var choice := ChooseCouncil(req, service);
    var gross := req.annualIncome + req.partnerAnnualIncome;
    var total := Total(c);
    Estimate(
      annualIncome := Round2(req.annualIncome),
      charges := c,
      total := total,
      effectiveRate := EffectiveRate(total, gross),
      assumptions := Assumptions(
        req.taxYear, req.vatableSpendRatio, p.vatRate, p.niMainRate, p.niUpperRate,
        Round2(AdjustedIncome(req)), Round2(AdjustedPartnerIncome(req)),
        req.pensionSalarySacrifice, req.pensionReliefAtSource, req.giftAid, req.otherPreTaxDeductions,
        req.councilTaxBand, choice.councilName, choice.lookupRegion, choice.regionUsed,
        req.nation, req.employmentType, req.studentLoanPlan,
        req.policyOverrides.Some?, couple.marriage.credit),
      household := HouseholdSummary(
        Round2(gross), Round2(req.partnerAnnualIncome),
        if req.partnerAnnualIncome > 0.0 then 2 else 1, req.marriageAllowanceTransfer),
      comparison := None,
      takeHome := TakeHome(gross, total),
      low := Total(ComponentsAt(req, c, VatRatioLow(req.vatableSpendRatio), 0.9)),
      high := Total(ComponentsAt(req, c, VatRatioHigh(req.vatableSpendRatio), 1.1)))
  }

  /** For a valid request the total is exactly the sum of the seven charges,
      each a non-negative whole number of pence; the household's income tax is
      the two adults' less the marriage credit reported in the assumptions. */
  lemma TotalIsSumOfCharges(req: TaxEstimateRequest, service: string -> PostcodeReply)
    requires ValidTaxEstimateRequest(req)
    ensures var e := EstimateTaxTotals(req, service);
      && AllWholePence(e.charges)
      && e.total == Sum(e.charges) && e.total >= 0.0
    ensures var e := EstimateTaxTotals(req, service);
      var couple := CoupleTaxes(req, Parameters(req));
      && e.charges.incomeTax == couple.primary.incomeTax + couple.partner.incomeTax - e.assumptions.marriageAllowanceCredit
      && 0.0 <= e.assumptions.marriageAllowanceCredit <= MarriageAllowanceCredit
  {
    ComponentsWholePence(req, service);
    TotalIsSum(HouseholdComponents(req, service));
    CoupleTaxesExact(req, Parameters(req));
  }

  /** Recomputing the charges at another spend ratio and council factor
      changes only the VAT and the council tax. */
  lemma ComponentsAtFields(req: TaxEstimateRequest, c: Components, ratio: real, councilFactor: real)
    requires VatComputable(req)
    ensures var d := ComponentsAt(req, c, ratio, councilFactor);
      && d.(vat := c.vat, council := c.council) == c
      && d.vat == Vat(AdjustedHouseholdIncome(req), c.incomeTax, c.ni, ratio, Parameters(req))
      && d.council == CouncilBound(c.council, req.councilTaxOverride.Some?, councilFactor)
  {
  }

  /** VAT at the lower spend ratio is at most the VAT charged, at the higher
      ratio at least; neither is negative. */
  lemma VatBracket(req: TaxEstimateRequest, t: real, ni: real)
    requires ValidTaxEstimateRequest(req)
    ensures var income, p, r := AdjustedHouseholdIncome(req), Parameters(req), req.vatableSpendRatio;
      0.0 <= Vat(income, t, ni, VatRatioLow(r), p) <= Vat(income, t, ni, r, p) <= Vat(income, t, ni, VatRatioHigh(r), p)
  {
    var income, p, r := AdjustedHouseholdIncome(req), Parameters(req), req.vatableSpendRatio;
    VatMonotone(income, t, t, ni, VatRatioLow(r), r, p);
    VatMonotone(income, t, t, ni, r, VatRatioHigh(r), p);
  }

  /** The low charges (VAT at the lower spend ratio, council tax scaled by
      0.9) never total more than the charges, and never less than zero. */
  lemma LowBracket(req: TaxEstimateRequest, c: Components)
    requires ValidTaxEstimateRequest(req) && AllWholePence(c)
    requires c.vat == Vat(AdjustedHouseholdIncome(req), c.incomeTax, c.ni, req.vatableSpendRatio, Parameters(req))
    ensures 0.0 <= Total(ComponentsAt(req, c, VatRatioLow(req.vatableSpendRatio), 0.9)) <= Total(c)
  {
    var lo := ComponentsAt(req, c, VatRatioLow(req.vatableSpendRatio), 0.9);
    ComponentsAtFields(req, c, VatRatioLow(req.vatableSpendRatio), 0.9);
    VatBracket(req, c.incomeTax, c.ni);
    CouncilBoundsBracket(c.council, req.councilTaxOverride.Some?);
    TotalMonotone(lo, c);
    assert Sum(lo) >= 0.0;
    RoundNonNegative(Sum(lo), 2);
  }

  /** The high charges (VAT at the higher spend ratio, council tax scaled by
      1.1) never total less than the charges. */
  lemma HighBracket(req: TaxEstimateRequest, c: Components)
    requires ValidTaxEstimateRequest(req) && AllWholePence(c)
    requires c.vat == Vat(AdjustedHouseholdIncome(req), c.incomeTax, c.ni, req.vatableSpendRatio, Parameters(req))
    ensures Total(c) <= Total(ComponentsAt(req, c, VatRatioHigh(req.vatableSpendRatio), 1.1))
  {
    var hi := ComponentsAt(req, c, VatRatioHigh(req.vatableSpendRatio), 1.1);
    ComponentsAtFields(req, c, VatRatioHigh(req.vatableSpendRatio), 1.1);
    VatBracket(req, c.incomeTax, c.ni);
    CouncilBoundsBracket(c.council, req.councilTaxOverride.Some?);
    TotalMonotone(c, hi);
  }

  /** The uncertainty range brackets the total and never goes below zero. */
  lemma UncertaintyBracketsTotal(req: TaxEstimateRequest, service: string -> PostcodeReply)
    requires ValidTaxEstimateRequest(req)
    ensures var e := EstimateTaxTotals(req, service);
      0.0 <= e.low <= e.total <= e.high
  {
    ComponentsWholePence(req, service);
    LowBracket(req, HouseholdComponents(req, service));
    HighBracket(req, HouseholdComponents(req, service));
  }

  /** With a council tax override the range only reflects the VAT spend ratio. */
  lemma OverrideFixesCouncilBounds(req: TaxEstimateRequest, service: string -> PostcodeReply)
    requires VatComputable(req) && req.councilTaxOverride.Some?
    ensures var c := HouseholdComponents(req, service);
      && c.council == Round2(req.councilTaxOverride.value)
      && ComponentsAt(req, c, VatRatioLow(req.vatableSpendRatio), 0.9).council == c.council
      && ComponentsAt(req, c, VatRatioHigh(req.vatableSpendRatio), 1.1).council == c.council
  {
  }

  /** The postcode service only affects the council tax: every other charge,
      and so the total with the council tax taken out, is the same whatever
      the service answers. With an override it affects no charge at all. */
  lemma ServiceOnlyAffectsCouncilTax(req: TaxEstimateRequest, s1: string -> PostcodeReply, s2: string -> PostcodeReply)
    requires VatComputable(req)
    ensures HouseholdComponents(req, s1).(council := 0.0) == HouseholdComponents(req, s2).(council := 0.0)
    ensures req.councilTaxOverride.Some? ==> HouseholdComponents(req, s1) == HouseholdComponents(req, s2)
  {
  }

  /** The reported rates: zero without income, within half a unit of the sixth
      place otherwise; take-home pay within half a penny of income less tax;
      one adult unless the partner has income. */
  lemma EstimateRates(req: TaxEstimateRequest, service: string -> PostcodeReply)
    requires VatComputable(req)
    ensures var e := EstimateTaxTotals(req, service);
      var gross := req.annualIncome + req.partnerAnnualIncome;
      && (gross == 0.0 ==> e.effectiveRate == 0.0)
      && (gross != 0.0 ==> -0.0000005 <= e.effectiveRate - e.total / gross <= 0.0000005)
      && -0.005 <= e.takeHome - (gross - e.total) <= 0.005
      && (e.household.adults == 2 <==> req.partnerAnnualIncome > 0.0)
      && (e.household.adults == 1 <==> req.partnerAnnualIncome <= 0.0)
  {
  }

  // Comparison with another tax year

  /** A comparison is made when another year is named. */
  predicate WantsComparison(req: TaxEstimateRequest)
  {
    req.compareTaxYear != "none" && req.compareTaxYear != req.taxYear
  }

  /** The request re-run for the comparison year, itself asking for no comparison. */
  function CompareRequest(req: TaxEstimateRequest): (r: TaxEstimateRequest)
    ensures r.taxYear == req.compareTaxYear && r.compareTaxYear == "none"
    ensures r.(taxYear := req.taxYear, compareTaxYear := req.compareTaxYear) == req
    ensures ValidTaxEstimateRequest(req) && req.compareTaxYear != "none" ==> ValidTaxEstimateRequest(r)
  {
    req.(taxYear := req.compareTaxYear, compareTaxYear := "none")
  }

  /** The other year's total against the selected year's: the difference to
      pence and as a percentage to four places (zero when the selected total is zero). */
  function CompareTotals(year: string, selected: real, other: real): (c: Comparison)
    ensures c.compareTaxYear == year && c.total == other
    ensures IsCents(selected) && IsCents(other) ==> c.delta == other - selected
    ensures selected == 0.0 ==> c.deltaPercent == 0.0
    ensures selected != 0.0 ==> -0.00005 <= c.deltaPercent - c.delta / selected * 100.0 <= 0.00005
  {
    var delta := Round2(other - selected);
    if IsCents(selected) && IsCents(other) then
      CentsAdd(other, selected);
      Round2Exact(other - selected);
      Comparison(year, other, delta, DeltaPercent(delta, selected))
    else
      Comparison(year, other, delta, DeltaPercent(delta, selected))
  }

  /** The change as a percentage of the selected year's total, to four
      places; zero when that total is zero. */
  function DeltaPercent(delta: real, total: real): (r: real)
    ensures total == 0.0 ==> r == 0.0
    ensures total != 0.0 ==> -0.00005 <= r - delta / total * 100.0 <= 0.00005
  {
    var ratio := if total != 0.0 then delta / total * 100.0 else 0.0;
    RoundZero(4);
    RoundError(ratio, 4);
    RoundTo(ratio, 4)
  }

  /** `tax_estimate`: the estimate, with the comparison added when asked for. */
  function TaxEstimate(req: TaxEstimateRequest, service: string -> PostcodeReply): (e: Estimate)
    requires VatComputable(req)
    ensures e.(comparison := None) == EstimateTaxTotals(req, service)
    ensures e.comparison.Some? <==> WantsComparison(req)
  {
    var base := EstimateTaxTotals(req, service);
    if WantsComparison(req) then
      var other := EstimateTaxTotals(CompareRequest(req), service);
      base.(comparison := Some(CompareTotals(req.compareTaxYear, base.total, other.total)))
    else
      base
  }

  /** The comparison reports the other year's total and exactly the difference
      from the selected year's, and the re-run asks for no comparison of its own. */
  lemma ComparisonIsDifference(req: TaxEstimateRequest, service: string -> PostcodeReply)
    requires VatComputable(req) && WantsComparison(req)
    ensures var e := TaxEstimate(req, service);
      var c := e.comparison.value;
      && c.compareTaxYear == req.compareTaxYear
      && c.total == EstimateTaxTotals(CompareRequest(req), service).total
      && c.delta == c.total - e.total
      && (e.total == 0.0 ==> c.deltaPercent == 0.0)
    ensures !WantsComparison(CompareRequest(req))
  {
    var base := EstimateTaxTotals(req, service);
    var other := EstimateTaxTotals(CompareRequest(req), service);
    assert base.total == Total(base.charges) && other.total == Total(other.charges);
  }
}

=== FILE: hmt_extract.dfy ===
/** The string logic of the HM Treasury extraction script: cleaning a cell
    into a number, classifying functional and departmental row labels, and
    choosing which worksheet rows become output rows. Workbook loading and
    CSV writing are not modelled; `float()` is the partial parser
    `parseFloat`, and `str()` of a number is `render`. */
module HmtExtract {
  import opened Wrappers
  import opened Text
  import opened Sorting
  import opened Worksheet

  predicate NotComma(c: char)
  {
    c != ','
  }

  /** `text.replace(",", "")`. */
  function RemoveCommas(s: string): (r: string)
    ensures ',' !in r
  {
    Filter(s, NotComma)
  }

  /** The text `to_number` hands to `float()`: commas removed, then stripped. */
  function CleanText(s: string): (t: string)
    ensures ',' !in t
    ensures t == [] || (!IsPySpace(t[0]) && !IsPySpace(t[|t| - 1]))
  {
    var r := RemoveCommas(s);
    StripWithin(r);
    Strip(r)
  }

  /** `to_number`: blank cells, empty text and a lone dash give no number;
      numbers pass through; text is cleaned and parsed. */
  function ToNumber(v: Cell, parseFloat: string -> Option<real>): (r: Option<real>)
    ensures v.Blank? ==> r == None
    ensures v.Num? ==> r == Some(v.n)
    ensures v.Str? ==>
      (r.Some? <==> CleanText(v.s) != "" && CleanText(v.s) != "-" && parseFloat(CleanText(v.s)).Some?)
    ensures v.Str? && r.Some? ==> r == parseFloat(CleanText(v.s))
  {
    match v
    case Blank => None
    case Num(n) => Some(n)
    case Str(s) =>
      if s == "" || s == "-" then None
      else
        var text := CleanText(s);
        if text == "-" || text == "" then None
        else parseFloat(text)
  }

  lemma {:induction false} RemoveCommasAppend(a: string, b: string)
    ensures RemoveCommas(a + b) == RemoveCommas(a) + RemoveCommas(b)
  {
    FilterAppend(a, b, NotComma);
  }

  /** Text without commas is left as it is. */
  lemma {:induction false} RemoveCommasKeeps(s: string)
    requires ',' !in s
    ensures RemoveCommas(s) == s
  {
    FilterAll(s, NotComma);
  }

  /** Thousands separators do not change the number: a comma anywhere in the
      text is ignored. */
  lemma {:induction false} CommaIgnored(a: string, b: string, parseFloat: string -> Option<real>)
    ensures ToNumber(Str(a + "," + b), parseFloat) == ToNumber(Str(a + b), parseFloat)
  {
    RemoveCommasAppend(a + ",", b);
    RemoveCommasAppend(a, ",");
    RemoveCommasAppend(a, b);
    assert RemoveCommas(",") == [];
    assert RemoveCommas(a) + [] == RemoveCommas(a);
  }

  /** Only the cleaned text matters: the early test for "" and "-" agrees
      with the test after cleaning. */
  lemma {:induction false} ToNumberByCleanText(s: string, parseFloat: string -> Option<real>)
    ensures ToNumber(Str(s), parseFloat)
      == if CleanText(s) == "" || CleanText(s) == "-" then None else parseFloat(CleanText(s))
  {
    if s == "-" {
      RemoveCommasKeeps(s);
      StripKeeps(s);
    } else if s == "" {
      assert RemoveCommas(s) == [];
      StripKeeps([]);
    }
  }

  /** Whitespace without commas passes through comma removal. */
  lemma {:induction false} SpaceHasNoComma(w: string)
    requires forall i :: 0 <= i < |w| ==> IsPySpace(w[i])
    ensures RemoveCommas(w) == w
  {
    assert ',' !in w by {
      assert forall i :: 0 <= i < |w| ==> w[i] != ',';
    }
    RemoveCommasKeeps(w);
  }

  lemma {:induction false} CleanTextPadding(pre: string, s: string, post: string)
    requires forall i :: 0 <= i < |pre| ==> IsPySpace(pre[i])
    requires forall i :: 0 <= i < |post| ==> IsPySpace(post[i])
    ensures CleanText(pre + s + post) == CleanText(s)
  {
    SpaceHasNoComma(pre);
    SpaceHasNoComma(post);
    RemoveCommasAppend(pre + s, post);
    RemoveCommasAppend(pre, s);
    StripPadding(pre, RemoveCommas(s), post);
  }

  /** Whitespace around the text does not change the number. */
  lemma {:induction false} PaddingIgnored(pre: string, s: string, post: string, parseFloat: string -> Option<real>)
    requires forall i :: 0 <= i < |pre| ==> IsPySpace(pre[i])
    requires forall i :: 0 <= i < |post| ==> IsPySpace(post[i])
    ensures ToNumber(Str(pre + s + post), parseFloat) == ToNumber(Str(s), parseFloat)
  {
    CleanTextPadding(pre, s, post);
    ToNumberByCleanText(pre + s + post, parseFloat);
    ToNumberByCleanText(s, parseFloat);
  }

  /** The row type of a line of the functional spending table. */
  datatype FunctionRowType = OfWhich | FunctionTotal | SubFunction | FunctionHeading | Other {
    function Name(): string
    {
      match this
      case OfWhich => "of_which"
      case FunctionTotal => "function_total"
      case SubFunction => "sub_function"
      case FunctionHeading => "function_heading"
      case Other => "other"
    }
  }

  /** Every run of ASCII digits counts, and nothing else does. */
  predicate AllDigits(s: string)
  {
    forall i :: 0 <= i < |s| ==> IsDigit(s[i])
  }

  /** `re.match(r"^\d+\.\d+\s", line)`, decided by scanning the two digit runs. */
  predicate SubFunctionCode(line: string)
  {
    var k := DigitRun(line);
    && 0 < k < |line| && line[k] == '.'
    && var m := DigitRun(line[k + 1..]);
    && 0 < m && k + 1 + m < |line| && IsPySpace(line[k + 1 + m])
  }

  /** `re.match(r"^\d+\.\s", line)`. */
  predicate HeadingCode(line: string)
  {
    var k := DigitRun(line);
    0 < k && k + 1 < |line| && line[k] == '.' && IsPySpace(line[k + 1])
  }

  /** The pattern `^\d+\.\d+\s` read as a split: the line starts with `k`
      digits, a dot, `m` digits and a whitespace character. */
  predicate SubFunctionSplit(line: string, k: int, m: int)
  {
    && 0 < k && 0 < m && k + 1 + m < |line|
    && AllDigits(line[..k]) && line[k] == '.'
    && AllDigits(line[k + 1..k + 1 + m]) && IsPySpace(line[k + 1 + m])
  }

  /** A split exists exactly when the scan succeeds, and it is the scan's. */
  lemma {:induction false} SubFunctionSplitIsScan(line: string, k: int, m: int)
    requires SubFunctionSplit(line, k, m)
    ensures SubFunctionCode(line) && DigitRun(line) == k
  {
    DigitRunOf(line[..k], line[k..]);
    assert line[..k] + line[k..] == line;
    var rest := line[k + 1..];
    assert rest[..m] == line[k + 1..k + 1 + m];
    DigitRunOf(rest[..m], rest[m..]);
    assert rest[..m] + rest[m..] == rest;
    assert rest[..m] == line[k + 1..k + 1 + m];
  }

  lemma {:induction false} ScanIsSubFunctionSplit(line: string)
    requires SubFunctionCode(line)
    ensures SubFunctionSplit(line, DigitRun(line), DigitRun(line[DigitRun(line) + 1..]))
  {
    var k := DigitRun(line);
    var m := DigitRun(line[k + 1..]);
    var rest := line[k + 1..];
    assert line[k + 1..k + 1 + m] == rest[..m];
  }

  /** The scan agrees with the pattern's meaning. */
  lemma {:induction false} SubFunctionCodeMeaning(line: string)
    ensures SubFunctionCode(line) <==> exists k, m :: SubFunctionSplit(line, k, m)
  {
    if SubFunctionCode(line) {
      ScanIsSubFunctionSplit(line);
    }
    if exists k, m :: SubFunctionSplit(line, k, m) {
      var k, m :| SubFunctionSplit(line, k, m);
      SubFunctionSplitIsScan(line, k, m);
    }
  }

  /** The same for the heading pattern: digits, a dot, then whitespace. */
  lemma {:induction false} HeadingCodeMeaning(line: string)
    ensures HeadingCode(line) <==>
      exists k :: 0 < k && k + 1 < |line| && AllDigits(line[..k]) && line[k] == '.' && IsPySpace(line[k + 1])
  {
    if exists k :: 0 < k && k + 1 < |line| && AllDigits(line[..k]) && line[k] == '.' && IsPySpace(line[k + 1]) {
      var k :| 0 < k && k + 1 < |line| && AllDigits(line[..k]) && line[k] == '.' && IsPySpace(line[k + 1]);
      DigitRunOf(line[..k], line[k..]);
      assert line[..k] + line[k..] == line;
    }
  }

  /** `classify_function_label`: the first rule that applies, in the order
      "of which" prefix (any case), "total " prefix (any case), sub-function
      code, heading code. */
  function ClassifyFunctionLabel(line: string): (r: FunctionRowType)
    ensures r == OfWhich <==> StartsWith(Lower(line), "of which")
    ensures r == FunctionTotal <==> !StartsWith(Lower(line), "of which") && StartsWith(Lower(line), "total ")
    ensures r == SubFunction <==>
      !StartsWith(Lower(line), "of which") && !StartsWith(Lower(line), "total ") && SubFunctionCode(line)
    ensures r == FunctionHeading <==>
      !StartsWith(Lower(line), "of which") && !StartsWith(Lower(line), "total ")
      && !SubFunctionCode(line) && HeadingCode(line)
  {
    var lower := Lower(line);
    if StartsWith(lower, "of which") then OfWhich
    else if StartsWith(lower, "total ") then FunctionTotal
    else if SubFunctionCode(line) then SubFunction
    else if HeadingCode(line) then FunctionHeading
    else Other
  }

  /** A line that starts with a digit is never an "of which" or total line. */
  lemma {:induction false} DigitLabelHasNoWordPrefix(line: string)
    requires line != [] && IsDigit(line[0])
    ensures !StartsWith(Lower(line), "of which") && !StartsWith(Lower(line), "total ")
  {
    assert Lower(line)[0] == line[0];
  }

  /** "7.1 Defence": a two-part code followed by whitespace is a sub-function. */
  lemma {:induction false} SubFunctionLabel(a: string, b: string, w: char, name: string)
    requires a != [] && AllDigits(a) && b != [] && AllDigits(b) && IsPySpace(w)
    ensures ClassifyFunctionLabel(a + "." + b + [w] + name) == SubFunction
  {
    var line := a + "." + b + [w] + name;
    DigitLabelHasNoWordPrefix(line);
    assert line[..|a|] == a;
    assert line[|a| + 1..|a| + 1 + |b|] == b;
    assert SubFunctionSplit(line, |a|, |b|);
    SubFunctionSplitIsScan(line, |a|, |b|);
  }

  /** "7. Defence": a one-part code followed by whitespace is a heading. */
  lemma {:induction false} HeadingLabel(a: string, w: char, name: string)
    requires a != [] && AllDigits(a) && IsPySpace(w)
    ensures ClassifyFunctionLabel(a + "." + [w] + name) == FunctionHeading
  {
    var line := a + "." + [w] + name;
    DigitLabelHasNoWordPrefix(line);
    assert line[..|a|] == a;
    DigitRunOf(a, line[|a|..]);
    assert a + line[|a|..] == line;
    HeadingCodeMeaning(line);
  }

  /** "7.X" and "7.1X": a code not followed by whitespace makes the line "other". */
  lemma {:induction false} UnspacedCodeIsOther(a: string, b: string, rest: string)
    requires a != [] && AllDigits(a) && AllDigits(b)
    requires rest == [] || (!IsDigit(rest[0]) && !IsPySpace(rest[0]))
    ensures ClassifyFunctionLabel(a + "." + b + rest) == Other
  {
    var line := a + "." + b + rest;
    DigitLabelHasNoWordPrefix(line);
    UnspacedCodeScan(a, b, rest);
  }

  /** Digits then a dot: the digit run stops at the dot. */
  lemma {:induction false} DotAfterDigits(a: string, tail: string)
    requires AllDigits(a)
    ensures var line := a + "." + tail;
      && DigitRun(line) == |a| && line[|a|] == '.' && line[|a| + 1..] == tail
  {
    var line := a + "." + tail;
    assert line == a + ("." + tail);
    DigitRunOf(a, "." + tail);
  }

  lemma {:induction false} UnspacedCodeScan(a: string, b: string, rest: string)
    requires a != [] && AllDigits(a) && AllDigits(b)
    requires rest == [] || (!IsDigit(rest[0]) && !IsPySpace(rest[0]))
    ensures !SubFunctionCode(a + "." + b + rest) && !HeadingCode(a + "." + b + rest)
  {
    var tail := b + rest;
    assert a + "." + b + rest == a + "." + tail;
    DotAfterDigits(a, tail);
    DigitRunOf(b, rest);
    assert tail == [] || tail[0] == (if b != [] then b[0] else rest[0]);
    assert |b| < |tail| ==> tail[|b|] == rest[0];
  }

  /** The row type of a line of the departmental budgets table. */
  datatype DepartmentRowType = Total | Note | LineItem {
    function Name(): string
    {
      match this
      case Total => "total"
      case Note => "note"
      case LineItem => "line_item"
    }
  }

  /** `classify_department_label`: a "total " prefix in any case, then an
      opening parenthesis, else an ordinary line. */
  function ClassifyDepartmentLabel(line: string): (r: DepartmentRowType)
    ensures r == Total <==> StartsWith(Lower(line), "total ")
    ensures r == Note <==> !StartsWith(Lower(line), "total ") && line != [] && line[0] == '('
  {
    var lower := Lower(line);
    if StartsWith(lower, "total ") then Total
    else if StartsWith(lower, "(") then Note
    else LineItem
  }

  /** Total lines are recognised whatever the case of "total". */
  lemma {:induction false} TotalInAnyCase(t: char, o: char, t2: char, a: char, l: char, rest: string)
    requires LowerChar(t) == 't' && LowerChar(o) == 'o' && LowerChar(t2) == 't'
    requires LowerChar(a) == 'a' && LowerChar(l) == 'l'
    ensures ClassifyDepartmentLabel([t, o, t2, a, l, ' '] + rest) == Total
    ensures ClassifyFunctionLabel([t, o, t2, a, l, ' '] + rest) == FunctionTotal
  {
    var line := [t, o, t2, a, l, ' '] + rest;
    assert Lower(line)[..6] == "total ";
    assert Lower(line)[0] == 't';
  }

  /** One output row of the functional spending table. */
  datatype FunctionalRow = FunctionalRow(
    year: string, sourceTable: string, functionLabel: string, rowType: string, amount: real)

  /** One output row of the departmental spending table. */
  datatype DepartmentalRow = DepartmentalRow(
    year: string, sourceTable: string, departmentLabel: string, rowType: string, amount: real)

  /** A worksheet row (line cell, amount cell) is kept when the line is
      truthy and the amount cleans to a number. */
  predicate Kept(row: (Cell, Cell), parseFloat: string -> Option<real>)
  {
    Truthy(row.0) && ToNumber(row.1, parseFloat).Some?
  }

  /** `Kept` as a test on rows. */
  function KeepRow(parseFloat: string -> Option<real>): ((Cell, Cell)) -> bool
  {
    (row: (Cell, Cell)) => Kept(row, parseFloat)
  }

  /** The output row for a kept worksheet row: the stripped label, its row
      type and the amount. */
  function FunctionalRowOf(parseFloat: string -> Option<real>, render: real -> string): ((Cell, Cell)) -> FunctionalRow
  {
    (row: (Cell, Cell)) =>
      var line := Strip(CellText(row.0, render));
      FunctionalRow("2024-25", "PESA_2025_5_2", line, ClassifyFunctionLabel(line).Name(), ToNumber(row.1, parseFloat).GetOr(0.0))
  }

  function DepartmentalRowOf(parseFloat: string -> Option<real>, render: real -> string): ((Cell, Cell)) -> DepartmentalRow
  {
    (row: (Cell, Cell)) =>
      var line := Strip(CellText(row.0, render));
      DepartmentalRow("2024-25", "PSS_July_2025_Table_1_12", line, ClassifyDepartmentLabel(line).Name(), ToNumber(row.1, parseFloat).GetOr(0.0))
  }

  /** The loop of `extract_functional_categories` over (label, amount)
      pairs: one output row per kept row, in order, carrying the parsed
      amount. */
  function FunctionalRows(rows: seq<(Cell, Cell)>, parseFloat: string -> Option<real>, render: real -> string)
    : (out: seq<FunctionalRow>)
    ensures var kept := Filter(rows, KeepRow(parseFloat));
      && |out| == |kept|
      && forall i :: 0 <= i < |out| ==>
        && Truthy(kept[i].0)
        && ToNumber(kept[i].1, parseFloat) == Some(out[i].amount)
        && out[i] == FunctionalRowOf(parseFloat, render)(kept[i])
  {
    var out := MapFiltered(rows, KeepRow(parseFloat), FunctionalRowOf(parseFloat, render));
    var kept := Filter(rows, KeepRow(parseFloat));
    assert forall i :: 0 <= i < |kept| ==> KeepRow(parseFloat)(kept[i]) by {
      assert forall i :: 0 <= i < |kept| ==> kept[i] in kept;
    }
    out
  }

  /** The loop of `extract_departmental_totals`. */
  function DepartmentalRows(rows: seq<(Cell, Cell)>, parseFloat: string -> Option<real>, render: real -> string)
    : (out: seq<DepartmentalRow>)
    ensures var kept := Filter(rows, KeepRow(parseFloat));
      && |out| == |kept|
      && forall i :: 0 <= i < |out| ==>
        && Truthy(kept[i].0)
        && ToNumber(kept[i].1, parseFloat) == Some(out[i].amount)
        && out[i] == DepartmentalRowOf(parseFloat, render)(kept[i])
  {
    var out := MapFiltered(rows, KeepRow(parseFloat), DepartmentalRowOf(parseFloat, render));
    var kept := Filter(rows, KeepRow(parseFloat));
    assert forall i :: 0 <= i < |kept| ==> KeepRow(parseFloat)(kept[i]) by {
      assert forall i :: 0 <= i < |kept| ==> kept[i] in kept;
    }
    out
  }

  /** Table 5.2: labels in column 2, the 2024-25 outturn in column 7. */
  function ExtractFunctional(ws: Sheet, parseFloat: string -> Option<real>, render: real -> string): (out: seq<FunctionalRow>)
    ensures |out| <= ws.maxRow
    ensures forall i :: 0 <= i < |out| ==>
      out[i].rowType == ClassifyFunctionLabel(out[i].functionLabel).Name() && out[i].year == "2024-25"
  {
    FunctionalRows(ColumnPairs(ws, 2, 7), parseFloat, render)
  }

  /** Table 1.12: labels in column 1, the 2024-25 outturn in column 6. */
  function ExtractDepartmental(ws: Sheet, parseFloat: string -> Option<real>, render: real -> string): (out: seq<DepartmentalRow>)
    ensures |out| <= ws.maxRow
    ensures forall i :: 0 <= i < |out| ==>
      out[i].rowType == ClassifyDepartmentLabel(out[i].departmentLabel).Name() && out[i].year == "2024-25"
  {
    DepartmentalRows(ColumnPairs(ws, 1, 6), parseFloat, render)
  }
}

=== FILE: household.dfy ===
/** The parts of a household estimate (`_compute_person_tax` and the body of
    `_estimate_tax_totals`): adjusted incomes, each adult's income tax and NI,
    the marriage allowance transfer, the council tax choice and the seven
    charges that make up the total. */
module Household {
  import opened Wrappers
  import opened Arith
  import opened Rounding
  import opened Text
  import opened TaxParams
  import opened IncomeTax
  import opened NationalInsurance
  import opened Levies
  import opened Requests

  // Whole pence

  /** Sums and differences of whole pence are whole pence. */
  lemma CentsAdd(a: real, b: real)
    requires IsCents(a) && IsCents(b)
    ensures IsCents(a + b) && IsCents(a - b)
  {
    var x, y := a * 100.0, b * 100.0;
    var ka, kb := x.Floor, y.Floor;
    assert x == ka as real && y == kb as real;
    assert (a + b) * 100.0 == x + y;
    assert (a - b) * 100.0 == x - y;
    WholeFloor(x + y, ka + kb);
    WholeFloor(x - y, ka - kb);
  }

  lemma ZeroIsCents()
    ensures IsCents(0.0)
  {
    WholeIsCents(0);
  }

  // Incomes

  /** Income after salary sacrifice and other pre-tax deductions, never negative. */
  function AdjustedIncome(req: TaxEstimateRequest): (r: real)
    ensures r >= 0.0
    ensures r >= req.annualIncome - req.pensionSalarySacrifice - req.otherPreTaxDeductions
    ensures r == 0.0 || r == req.annualIncome - req.pensionSalarySacrifice - req.otherPreTaxDeductions
  {
    Max(0.0, req.annualIncome - req.pensionSalarySacrifice - req.otherPreTaxDeductions)
  }

  /** The partner's income, never negative; no deductions apply to it. */
  function AdjustedPartnerIncome(req: TaxEstimateRequest): (r: real)
    ensures r >= 0.0 && (req.partnerAnnualIncome >= 0.0 ==> r == req.partnerAnnualIncome)
  {
    Max(0.0, req.partnerAnnualIncome)
  }

  /** Relief-at-source pension contributions and gift aid widen the basic band. */
  function BandExtension(req: TaxEstimateRequest): real
  {
    req.pensionReliefAtSource + req.giftAid
  }

  // One adult's taxes

  datatype PersonTax = PersonTax(incomeTax: real, ni: real)

  /** Both amounts are non-negative whole numbers of pence. */
  predicate WholePence(t: PersonTax)
  {
    t.incomeTax >= 0.0 && t.ni >= 0.0 && IsCents(t.incomeTax) && IsCents(t.ni)
  }

  /** `_compute_person_tax`: rest-of-UK income tax with the basic band widened
      by `extension`, and employee NI. */
  function ComputePersonTax(income: real, p: TaxParameters, extension: real): PersonTax
  {
    PersonTax(IncomeTaxWithReliefs(income, p, extension), EmployeeNI(income, p))
  }

  /** The primary earner's taxes: Scottish income tax when the taxpayer is
      Scottish (the band extension is then unused), and the self-employed
      charge for the self-employed and mixed employment types. */
  function PrimaryTax(req: TaxEstimateRequest, p: TaxParameters, adjusted: real): PersonTax
  {
    var incomeTax :=
      if req.nation == "scotland" then IncomeTaxScotland(adjusted, p)
      else IncomeTaxWithReliefs(adjusted, p, BandExtension(req));
    var ni :=
      if req.employmentType == "self_employed" || req.employmentType == "mixed" then SelfEmployedNI(adjusted)
      else EmployeeNI(adjusted, p);
    PersonTax(incomeTax, ni)
  }

  lemma EmployeeNICents(income: real, p: TaxParameters)
    ensures IsCents(EmployeeNI(income, p))
  {
    if income <= p.niPrimaryThreshold {
      ZeroIsCents();
    } else {
      Round2IsCents(EmployeeNICharge(income, p));
    }
  }

  lemma IncomeTaxWholePence(income: real, p: TaxParameters, extension: real)
    requires ValidParameters(p)
    ensures IncomeTaxWithReliefs(income, p, extension) >= 0.0
    ensures IsCents(IncomeTaxWithReliefs(income, p, extension))
  {
    IncomeTaxNonNegative(income, p, extension);
    Round2IsCents(BandTax(BandsWithReliefs(income, p, extension), p));
  }

  lemma ScotlandWholePence(income: real, p: TaxParameters)
    requires income >= 0.0
    ensures IncomeTaxScotland(income, p) >= 0.0
    ensures IsCents(IncomeTaxScotland(income, p))
  {
    ScotlandZero(0.0, p);
    ScotlandMonotone(0.0, income, p);
    Round2IsCents(ScottishLadderTax(Taxable(income, p)));
  }

  lemma SelfEmployedWholePence(income: real)
    ensures SelfEmployedNI(income) >= 0.0
    ensures IsCents(SelfEmployedNI(income))
  {
    SelfEmployedNIShape(income);
    var class2 := if income >= SmallProfitsThreshold then Class2Charge else 0.0;
    var class4Main := Max(0.0, Min(income, Class4UpperLimit) - SmallProfitsThreshold) * 0.06;
    var class4Upper := Max(0.0, income - Class4UpperLimit) * 0.02;
    Round2IsCents(class2 + class4Main + class4Upper);
  }

  /** Under a valid table an adult's income tax and NI are whole pence and never negative. */
  lemma PersonTaxWholePence(income: real, p: TaxParameters, extension: real)
    requires ValidParameters(p)
    ensures WholePence(ComputePersonTax(income, p, extension))
  {
    IncomeTaxWholePence(income, p, extension);
    EmployeeNIBounds(income, p);
    EmployeeNICents(income, p);
  }

  /** The same holds for the primary earner, whichever calculators apply. */
  lemma PrimaryTaxWholePence(req: TaxEstimateRequest, p: TaxParameters, adjusted: real)
    requires ValidParameters(p) && adjusted >= 0.0
    ensures WholePence(PrimaryTax(req, p, adjusted))
  {
    if req.nation == "scotland" {
      ScotlandWholePence(adjusted, p);
    } else {
      IncomeTaxWholePence(adjusted, p, BandExtension(req));
    }
    if req.employmentType == "self_employed" || req.employmentType == "mixed" {
      SelfEmployedWholePence(adjusted);
    } else {
      EmployeeNIBounds(adjusted, p);
      EmployeeNICents(adjusted, p);
    }
  }

  /** An employed rest-of-UK taxpayer is taxed as `_compute_person_tax` taxes
      anyone; a Scottish taxpayer's income tax ignores the band extension;
      the self-employed charge ignores the table's NI rates. */
  lemma PrimaryTaxSelection(req: TaxEstimateRequest, p: TaxParameters, adjusted: real, main: real, upper: real)
    ensures req.nation != "scotland" && req.employmentType == "employed" ==>
      PrimaryTax(req, p, adjusted) == ComputePersonTax(adjusted, p, BandExtension(req))
    ensures req.nation == "scotland" ==>
      PrimaryTax(req, p, adjusted).incomeTax == PrimaryTax(req.(pensionReliefAtSource := 0.0, giftAid := 0.0), p, adjusted).incomeTax
    ensures req.employmentType != "employed" && req.employmentType in EmploymentTypes ==>
      PrimaryTax(req, p, adjusted).ni == PrimaryTax(req, p.(niMainRate := main, niUpperRate := upper), adjusted).ni
  {
  }

  // Marriage allowance

  /** The most the transfer can take off a household's income tax. */
  const MarriageAllowanceCredit := 252.0

  /** The transfer applies to a couple where the partner has income, the lower
      income is within the personal allowance and the higher income within
      the higher rate threshold. */
  predicate MarriageEligible(transfer: bool, adjusted: real, partnerAdjusted: real, p: TaxParameters)
  {
    && transfer
    && partnerAdjusted > 0.0
    && Min(adjusted, partnerAdjusted) <= p.personalAllowance
    && Max(adjusted, partnerAdjusted) <= p.higherRateThreshold
  }

  datatype MarriageOutcome = MarriageOutcome(credit: real, primaryTax: real, partnerTax: real)

  /** The credit is the fixed amount, capped at the larger income tax, and
      comes off the larger income tax (the primary earner's on a tie). */
  function MarriageAllowance(eligible: bool, primaryTax: real, partnerTax: real): (m: MarriageOutcome)
    ensures !eligible ==> m == MarriageOutcome(0.0, primaryTax, partnerTax)
    ensures m.credit <= MarriageAllowanceCredit
    ensures eligible ==> m.credit <= Max(primaryTax, partnerTax)
    ensures primaryTax >= partnerTax ==> m.partnerTax == partnerTax
    ensures primaryTax < partnerTax ==> m.primaryTax == primaryTax
  {
    if !eligible then MarriageOutcome(0.0, primaryTax, partnerTax)
    else
      var credit := Min(MarriageAllowanceCredit, Max(primaryTax, partnerTax));
      if primaryTax >= partnerTax then MarriageOutcome(credit, Round2(primaryTax - credit), partnerTax)
      else MarriageOutcome(credit, primaryTax, Round2(partnerTax - credit))
  }

  /** For taxes in whole pence the credit is the smaller of the fixed amount
      and the larger tax, nobody's tax goes negative, and the couple's tax
      falls by exactly the credit. */
  lemma MarriageAllowanceExact(eligible: bool, primaryTax: real, partnerTax: real)
    requires primaryTax >= 0.0 && partnerTax >= 0.0 && IsCents(primaryTax) && IsCents(partnerTax)
    ensures var m := MarriageAllowance(eligible, primaryTax, partnerTax);
      && (eligible ==> m.credit == Min(MarriageAllowanceCredit, Max(primaryTax, partnerTax)))
      && 0.0 <= m.credit
      && m.primaryTax >= 0.0 && m.partnerTax >= 0.0
      && IsCents(m.credit) && IsCents(m.primaryTax) && IsCents(m.partnerTax)
      && m.primaryTax + m.partnerTax == primaryTax + partnerTax - m.credit
  {
    var m := MarriageAllowance(eligible, primaryTax, partnerTax);
    if !eligible {
      ZeroIsCents();
    } else {
      var credit := m.credit;
      WholeIsCents(252);
      assert credit == MarriageAllowanceCredit || credit == primaryTax || credit == partnerTax;
      assert IsCents(credit);
      if primaryTax >= partnerTax {
        CentsAdd(primaryTax, credit);
        Round2Exact(primaryTax - credit);
      } else {
        CentsAdd(partnerTax, credit);
        Round2Exact(partnerTax - credit);
      }
    }
  }

  // Council tax

  /** What the postcode service answers: nothing (a network or decoding
      failure), or a result whose fields may be missing. */
  datatype PostcodeReply =
    | NoReply
    | Reply(postcode: Option<string>, adminDistrict: Option<string>, region: Option<string>, country: Option<string>)

  datatype PostcodeInfo = PostcodeInfo(postcode: string, councilName: string, region: string, country: string)

  /** `lookup_council_from_postcode`: the postcode is stripped and a blank one
      is never sent; a failed lookup gives nothing; a missing field reads as
      empty, a missing postcode as the one sent. The service is a parameter. */
  function LookupCouncil(postcode: string, service: string -> PostcodeReply): (r: Option<PostcodeInfo>)
    ensures Strip(postcode) == "" ==> r.None?
    ensures r.Some? <==> Strip(postcode) != "" && service(Strip(postcode)).Reply?
    ensures r.Some? ==> r.value.region == service(Strip(postcode)).region.GetOr("")
    ensures r.Some? ==> var reply := service(Strip(postcode));
      && r.value.councilName == reply.adminDistrict.GetOr("")
      && r.value.postcode == reply.postcode.GetOr(Strip(postcode))
      && r.value.country == reply.country.GetOr("")
  {
    var sent := Strip(postcode);
    if sent == "" then None
    else
      var reply := service(sent);
      if reply.NoReply? then None
      else Some(PostcodeInfo(reply.postcode.GetOr(sent), reply.adminDistrict.GetOr(""), reply.region.GetOr(""), reply.country.GetOr("")))
  }

  /** Whitespace around a postcode changes neither what is sent nor the answer. */
  lemma LookupIgnoresPadding(pre: string, postcode: string, post: string, service: string -> PostcodeReply)
    requires forall i :: 0 <= i < |pre| ==> IsPySpace(pre[i])
    requires forall i :: 0 <= i < |post| ==> IsPySpace(post[i])
    ensures LookupCouncil(pre + postcode + post, service) == LookupCouncil(postcode, service)
  {
    StripPadding(pre, postcode, post);
  }

  /** The council name reported, the region the lookup gave, and the region
      the council tax is looked up under. */
  datatype CouncilChoice = CouncilChoice(councilName: string, lookupRegion: string, regionUsed: string)

  /** A non-empty postcode is looked up; the given council name wins over the
      looked-up one, and the looked-up region over the given one. */
  function ChooseCouncil(req: TaxEstimateRequest, service: string -> PostcodeReply): (c: CouncilChoice)
    ensures c.regionUsed == (if c.lookupRegion != "" then c.lookupRegion else req.region)
    ensures req.postcode.None? ==> c.lookupRegion == "" && c.regionUsed == req.region
    ensures req.councilName.Some? && req.councilName.value != "" ==> c.councilName == req.councilName.value
    ensures var lookup := if req.postcode.Some? && req.postcode.value != "" then LookupCouncil(req.postcode.value, service) else None;
      && c.lookupRegion == (if lookup.Some? then lookup.value.region else "")
      && ((req.councilName.None? || req.councilName.value == "") ==>
            c.councilName == (if lookup.Some? then lookup.value.councilName else ""))
  {
    var lookup := if req.postcode.Some? && req.postcode.value != "" then LookupCouncil(req.postcode.value, service) else None;
    var given := if req.councilName.Some? then req.councilName.value else "";
    var inferredCouncil := if given != "" then given else if lookup.Some? then lookup.value.councilName else "";
    var inferredRegion := if lookup.Some? then lookup.value.region else "";
    CouncilChoice(inferredCouncil, inferredRegion, if inferredRegion != "" then inferredRegion else req.region)
  }

  /** A region named by the postcode service overrides the request's region. */
  lemma PostcodeRegionWins(req: TaxEstimateRequest, service: string -> PostcodeReply, region: string)
    requires req.postcode.Some? && Strip(req.postcode.value) != ""
    requires service(Strip(req.postcode.value)).Reply? && service(Strip(req.postcode.value)).region == Some(region)
    requires region != ""
    ensures ChooseCouncil(req, service).regionUsed == region
  {
  }

  /** The annual charge: the override rounded to pence, else the regional
      estimate for the band. */
  function CouncilCharge(override: Option<real>, region: string, band: string): real
  {
    if override.Some? then Round2(override.value) else CouncilTax(region, band)
  }

  lemma CouncilChargeWholePence(override: Option<real>, region: string, band: string)
    requires override.Some? ==> override.value >= 0.0
    ensures CouncilCharge(override, region, band) >= 0.0
    ensures IsCents(CouncilCharge(override, region, band))
  {
    if override.Some? {
      RoundNonNegative(override.value, 2);
      Round2IsCents(override.value);
    } else {
      CouncilTaxForIsCents(Lower(Strip(region)), Upper(Strip(band)));
    }
  }

  // The seven charges

  datatype Components = Components(
    incomeTax: real, ni: real, vat: real, council: real, savings: real, dividend: real, studentLoan: real)

  function Sum(c: Components): real
  {
    c.incomeTax + c.ni + c.vat + c.council + c.savings + c.dividend + c.studentLoan
  }

  /** The total, rounded to pence. */
  function Total(c: Components): (r: real)
    ensures IsCents(r)
  {
    Round2IsCents(Sum(c));
    Round2(Sum(c))
  }

  predicate AllWholePence(c: Components)
  {
    && c.incomeTax >= 0.0 && c.ni >= 0.0 && c.vat >= 0.0 && c.council >= 0.0
    && c.savings >= 0.0 && c.dividend >= 0.0 && c.studentLoan >= 0.0
    && IsCents(c.incomeTax) && IsCents(c.ni) && IsCents(c.vat) && IsCents(c.council)
    && IsCents(c.savings) && IsCents(c.dividend) && IsCents(c.studentLoan)
  }

  /** When every charge is whole pence, rounding the total changes nothing:
      the total is exactly the sum of its parts. */
  lemma TotalIsSum(c: Components)
    requires AllWholePence(c)
    ensures Total(c) == Sum(c) && Total(c) >= 0.0
  {
    CentsAdd(c.incomeTax, c.ni);
    CentsAdd(c.incomeTax + c.ni, c.vat);
    CentsAdd(c.incomeTax + c.ni + c.vat, c.council);
    CentsAdd(c.incomeTax + c.ni + c.vat + c.council, c.savings);
    CentsAdd(c.incomeTax + c.ni + c.vat + c.council + c.savings, c.dividend);
    CentsAdd(c.incomeTax + c.ni + c.vat + c.council + c.savings + c.dividend, c.studentLoan);
    Round2Exact(Sum(c));
  }

  /** Raising any charge never lowers the total. */
  lemma TotalMonotone(c1: Components, c2: Components)
    requires c1.incomeTax <= c2.incomeTax && c1.ni <= c2.ni && c1.vat <= c2.vat && c1.council <= c2.council
    requires c1.savings <= c2.savings && c1.dividend <= c2.dividend && c1.studentLoan <= c2.studentLoan
    ensures Total(c1) <= Total(c2)
  {
    RoundMonotone(Sum(c1), Sum(c2), 2);
  }

  // Uncertainty

  /** The spend ratios of the low and high estimates: 10 points either side, within [0, 1]. */
  function VatRatioLow(ratio: real): (r: real)
    ensures IsRatio(ratio) ==> 0.0 <= r <= ratio
  {
    Max(0.0, ratio - 0.10)
  }

  function VatRatioHigh(ratio: real): (r: real)
    ensures IsRatio(ratio) ==> ratio <= r <= 1.0
  {
    Min(1.0, ratio + 0.10)
  }

  /** The council tax of the low or high estimate: an override is certain,
      an estimate is scaled by `factor` and rounded. */
  function CouncilBound(council: real, overridden: bool, factor: real): real
  {
    if overridden then council else ScaledCharge(council, factor)
  }

  /** The low council figure (factor 0.9) never exceeds the charge and the
      high one (factor 1.1) never falls below it; an override is used as is. */
  lemma CouncilBoundsBracket(council: real, overridden: bool)
    requires council >= 0.0 && IsCents(council)
    ensures 0.0 <= CouncilBound(council, overridden, 0.9) <= council <= CouncilBound(council, overridden, 1.1)
    ensures overridden ==> CouncilBound(council, overridden, 0.9) == council == CouncilBound(council, overridden, 1.1)
  {
    if !overridden {
      ScaledChargeMonotone(council, 0.9, 1.0);
      ScaledChargeMonotone(council, 1.0, 1.1);
      ScaledChargeIsCents(council, 0.9);
      Round2Exact(council);
      Round2Congruent(council * 1.0, council);
    }
  }
}

=== FILE: income_tax.dfy ===
/** Income tax (`estimate_income_tax`, `estimate_income_tax_with_reliefs`,
    `estimate_income_tax_scotland`). */
module IncomeTax {
  import opened Arith
  import opened Rounding
  import opened TaxParams

  /** Income above which the personal allowance tapers, £1 per £2. */
  const TaperThreshold := 100000.0

  /** The personal allowance after the taper, never below zero. */
  function TaperedAllowance(income: real, allowance: real): (r: real)
    ensures 0.0 <= r <= Max(0.0, allowance)
    ensures income <= TaperThreshold ==> r == Max(0.0, allowance)
    ensures income >= TaperThreshold + 2.0 * allowance ==> r == 0.0
    ensures income > TaperThreshold && r > 0.0 ==> r == allowance - (income - TaperThreshold) / 2.0
  {
    Max(0.0, allowance - Max(0.0, income - TaperThreshold) / 2.0)
  }

  /** Income above the tapered allowance. */
  function Taxable(income: real, p: TaxParameters): (t: real)
    ensures t >= 0.0
    ensures t == 0.0 <==> income <= TaperedAllowance(income, p.personalAllowance)
    ensures t > 0.0 ==> t == income - TaperedAllowance(income, p.personalAllowance)
  {
    Max(0.0, income - TaperedAllowance(income, p.personalAllowance))
  }

  /** Taxable income split into the basic, higher and additional rate bands. */
  datatype Bands = Bands(basic: real, higher: real, additional: real)

  /** Fills the basic band (width `basicBand`), then the higher band (up to
      `higherThreshold` of income), and puts the rest in the additional band. */
  function SplitBands(taxable: real, allowance: real, basicBand: real, higherThreshold: real): (b: Bands)
    ensures taxable >= 0.0 && basicBand >= 0.0 ==>
      && b.basic >= 0.0 && b.higher >= 0.0 && b.additional >= 0.0
      && b.basic + b.higher + b.additional == taxable
      && b.basic <= basicBand
      && b.higher <= Max(0.0, higherThreshold - allowance - basicBand)
      && (b.higher > 0.0 ==> b.basic == basicBand)
      && (b.additional > 0.0 ==> b.higher == Max(0.0, higherThreshold - allowance - basicBand))
  {
    var basic := Min(taxable, basicBand);
    var higherWidth := Max(0.0, higherThreshold - allowance - basicBand);
    var higher := Min(Max(0.0, taxable - basicBand), higherWidth);
    Bands(basic, higher, Max(0.0, taxable - basic - higher))
  }

  /** The tax on a band split, before rounding. */
  function BandTax(b: Bands, p: TaxParameters): real
  {
    b.basic * p.basicRate + b.higher * p.higherRate + b.additional * p.additionalRate
  }

  /** The band split for `income` with the basic band widened by `extension`. */
  function BandsWithReliefs(income: real, p: TaxParameters, extension: real): Bands
  {
    var allowance := TaperedAllowance(income, p.personalAllowance);
    SplitBands(Taxable(income, p), allowance, Max(0.0, p.basicRateLimit + extension), p.higherRateThreshold)
  }

  /** `estimate_income_tax_with_reliefs`: relief at source and gift aid widen the basic band. */
  function IncomeTaxWithReliefs(income: real, p: TaxParameters, extension: real): real
  {
    Round2(BandTax(BandsWithReliefs(income, p, extension), p))
  }

  /** `estimate_income_tax`: the same split with the table's basic band used as
      is (not clamped at zero). */
  function IncomeTaxPlain(income: real, p: TaxParameters): real
  {
    var allowance := TaperedAllowance(income, p.personalAllowance);
    Round2(BandTax(SplitBands(Taxable(income, p), allowance, p.basicRateLimit, p.higherRateThreshold), p))
  }

  /** The band split partitions taxable income, and the basic band is never
      wider than the widened limit. */
  lemma BandSplitPartitions(income: real, p: TaxParameters, extension: real)
    ensures var b := BandsWithReliefs(income, p, extension);
      && b.basic >= 0.0 && b.higher >= 0.0 && b.additional >= 0.0
      && b.basic + b.higher + b.additional == Taxable(income, p)
      && b.basic <= Max(0.0, p.basicRateLimit + extension)
  {
  }

  /** With no extension the reliefs variant is the plain calculator (for a
      non-negative basic limit, as every table has). */
  lemma NoExtensionIsPlain(income: real, p: TaxParameters)
    requires p.basicRateLimit >= 0.0
    ensures IncomeTaxWithReliefs(income, p, 0.0) == IncomeTaxPlain(income, p)
  {
    assert Max(0.0, p.basicRateLimit + 0.0) == p.basicRateLimit;
  }

  /** No income tax is due on income within the tapered personal allowance. */
  lemma ZeroWithinAllowance(income: real, p: TaxParameters, extension: real)
    requires income <= TaperedAllowance(income, p.personalAllowance)
    ensures IncomeTaxWithReliefs(income, p, extension) == 0.0
  {
    RoundZero(2);
  }

  /** Income tax is non-negative when the rates are. */
  lemma IncomeTaxNonNegative(income: real, p: TaxParameters, extension: real)
    requires p.basicRate >= 0.0 && p.higherRate >= 0.0 && p.additionalRate >= 0.0
    ensures IncomeTaxWithReliefs(income, p, extension) >= 0.0
  {
    var b := BandsWithReliefs(income, p, extension);
    BandSplitPartitions(income, p, extension);
    BandTaxMonotone(Bands(0.0, 0.0, 0.0), b, p);
    RoundNonNegative(BandTax(b, p), 2);
  }

  /** Each band's share grows (weakly) with income. */
  lemma BandsMonotone(i1: real, i2: real, p: TaxParameters, extension: real)
    requires i1 <= i2
    ensures var b1 := BandsWithReliefs(i1, p, extension);
      var b2 := BandsWithReliefs(i2, p, extension);
      b1.basic <= b2.basic && b1.higher <= b2.higher && b1.additional <= b2.additional
  {
    var a1 := TaperedAllowance(i1, p.personalAllowance);
    var a2 := TaperedAllowance(i2, p.personalAllowance);
    assert a2 <= a1;
  }

  lemma BandTaxMonotone(b1: Bands, b2: Bands, p: TaxParameters)
    requires b1.basic <= b2.basic && b1.higher <= b2.higher && b1.additional <= b2.additional
    requires p.basicRate >= 0.0 && p.higherRate >= 0.0 && p.additionalRate >= 0.0
    ensures BandTax(b1, p) <= BandTax(b2, p)
  {
    MulMonotone(b1.basic, b2.basic, p.basicRate);
    MulMonotone(b1.higher, b2.higher, p.higherRate);
    MulMonotone(b1.additional, b2.additional, p.additionalRate);
  }

  /** Income tax never falls as income rises (non-negative rates). */
  lemma IncomeTaxMonotone(i1: real, i2: real, p: TaxParameters, extension: real)
    requires i1 <= i2
    requires p.basicRate >= 0.0 && p.higherRate >= 0.0 && p.additionalRate >= 0.0
    ensures IncomeTaxWithReliefs(i1, p, extension) <= IncomeTaxWithReliefs(i2, p, extension)
  {
    var b1 := BandsWithReliefs(i1, p, extension);
    var b2 := BandsWithReliefs(i2, p, extension);
    BandsMonotone(i1, i2, p, extension);
    BandTaxMonotone(b1, b2, p);
    RoundMonotone(BandTax(b1, p), BandTax(b2, p), 2);
  }

  // Scotland

  /** The Scottish bands below the top rate: (width, rate), lowest first. */
  const ScottishBands: seq<(real, real)> := [
    (2306.0, 0.19),
    (13991.0 - 2306.0, 0.20),
    (31092.0 - 13991.0, 0.21),
    (62943.0 - 31092.0, 0.42)
  ]

  /** The rate on taxable income above the last band. */
  const ScottishTopRate := 0.47

  /** The band loop: tax on the bands and the income left over, stopping at the
      first band that takes nothing. */
  function Ladder(remaining: real, bands: seq<(real, real)>): (real, real)
    decreases |bands|
  {
    if |bands| == 0 then (0.0, remaining)
    else
      var take := Min(remaining, bands[0].0);
      if take <= 0.0 then (0.0, remaining)
      else
        var rest := Ladder(remaining - take, bands[1..]);
        (take * bands[0].1 + rest.0, rest.1)
  }

  /** The band loop followed by the top rate on whatever is left. */
  function LadderTax(taxable: real, bands: seq<(real, real)>, topRate: real): real
  {
    var l := Ladder(taxable, bands);
    l.0 + (if l.1 > 0.0 then l.1 * topRate else 0.0)
  }

  /** The Scottish tax on taxable income, before rounding. */
  function ScottishLadderTax(taxable: real): real
  {
    LadderTax(taxable, ScottishBands, ScottishTopRate)
  }

  /** `estimate_income_tax_scotland`: the tapered allowance, then the fixed ladder.
      Neither the band widths nor the rates come from the table. */
  function IncomeTaxScotland(income: real, p: TaxParameters): real
  {
    Round2(ScottishLadderTax(Taxable(income, p)))
  }

  function Clamp(x: real, lo: real, hi: real): real
  {
    Min(Max(x, lo), hi)
  }

  /** The Scottish schedule written as one sum of band slices. */
  function ScottishSchedule(t: real): real
  {
    0.19 * Clamp(t, 0.0, 2306.0)
    + 0.20 * Clamp(t - 2306.0, 0.0, 11685.0)
    + 0.21 * Clamp(t - 13991.0, 0.0, 17101.0)
    + 0.42 * Clamp(t - 31092.0, 0.0, 31851.0)
    + 0.47 * Max(0.0, t - 62943.0)
  }

  /** The band loop computes the schedule. */
  lemma LadderIsSchedule(t: real)
    requires t >= 0.0
    ensures ScottishLadderTax(t) == ScottishSchedule(t)
  {
    var b := ScottishBands;
    assert b[1..][1..][1..][1..] == [];
    var l := Ladder(t, b);
    if t <= 2306.0 {
      assert t <= 0.0 || Ladder(0.0, b[1..]) == (0.0, 0.0);
    } else if t <= 13991.0 {
      var r1 := t - 2306.0;
      assert Ladder(0.0, b[1..][1..]) == (0.0, 0.0);
      assert Ladder(r1, b[1..]) == (r1 * 0.20, 0.0);
      assert l == (2306.0 * 0.19 + r1 * 0.20, 0.0);
    } else if t <= 31092.0 {
      assert Ladder(0.0, b[1..][1..][1..]) == (0.0, 0.0);
    } else if t <= 62943.0 {
      assert Ladder(t - 62943.0, b[1..][1..][1..][1..]) == (0.0, t - 62943.0);
    }
  }

  /** No Scottish tax on zero taxable income. */
  lemma ScotlandZero(income: real, p: TaxParameters)
    requires income <= TaperedAllowance(income, p.personalAllowance)
    ensures IncomeTaxScotland(income, p) == 0.0
  {
    LadderIsSchedule(0.0);
    RoundZero(2);
  }

  /** Scottish income tax never falls as income rises. */
  lemma ScotlandMonotone(i1: real, i2: real, p: TaxParameters)
    requires i1 <= i2
    ensures IncomeTaxScotland(i1, p) <= IncomeTaxScotland(i2, p)
  {
    var t1 := Taxable(i1, p);
    var t2 := Taxable(i2, p);
    assert TaperedAllowance(i2, p.personalAllowance) <= TaperedAllowance(i1, p.personalAllowance);
    LadderIsSchedule(t1);
    LadderIsSchedule(t2);
    ScottishScheduleMonotone(t1, t2);
    RoundMonotone(ScottishLadderTax(t1), ScottishLadderTax(t2), 2);
  }

  lemma ScottishScheduleMonotone(t1: real, t2: real)
    requires t1 <= t2
    ensures ScottishSchedule(t1) <= ScottishSchedule(t2)
  {
  }

  /** One turn of the band loop. */
  lemma LadderStep(remaining: real, bands: seq<(real, real)>, take: real)
    requires |bands| > 0 && take == Min(remaining, bands[0].0) && take > 0.0
    ensures Ladder(remaining, bands).0 == take * bands[0].1 + Ladder(remaining - take, bands[1..]).0
    ensures Ladder(remaining, bands).1 == Ladder(remaining - take, bands[1..]).1
  {
  }

  /** The band loop stops at a band that takes nothing. */
  lemma LadderStop(remaining: real, bands: seq<(real, real)>)
    requires |bands| == 0 || Min(remaining, bands[0].0) <= 0.0
    ensures Ladder(remaining, bands) == (0.0, remaining)
  {
  }

  /** The source's loop over the bands, with its early `break`, computes the
      recursive band ladder. */
  method BandLoop(taxable: real, bands: seq<(real, real)>, topRate: real) returns (total: real)
    ensures total == LadderTax(taxable, bands, topRate)
  {
    ghost var whole := Ladder(taxable, bands);
    total := 0.0;
    var remaining := taxable;
    var i := 0;
    var stopped := false;
    while i < |bands| && !stopped
      invariant 0 <= i <= |bands|
      invariant total + Ladder(remaining, bands[i..]).0 == whole.0
      invariant Ladder(remaining, bands[i..]).1 == whole.1
      invariant stopped ==> Ladder(remaining, bands[i..]) == (0.0, remaining)
      decreases |bands| - i, if stopped then 0 else 1
    {
      var take := Min(remaining, bands[i].0);
      var tail := bands[i..];
      assert tail[0] == bands[i];
      if take <= 0.0 {
        LadderStop(remaining, tail);
        stopped := true;
      } else {
        LadderStep(remaining, tail, take);
        assert tail[1..] == bands[i + 1..];
        total := total + take * bands[i].1;
        remaining := remaining - take;
        i := i + 1;
      }
    }
    if !stopped {
      LadderStop(remaining, bands[i..]);
    }
    assert total == whole.0 && remaining == whole.1;
    if remaining > 0.0 {
      total := total + remaining * topRate;
    }
  }

  /** The Scottish loop computes the closed-form schedule. */
  method ScotlandLoop(taxable: real) returns (total: real)
    requires taxable >= 0.0
    ensures total == ScottishSchedule(taxable)
  {
    total := BandLoop(taxable, ScottishBands, ScottishTopRate);
    LadderIsSchedule(taxable);
  }
}

=== FILE: levies.dfy ===
/** The smaller charges of a household estimate: VAT on spending, council tax,
    savings and dividend tax, student loan repayment. */
module Levies {
  import opened Arith
  import opened Rounding
  import opened Tables
  import opened Text
  import opened Wrappers
  import opened TaxParams

  // VAT

  /** The VAT share of a VAT-inclusive price. */
  function VatFraction(vatRate: real): real
    requires vatRate != -1.0
  {
    vatRate / (1.0 + vatRate)
  }

  lemma VatFractionIsRate(vatRate: real)
    requires vatRate >= 0.0
    ensures 0.0 <= VatFraction(vatRate) < 1.0
  {
    DivMonotone(0.0, vatRate, 1.0 + vatRate);
    assert VatFraction(vatRate) * (1.0 + vatRate) == vatRate;
  }

  /** Income left after income tax and NI, never negative. */
  function Disposable(income: real, incomeTax: real, ni: real): (d: real)
    ensures d >= 0.0 && d >= income - incomeTax - ni
  {
    Max(0.0, income - incomeTax - ni)
  }

  /** The VAT inside the VAT-able share of disposable income, unrounded. */
  function VatOnSpend(disposable: real, vatableSpendRatio: real, vatRate: real): real
    requires vatRate != -1.0
  {
    disposable * vatableSpendRatio * VatFraction(vatRate)
  }

  /** `estimate_vat`. Python divides by `1 + vat_rate`; a rate of -1 would
      raise, so it is excluded. */
  function Vat(income: real, incomeTax: real, ni: real, vatableSpendRatio: real, p: TaxParameters): real
    requires p.vatRate != -1.0
  {
    Round2(VatOnSpend(Disposable(income, incomeTax, ni), vatableSpendRatio, p.vatRate))
  }

  /** The unrounded VAT grows with disposable income and with the spend ratio,
      is zero with no spend, and is less than the spend itself. */
  lemma VatOnSpendMonotone(d1: real, d2: real, r1: real, r2: real, vatRate: real)
    requires 0.0 <= d1 <= d2 && 0.0 <= r1 <= r2 && vatRate >= 0.0
    ensures VatOnSpend(d1, 0.0, vatRate) == 0.0
    ensures 0.0 <= VatOnSpend(d1, r1, vatRate) <= VatOnSpend(d2, r2, vatRate)
    ensures VatOnSpend(d1, r1, vatRate) <= d1 * r1
  {
    var f := VatFraction(vatRate);
    VatFractionIsRate(vatRate);
    MulMonotone(0.0, d1, r1);
    MulMonotone(r1, r2, d1);
    MulMonotone(d1, d2, r2);
    assert 0.0 <= d1 * r1 <= d2 * r2;
    MulMonotone(0.0, d1 * r1, f);
    MulMonotone(d1 * r1, d2 * r2, f);
    MulMonotone(f, 1.0, d1 * r1);
  }

  /** VAT is zero when nothing is spent, never negative, grows with the spend
      ratio, and never rises when income tax or NI rise. */
  lemma VatMonotone(income: real, t1: real, t2: real, ni: real, r1: real, r2: real, p: TaxParameters)
    requires t1 <= t2 && 0.0 <= r1 <= r2 && p.vatRate >= 0.0
    ensures Vat(income, t1, ni, 0.0, p) == 0.0
    ensures 0.0 <= Vat(income, t2, ni, r1, p) <= Vat(income, t1, ni, r2, p)
  {
    var d1 := Disposable(income, t1, ni);
    var d2 := Disposable(income, t2, ni);
    VatOnSpendMonotone(d2, d1, r1, r2, p.vatRate);
    VatOnSpendMonotone(d1, d1, 0.0, 0.0, p.vatRate);
    RoundZero(2);
    RoundNonNegative(VatOnSpend(d2, r1, p.vatRate), 2);
    RoundMonotone(VatOnSpend(d2, r1, p.vatRate), VatOnSpend(d1, r2, p.vatRate), 2);
  }

  // Council tax

  /** Average Band D council tax by region, keyed by lower-case region name. */
  const CouncilTaxByRegion: seq<(string, real)> := [
    ("north east", 2345.0),
    ("north west", 2280.0),
    ("yorkshire and the humber", 2240.0),
    ("east midlands", 2310.0),
    ("west midlands", 2290.0),
    ("east of england", 2440.0),
    ("london", 2170.0),
    ("south east", 2435.0),
    ("south west", 2445.0),
    ("england", 2280.0),
    ("wales", 2200.0),
    ("scotland", 1590.0),
    ("northern ireland", 1250.0)
  ]

  /** The fallback for a region outside the table: the England figure. */
  const EnglandCouncilTax := 2280.0

  /** Band multipliers relative to Band D, A lowest. */
  const BandMultipliers: seq<(string, real)> := [
    ("A", 6.0 / 9.0),
    ("B", 7.0 / 9.0),
    ("C", 8.0 / 9.0),
    ("D", 1.0),
    ("E", 11.0 / 9.0),
    ("F", 13.0 / 9.0),
    ("G", 15.0 / 9.0),
    ("H", 18.0 / 9.0)
  ]

  /** The regional average for a region key, or England's for a key outside the table. */
  function RegionAverage(key: string): real
  {
    Lookup(CouncilTaxByRegion, key).GetOr(EnglandCouncilTax)
  }

  /** The charge for normalised keys: the average for "AUTO" or an unknown
      band (unrounded), else the average times the band multiplier, rounded. */
  function CouncilTaxFor(regionKey: string, bandKey: string): real
  {
    var base := RegionAverage(regionKey);
    if bandKey == "AUTO" then base else BandCharge(base, Lookup(BandMultipliers, bandKey))
  }

  /** The charge for a band given its multiplier, if it has one. */
  function BandCharge(base: real, multiplier: Option<real>): real
  {
    if multiplier.None? then base else ScaledCharge(base, multiplier.value)
  }

  /** The average scaled by a multiplier, rounded to pence. */
  function ScaledCharge(base: real, multiplier: real): real
  {
    Round2(base * multiplier)
  }

  /** `estimate_council_tax`: the region is stripped and lower-cased, the band
      stripped and upper-cased. */
  function CouncilTax(region: string, band: string): real
  {
    CouncilTaxFor(Lower(Strip(region)), Upper(Strip(band)))
  }

  lemma RegionTableWhole()
    ensures forall i :: 0 <= i < |CouncilTaxByRegion| ==>
      CouncilTaxByRegion[i].1 > 0.0 && CouncilTaxByRegion[i].1.Floor as real == CouncilTaxByRegion[i].1
  {
  }

  /** Every regional average, and the fallback, is a positive whole number of pounds. */
  lemma RegionAverageIsWhole(key: string)
    ensures RegionAverage(key) > 0.0
    ensures IsCents(RegionAverage(key))
  {
    var v := RegionAverage(key);
    var r := Lookup(CouncilTaxByRegion, key);
    if r.Some? {
      var i :| 0 <= i < |CouncilTaxByRegion| && CouncilTaxByRegion[i] == (key, r.value);
      RegionTableWhole();
    }
    assert v > 0.0 && v == v.Floor as real;
    WholeIsCents(v.Floor);
  }

  lemma BandKeysDistinct()
    ensures DistinctKeys(BandMultipliers)
  {
  }

  /** Band D, "auto" and unknown bands all charge the regional average. */
  lemma BandDIsAverage(regionKey: string, bandKey: string)
    requires bandKey == "D" || bandKey == "AUTO" || Lookup(BandMultipliers, bandKey).None?
    ensures CouncilTaxFor(regionKey, bandKey) == RegionAverage(regionKey)
  {
    var base := RegionAverage(regionKey);
    RegionAverageIsWhole(regionKey);
    if bandKey == "D" {
      BandKeysDistinct();
      LookupEntry(BandMultipliers, 3);
      assert base * 1.0 == base;
      Round2Exact(base);
    }
  }

  lemma BandMultipliersAscend()
    ensures forall i, j :: 0 <= i <= j < |BandMultipliers| ==> BandMultipliers[i].1 <= BandMultipliers[j].1
    ensures forall i :: 0 <= i < |BandMultipliers| ==> BandMultipliers[i].0 != "AUTO"
    ensures forall i :: 0 <= i < |BandMultipliers| ==> BandMultipliers[i].1 > 0.0
  {
  }

  /** The charge for a listed band is the rounded multiple of the average. */
  lemma CouncilTaxForBand(regionKey: string, i: int)
    requires 0 <= i < |BandMultipliers|
    ensures CouncilTaxFor(regionKey, BandMultipliers[i].0) == BandCharge(RegionAverage(regionKey), Some(BandMultipliers[i].1))
  {
    BandKeysDistinct();
    LookupEntry(BandMultipliers, i);
    BandMultipliersAscend();
  }

  /** A listed band is never "AUTO". */
  lemma ListedBandNotAuto(key: string)
    requires Lookup(BandMultipliers, key).Some?
    ensures key != "AUTO"
  {
    var v := Lookup(BandMultipliers, key).value;
    var i :| 0 <= i < |BandMultipliers| && BandMultipliers[i] == (key, v);
    BandMultipliersAscend();
  }

  /** A band with a larger multiplier never charges less; with
      `BandMultipliersAscend`, a later band (A lowest, H highest) never
      charges less. */
  lemma CouncilTaxBandsOrdered(regionKey: string, k1: string, k2: string)
    requires Lookup(BandMultipliers, k1).Some? && Lookup(BandMultipliers, k2).Some?
    requires Lookup(BandMultipliers, k1).value <= Lookup(BandMultipliers, k2).value
    ensures CouncilTaxFor(regionKey, k1) <= CouncilTaxFor(regionKey, k2)
  {
    ListedBandNotAuto(k1);
    ListedBandNotAuto(k2);
    var base := RegionAverage(regionKey);
    assert base > 0.0 by { RegionAverageIsWhole(regionKey); }
    var m1, m2 := Lookup(BandMultipliers, k1), Lookup(BandMultipliers, k2);
    BandChargeMonotone(base, m1, m2);
  }

  lemma BandChargeMonotone(base: real, m1: Option<real>, m2: Option<real>)
    requires base >= 0.0 && m1.Some? && m2.Some? && m1.value <= m2.value
    ensures BandCharge(base, m1) <= BandCharge(base, m2)
  {
    ScaledChargeMonotone(base, m1.value, m2.value);
  }

  lemma ScaledChargeMonotone(base: real, m1: real, m2: real)
    requires base >= 0.0 && m1 <= m2
    ensures ScaledCharge(base, m1) <= ScaledCharge(base, m2)
  {
    MulMonotone(m1, m2, base);
    assert base * m1 <= base * m2;
    RoundMonotone(base * m1, base * m2, 2);
  }

  /** Every council tax charge is a non-negative whole number of pence. */
  lemma CouncilTaxForIsCents(regionKey: string, bandKey: string)
    ensures CouncilTaxFor(regionKey, bandKey) >= 0.0
    ensures IsCents(CouncilTaxFor(regionKey, bandKey))
  {
    var base := RegionAverage(regionKey);
    RegionAverageIsWhole(regionKey);
    var m := Lookup(BandMultipliers, bandKey);
    if bandKey != "AUTO" && m.Some? {
      var i :| 0 <= i < |BandMultipliers| && BandMultipliers[i] == (bandKey, m.value);
      BandMultipliersAscend();
      ScaledChargeIsCents(base, m.value);
      assert CouncilTaxFor(regionKey, bandKey) == ScaledCharge(base, m.value);
    }
  }

  lemma ScaledChargeIsCents(base: real, multiplier: real)
    requires base >= 0.0 && multiplier >= 0.0
    ensures ScaledCharge(base, multiplier) >= 0.0 && IsCents(ScaledCharge(base, multiplier))
  {
    MulMonotone(0.0, multiplier, base);
    RoundNonNegative(base * multiplier, 2);
    Round2IsCents(base * multiplier);
  }

  /** Surrounding whitespace in the region or band name changes nothing. */
  lemma CouncilTaxIgnoresPadding(pre: string, region: string, post: string, band: string)
    requires forall i :: 0 <= i < |pre| ==> IsPySpace(pre[i])
    requires forall i :: 0 <= i < |post| ==> IsPySpace(post[i])
    ensures CouncilTax(pre + region + post, band) == CouncilTax(region, band)
    ensures CouncilTax(region, pre + band + post) == CouncilTax(region, band)
  {
    StripPadding(pre, region, post);
    StripPadding(pre, band, post);
  }

  // Savings and dividends

  /** The upper limits of the basic and higher rate bands used to pick the
      savings allowance and the dividend rate. */
  const BasicBandTop := 50270.0
  const HigherBandTop := 125140.0

  /** The personal savings allowance of the band `income` falls in. */
  function SavingsAllowance(income: real): real
  {
    if income <= BasicBandTop then 1000.0 else if income <= HigherBandTop then 500.0 else 0.0
  }

  /** The savings rate of the band `income` falls in. */
  function SavingsRate(income: real): (r: real)
    ensures 0.0 < r < 1.0
  {
    if income <= BasicBandTop then 0.20 else if income <= HigherBandTop then 0.40 else 0.45
  }

  /** The rate applied to the amount above an allowance, unrounded; zero for
      a non-positive amount. */
  function Excess(amount: real, allowance: real, rate: real): real
  {
    if amount <= 0.0 then 0.0 else Max(0.0, amount - allowance) * rate
  }

  lemma ExcessMonotone(x1: real, x2: real, allowance: real, rate: real)
    requires x1 <= x2 && allowance >= 0.0 && rate >= 0.0
    ensures x1 <= allowance ==> Excess(x1, allowance, rate) == 0.0
    ensures 0.0 <= Excess(x1, allowance, rate) <= Excess(x2, allowance, rate)
  {
    var t1 := if x1 <= 0.0 then 0.0 else Max(0.0, x1 - allowance);
    var t2 := if x2 <= 0.0 then 0.0 else Max(0.0, x2 - allowance);
    MulMonotone(0.0, t1, rate);
    MulMonotone(t1, t2, rate);
  }

  /** `estimate_savings_tax`. */
  function SavingsTax(income: real, interest: real): real
  {
    if interest <= 0.0 then 0.0
    else Round2(Excess(interest, SavingsAllowance(income), SavingsRate(income)))
  }

  /** Interest within the allowance is untaxed; the tax is non-negative and
      grows with interest. */
  lemma SavingsTaxShape(income: real, x1: real, x2: real)
    requires x1 <= x2
    ensures x1 <= SavingsAllowance(income) ==> SavingsTax(income, x1) == 0.0
    ensures 0.0 <= SavingsTax(income, x1) <= SavingsTax(income, x2)
  {
    RoundZero(2);
    var a, rate := SavingsAllowance(income), SavingsRate(income);
    ExcessMonotone(x1, x2, a, rate);
    RoundNonNegative(Excess(x1, a, rate), 2);
    RoundMonotone(Excess(x1, a, rate), Excess(x2, a, rate), 2);
  }

  const DividendAllowance := 500.0

  /** The dividend rate of the band `income` falls in. */
  function DividendRate(income: real): (r: real)
    ensures 0.0 < r < 1.0
  {
    if income <= BasicBandTop then 0.0875 else if income <= HigherBandTop then 0.3375 else 0.3935
  }

  /** `estimate_dividend_tax`: dividends above the allowance at the band's rate. */
  function DividendTax(income: real, dividends: real): real
  {
    if dividends <= 0.0 then 0.0
    else Round2(Excess(dividends, DividendAllowance, DividendRate(income)))
  }

  /** Dividends within the allowance are untaxed; the tax is non-negative,
      grows with dividends, and never falls as other income moves up a band. */
  lemma DividendTaxShape(i1: real, i2: real, d1: real, d2: real)
    requires i1 <= i2 && d1 <= d2
    ensures d1 <= DividendAllowance ==> DividendTax(i1, d1) == 0.0
    ensures 0.0 <= DividendTax(i1, d1) <= DividendTax(i1, d2)
    ensures DividendTax(i1, d1) <= DividendTax(i2, d1)
  {
    RoundZero(2);
    var r1, r2 := DividendRate(i1), DividendRate(i2);
    ExcessMonotone(d1, d2, DividendAllowance, r1);
    RoundNonNegative(Excess(d1, DividendAllowance, r1), 2);
    RoundMonotone(Excess(d1, DividendAllowance, r1), Excess(d2, DividendAllowance, r1), 2);
    if d1 > 0.0 {
      MulMonotone(r1, r2, Max(0.0, d1 - DividendAllowance));
      assert Excess(d1, DividendAllowance, r1) <= Excess(d1, DividendAllowance, r2);
      RoundMonotone(Excess(d1, DividendAllowance, r1), Excess(d1, DividendAllowance, r2), 2);
    }
  }

  // Student loans

  /** Repayment threshold and rate by plan. */
  const StudentLoanPlans: seq<(string, (real, real))> := [
    ("1", (24990.0, 0.09)),
    ("2", (27295.0, 0.09)),
    ("4", (31395.0, 0.09)),
    ("5", (25000.0, 0.09)),
    ("postgrad", (21000.0, 0.06))
  ]

  /** The plan used for an unknown plan name: a threshold of 10^9 and a zero
      rate, so nothing is ever repaid. */
  const UnknownPlan := (1000000000.0, 0.0)

  /** The threshold and rate a plan name selects. */
  function PlanTerms(plan: string): (real, real)
  {
    Lookup(StudentLoanPlans, plan).GetOr(UnknownPlan)
  }

  /** The rate on income above a threshold, rounded to pence. */
  function Repayment(income: real, threshold: real, rate: real): real
  {
    Round2(Max(0.0, income - threshold) * rate)
  }

  /** `estimate_student_loan_repayment`. */
  function StudentLoanRepayment(income: real, plan: string): real
  {
    if plan == "none" then 0.0
    else Repayment(income, PlanTerms(plan).0, PlanTerms(plan).1)
  }

  lemma PlanTableRates()
    ensures forall k :: 0 <= k < |StudentLoanPlans| ==> StudentLoanPlans[k].1.1 > 0.0
    ensures forall k :: 0 <= k < |StudentLoanPlans| ==> StudentLoanPlans[k].0 != "none"
  {
  }

  /** Every plan's rate, listed or not, is non-negative. */
  lemma PlanRateNonNegative(plan: string)
    ensures PlanTerms(plan).1 >= 0.0
    ensures Lookup(StudentLoanPlans, plan).None? ==> PlanTerms(plan).1 == 0.0
  {
    var r := Lookup(StudentLoanPlans, plan);
    if r.Some? {
      var k :| 0 <= k < |StudentLoanPlans| && StudentLoanPlans[k] == (plan, r.value);
      PlanTableRates();
    }
  }

  lemma RepaymentAbove(income: real, threshold: real, rate: real)
    requires income > threshold
    ensures Repayment(income, threshold, rate) == Round2((income - threshold) * rate)
  {
    ExcessProduct(income, threshold, rate);
    Round2Congruent(Max(0.0, income - threshold) * rate, (income - threshold) * rate);
  }

  lemma ExcessProduct(income: real, threshold: real, rate: real)
    requires income > threshold
    ensures Max(0.0, income - threshold) * rate == (income - threshold) * rate
  {
  }

  /** Repayment at a given threshold and rate: zero up to the threshold, the
      rate on the excess above it, non-decreasing in income. */
  lemma RepaymentShape(i1: real, i2: real, threshold: real, rate: real)
    requires i1 <= i2 && rate >= 0.0
    ensures i1 <= threshold ==> Repayment(i1, threshold, rate) == 0.0
    ensures i1 > threshold ==> Repayment(i1, threshold, rate) == Round2((i1 - threshold) * rate)
    ensures 0.0 <= Repayment(i1, threshold, rate) <= Repayment(i2, threshold, rate)
  {
    if i1 <= threshold {
      assert Max(0.0, i1 - threshold) * rate == 0.0;
      RoundZero(2);
    } else {
      RepaymentAbove(i1, threshold, rate);
    }
    MulMonotone(0.0, Max(0.0, i1 - threshold), rate);
    MulMonotone(Max(0.0, i1 - threshold), Max(0.0, i2 - threshold), rate);
    RoundNonNegative(Max(0.0, i1 - threshold) * rate, 2);
    RoundMonotone(Max(0.0, i1 - threshold) * rate, Max(0.0, i2 - threshold) * rate, 2);
  }

  /** A listed plan repays nothing at or below its threshold and its rate on
      the excess above it. */
  lemma ListedPlanRepayment(income: real, plan: string)
    requires Lookup(StudentLoanPlans, plan).Some?
    ensures var (threshold, rate) := Lookup(StudentLoanPlans, plan).value;
      && (income <= threshold ==> StudentLoanRepayment(income, plan) == 0.0)
      && (income > threshold ==> StudentLoanRepayment(income, plan) == Round2((income - threshold) * rate))
  {
    var (threshold, rate) := Lookup(StudentLoanPlans, plan).value;
    PlanTableRates();
    PlanRateNonNegative(plan);
    assert plan != "none" && PlanTerms(plan) == (threshold, rate);
    RepaymentShape(income, income, threshold, rate);
  }

  /** Nothing is repaid on "none" or on an unknown plan, and repayments never
      fall as income rises. */
  lemma StudentLoanShape(i1: real, i2: real, plan: string)
    requires i1 <= i2
    ensures plan == "none" || Lookup(StudentLoanPlans, plan).None? ==> StudentLoanRepayment(i1, plan) == 0.0
    ensures 0.0 <= StudentLoanRepayment(i1, plan) <= StudentLoanRepayment(i2, plan)
  {
    if plan != "none" {
      if Lookup(StudentLoanPlans, plan).None? {
        UnknownPlanRepaysNothing(i1, plan);
        UnknownPlanRepaysNothing(i2, plan);
      } else {
        var (threshold, rate) := PlanTerms(plan);
        PlanRateNonNegative(plan);
        RepaymentShape(i1, i2, threshold, rate);
      }
    }
  }

  /** A plan name outside the table repays nothing. */
  lemma UnknownPlanRepaysNothing(income: real, plan: string)
    requires Lookup(StudentLoanPlans, plan).None?
    ensures StudentLoanRepayment(income, plan) == 0.0
  {
    assert PlanTerms(plan) == UnknownPlan;
    RepaymentZeroRate(income, UnknownPlan.0);
  }

  lemma RepaymentZeroRate(income: real, threshold: real)
    ensures Repayment(income, threshold, 0.0) == 0.0
  {
    Round2Congruent(Max(0.0, income - threshold) * 0.0, 0.0);
    RoundZero(2);
  }
}

=== FILE: national_insurance.dfy ===
/** Employee Class 1 NI (`estimate_national_insurance`) and the simplified
    self-employed Class 2 + Class 4 charge (`estimate_self_employed_ni`). */
module NationalInsurance {
  import opened Arith
  import opened Rounding
  import opened TaxParams

  /** `estimate_national_insurance`: three branches on the primary threshold
      and the upper earnings limit. */
  function EmployeeNI(income: real, p: TaxParameters): real
  {
    if income <= p.niPrimaryThreshold then 0.0
    else Round2(EmployeeNICharge(income, p))
  }

  /** The unrounded charge of the two charging branches. */
  function EmployeeNICharge(income: real, p: TaxParameters): real
  {
    if income <= p.niUpperEarningsLimit then
      (income - p.niPrimaryThreshold) * p.niMainRate
    else
      (p.niUpperEarningsLimit - p.niPrimaryThreshold) * p.niMainRate
        + (income - p.niUpperEarningsLimit) * p.niUpperRate
  }

  /** NI written as the main rate on the slice between the thresholds plus the
      upper rate on the slice above the limit. */
  function EmployeeNISchedule(income: real, p: TaxParameters): real
  {
    Max(0.0, Min(income, p.niUpperEarningsLimit) - p.niPrimaryThreshold) * p.niMainRate
      + Max(0.0, income - p.niUpperEarningsLimit) * p.niUpperRate
  }

  /** The three branches are one schedule; in particular the two charging
      branches agree at the upper earnings limit. */
  lemma EmployeeNIIsSchedule(income: real, p: TaxParameters)
    requires p.niPrimaryThreshold <= p.niUpperEarningsLimit
    ensures EmployeeNI(income, p) == Round2(EmployeeNISchedule(income, p))
  {
    ScheduleBranches(income, p);
    if income <= p.niPrimaryThreshold {
      RoundZero(2);
    } else {
      assert EmployeeNICharge(income, p) == EmployeeNISchedule(income, p);
    }
  }

  /** The schedule on each of the three income ranges. */
  lemma ScheduleBranches(income: real, p: TaxParameters)
    requires p.niPrimaryThreshold <= p.niUpperEarningsLimit
    ensures var pt, uel := p.niPrimaryThreshold, p.niUpperEarningsLimit;
      EmployeeNISchedule(income, p) ==
        if income <= pt then 0.0
        else if income <= uel then (income - pt) * p.niMainRate
        else (uel - pt) * p.niMainRate + (income - uel) * p.niUpperRate
  {
    var pt, uel := p.niPrimaryThreshold, p.niUpperEarningsLimit;
    if income <= pt {
      assert EmployeeNISchedule(income, p) == 0.0 * p.niMainRate + 0.0 * p.niUpperRate;
    } else if income <= uel {
      assert EmployeeNISchedule(income, p) == (income - pt) * p.niMainRate + 0.0 * p.niUpperRate;
    } else {
      assert EmployeeNISchedule(income, p) == (uel - pt) * p.niMainRate + (income - uel) * p.niUpperRate;
    }
  }

  /** No NI is due at or below the primary threshold, and NI is never negative. */
  lemma EmployeeNIBounds(income: real, p: TaxParameters)
    requires p.niPrimaryThreshold <= p.niUpperEarningsLimit
    requires p.niMainRate >= 0.0 && p.niUpperRate >= 0.0
    ensures income <= p.niPrimaryThreshold ==> EmployeeNI(income, p) == 0.0
    ensures EmployeeNI(income, p) >= 0.0
  {
    EmployeeNIIsSchedule(income, p);
    var lo := Max(0.0, Min(income, p.niUpperEarningsLimit) - p.niPrimaryThreshold);
    var hi := Max(0.0, income - p.niUpperEarningsLimit);
    MulMonotone(0.0, lo, p.niMainRate);
    MulMonotone(0.0, hi, p.niUpperRate);
    RoundNonNegative(EmployeeNISchedule(income, p), 2);
  }

  /** NI never falls as income rises. */
  lemma EmployeeNIMonotone(i1: real, i2: real, p: TaxParameters)
    requires i1 <= i2
    requires p.niPrimaryThreshold <= p.niUpperEarningsLimit
    requires p.niMainRate >= 0.0 && p.niUpperRate >= 0.0
    ensures EmployeeNI(i1, p) <= EmployeeNI(i2, p)
  {
    EmployeeNIIsSchedule(i1, p);
    EmployeeNIIsSchedule(i2, p);
    ScheduleMonotone(i1, i2, p);
    RoundMonotone(EmployeeNISchedule(i1, p), EmployeeNISchedule(i2, p), 2);
  }

  lemma ScheduleMonotone(i1: real, i2: real, p: TaxParameters)
    requires i1 <= i2
    requires p.niMainRate >= 0.0 && p.niUpperRate >= 0.0
    ensures EmployeeNISchedule(i1, p) <= EmployeeNISchedule(i2, p)
  {
    var pt, uel := p.niPrimaryThreshold, p.niUpperEarningsLimit;
    MulMonotone(Max(0.0, Min(i1, uel) - pt), Max(0.0, Min(i2, uel) - pt), p.niMainRate);
    MulMonotone(Max(0.0, i1 - uel), Max(0.0, i2 - uel), p.niUpperRate);
  }

  /** The flat Class 2 charge, due from the small profits threshold. */
  const Class2Charge := 179.4
  const SmallProfitsThreshold := 12570.0
  const Class4UpperLimit := 50270.0

  /** `estimate_self_employed_ni`: fixed thresholds and rates, not the year's table. */
  function SelfEmployedNI(income: real): real
  {
    var class2 := if income >= SmallProfitsThreshold then Class2Charge else 0.0;
    var class4Main := Max(0.0, Min(income, Class4UpperLimit) - SmallProfitsThreshold) * 0.06;
    var class4Upper := Max(0.0, income - Class4UpperLimit) * 0.02;
    Round2(class2 + class4Main + class4Upper)
  }

  /** Nothing below the small profits threshold; at least the Class 2 charge
      from it; 6% on the main slice and 2% above it. */
  lemma SelfEmployedNIShape(income: real)
    ensures income < SmallProfitsThreshold ==> SelfEmployedNI(income) == 0.0
    ensures income >= SmallProfitsThreshold ==> SelfEmployedNI(income) >= Class2Charge
    ensures SmallProfitsThreshold <= income <= Class4UpperLimit ==>
      SelfEmployedNI(income) == Round2(Class2Charge + (income - SmallProfitsThreshold) * 0.06)
    ensures income > Class4UpperLimit ==>
      SelfEmployedNI(income) == Round2(Class2Charge + 2262.0 + (income - Class4UpperLimit) * 0.02)
  {
    RoundZero(2);
    if income >= SmallProfitsThreshold {
      var main := Max(0.0, Min(income, Class4UpperLimit) - SmallProfitsThreshold);
      var upper := Max(0.0, income - Class4UpperLimit);
      assert Class2Charge <= Class2Charge + main * 0.06 + upper * 0.02;
      WholeIsCents(17940);
      assert Class2Charge == 17940 as real / 100.0;
      assert IsCents(Class2Charge);
      Round2Exact(Class2Charge);
      RoundMonotone(Class2Charge, Class2Charge + main * 0.06 + upper * 0.02, 2);
    }
  }
}

=== FILE: normalized_spending.dfy ===
/** The normalisation script that turns the processed spending CSVs into one
    table of national and regional rows: `slugify`, `parse_year_label` and
    the row filter of `normalize_rows`. `int()` and `float()` are the partial
    parsers `parseInt` and `parseFloat`; file reading and Parquet writing are
    not modelled. */
module NormalizedSpending {
  import opened Wrappers
  import opened Text
  import opened Sorting

  /** The characters `[a-z0-9]` a slug keeps. */
  predicate IsSlugChar(c: char)
  {
    IsAsciiLower(c) || IsDigit(c)
  }

  predicate NotSlugChar(c: char)
  {
    !IsSlugChar(c)
  }

  predicate AllDigits(s: string)
  {
    forall i :: 0 <= i < |s| ==> IsDigit(s[i])
  }

  predicate SlugOnly(s: string)
  {
    forall i :: 0 <= i < |s| ==> IsSlugChar(s[i])
  }

  /** The length of the code `^[0-9]+(\.[0-9]+)?` at the start of `s`, 0
      when `s` does not start with a digit. */
  function CodeLength(s: string): (n: nat)
    ensures n <= |s|
    ensures n > 0 ==> IsDigit(s[0])
  {
    var k := DigitRun(s);
    if k == 0 then 0
    else if k < |s| && s[k] == '.' && DigitRun(s[k + 1..]) > 0 then k + 1 + DigitRun(s[k + 1..])
    else k
  }

  /** `re.sub(r"^[0-9]+(\.[0-9]+)?\s*", "", s)`: a leading code "N" or "N.M"
      and the whitespace after it. */
  function StripCode(s: string): (r: string)
    ensures |r| <= |s| && r == s[|s| - |r|..]
    ensures s == [] || !IsDigit(s[0]) ==> r == s
  {
    var n := CodeLength(s);
    if n == 0 then s
    else
      var t := s[n..];
      var r := TrimStart(t, IsPySpace);
      assert r == t[|t| - |r|..] == s[|s| - |r|..];
      r
  }

  /** Leading whitespace in front of text that does not start with any is dropped. */
  lemma {:induction false} SpacesDropped(ws: string, rest: string)
    requires forall i :: 0 <= i < |ws| ==> IsPySpace(ws[i])
    requires rest == [] || !IsPySpace(rest[0])
    ensures TrimStart(ws + rest, IsPySpace) == rest
  {
    TrimStartPadding(ws, rest, IsPySpace);
  }

  lemma {:induction false} TwoPartCodeLength(a: string, b: string, tail: string)
    requires a != [] && AllDigits(a) && b != [] && AllDigits(b)
    requires tail == [] || !IsDigit(tail[0])
    ensures CodeLength(a + "." + b + tail) == |a| + 1 + |b|
  {
    var s := a + "." + b + tail;
    var after := b + tail;
    assert s == a + ("." + after);
    DigitRunOf(a, "." + after);
    assert s[|a| + 1..] == after;
    DigitRunOf(b, tail);
  }

  lemma {:induction false} OnePartCodeLength(a: string, tail: string)
    requires a != [] && AllDigits(a)
    requires tail != [] && !IsDigit(tail[0]) && tail[0] != '.'
    ensures CodeLength(a + tail) == |a|
  {
    DigitRunOf(a, tail);
  }

  /** "7.1 Defence" loses "7.1 ". */
  lemma {:induction false} TwoPartCodeRemoved(a: string, b: string, ws: string, rest: string)
    requires a != [] && AllDigits(a) && b != [] && AllDigits(b)
    requires forall i :: 0 <= i < |ws| ==> IsPySpace(ws[i])
    requires rest == [] || !IsPySpace(rest[0])
    requires ws != [] || rest == [] || !IsDigit(rest[0])
    ensures StripCode(a + "." + b + ws + rest) == rest
  {
    var tail := ws + rest;
    var s := a + "." + b + tail;
    assert a + "." + b + ws + rest == s;
    assert tail == [] || !IsDigit(tail[0]) by {
      if ws != [] {
        assert tail[0] == ws[0];
      } else {
        assert tail == rest;
      }
    }
    TwoPartCodeLength(a, b, tail);
    var code := a + "." + b;
    assert s == code + tail && |code| == |a| + 1 + |b|;
    assert s[|code|..] == tail;
    SpacesDropped(ws, rest);
  }

  /** "7 Defence" loses "7 ". */
  lemma {:induction false} OnePartCodeRemoved(a: string, ws: string, rest: string)
    requires a != [] && AllDigits(a)
    requires ws != [] && forall i :: 0 <= i < |ws| ==> IsPySpace(ws[i])
    requires rest == [] || !IsPySpace(rest[0])
    ensures StripCode(a + ws + rest) == rest
  {
    var tail := ws + rest;
    var s := a + tail;
    assert a + ws + rest == s;
    assert tail[0] == ws[0];
    OnePartCodeLength(a, tail);
    assert s[|a|..] == tail;
    SpacesDropped(ws, rest);
  }

  predicate CloseOrBreak(c: char)
  {
    c == ')' || c == '\n'
  }

  /** Where the lazy group `\(.*?\)` opened just before `t` closes: at the
      first ")" of `t`, unless a line break comes first (`.` does not match
      one). */
  function CloseAt(t: string): (r: Option<nat>)
    ensures r.Some? ==> r.value < |t| && t[r.value] == ')'
    ensures r.Some? ==> forall i :: 0 <= i < r.value ==> t[i] != ')' && t[i] != '\n'
    ensures r.None? ==> forall i :: 0 <= i < |t| && t[i] == ')' ==> '\n' in t[..i]
  {
    var c := TakeUntil(t, CloseOrBreak);
    if |c| < |t| && t[|c|] == ')' then Some(|c|)
    else
      assert forall i :: 0 <= i < |t| && t[i] == ')' ==> |c| < i && t[|c|] == '\n' && t[..i][|c|] == '\n';
      None
  }

  /** `re.sub(r"\(.*?\)", "", s)`: every parenthesised group that closes on
      the same line is deleted, scanning left to right. */
  function DropParens(s: string): (r: string)
    ensures |r| <= |s|
    decreases |s|
  {
    if s == [] then []
    else if s[0] == '(' && CloseAt(s[1..]).Some? then
      DropParens(s[CloseAt(s[1..]).value + 2..])
    else [s[0]] + DropParens(s[1..])
  }

  /** Text without an opening parenthesis is left as it is. */
  lemma {:induction false} DropParensKeeps(s: string)
    requires '(' !in s
    ensures DropParens(s) == s
    decreases |s|
  {
    if s != [] {
      assert s[0] != '(';
      DropParensKeeps(s[1..]);
      assert [s[0]] + s[1..] == s;
    }
  }

  /** A group at the very start is deleted. */
  lemma {:induction false} DropLeadingGroup(m: string, b: string)
    requires ')' !in m && '\n' !in m
    ensures DropParens("(" + m + ")" + b) == DropParens(b)
  {
    var s := "(" + m + ")" + b;
    var t := s[1..];
    assert t == m + (")" + b);
    TakeUntilOf(m, ")" + b, CloseOrBreak);
    assert t[|m|] == ')';
    assert CloseAt(t) == Some(|m|);
    assert s[|m| + 2..] == b;
  }

  /** "Defence (total) spending": a group that closes on its line disappears,
      and scanning carries on after it. */
  lemma {:induction false} DropParensGroup(a: string, m: string, b: string)
    requires '(' !in a && ')' !in m && '\n' !in m
    ensures DropParens(a + "(" + m + ")" + b) == a + DropParens(b)
    decreases |a|
  {
    var s := a + "(" + m + ")" + b;
    if a == [] {
      assert s == "(" + m + ")" + b;
      DropLeadingGroup(m, b);
    } else {
      assert s[0] == a[0] && a[0] != '(';
      assert s[1..] == a[1..] + "(" + m + ")" + b;
      DropParensGroup(a[1..], m, b);
      DropParensPlain(s);
      var tail := DropParens(b);
      assert DropParens(s[1..]) == a[1..] + tail;
      assert [a[0]] + (a[1..] + tail) == a + tail;
    }
  }

  /** A character other than "(" is copied and scanning moves on. */
  lemma DropParensPlain(s: string)
    requires s != [] && s[0] != '('
    ensures DropParens(s) == [s[0]] + DropParens(s[1..])
  {
  }

  /** No two neighbouring underscores. */
  ghost predicate NoDoubleUnderscore(s: string)
  {
    forall i, j :: 0 <= i < j < |s| && j == i + 1 ==> !(s[i] == '_' && s[j] == '_')
  }

  /** `re.sub(r"[^a-z0-9]+", "_", s)`: each run of other characters becomes
      one underscore. */
  function Collapse(s: string): (r: string)
    ensures forall i :: 0 <= i < |r| ==> IsSlugChar(r[i]) || r[i] == '_'
    ensures NoDoubleUnderscore(r)
    ensures r == [] <==> s == []
    ensures s != [] ==> (r[0] == '_' <==> !IsSlugChar(s[0]))
    decreases |s|
  {
    if s == [] then []
    else if IsSlugChar(s[0]) then [s[0]] + Collapse(s[1..])
    else ['_'] + Collapse(TrimStart(s[1..], NotSlugChar))
  }

  lemma {:induction false} CollapseSlugPrefix(a: string, x: string)
    requires SlugOnly(a)
    ensures Collapse(a + x) == a + Collapse(x)
    decreases |a|
  {
    if a == [] {
      assert a + x == x;
    } else {
      assert (a + x)[1..] == a[1..] + x;
      CollapseSlugPrefix(a[1..], x);
      assert [a[0]] + (a[1..] + Collapse(x)) == a + Collapse(x);
    }
  }

  /** A word of slug characters is left as it is. */
  lemma {:induction false} CollapseWord(b: string)
    requires SlugOnly(b)
    ensures Collapse(b) == b
  {
    CollapseSlugPrefix(b, []);
    assert b + [] == b;
  }

  /** The rest of a separator run in front of a word is skipped. */
  lemma {:induction false} SkipSeparator(rest: string, b: string)
    requires SlugOnly(b) && b != []
    requires forall i :: 0 <= i < |rest| ==> !IsSlugChar(rest[i])
    ensures TrimStart(rest + b, NotSlugChar) == b
  {
    assert forall i :: 0 <= i < |rest| ==> NotSlugChar(rest[i]);
    TrimStartPadding(rest, b, NotSlugChar);
    assert !NotSlugChar(b[0]);
    TrimStartKeeps(b, NotSlugChar);
  }

  /** A separator run in front of a word becomes one underscore. */
  lemma {:induction false} CollapseSeparator(sep: string, b: string)
    requires SlugOnly(b) && b != []
    requires sep != [] && forall i :: 0 <= i < |sep| ==> !IsSlugChar(sep[i])
    ensures Collapse(sep + b) == "_" + b
  {
    var t := sep + b;
    assert t[0] == sep[0] && t[1..] == sep[1..] + b;
    SkipSeparator(sep[1..], b);
    CollapseWord(b);
  }

  /** A separator run between two words becomes one underscore. */
  lemma {:induction false} CollapseJoin(a: string, sep: string, b: string)
    requires SlugOnly(a) && SlugOnly(b) && b != []
    requires sep != [] && forall i :: 0 <= i < |sep| ==> !IsSlugChar(sep[i])
    ensures Collapse(a + sep + b) == a + "_" + b
  {
    var x := sep + b;
    assert a + sep + b == a + x;
    assert a + ("_" + b) == a + "_" + b;
    CollapseSeparator(sep, b);
    CollapseSlugPrefix(a, x);
  }

  /** Underscores and slug characters only, never two underscores in a row. */
  ghost predicate SlugShaped(s: string)
  {
    && (forall i :: 0 <= i < |s| ==> IsSlugChar(s[i]) || s[i] == '_')
    && NoDoubleUnderscore(s)
  }

  lemma {:induction false} SliceShaped(c: string, lo: int, hi: int)
    requires SlugShaped(c) && 0 <= lo <= hi <= |c|
    ensures SlugShaped(c[lo..hi])
  {
    var r := c[lo..hi];
    assert forall i :: 0 <= i < |r| ==> r[i] == c[lo + i];
  }

  predicate IsUnderscore(c: char)
  {
    c == '_'
  }

  /** `.strip("_")` keeps a slice, so the slug shape survives. */
  lemma {:induction false} TrimmedShape(c: string)
    requires SlugShaped(c)
    ensures SlugShaped(Trim(c, IsUnderscore))
  {
    var r := Trim(c, IsUnderscore);
    var lo := |c| - |TrimStart(c, IsUnderscore)|;
    TrimWithin(c, IsUnderscore);
    assert r == c[lo..lo + |r|];
    SliceShaped(c, lo, lo + |r|);
  }

  /** `.strip("_")` leaves no underscore at either end. */
  lemma {:induction false} TrimmedEnds(c: string)
    ensures var r := Trim(c, IsUnderscore);
      r == [] || (r[0] != '_' && r[|r| - 1] != '_')
  {
    var t := TrimStart(c, IsUnderscore);
    var r := TrimEnd(t, IsUnderscore);
    assert r == [] || r[0] == t[0];
  }

  /** The text before the underscore substitution: stripped, lower-cased,
      without its leading code and parenthesised groups. */
  function Prepared(text: string): string
  {
    DropParens(StripCode(Lower(Strip(text))))
  }

  /** The underscore substitution and the final strip of underscores. */
  function Underscored(p: string): (r: string)
    ensures SlugShaped(r)
    ensures r == [] || (r[0] != '_' && r[|r| - 1] != '_')
  {
    var c := Collapse(p);
    TrimmedShape(c);
    TrimmedEnds(c);
    Trim(c, IsUnderscore)
  }

  /** `slugify`: strip, lower-case, drop the leading code and parenthesised
      groups, turn other runs into underscores, strip underscores. */
  function Slugify(text: string): (r: string)
    ensures forall i :: 0 <= i < |r| ==> IsSlugChar(r[i]) || r[i] == '_'
    ensures r == [] || (r[0] != '_' && r[|r| - 1] != '_')
    ensures NoDoubleUnderscore(r)
  {
    Underscored(Prepared(text))
  }

  /** Slug characters are not upper-case, not whitespace and not "(". */
  lemma {:induction false} SlugCharFacts(s: string)
    requires SlugOnly(s)
    ensures forall i :: 0 <= i < |s| ==> !IsAsciiUpper(s[i]) && !IsPySpace(s[i]) && s[i] != '('
  {
  }

  /** A word of slug characters that does not start with a digit passes
      through the preparation unchanged. */
  lemma {:induction false} PreparedWord(w: string)
    requires w != [] && IsAsciiLower(w[0]) && SlugOnly(w)
    ensures Prepared(w) == w
  {
    SlugCharFacts(w);
    StripKeeps(w);
    LowerKeeps(w);
    DropParensKeeps(w);
  }

  /** Text that neither starts nor ends with an underscore keeps its ends. */
  lemma {:induction false} TrimUnderscoresKeeps(c: string)
    requires c == [] || (c[0] != '_' && c[|c| - 1] != '_')
    ensures Trim(c, IsUnderscore) == c
  {
    assert c == [] || !IsUnderscore(c[0]);
    TrimStartKeeps(c, IsUnderscore);
    assert c == [] || !IsUnderscore(c[|c| - 1]);
    TrimEndKeeps(c, IsUnderscore);
  }

  /** A word of slug characters is unchanged by the substitution. */
  lemma {:induction false} UnderscoredWord(p: string)
    requires p != [] && SlugOnly(p)
    ensures Underscored(p) == p
  {
    CollapseWord(p);
    TrimUnderscoresKeeps(p);
  }

  /** A word of slug characters that does not start with a digit is its own slug. */
  lemma {:induction false} SlugOfWord(w: string)
    requires w != [] && IsAsciiLower(w[0]) && SlugOnly(w)
    ensures Slugify(w) == w
  {
    PreparedWord(w);
    UnderscoredWord(w);
  }

  /** Lower-casing the joined text lower-cases only the separator. */
  lemma {:induction false} LowerJoin(a: string, sep: string, b: string)
    requires SlugOnly(a) && SlugOnly(b)
    ensures Lower(a + sep + b) == a + Lower(sep) + b
  {
    SlugCharFacts(a);
    SlugCharFacts(b);
    LowerKeeps(a);
    LowerKeeps(b);
    var s := a + sep + b;
    assert forall i :: |a| <= i < |a| + |sep| ==> Lower(s)[i] == LowerChar(sep[i - |a|]);
  }

  lemma {:induction false} PreparedJoin(a: string, sep: string, b: string)
    requires a != [] && IsAsciiLower(a[0]) && SlugOnly(a) && b != [] && SlugOnly(b)
    requires sep != [] && forall i :: 0 <= i < |sep| ==> !IsSlugChar(LowerChar(sep[i])) && sep[i] != '('
    ensures Prepared(a + sep + b) == a + Lower(sep) + b
  {
    var s := a + sep + b;
    SlugCharFacts(a);
    SlugCharFacts(b);
    assert s[0] == a[0] && s[|s| - 1] == b[|b| - 1];
    StripKeeps(s);
    LowerJoin(a, sep, b);
    var low := a + Lower(sep) + b;
    assert '(' !in low by {
      forall i | 0 <= i < |low|
        ensures low[i] != '('
      {
        if |a| <= i < |a| + |sep| {
          assert low[i] == LowerChar(sep[i - |a|]);
        }
      }
    }
    DropParensKeeps(low);
  }

  /** "public order and safety": words joined by separators become words
      joined by single underscores. */
  lemma {:induction false} SlugJoinsWords(a: string, sep: string, b: string)
    requires a != [] && IsAsciiLower(a[0]) && SlugOnly(a) && b != [] && SlugOnly(b)
    requires sep != [] && forall i :: 0 <= i < |sep| ==> !IsSlugChar(LowerChar(sep[i])) && sep[i] != '('
    ensures Slugify(a + sep + b) == a + "_" + b
  {
    PreparedJoin(a, sep, b);
    var sep' := Lower(sep);
    assert forall i :: 0 <= i < |sep'| ==> !IsSlugChar(sep'[i]);
    UnderscoredJoin(a, sep', b);
  }

  lemma {:induction false} UnderscoredJoin(a: string, sep: string, b: string)
    requires a != [] && SlugOnly(a) && b != [] && SlugOnly(b)
    requires sep != [] && forall i :: 0 <= i < |sep| ==> !IsSlugChar(sep[i])
    ensures Underscored(a + sep + b) == a + "_" + b
  {
    CollapseJoin(a, sep, b);
    var r := a + "_" + b;
    assert r[0] == a[0] && r[|r| - 1] == b[|b| - 1];
    TrimUnderscoresKeeps(r);
  }

  /** `parse_year_label`: the text before the first "-", else the stripped
      text before the first "to", else the whole stripped label. */
  function ParseYearLabel(yearLabel: string, parseInt: string -> Option<int>): Option<int>
  {
    var text := Strip(yearLabel);
    if Contains(text, "-") then parseInt(BeforeFirst(text, "-"))
    else if Contains(text, "to") then parseInt(Strip(BeforeFirst(text, "to")))
    else parseInt(text)
  }

  /** In digits followed by `sep`, the first `sep` comes right after the digits. */
  lemma {:induction false} SeparatorAfterDigits(y: string, sep: string, tail: string)
    requires AllDigits(y) && sep != [] && !IsDigit(sep[0])
    ensures BeforeFirst(y + sep + tail, sep) == y
  {
    var s := y + sep + tail;
    assert s[|y|..][..|sep|] == sep;
    forall j | 0 <= j < |y|
      ensures !StartsWith(s[j..], sep)
    {
      assert s[j..][0] == y[j];
    }
    IndexOfIs(s, sep, |y|);
    assert s[..|y|] == y;
  }

  /** "2024-25" is already stripped, contains a dash, and has the digits before it. */
  lemma {:induction false} DashLabel(y: string, rest: string)
    requires y != [] && AllDigits(y)
    requires rest == [] || !IsPySpace(rest[|rest| - 1])
    ensures var s := y + "-" + rest;
      Strip(s) == s && Contains(s, "-") && BeforeFirst(s, "-") == y
  {
    var s := y + "-" + rest;
    assert s[0] == y[0] && (s[|s| - 1] == '-' || s[|s| - 1] == rest[|rest| - 1]);
    StripKeeps(s);
    SeparatorAfterDigits(y, "-", rest);
    assert s[|y|..][..1] == "-";
    ContainsAt(s, "-", |y|);
  }

  /** "2024-25" gives the year before the dash. */
  lemma {:induction false} YearBeforeDash(y: string, rest: string, parseInt: string -> Option<int>)
    requires y != [] && AllDigits(y)
    requires rest == [] || !IsPySpace(rest[|rest| - 1])
    ensures ParseYearLabel(y + "-" + rest, parseInt) == parseInt(y)
  {
    DashLabel(y, rest);
  }

  /** Digits, whitespace, then "to": the first "to" follows the whitespace. */
  lemma {:induction false} FirstToAfterSpace(y: string, ws: string, rest: string)
    requires AllDigits(y)
    requires forall i :: 0 <= i < |ws| ==> IsPySpace(ws[i])
    ensures BeforeFirst(y + ws + "to" + rest, "to") == y + ws
  {
    var s := y + ws + "to" + rest;
    var k := |y| + |ws|;
    assert s[k..][..2] == "to";
    forall j | 0 <= j < k
      ensures !StartsWith(s[j..], "to")
    {
      assert s[j..][0] == s[j];
    }
    IndexOfIs(s, "to", k);
    assert s[..k] == y + ws;
  }

  /** Digits with trailing whitespace strip to the digits. */
  lemma {:induction false} DigitsThenSpace(y: string, ws: string)
    requires y != [] && AllDigits(y)
    requires forall i :: 0 <= i < |ws| ==> IsPySpace(ws[i])
    ensures Strip(y + ws) == y
  {
    assert (y + ws)[0] == y[0];
    TrimStartKeeps(y + ws, IsPySpace);
    TrimEndPadding(y, ws, IsPySpace);
    TrimEndKeeps(y, IsPySpace);
  }

  /** Digits, whitespace, then "to": the text before "to", stripped, is the digits. */
  lemma {:induction false} DigitsBeforeTo(y: string, ws: string, rest: string)
    requires y != [] && AllDigits(y)
    requires forall i :: 0 <= i < |ws| ==> IsPySpace(ws[i])
    ensures Strip(BeforeFirst(y + ws + "to" + rest, "to")) == y
  {
    FirstToAfterSpace(y, ws, rest);
    DigitsThenSpace(y, ws);
  }

  lemma {:induction false} NoDashInToLabel(y: string, ws: string, rest: string)
    requires AllDigits(y)
    requires forall i :: 0 <= i < |ws| ==> IsPySpace(ws[i])
    requires '-' !in rest
    ensures '-' !in y + ws + "to" + rest
  {
    var s := y + ws + "to" + rest;
    forall i | 0 <= i < |s|
      ensures s[i] != '-'
    {
      if i >= |y| + |ws| + 2 {
        assert s[i] == rest[i - |y| - |ws| - 2];
      }
    }
  }

  /** "2022 to 2023" is already stripped, has no dash, contains "to", and
      has the digits before it. */
  lemma {:induction false} ToLabel(y: string, ws: string, rest: string)
    requires y != [] && AllDigits(y)
    requires forall i :: 0 <= i < |ws| ==> IsPySpace(ws[i])
    requires '-' !in rest && (rest == [] || !IsPySpace(rest[|rest| - 1]))
    ensures var s := y + ws + "to" + rest;
      && Strip(s) == s && !Contains(s, "-") && Contains(s, "to")
      && Strip(BeforeFirst(s, "to")) == y
  {
    var s := y + ws + "to" + rest;
    assert s[0] == y[0] && (s[|s| - 1] == 'o' || s[|s| - 1] == rest[|rest| - 1]);
    StripKeeps(s);
    NoDashInToLabel(y, ws, rest);
    CharNotContained(s, '-');
    assert s[|y| + |ws|..][..2] == "to";
    ContainsAt(s, "to", |y| + |ws|);
    DigitsBeforeTo(y, ws, rest);
  }

  /** "2022 to 2023" gives the year before "to". */
  lemma {:induction false} YearBeforeTo(y: string, ws: string, rest: string, parseInt: string -> Option<int>)
    requires y != [] && AllDigits(y)
    requires forall i :: 0 <= i < |ws| ==> IsPySpace(ws[i])
    requires '-' !in rest && (rest == [] || !IsPySpace(rest[|rest| - 1]))
    ensures ParseYearLabel(y + ws + "to" + rest, parseInt) == parseInt(y)
  {
    ToLabel(y, ws, rest);
  }

  /** A row of the processed functional spending CSV; `amount` is `None`
      when the row is short of that column. */
  datatype FunctionalRecord = FunctionalRecord(
    year: string, sourceTable: string, functionLabel: string, rowType: string, amount: Option<string>)

  datatype DepartmentalRecord = DepartmentalRecord(
    year: string, sourceTable: string, departmentLabel: string, rowType: string, amount: Option<string>)

  datatype ExpenditureRecord = ExpenditureRecord(
    year: string, geographyCode: string, sourceTable: string, amount: Option<string>)

  /** One row of the normalised table. */
  datatype NormalizedRow = NormalizedRow(
    year: int, geography: string, level: string,
    functionSlug: Option<string>, department: Option<string>,
    amount: real, sourceTable: string)

  /** `amount in ("", None)`. */
  predicate HasAmount(amount: Option<string>)
  {
    amount.Some? && amount.value != ""
  }

  /** Converts one kept record; `int()` or `float()` raising is a failure. */
  function Convert(year: string, amount: string, geography: string, level: string,
                   functionSlug: Option<string>, department: Option<string>, sourceTable: string,
                   parseInt: string -> Option<int>, parseFloat: string -> Option<real>)
    : (r: Result<NormalizedRow, string>)
    ensures r.Success? <==> ParseYearLabel(year, parseInt).Some? && parseFloat(amount).Some?
    ensures r.Success? ==>
      && r.value.year == ParseYearLabel(year, parseInt).value
      && r.value.amount == parseFloat(amount).value
      && r.value.geography == geography && r.value.level == level
      && r.value.functionSlug == functionSlug && r.value.department == department
      && r.value.sourceTable == sourceTable
  {
    var y := ParseYearLabel(year, parseInt);
    if y.None? then Failure("ValueError: year")
    else
      var a := parseFloat(amount);
      if a.None? then Failure("ValueError: amount_m_gbp")
      else Success(NormalizedRow(y.value, geography, level, functionSlug, department, a.value, sourceTable))
  }

  /** The shared loop: the kept records, in order, each converted; the first
      conversion that raises ends the run. */
  function NormalizeKept<R>(rows: seq<R>, keep: R -> bool, convert: R -> Result<NormalizedRow, string>)
    : (r: Result<seq<NormalizedRow>, string>)
    ensures r.Success? <==> forall i :: 0 <= i < |rows| && keep(rows[i]) ==> convert(rows[i]).Success?
    ensures r.Success? ==>
      var kept := Filter(rows, keep);
      && |r.value| == |kept|
      && forall i :: 0 <= i < |kept| ==> convert(kept[i]) == Success(r.value[i])
  {
    if rows == [] then Success([])
    else
      var tail := NormalizeKept(rows[1..], keep, convert);
      assert forall i :: 1 <= i < |rows| ==> rows[i] == rows[1..][i - 1];
      if !keep(rows[0]) then tail
      else
        var head := convert(rows[0]);
        if head.Failure? then Failure(head.error)
        else if tail.Failure? then tail
        else Success([head.value] + tail.value)
  }

  predicate KeepFunctional(r: FunctionalRecord)
  {
    (r.rowType == "sub_function" || r.rowType == "function_total") && HasAmount(r.amount)
  }

  predicate KeepDepartmental(r: DepartmentalRecord)
  {
    r.rowType == "line_item" && HasAmount(r.amount)
  }

  predicate KeepExpenditure(r: ExpenditureRecord)
  {
    HasAmount(r.amount)
  }

  function ConvertFunctional(r: FunctionalRecord, parseInt: string -> Option<int>, parseFloat: string -> Option<real>)
    : Result<NormalizedRow, string>
  {
    Convert(r.year, r.amount.GetOr(""), "United Kingdom", "national", Some(Slugify(r.functionLabel)), None, r.sourceTable, parseInt, parseFloat)
  }

  function ConvertDepartmental(r: DepartmentalRecord, parseInt: string -> Option<int>, parseFloat: string -> Option<real>)
    : Result<NormalizedRow, string>
  {
    Convert(r.year, r.amount.GetOr(""), "United Kingdom", "national", None, Some(Slugify(r.departmentLabel)), r.sourceTable, parseInt, parseFloat)
  }

  function ConvertExpenditure(r: ExpenditureRecord, parseInt: string -> Option<int>, parseFloat: string -> Option<real>)
    : Result<NormalizedRow, string>
  {
    Convert(r.year, r.amount.GetOr(""), r.geographyCode, "region_or_country", Some("total_managed_expenditure"), None, r.sourceTable, parseInt, parseFloat)
  }

  /** `normalize_rows`: the kept functional, departmental and regional rows,
      in that order. */
  function NormalizeRows(functional: seq<FunctionalRecord>, departmental: seq<DepartmentalRecord>,
                         expenditure: seq<ExpenditureRecord>,
                         parseInt: string -> Option<int>, parseFloat: string -> Option<real>)
    : (r: Result<seq<NormalizedRow>, string>)
    ensures var f := NormalizeKept(functional, KeepFunctional, x => ConvertFunctional(x, parseInt, parseFloat));
      var d := NormalizeKept(departmental, KeepDepartmental, x => ConvertDepartmental(x, parseInt, parseFloat));
      var e := NormalizeKept(expenditure, KeepExpenditure, x => ConvertExpenditure(x, parseInt, parseFloat));
      && (r.Success? <==> f.Success? && d.Success? && e.Success?)
      && (r.Success? ==> r.value == f.value + d.value + e.value)
  {
    var f := NormalizeKept(functional, KeepFunctional, x => ConvertFunctional(x, parseInt, parseFloat));
    if f.Failure? then Failure(f.error)
    else
      var d := NormalizeKept(departmental, KeepDepartmental, x => ConvertDepartmental(x, parseInt, parseFloat));
      if d.Failure? then Failure(d.error)
      else
        var e := NormalizeKept(expenditure, KeepExpenditure, x => ConvertExpenditure(x, parseInt, parseFloat));
        if e.Failure? then Failure(e.error)
        else Success(f.value + d.value + e.value)
  }

  /** Functional rows become national rows with a function slug and no
      department; only sub-function and function-total rows with an amount
      are taken, one output row each. */
  lemma {:induction false} FunctionalRowsNormalized(functional: seq<FunctionalRecord>, parseInt: string -> Option<int>,
                                 parseFloat: string -> Option<real>)
    requires NormalizeKept(functional, KeepFunctional, x => ConvertFunctional(x, parseInt, parseFloat)).Success?
    ensures var out := NormalizeKept(functional, KeepFunctional, x => ConvertFunctional(x, parseInt, parseFloat)).value;
      var kept := Filter(functional, KeepFunctional);
      && |out| == |kept|
      && forall i :: 0 <= i < |out| ==>
        && (kept[i].rowType == "sub_function" || kept[i].rowType == "function_total")
        && out[i].level == "national" && out[i].geography == "United Kingdom"
        && out[i].functionSlug == Some(Slugify(kept[i].functionLabel)) && out[i].department.None?
        && Some(out[i].year) == ParseYearLabel(kept[i].year, parseInt)
  {
    var out := NormalizeKept(functional, KeepFunctional, x => ConvertFunctional(x, parseInt, parseFloat)).value;
    var kept := Filter(functional, KeepFunctional);
    forall i | 0 <= i < |out|
      ensures (kept[i].rowType == "sub_function" || kept[i].rowType == "function_total")
    {
      assert kept[i] in kept;
    }
  }

  /** Departmental rows become national rows with a department slug; only
      line items with an amount are taken. */
  lemma {:induction false} DepartmentalRowsNormalized(departmental: seq<DepartmentalRecord>, parseInt: string -> Option<int>,
                                   parseFloat: string -> Option<real>)
    requires NormalizeKept(departmental, KeepDepartmental, x => ConvertDepartmental(x, parseInt, parseFloat)).Success?
    ensures var out := NormalizeKept(departmental, KeepDepartmental, x => ConvertDepartmental(x, parseInt, parseFloat)).value;
      var kept := Filter(departmental, KeepDepartmental);
      && |out| == |kept|
      && forall i :: 0 <= i < |out| ==>
        && kept[i].rowType == "line_item"
        && out[i].level == "national" && out[i].functionSlug.None?
        && out[i].department == Some(Slugify(kept[i].departmentLabel))
  {
    var out := NormalizeKept(departmental, KeepDepartmental, x => ConvertDepartmental(x, parseInt, parseFloat)).value;
    var kept := Filter(departmental, KeepDepartmental);
    forall i | 0 <= i < |out|
      ensures kept[i].rowType == "line_item"
    {
      assert kept[i] in kept;
    }
  }
}

=== FILE: ons_extract.dfy ===
/** The ONS extraction script: finding the latest year column and the data
    row in each regional worksheet, building one revenue or expenditure row
    per geography, and normalising the council-to-region lookup. Workbook
    and CSV I/O are not modelled: a workbook is a function from sheet name to
    worksheet, and `float()` is the partial parser `parseFloat`. */
module OnsExtract {
  import opened Wrappers
  import opened Text
  import opened Sorting
  import opened Tables
  import opened Worksheet
  import opened Datasets

  /** `GEOGRAPHY_CODE_BY_SHEET`: worksheet name and geography code, in order. */
  const GeographyCodeBySheet: seq<(string, string)> := [
    ("United Kingdom", "K02000001"),
    ("North East", "E12000001"),
    ("North West", "E12000002"),
    ("Yorkshire and The Humber", "E12000003"),
    ("East Midlands", "E12000004"),
    ("West Midlands", "E12000005"),
    ("East of England", "E12000006"),
    ("London", "E12000007"),
    ("South East", "E12000008"),
    ("South West", "E12000009"),
    ("England", "E92000001"),
    ("Wales", "W92000004"),
    ("Scotland", "S92000003"),
    ("Northern Ireland", "N92000002")
  ]

  /** A header cell naming a financial year range, such as "2022 to 2023". */
  predicate IsYearHeader(c: Cell)
  {
    c.Str? && Contains(c.s, "to")
  }

  /** The rightmost year header among columns 2..hi of the header row, with
      its column. */
  function LatestYearColUpTo(ws: Sheet, headerRow: int, hi: int): (r: Option<(string, int)>)
    ensures r.None? <==> forall col :: 2 <= col <= hi ==> !IsYearHeader(ws.cell(headerRow, col))
    ensures r.Some? ==>
      && 2 <= r.value.1 <= hi
      && ws.cell(headerRow, r.value.1) == Str(r.value.0)
      && IsYearHeader(ws.cell(headerRow, r.value.1))
      && forall col :: r.value.1 < col <= hi ==> !IsYearHeader(ws.cell(headerRow, col))
    decreases hi
  {
    if hi < 2 then None
    else
      var value := ws.cell(headerRow, hi);
      if IsYearHeader(value) then Some((value.s, hi))
      else LatestYearColUpTo(ws, headerRow, hi - 1)
  }

  /** `find_latest_year_col`: scans columns 2..max_column left to right and
      keeps the last year header it sees; column 1 is never looked at. */
  method FindLatestYearCol(ws: Sheet, headerRow: int) returns (r: Result<(string, int), string>)
    ensures var expected := LatestYearColUpTo(ws, headerRow, ws.maxColumn);
      && (r.Success? <==> expected.Some?)
      && (r.Success? ==> r.value == expected.value)
      && (r.Failure? ==> r.error == "ValueError: Could not find latest year header in sheet " + ws.title)
  {
    var latest: Option<(string, int)> := None;
    var col := 2;
    while col <= ws.maxColumn
      invariant 2 <= col <= if ws.maxColumn < 2 then 2 else ws.maxColumn + 1
      invariant latest == LatestYearColUpTo(ws, headerRow, col - 1)
    {
      var value := ws.cell(headerRow, col);
      if IsYearHeader(value) {
        latest := Some((value.s, col));
      }
      col := col + 1;
    }
    if latest.None? {
      return Failure("ValueError: Could not find latest year header in sheet " + ws.title);
    }
    return Success(latest.value);
  }

  /** Column 1 never holds the year: only columns 2 and beyond are candidates. */
  lemma {:induction false} FirstColumnNeverChosen(ws: Sheet, headerRow: int)
    requires IsYearHeader(ws.cell(headerRow, 1))
    requires forall col :: 2 <= col <= ws.maxColumn ==> !IsYearHeader(ws.cell(headerRow, col))
    ensures LatestYearColUpTo(ws, headerRow, ws.maxColumn).None?
  {
  }

  /** A worksheet row whose first cell, stripped and lower-cased, starts with
      `wanted`. */
  predicate RowStartsWith(ws: Sheet, row: int, wanted: string)
  {
    var value := ws.cell(row, 1);
    value.Str? && StartsWith(Lower(Strip(value.s)), wanted)
  }

  /** The first integer in from..hi that satisfies `p`. */
  function FirstFrom(p: int -> bool, from: int, hi: int): (r: Option<int>)
    ensures r.None? <==> forall k :: from <= k <= hi ==> !p(k)
    ensures r.Some? ==> from <= r.value <= hi && p(r.value) && forall k :: from <= k < r.value ==> !p(k)
    decreases hi - from
  {
    if from > hi then None
    else if p(from) then Some(from)
    else FirstFrom(p, from + 1, hi)
  }

  /** The rows whose first cell starts with `wanted`, as a predicate on row
      numbers. */
  function MatchingRow(ws: Sheet, wanted: string): int -> bool
  {
    (row: int) => RowStartsWith(ws, row, wanted)
  }

  function PrefixError(ws: Sheet, prefix: string): string
  {
    "ValueError: Could not find row with prefix '" + prefix + "' in sheet " + ws.title
  }

  /** `find_row_by_prefix`: the first row from the top whose first cell,
      stripped and lower-cased, starts with the stripped, lower-cased prefix. */
  method FindRowByPrefix(ws: Sheet, prefix: string) returns (r: Result<int, string>)
    ensures var expected := FirstFrom(MatchingRow(ws, Lower(Strip(prefix))), 1, ws.maxRow);
      && (r.Success? <==> expected.Some?)
      && (r.Success? ==> r.value == expected.value)
      && (r.Failure? ==> r.error == PrefixError(ws, prefix))
  {
    var matches := MatchingRow(ws, Lower(Strip(prefix)));
    var row := 1;
    while row <= ws.maxRow
      invariant 1 <= row <= if ws.maxRow < 1 then 1 else ws.maxRow + 1
      invariant FirstFrom(matches, 1, ws.maxRow) == FirstFrom(matches, row, ws.maxRow)
    {
      if matches(row) {
        return Success(row);
      }
      row := row + 1;
    }
    return Failure(PrefixError(ws, prefix));
  }

  /** `float(value)` of a cell: numbers pass, text is parsed, an empty cell
      raises. */
  function FloatOfCell(c: Cell, parseFloat: string -> Option<real>): (r: Result<real, string>)
    ensures c.Num? ==> r == Success(c.n)
    ensures c.Blank? ==> r.Failure?
    ensures c.Str? ==> (r.Success? <==> parseFloat(c.s).Some?)
  {
    match c
    case Blank => Failure("TypeError: float() argument must be a string or a real number, not 'NoneType'")
    case Num(n) => Success(n)
    case Str(s) =>
      var v := parseFloat(s);
      if v.None? then Failure("ValueError: could not convert string to float") else Success(v.value)
  }

  /** The output row for one worksheet: the latest year label, the sheet's
      geography, and the amount at the data row in the latest year column. */
  function SheetRow(workbook: string -> Option<Sheet>, entry: (string, string), prefix: string, metric: string,
                    parseFloat: string -> Option<real>): (r: Result<OnsRow, string>)
    ensures r.Success? ==>
      && workbook(entry.0).Some?
      && r.value.geographyName == entry.0 && r.value.geographyCode == entry.1
      && r.value.metric == metric
      && Contains(r.value.year, "to")
    ensures r.Success? <==>
      && workbook(entry.0).Some?
      && var ws := workbook(entry.0).value;
      && LatestYearColUpTo(ws, 3, ws.maxColumn).Some?
      && FirstFrom(MatchingRow(ws, Lower(Strip(prefix))), 1, ws.maxRow).Some?
      && FloatOfCell(ws.cell(FirstFrom(MatchingRow(ws, Lower(Strip(prefix))), 1, ws.maxRow).value,
                             LatestYearColUpTo(ws, 3, ws.maxColumn).value.1), parseFloat).Success?
  {
    var (name, code) := entry;
    var sheet := workbook(name);
    if sheet.None? then Failure("KeyError: " + name)
    else
      var ws := sheet.value;
      var header := LatestYearColUpTo(ws, 3, ws.maxColumn);
      if header.None? then Failure("ValueError: Could not find latest year header in sheet " + ws.title)
      else
        var (yearLabel, latestCol) := header.value;
        var dataRow := FirstFrom(MatchingRow(ws, Lower(Strip(prefix))), 1, ws.maxRow);
        if dataRow.None? then Failure(PrefixError(ws, prefix))
        else
          var amount := FloatOfCell(ws.cell(dataRow.value, latestCol), parseFloat);
          if amount.Failure? then Failure(amount.error)
          else Success(OnsRow(yearLabel, code, name, metric, amount.value))
  }

  /** `[f(x) for x in s]` where `f` may raise: the first failure ends the
      run. */
  function TryMap<T, U>(s: seq<T>, f: T -> Result<U, string>): (r: Result<seq<U>, string>)
    ensures r.Success? <==> forall i :: 0 <= i < |s| ==> f(s[i]).Success?
    ensures r.Success? ==> |r.value| == |s| && forall i :: 0 <= i < |s| ==> f(s[i]) == Success(r.value[i])
  {
    if s == [] then Success([])
    else
      var head := f(s[0]);
      var tail := TryMap(s[1..], f);
      assert forall i :: 1 <= i < |s| ==> s[i] == s[1..][i - 1];
      if head.Failure? then Failure(head.error)
      else if tail.Failure? then Failure(tail.error)
      else Success([head.value] + tail.value)
  }

  /** The loop over `GEOGRAPHY_CODE_BY_SHEET`: one row per entry, in order;
      the first sheet that fails ends the run. */
  function ExtractRegional(workbook: string -> Option<Sheet>, sheets: seq<(string, string)>, prefix: string,
                           metric: string, parseFloat: string -> Option<real>): (r: Result<seq<OnsRow>, string>)
    ensures r.Success? <==> forall i :: 0 <= i < |sheets| ==> SheetRow(workbook, sheets[i], prefix, metric, parseFloat).Success?
    ensures r.Success? ==>
      && |r.value| == |sheets|
      && forall i :: 0 <= i < |sheets| ==> SheetRow(workbook, sheets[i], prefix, metric, parseFloat) == Success(r.value[i])
  {
    TryMap(sheets, (entry: (string, string)) => SheetRow(workbook, entry, prefix, metric, parseFloat))
  }

  /** `extract_regional_revenue`. */
  function ExtractRegionalRevenue(workbook: string -> Option<Sheet>, parseFloat: string -> Option<real>)
    : Result<seq<OnsRow>, string>
  {
    ExtractRegional(workbook, GeographyCodeBySheet, "Total current receipts (excl. North Sea Oil & Gas revenues)",
                    "total_current_receipts_excl_north_sea_oil_gas", parseFloat)
  }

  /** `extract_regional_expenditure`. */
  function ExtractRegionalExpenditure(workbook: string -> Option<Sheet>, parseFloat: string -> Option<real>)
    : Result<seq<OnsRow>, string>
  {
    ExtractRegional(workbook, GeographyCodeBySheet, "Total managed expenditure", "total_managed_expenditure", parseFloat)
  }

  /** Every geography of the table gets exactly one row, carrying its name and
      code, in table order. */
  lemma {:induction false} OneRowPerGeography(workbook: string -> Option<Sheet>, parseFloat: string -> Option<real>)
    requires ExtractRegionalRevenue(workbook, parseFloat).Success?
    ensures var rows := ExtractRegionalRevenue(workbook, parseFloat).value;
      && |rows| == |GeographyCodeBySheet| == 14
      && forall i :: 0 <= i < 14 ==>
        rows[i].geographyName == GeographyCodeBySheet[i].0 && rows[i].geographyCode == GeographyCodeBySheet[i].1
  {
  }

  /** One row of the council-to-region lookup. */
  datatype LookupRow = LookupRow(ladCode: string, ladName: string, regionCode: string, regionName: string)

  type Record = seq<(string, string)>

  /** `row[key].strip()`; a missing column raises `KeyError`. */
  function StrippedField(row: Record, key: string): (r: Result<string, string>)
    ensures r.Success? <==> Lookup(row, key).Some?
    ensures r.Success? ==> r.value == Strip(Lookup(row, key).value)
  {
    var cell := Lookup(row, key);
    if cell.None? then Failure("KeyError: " + key) else Success(Strip(cell.value))
  }

  /** One lookup record with all four fields stripped. */
  function LookupRowOf(row: Record): (r: Result<LookupRow, string>)
    ensures r.Success? <==>
      && Lookup(row, "LAD24CD").Some? && Lookup(row, "LAD24NM").Some?
      && Lookup(row, "RGN24CD").Some? && Lookup(row, "RGN24NM").Some?
    ensures r.Success? ==> r.value == LookupRow(
      Strip(Lookup(row, "LAD24CD").value), Strip(Lookup(row, "LAD24NM").value),
      Strip(Lookup(row, "RGN24CD").value), Strip(Lookup(row, "RGN24NM").value))
  {
    var ladCode := StrippedField(row, "LAD24CD");
    if ladCode.Failure? then Failure(ladCode.error)
    else
      var ladName := StrippedField(row, "LAD24NM");
      if ladName.Failure? then Failure(ladName.error)
      else
        var regionCode := StrippedField(row, "RGN24CD");
        if regionCode.Failure? then Failure(regionCode.error)
        else
          var regionName := StrippedField(row, "RGN24NM");
          if regionName.Failure? then Failure(regionName.error)
          else Success(LookupRow(ladCode.value, ladName.value, regionCode.value, regionName.value))
  }

  /** The records in input order, each normalised; the first one that raises
      ends the run. */
  function LookupRows(records: seq<Record>): (r: Result<seq<LookupRow>, string>)
    ensures r.Success? <==> forall i :: 0 <= i < |records| ==> LookupRowOf(records[i]).Success?
    ensures r.Success? ==>
      && |r.value| == |records|
      && forall i :: 0 <= i < |records| ==> LookupRowOf(records[i]) == Success(r.value[i])
  {
    TryMap(records, LookupRowOf)
  }

  /** `rows.sort(key=lambda r: r["lad_code"])`. */
  predicate ByLadCode(a: LookupRow, b: LookupRow)
  {
    LexLe(a.ladCode, b.ladCode)
  }

  lemma ByLadCodeIsPreorder()
    ensures TotalPreorder(ByLadCode)
  {
    forall a: LookupRow, b: LookupRow
      ensures ByLadCode(a, b) || ByLadCode(b, a)
    {
      LexLeTotal(a.ladCode, b.ladCode);
    }
    forall a: LookupRow, b: LookupRow, c: LookupRow | ByLadCode(a, b) && ByLadCode(b, c)
      ensures ByLadCode(a, c)
    {
      LexLeTransitive(a.ladCode, b.ladCode, c.ladCode);
    }
  }

  /** `extract_council_to_region_lookup`: normalise, then sort by LAD code. */
  function CouncilToRegionLookup(records: seq<Record>): Result<seq<LookupRow>, string>
  {
    var rows := LookupRows(records);
    if rows.Failure? then rows else Success(Sort(rows.value, ByLadCode))
  }

  /** The lookup is the normalised records, reordered by LAD code, with
      records of equal code kept in file order. */
  lemma LookupSpec(records: seq<Record>)
    requires CouncilToRegionLookup(records).Success?
    ensures var out := CouncilToRegionLookup(records).value;
      var rows := LookupRows(records).value;
      && multiset(out) == multiset(rows)
      && (forall i, j :: 0 <= i < j < |out| ==> LexLe(out[i].ladCode, out[j].ladCode))
      && forall z :: TiesOf(out, ByLadCode, z) == TiesOf(rows, ByLadCode, z)
  {
    ByLadCodeIsPreorder();
    SortSpec(LookupRows(records).value, ByLadCode);
  }
}

=== FILE: paging.dfy ===
/** Python slicing and the page slicing of `paginate_items`. */
module Paging {
  import opened Arith

  /** A Python slice bound `i` resolved against a sequence of length `n`. */
  function SliceIndex(i: int, n: nat): (r: nat)
    ensures r <= n
    ensures 0 <= i <= n ==> r == i
  {
    if i < 0 then (if i + n < 0 then 0 else i + n)
    else if i > n then n
    else i
  }

  /** Python's `s[i:j]` (step 1), for any integer bounds, never failing. */
  function PySlice<T>(s: seq<T>, i: int, j: int): (r: seq<T>)
    ensures |r| <= |s|
  {
    var a := SliceIndex(i, |s|);
    var b := SliceIndex(j, |s|);
    if a < b then s[a..b] else []
  }

  /** The index of the first item of page `page` (counted from 1). */
  function PageStart(page: int, pageSize: int): (start: int)
    ensures page >= 1 && pageSize >= 0 ==> start >= 0
  {
    (page - 1) * pageSize
  }

  /** Up to `size` items from index `start`, clipped to the end. */
  function Window<T>(items: seq<T>, start: nat, size: nat): (w: seq<T>)
    ensures |w| <= size
    ensures start >= |items| ==> w == []
    ensures start + size <= |items| ==> |w| == size
  {
    items[MinInt(start, |items|)..MinInt(start + size, |items|)]
  }

  /** `paginate_items`: page `page` (counted from 1) of `pageSize` items, and
      the item count. Python's slice never fails: a page past the end is empty. */
  function Paginate<T>(items: seq<T>, page: int, pageSize: int): (r: (seq<T>, nat))
    ensures r.1 == |items|
    ensures page >= 1 && pageSize >= 0 ==> r.0 == Window(items, PageStart(page, pageSize), pageSize)
  {
    var start := PageStart(page, pageSize);
    (PySlice(items, start, start + pageSize), |items|)
  }

  /** The number of pages needed for `n` items, `ceil(n / size)`. */
  function PageCount(n: nat, size: nat): nat
    requires size >= 1
  {
    (n + size - 1) / size
  }

  /** Pages 1 to `k` of `items`, concatenated. */
  function PagesUpTo<T>(items: seq<T>, size: nat, k: nat): seq<T>
  {
    if k == 0 then [] else PagesUpTo(items, size, k - 1) + Paginate(items, k, size).0
  }

  /** The first `k` pages are exactly the first `k * size` items (or all of them). */
  lemma PagesUpToPrefix<T>(items: seq<T>, size: nat, k: nat)
    requires size >= 1
    ensures PagesUpTo(items, size, k) == items[..MinInt(k * size, |items|)]
  {
    PagesUpToPrefixAt(items, size, k, k * size);
  }

  /** `PagesUpToPrefix` with the product `k * size` named `n`. */
  lemma {:induction false} PagesUpToPrefixAt<T>(items: seq<T>, size: nat, k: nat, n: int)
    requires size >= 1 && n == k * size
    ensures PagesUpTo(items, size, k) == items[..MinInt(n, |items|)]
  {
    if k > 0 {
      MulPredecessor(k, size);
      var m := PageStart(k, size);
      assert m == n - size && m >= 0;
      PagesUpToPrefixAt(items, size, k - 1, m);
      var lo := MinInt(m, |items|);
      var hi := MinInt(n, |items|);
      assert Paginate(items, k, size).0 == items[lo..hi];
      assert PagesUpTo(items, size, k) == items[..lo] + items[lo..hi];
      ConcatSlices(items, lo, hi);
    }
  }

  lemma ConcatSlices<T>(items: seq<T>, lo: nat, hi: nat)
    requires lo <= hi <= |items|
    ensures items[..lo] + items[lo..hi] == items[..hi]
  {
  }

  lemma MulPredecessor(k: nat, size: nat)
    requires k >= 1
    ensures (k - 1) * size == k * size - size
  {
  }

  lemma PageCountCovers(n: nat, size: nat)
    requires size >= 1
    ensures PageCount(n, size) * size >= n
  {
    var m := n + size - 1;
    var q := m / size;
    var r := m % size;
    assert m == q * size + r;
    assert r <= size - 1;
  }

  lemma MulLeft(a: int, b: int, size: nat)
    requires a <= b
    ensures a * size <= b * size
  {
    assert b * size - a * size == (b - a) * size;
  }

  /** Concatenating pages 1 to `ceil(n / size)` gives back every item once, in order. */
  lemma AllPagesReassemble<T>(items: seq<T>, size: nat)
    requires size >= 1
    ensures PagesUpTo(items, size, PageCount(|items|, size)) == items
  {
    var k := PageCount(|items|, size);
    PagesUpToPrefix(items, size, k);
    PageCountCovers(|items|, size);
  }

  /** A page past the last one is empty, never an error. */
  lemma PageBeyondEndEmpty<T>(items: seq<T>, size: nat, page: int)
    requires size >= 1 && page > PageCount(|items|, size)
    ensures Paginate(items, page, size).0 == []
  {
    var k := PageCount(|items|, size);
    PageCountCovers(|items|, size);
    MulLeft(k, page - 1, size);
  }
}

=== FILE: regional.dfy ===
/** Regional balances and donor-to-recipient flows (`api/regional.py`): the
    ONS revenue and expenditure rows of the twelve UK regions and nations are
    joined into one balance per region, and the surplus regions' excess is
    spread over the deficit regions in proportion to their net balances. */
module Regional {
  import opened Wrappers
  import opened Arith
  import opened Rounding
  import opened Sums
  import opened Sorting
  import opened Tables
  import opened Text
  import opened Datasets

  /** The nine English regions, Wales, Scotland and Northern Ireland. */
  const TargetCodes: set<string> := {
    "E12000001", "E12000002", "E12000003", "E12000004", "E12000005", "E12000006",
    "E12000007", "E12000008", "E12000009", "W92000004", "S92000003", "N92000002"}

  predicate Counted(r: OnsRow, year: string)
  {
    r.year == year && r.geographyCode in TargetCodes
  }

  /** The dict comprehension `{code: (name, amount) for r in rows if ...}`:
      each code keeps the position of its first row and the value of its last. */
  function IndexRows(rows: seq<OnsRow>, year: string): seq<(string, (string, real))>
  {
    if |rows| == 0 then []
    else
      var d := IndexRows(rows[..|rows| - 1], year);
      var r := rows[|rows| - 1];
      if Counted(r, year) then Put(d, r.geographyCode, (r.geographyName, r.amount)) else d
  }

  /** The index of the last counted row for `code`, or -1. */
  function LastRowOf(rows: seq<OnsRow>, year: string, code: string): (k: int)
    ensures -1 <= k < |rows|
    ensures k >= 0 ==> Counted(rows[k], year) && rows[k].geographyCode == code
    ensures forall i :: k < i < |rows| ==> !(Counted(rows[i], year) && rows[i].geographyCode == code)
  {
    if |rows| == 0 then -1
    else if Counted(rows[|rows| - 1], year) && rows[|rows| - 1].geographyCode == code then |rows| - 1
    else LastRowOf(rows[..|rows| - 1], year, code)
  }

  /** A code is in the index exactly when some row of the year carries it,
      and then with the name and amount of its last such row. */
  lemma {:induction false} IndexIsLastRow(rows: seq<OnsRow>, year: string, code: string)
    ensures var k := LastRowOf(rows, year, code);
      Lookup(IndexRows(rows, year), code) ==
        if k < 0 then None else Some((rows[k].geographyName, rows[k].amount))
  {
    if |rows| > 0 {
      var init := rows[..|rows| - 1];
      IndexIsLastRow(init, year, code);
      assert forall i :: 0 <= i < |init| ==> init[i] == rows[i];
    }
  }

  datatype RegionBalance = RegionBalance(
    geographyCode: string, geographyName: string, contribution: real, spending: real, netBalance: real)

  /** The expenditure of a region: zero when it has no expenditure row. */
  function SpendingOf(exp: seq<(string, (string, real))>, code: string): real
  {
    if Lookup(exp, code).Some? then Lookup(exp, code).value.1 else 0.0
  }

  /** A region's balance from its revenue and spending, every figure rounded
      to pence; the net balance is rounded from the unrounded figures. */
  function MakeBalance(code: string, name: string, contribution: real, spending: real): RegionBalance
  {
    RegionBalance(code, name, Round2(contribution), Round2(spending), Round2(contribution - spending))
  }

  /** The balance of one revenue entry. */
  function BalanceOf(entry: (string, (string, real)), exp: seq<(string, (string, real))>): RegionBalance
  {
    MakeBalance(entry.0, entry.1.0, entry.1.1, SpendingOf(exp, entry.0))
  }

  function BalancesOf(rev: seq<(string, (string, real))>, exp: seq<(string, (string, real))>): (bs: seq<RegionBalance>)
    ensures |bs| == |rev|
    ensures forall i :: 0 <= i < |rev| ==> bs[i] == BalanceOf(rev[i], exp)
  {
    seq(|rev|, i requires 0 <= i < |rev| => BalanceOf(rev[i], exp))
  }

  /** `balances.sort(key=geography_name)`: by name in code-point order. */
  predicate ByName(a: RegionBalance, b: RegionBalance)
  {
    LexLe(a.geographyName, b.geographyName)
  }

  lemma ByNameIsPreorder()
    ensures TotalPreorder(ByName)
  {
    forall a: RegionBalance, b: RegionBalance
      ensures ByName(a, b) || ByName(b, a)
    {
      LexLeTotal(a.geographyName, b.geographyName);
    }
    forall a: RegionBalance, b: RegionBalance, c: RegionBalance | ByName(a, b) && ByName(b, c)
      ensures ByName(a, c)
    {
      LexLeTransitive(a.geographyName, b.geographyName, c.geographyName);
    }
  }

  /** `compute_regional_balances`. */
  function ComputeRegionalBalances(revRows: seq<OnsRow>, expRows: seq<OnsRow>, year: string): seq<RegionBalance>
  {
    Sort(BalancesOf(IndexRows(revRows, year), IndexRows(expRows, year)), ByName)
  }

  /** One balance per revenue region, each built from that region's last
      revenue and expenditure rows, sorted by name with equal names in order
      of first appearance. */
  lemma BalancesSpec(revRows: seq<OnsRow>, expRows: seq<OnsRow>, year: string)
    ensures var bs := ComputeRegionalBalances(revRows, expRows, year);
      var unsorted := BalancesOf(IndexRows(revRows, year), IndexRows(expRows, year));
      && multiset(bs) == multiset(unsorted)
      && (forall i, j :: 0 <= i < j < |bs| ==> LexLe(bs[i].geographyName, bs[j].geographyName))
      && forall z :: TiesOf(bs, ByName, z) == TiesOf(unsorted, ByName, z)
  {
    ByNameIsPreorder();
    SortSpec(BalancesOf(IndexRows(revRows, year), IndexRows(expRows, year)), ByName);
  }

  /** The index of a year's rows has one entry per code. */
  lemma {:induction false} IndexDistinct(rows: seq<OnsRow>, year: string)
    ensures DistinctKeys(IndexRows(rows, year))
  {
    if |rows| > 0 {
      IndexDistinct(rows[..|rows| - 1], year);
      var r := rows[|rows| - 1];
      if Counted(r, year) {
        PutDistinct(IndexRows(rows[..|rows| - 1], year), r.geographyCode, (r.geographyName, r.amount));
      }
    }
  }

  /** The figures of a balance in terms of the rows: its region's last
      revenue row, and its last expenditure row or zero spending. */
  predicate FromLastRows(b: RegionBalance, revRows: seq<OnsRow>, expRows: seq<OnsRow>, year: string)
  {
    var k := LastRowOf(revRows, year, b.geographyCode);
    var e := LastRowOf(expRows, year, b.geographyCode);
    && k >= 0 && b.geographyCode in TargetCodes
    && b == MakeBalance(b.geographyCode, revRows[k].geographyName, revRows[k].amount,
                        if e < 0 then 0.0 else expRows[e].amount)
  }

  lemma SpendingFromRows(expRows: seq<OnsRow>, year: string, code: string)
    ensures var e := LastRowOf(expRows, year, code);
      SpendingOf(IndexRows(expRows, year), code) == if e < 0 then 0.0 else expRows[e].amount
  {
    IndexIsLastRow(expRows, year, code);
  }

  lemma EntryFromRows(revRows: seq<OnsRow>, year: string, i: int)
    requires 0 <= i < |IndexRows(revRows, year)|
    ensures var entry := IndexRows(revRows, year)[i];
      var k := LastRowOf(revRows, year, entry.0);
      k >= 0 && entry.1 == (revRows[k].geographyName, revRows[k].amount)
  {
    var rev := IndexRows(revRows, year);
    IndexDistinct(revRows, year);
    LookupEntry(rev, i);
    IndexIsLastRow(revRows, year, rev[i].0);
  }

  lemma BalanceEntryFromRows(revRows: seq<OnsRow>, expRows: seq<OnsRow>, year: string, i: int)
    requires 0 <= i < |IndexRows(revRows, year)|
    ensures FromLastRows(BalancesOf(IndexRows(revRows, year), IndexRows(expRows, year))[i], revRows, expRows, year)
  {
    var rev := IndexRows(revRows, year);
    var exp := IndexRows(expRows, year);
    var code := rev[i].0;
    EntryFromRows(revRows, year, i);
    SpendingFromRows(expRows, year, code);
    var k := LastRowOf(revRows, year, code);
    var e := LastRowOf(expRows, year, code);
    var spending := if e < 0 then 0.0 else expRows[e].amount;
    assert SpendingOf(exp, code) == spending;
    assert rev[i].1 == (revRows[k].geographyName, revRows[k].amount);
    assert BalancesOf(rev, exp)[i] == BalanceOf(rev[i], exp);
  }

  /** Every balance comes from a region with a revenue row of the year: one
      of the twelve target codes, with the figures of its last revenue row and
      its last expenditure row (zero spending when it has none). */
  lemma BalanceOfRegion(revRows: seq<OnsRow>, expRows: seq<OnsRow>, year: string, b: RegionBalance)
    requires b in ComputeRegionalBalances(revRows, expRows, year)
    ensures FromLastRows(b, revRows, expRows, year)
  {
    var unsorted := BalancesOf(IndexRows(revRows, year), IndexRows(expRows, year));
    BalancesSpec(revRows, expRows, year);
    assert b in multiset(unsorted);
    var i :| 0 <= i < |unsorted| && unsorted[i] == b;
    BalanceEntryFromRows(revRows, expRows, year, i);
  }

  /** Conversely every region with a revenue row of the year has a balance. */
  lemma RegionHasBalance(revRows: seq<OnsRow>, expRows: seq<OnsRow>, year: string, k: int)
    requires 0 <= k < |revRows| && Counted(revRows[k], year)
    ensures exists b :: b in ComputeRegionalBalances(revRows, expRows, year) && b.geographyCode == revRows[k].geographyCode
  {
    var code := revRows[k].geographyCode;
    var rev := IndexRows(revRows, year);
    var exp := IndexRows(expRows, year);
    IndexIsLastRow(revRows, year, code);
    assert LastRowOf(revRows, year, code) >= 0;
    var i :| 0 <= i < |rev| && rev[i] == (code, Lookup(rev, code).value);
    var b := BalancesOf(rev, exp)[i];
    assert b in BalancesOf(rev, exp);
    BalancesSpec(revRows, expRows, year);
    assert b in multiset(ComputeRegionalBalances(revRows, expRows, year));
  }

  /** The first entry with a key is found under that key. */
  lemma {:induction false} LookupFirst<V>(table: seq<(string, V)>, i: int)
    requires 0 <= i < |table|
    ensures Lookup(table, table[i].0).Some?
  {
    if i > 0 && table[0].0 != table[i].0 {
      LookupFirst(table[1..], i - 1);
    }
  }

  // Flows

  function Net(b: RegionBalance): real
  {
    b.netBalance
  }

  function Deficit(b: RegionBalance): real
  {
    -b.netBalance
  }

  /** Regions with a positive net balance give; those with a negative one
      receive; a region that breaks even does neither. */
  function Donors(balances: seq<RegionBalance>): seq<RegionBalance>
  {
    Filter(balances, (b: RegionBalance) => b.netBalance > 0.0)
  }

  function Recipients(balances: seq<RegionBalance>): seq<RegionBalance>
  {
    Filter(balances, (b: RegionBalance) => b.netBalance < 0.0)
  }

  datatype Flow = Flow(origin: string, destination: string, value: real)

  /** The unrounded flow from donor `d` to recipient `r`: the amount moved,
      `min(surplus, deficit)`, split by the donor's share of the surplus and
      the recipient's share of the deficit. */
  function FlowValue(d: RegionBalance, r: RegionBalance, surplus: real, deficit: real): real
    requires surplus > 0.0 && deficit > 0.0
  {
    Min(surplus, deficit) * (d.netBalance / surplus) * ((-r.netBalance) / deficit)
  }

  /** Flows under a hundredth of a million are dropped. */
  const MinFlow := 0.01

  /** The kept flows of one donor, in recipient order, rounded to four places. */
  function FlowsFrom(d: RegionBalance, recipients: seq<RegionBalance>, surplus: real, deficit: real): (fs: seq<Flow>)
    requires surplus > 0.0 && deficit > 0.0
    ensures forall f :: f in fs ==> (f.origin == d.geographyName
      && exists r :: r in recipients && f.destination == r.geographyName
           && FlowValue(d, r, surplus, deficit) >= MinFlow && f.value == RoundTo(FlowValue(d, r, surplus, deficit), 4))
  {
    if |recipients| == 0 then []
    else
      var rest := FlowsFrom(d, recipients[1..], surplus, deficit);
      var value := FlowValue(d, recipients[0], surplus, deficit);
      if value < MinFlow then rest
      else [Flow(d.geographyName, recipients[0].geographyName, RoundTo(value, 4))] + rest
  }

  /** `f` is the rounded flow of some donor to some recipient, and was not dropped. */
  ghost predicate KeptFlow(f: Flow, donors: seq<RegionBalance>, recipients: seq<RegionBalance>, surplus: real, deficit: real)
    requires surplus > 0.0 && deficit > 0.0
  {
    exists d, r :: && d in donors && r in recipients
      && f.origin == d.geographyName && f.destination == r.geographyName
      && FlowValue(d, r, surplus, deficit) >= MinFlow && f.value == RoundTo(FlowValue(d, r, surplus, deficit), 4)
  }

  /** The kept flows of every donor, donor by donor. */
  function AllFlows(donors: seq<RegionBalance>, recipients: seq<RegionBalance>, surplus: real, deficit: real): (fs: seq<Flow>)
    requires surplus > 0.0 && deficit > 0.0
    ensures forall f :: f in fs ==> KeptFlow(f, donors, recipients, surplus, deficit)
  {
    if |donors| == 0 then []
    else FlowsFrom(donors[0], recipients, surplus, deficit) + AllFlows(donors[1..], recipients, surplus, deficit)
  }

  /** Every recipient whose flow from `d` reaches a hundredth receives it,
      rounded to four places. */
  lemma {:induction false} FlowsFromComplete(d: RegionBalance, recipients: seq<RegionBalance>, surplus: real, deficit: real, r: RegionBalance)
    requires surplus > 0.0 && deficit > 0.0
    requires r in recipients && FlowValue(d, r, surplus, deficit) >= MinFlow
    ensures Flow(d.geographyName, r.geographyName, RoundTo(FlowValue(d, r, surplus, deficit), 4)) in FlowsFrom(d, recipients, surplus, deficit)
    decreases |recipients|
  {
    if recipients[0] != r {
      assert r in recipients[1..];
      FlowsFromComplete(d, recipients[1..], surplus, deficit, r);
    }
  }

  /** Every donor-recipient pair whose flow reaches a hundredth is kept. */
  lemma {:induction false} AllFlowsComplete(donors: seq<RegionBalance>, recipients: seq<RegionBalance>, surplus: real, deficit: real, d: RegionBalance, r: RegionBalance)
    requires surplus > 0.0 && deficit > 0.0
    requires d in donors && r in recipients && FlowValue(d, r, surplus, deficit) >= MinFlow
    ensures Flow(d.geographyName, r.geographyName, RoundTo(FlowValue(d, r, surplus, deficit), 4)) in AllFlows(donors, recipients, surplus, deficit)
    decreases |donors|
  {
    if donors[0] == d {
      FlowsFromComplete(d, recipients, surplus, deficit, r);
    } else {
      assert d in donors[1..];
      AllFlowsComplete(donors[1..], recipients, surplus, deficit, d, r);
    }
  }

  /** `flows.sort(key=value, reverse=True)`: larger flows first, stable. */
  predicate ByValue(a: Flow, b: Flow)
  {
    a.value >= b.value
  }

  /** `compute_flows`, given the balances. */
  function FlowsOf(balances: seq<RegionBalance>): seq<Flow>
  {
    var donors := Donors(balances);
    var recipients := Recipients(balances);
    var surplus := SumOf(donors, Net);
    var deficit := SumOf(recipients, Deficit);
    if surplus <= 0.0 || deficit <= 0.0 then []
    else Sort(AllFlows(donors, recipients, surplus, deficit), ByValue)
  }

  function ComputeFlows(revRows: seq<OnsRow>, expRows: seq<OnsRow>, year: string): seq<Flow>
  {
    FlowsOf(ComputeRegionalBalances(revRows, expRows, year))
  }

  /** A flow runs from a region in surplus to a region in deficit and is at
      least a hundredth after rounding. */
  ghost predicate Directed(f: Flow, balances: seq<RegionBalance>)
  {
    && f.value >= MinFlow
    && exists d, r ::
         && d in balances && r in balances && d.netBalance > 0.0 && r.netBalance < 0.0
         && f.origin == d.geographyName && f.destination == r.geographyName
  }

  lemma KeptIsDirected(f: Flow, balances: seq<RegionBalance>, surplus: real, deficit: real)
    requires surplus > 0.0 && deficit > 0.0
    requires KeptFlow(f, Donors(balances), Recipients(balances), surplus, deficit)
    ensures Directed(f, balances)
  {
    var d, r :| && d in Donors(balances) && r in Recipients(balances)
      && f.origin == d.geographyName && f.destination == r.geographyName
      && FlowValue(d, r, surplus, deficit) >= MinFlow && f.value == RoundTo(FlowValue(d, r, surplus, deficit), 4);
    RoundMonotone(MinFlow, FlowValue(d, r, surplus, deficit), 4);
    MinFlowRounds();
  }

  /** Every flow is directed from surplus to deficit, and the list is sorted
      largest first. It holds exactly the kept flows of every donor to every
      recipient, each once per pair, and flows of equal value keep their
      donor-then-recipient order. */
  lemma FlowsSpec(balances: seq<RegionBalance>)
    ensures var fs := FlowsOf(balances);
      && (forall i, j :: 0 <= i < j < |fs| ==> fs[i].value >= fs[j].value)
      && forall f :: f in fs ==> Directed(f, balances)
    ensures var donors := Donors(balances);
      var recipients := Recipients(balances);
      var surplus := SumOf(donors, Net);
      var deficit := SumOf(recipients, Deficit);
      surplus > 0.0 && deficit > 0.0 ==>
        var fs := FlowsOf(balances);
        var all := AllFlows(donors, recipients, surplus, deficit);
        && multiset(fs) == multiset(all)
        && (forall z :: TiesOf(fs, ByValue, z) == TiesOf(all, ByValue, z))
        && forall f :: f in fs <==> KeptFlow(f, donors, recipients, surplus, deficit)
  {
    var donors := Donors(balances);
    var recipients := Recipients(balances);
    var surplus := SumOf(donors, Net);
    var deficit := SumOf(recipients, Deficit);
    if surplus > 0.0 && deficit > 0.0 {
      var all := AllFlows(donors, recipients, surplus, deficit);
      SortSpec(all, ByValue);
      forall f | f in FlowsOf(balances)
        ensures Directed(f, balances) && KeptFlow(f, donors, recipients, surplus, deficit)
      {
        assert f in multiset(all);
        KeptIsDirected(f, balances, surplus, deficit);
      }
      forall f | KeptFlow(f, donors, recipients, surplus, deficit)
        ensures f in FlowsOf(balances)
      {
        var d, r :| && d in donors && r in recipients
          && f.origin == d.geographyName && f.destination == r.geographyName
          && FlowValue(d, r, surplus, deficit) >= MinFlow && f.value == RoundTo(FlowValue(d, r, surplus, deficit), 4);
        AllFlowsComplete(donors, recipients, surplus, deficit, d, r);
        assert f in multiset(all);
      }
    }
  }

  /** A region in surplus and a region in deficit make both totals positive,
      and their flow is listed, rounded to four places, whenever it reaches a
      hundredth. */
  lemma FlowsComplete(balances: seq<RegionBalance>, d: RegionBalance, r: RegionBalance)
    requires d in balances && d.netBalance > 0.0
    requires r in balances && r.netBalance < 0.0
    ensures var surplus := SumOf(Donors(balances), Net);
      var deficit := SumOf(Recipients(balances), Deficit);
      && surplus > 0.0 && deficit > 0.0
      && (FlowValue(d, r, surplus, deficit) >= MinFlow ==>
            Flow(d.geographyName, r.geographyName, RoundTo(FlowValue(d, r, surplus, deficit), 4)) in FlowsOf(balances))
  {
    var donors := Donors(balances);
    var recipients := Recipients(balances);
    var i :| 0 <= i < |balances| && balances[i] == d;
    var j :| 0 <= j < |balances| && balances[j] == r;
    assert d in donors;
    assert r in recipients;
    forall k | 0 <= k < |donors|
      ensures Net(donors[k]) >= 0.0
    {
      assert donors[k] in donors;
    }
    forall k | 0 <= k < |recipients|
      ensures Deficit(recipients[k]) >= 0.0
    {
      assert recipients[k] in recipients;
    }
    SumPositive(donors, Net, d);
    SumPositive(recipients, Deficit, r);
    var surplus := SumOf(donors, Net);
    var deficit := SumOf(recipients, Deficit);
    if FlowValue(d, r, surplus, deficit) >= MinFlow {
      var all := AllFlows(donors, recipients, surplus, deficit);
      AllFlowsComplete(donors, recipients, surplus, deficit, d, r);
      SortSpec(all, ByValue);
      assert Flow(d.geographyName, r.geographyName, RoundTo(FlowValue(d, r, surplus, deficit), 4)) in multiset(all);
    }
  }

  lemma MinFlowRounds()
    ensures RoundTo(MinFlow, 4) == MinFlow
  {
    assert Pow10(4) == 10000;
    assert MinFlow * 10000.0 + 0.5 == 100.5;
  }

  /** With no region in surplus, or none in deficit, there are no flows. */
  lemma NoFlowsWithoutBothSides(balances: seq<RegionBalance>)
    requires (forall b :: b in balances ==> b.netBalance <= 0.0) || (forall b :: b in balances ==> b.netBalance >= 0.0)
    ensures FlowsOf(balances) == []
  {
    if forall b :: b in balances ==> b.netBalance <= 0.0 {
      FilterNone(balances, (b: RegionBalance) => b.netBalance > 0.0);
    } else {
      FilterNone(balances, (b: RegionBalance) => b.netBalance < 0.0);
    }
  }

  /** The unrounded flows of donor `d`, as a function of the recipient. */
  function FlowsTo(d: RegionBalance, surplus: real, deficit: real): RegionBalance -> real
    requires surplus > 0.0 && deficit > 0.0
  {
    (r: RegionBalance) => FlowValue(d, r, surplus, deficit)
  }

  /** The unrounded flows of donor `d` to every recipient, before any is dropped. */
  function DonorTransfer(d: RegionBalance, recipients: seq<RegionBalance>, surplus: real, deficit: real): real
    requires surplus > 0.0 && deficit > 0.0
  {
    SumOf(recipients, FlowsTo(d, surplus, deficit))
  }

  function TransfersOf(recipients: seq<RegionBalance>, surplus: real, deficit: real): RegionBalance -> real
    requires surplus > 0.0 && deficit > 0.0
  {
    (d: RegionBalance) => DonorTransfer(d, recipients, surplus, deficit)
  }

  /** The unrounded flows of every donor to every recipient. */
  function TransferTotal(donors: seq<RegionBalance>, recipients: seq<RegionBalance>, surplus: real, deficit: real): real
    requires surplus > 0.0 && deficit > 0.0
  {
    SumOf(donors, TransfersOf(recipients, surplus, deficit))
  }

  lemma Reassociate(m: real, x: real, s: real)
    requires s != 0.0
    ensures m * (x / s) == (m / s) * x
  {
  }

  lemma Cancel(m: real, s: real)
    requires s != 0.0
    ensures (m / s) * s == m
  {
  }

  lemma FlowIsScaled(d: RegionBalance, r: RegionBalance, surplus: real, deficit: real)
    requires surplus > 0.0 && deficit > 0.0
    ensures FlowsTo(d, surplus, deficit)(r) == (Min(surplus, deficit) * (d.netBalance / surplus) / deficit) * Deficit(r)
  {
    Reassociate(Min(surplus, deficit) * (d.netBalance / surplus), -r.netBalance, deficit);
  }

  lemma DonorTransferScaled(d: RegionBalance, recipients: seq<RegionBalance>, surplus: real, deficit: real)
    requires surplus > 0.0 && deficit > 0.0
    ensures DonorTransfer(d, recipients, surplus, deficit)
      == (Min(surplus, deficit) * (d.netBalance / surplus) / deficit) * SumOf(recipients, Deficit)
  {
    AllFlowsScaled(d, recipients, surplus, deficit);
    SumScale(recipients, Deficit, FlowsTo(d, surplus, deficit),
      Min(surplus, deficit) * (d.netBalance / surplus) / deficit);
  }

  /** Each of a donor's flows is the same multiple of the recipient's deficit. */
  lemma AllFlowsScaled(d: RegionBalance, recipients: seq<RegionBalance>, surplus: real, deficit: real)
    requires surplus > 0.0 && deficit > 0.0
    ensures forall i :: 0 <= i < |recipients| ==>
      FlowsTo(d, surplus, deficit)(recipients[i])
        == (Min(surplus, deficit) * (d.netBalance / surplus) / deficit) * Deficit(recipients[i])
  {
    forall i | 0 <= i < |recipients|
      ensures FlowsTo(d, surplus, deficit)(recipients[i])
        == (Min(surplus, deficit) * (d.netBalance / surplus) / deficit) * Deficit(recipients[i])
    {
      FlowIsScaled(d, recipients[i], surplus, deficit);
    }
  }

  /** When the recipients' deficits add up to `deficit`, a donor moves its
      share of `min(surplus, deficit)` in all. */
  lemma DonorTransferIs(d: RegionBalance, recipients: seq<RegionBalance>, surplus: real, deficit: real)
    requires surplus > 0.0 && deficit > 0.0
    requires SumOf(recipients, Deficit) == deficit
    ensures TransfersOf(recipients, surplus, deficit)(d) == (Min(surplus, deficit) / surplus) * Net(d)
  {
    DonorTransferScaled(d, recipients, surplus, deficit);
    Cancel(Min(surplus, deficit) * (d.netBalance / surplus), deficit);
    Reassociate(Min(surplus, deficit), d.netBalance, surplus);
  }

  lemma TransferTotalScaled(donors: seq<RegionBalance>, recipients: seq<RegionBalance>, surplus: real, deficit: real)
    requires surplus > 0.0 && deficit > 0.0
    requires SumOf(recipients, Deficit) == deficit
    ensures TransferTotal(donors, recipients, surplus, deficit) == (Min(surplus, deficit) / surplus) * SumOf(donors, Net)
  {
    AllDonorsScaled(donors, recipients, surplus, deficit);
    SumScale(donors, Net, TransfersOf(recipients, surplus, deficit), Min(surplus, deficit) / surplus);
  }

  /** Every donor moves its share of `min(surplus, deficit)`. */
  lemma AllDonorsScaled(donors: seq<RegionBalance>, recipients: seq<RegionBalance>, surplus: real, deficit: real)
    requires surplus > 0.0 && deficit > 0.0
    requires SumOf(recipients, Deficit) == deficit
    ensures forall i :: 0 <= i < |donors| ==>
      TransfersOf(recipients, surplus, deficit)(donors[i]) == (Min(surplus, deficit) / surplus) * Net(donors[i])
  {
    forall i | 0 <= i < |donors|
      ensures TransfersOf(recipients, surplus, deficit)(donors[i]) == (Min(surplus, deficit) / surplus) * Net(donors[i])
    {
      DonorTransferIs(donors[i], recipients, surplus, deficit);
    }
  }

  /** Before the small flows are dropped, the flows move exactly
      `min(surplus, deficit)`: the donors' weights and the recipients'
      weights each add up to one. */
  lemma FlowsConserve(balances: seq<RegionBalance>)
    requires SumOf(Donors(balances), Net) > 0.0 && SumOf(Recipients(balances), Deficit) > 0.0
    ensures var surplus, deficit := SumOf(Donors(balances), Net), SumOf(Recipients(balances), Deficit);
      TransferTotal(Donors(balances), Recipients(balances), surplus, deficit) == Min(surplus, deficit)
  {
    var surplus, deficit := SumOf(Donors(balances), Net), SumOf(Recipients(balances), Deficit);
    TransferTotalScaled(Donors(balances), Recipients(balances), surplus, deficit);
    Cancel(Min(surplus, deficit), surplus);
  }
}

=== FILE: requests.dfy ===
/** The request bodies of the estimator's endpoints, with the field domains
    and defaults the request models enforce (`api/models.py`). */
module Requests {
  import opened Wrappers
  import opened TaxParams

  const TaxYears: set<string> := {"2023-24", "2024-25", "2025-26"}
  const CouncilTaxBands: set<string> := {"auto", "A", "B", "C", "D", "E", "F", "G", "H"}
  const Nations: set<string> := {"england_ni", "wales", "scotland"}
  const EmploymentTypes: set<string> := {"employed", "self_employed", "mixed"}
  const StudentLoanPlanNames: set<string> := {"none", "1", "2", "4", "5", "postgrad"}

  /** The household and tax-year inputs of `/tax/estimate`. */
  datatype TaxEstimateRequest = TaxEstimateRequest(
    annualIncome: real,
    region: string,
    taxYear: string,
    vatableSpendRatio: real,
    pensionSalarySacrifice: real,
    pensionReliefAtSource: real,
    giftAid: real,
    otherPreTaxDeductions: real,
    partnerAnnualIncome: real,
    marriageAllowanceTransfer: bool,
    compareTaxYear: string,
    councilTaxBand: string,
    postcode: Option<string>,
    councilName: Option<string>,
    councilTaxOverride: Option<real>,
    nation: string,
    employmentType: string,
    savingsInterest: real,
    dividendIncome: real,
    studentLoanPlan: string,
    policyOverrides: Option<PolicyOverrides>)

  /** A ratio in [0, 1]. */
  predicate IsRatio(r: real)
  {
    0.0 <= r <= 1.0
  }

  /** The field domains: a positive income, every other amount non-negative,
      closed enumerations, valid overrides. */
  predicate ValidTaxEstimateRequest(r: TaxEstimateRequest)
  {
    && r.annualIncome > 0.0
    && r.taxYear in TaxYears
    && IsRatio(r.vatableSpendRatio)
    && r.pensionSalarySacrifice >= 0.0
    && r.pensionReliefAtSource >= 0.0
    && r.giftAid >= 0.0
    && r.otherPreTaxDeductions >= 0.0
    && r.partnerAnnualIncome >= 0.0
    && (r.compareTaxYear == "none" || r.compareTaxYear in TaxYears)
    && r.councilTaxBand in CouncilTaxBands
    && (r.councilTaxOverride.Some? ==> r.councilTaxOverride.value >= 0.0)
    && r.nation in Nations
    && r.employmentType in EmploymentTypes
    && r.savingsInterest >= 0.0
    && r.dividendIncome >= 0.0
    && r.studentLoanPlan in StudentLoanPlanNames
    && (r.policyOverrides.Some? ==> ValidOverrides(r.policyOverrides.value))
  }

  /** A request with every optional field at its default. */
  function DefaultTaxEstimateRequest(annualIncome: real): (r: TaxEstimateRequest)
    ensures annualIncome > 0.0 <==> ValidTaxEstimateRequest(r)
    ensures r.taxYear == LatestYear && r.vatableSpendRatio == 0.6 && r.region == "England"
    ensures r.compareTaxYear == "none" && r.councilTaxBand == "auto" && r.studentLoanPlan == "none"
    ensures r.policyOverrides.None? && r.councilTaxOverride.None? && !r.marriageAllowanceTransfer
  {
    TaxEstimateRequest(
      annualIncome := annualIncome,
      region := "England",
      taxYear := "2025-26",
      vatableSpendRatio := 0.6,
      pensionSalarySacrifice := 0.0,
      pensionReliefAtSource := 0.0,
      giftAid := 0.0,
      otherPreTaxDeductions := 0.0,
      partnerAnnualIncome := 0.0,
      marriageAllowanceTransfer := false,
      compareTaxYear := "none",
      councilTaxBand := "auto",
      postcode := None,
      councilName := None,
      councilTaxOverride := None,
      nation := "england_ni",
      employmentType := "employed",
      savingsInterest := 0.0,
      dividendIncome := 0.0,
      studentLoanPlan := "none",
      policyOverrides := None)
  }

  /** `/spending/breakdown`: the household fields (no year comparison), the
      dataset years and the number of services to return. */
  datatype SpendingBreakdownRequest = SpendingBreakdownRequest(
    household: TaxEstimateRequest, spendingYear: string, revenueYear: string, topN: int)

  const SpendingYear := "2024-25"
  const RevenueYear := "2022 to 2023"

  predicate ValidSpendingBreakdownRequest(r: SpendingBreakdownRequest)
  {
    && ValidTaxEstimateRequest(r.household) && r.household.compareTaxYear == "none"
    && r.spendingYear == SpendingYear && r.revenueYear == RevenueYear
    && 1 <= r.topN <= 50
  }

  function DefaultSpendingBreakdownRequest(annualIncome: real): (r: SpendingBreakdownRequest)
    ensures annualIncome > 0.0 <==> ValidSpendingBreakdownRequest(r)
    ensures r.topN == 12
  {
    SpendingBreakdownRequest(DefaultTaxEstimateRequest(annualIncome), SpendingYear, RevenueYear, 12)
  }

  /** `/services/impact`: the household fields, the dataset years and a page. */
  datatype ServicesImpactRequest = ServicesImpactRequest(
    household: TaxEstimateRequest, spendingYear: string, revenueYear: string, page: int, pageSize: int)

  predicate ValidServicesImpactRequest(r: ServicesImpactRequest)
  {
    && ValidTaxEstimateRequest(r.household) && r.household.compareTaxYear == "none"
    && r.spendingYear == SpendingYear && r.revenueYear == RevenueYear
    && r.page >= 1 && 1 <= r.pageSize <= 100
  }

  function DefaultServicesImpactRequest(annualIncome: real): (r: ServicesImpactRequest)
    ensures annualIncome > 0.0 <==> ValidServicesImpactRequest(r)
    ensures r.page == 1 && r.pageSize == 20
  {
    ServicesImpactRequest(DefaultTaxEstimateRequest(annualIncome), SpendingYear, RevenueYear, 1, 20)
  }

  /** `/regional/flows`: the dataset year and a page of balances. */
  datatype RegionalFlowsRequest = RegionalFlowsRequest(year: string, page: int, pageSize: int)

  predicate ValidRegionalFlowsRequest(r: RegionalFlowsRequest)
  {
    r.year == RevenueYear && r.page >= 1 && 1 <= r.pageSize <= 500
  }

  const DefaultRegionalFlowsRequest := RegionalFlowsRequest(RevenueYear, 1, 50)

  lemma DefaultRegionalFlowsRequestValid()
    ensures ValidRegionalFlowsRequest(DefaultRegionalFlowsRequest)
    ensures !ValidRegionalFlowsRequest(DefaultRegionalFlowsRequest.(pageSize := 501))
    ensures !ValidRegionalFlowsRequest(DefaultRegionalFlowsRequest.(page := 0))
  {
  }
}

=== FILE: rounding.dfy ===
/** Decimal rounding of money and ratios.

    The modelled code rounds with Python's `round(x, n)`. Here rounding is
    exact decimal rounding, half away from zero, on unbounded reals: binary
    floating point and Python's tie rule are not modelled. Every property the
    rest of the project needs from rounding is proved below as a lemma. */
module Rounding {

  /** 10 to the power `n`. */
  function Pow10(n: nat): (r: nat)
    ensures r >= 1
  {
    if n == 0 then 1 else 10 * Pow10(n - 1)
  }

  /** `x` rounded to `places` decimal places, ties away from zero. */
  function RoundTo(x: real, places: nat): real
  {
    RoundScaled(x, Pow10(places) as real)
  }

  /** `x` rounded to a whole number of `1/scale` units, ties away from zero. */
  function RoundScaled(x: real, scale: real): real
    requires scale > 0.0
  {
    if x >= 0.0 then (x * scale + 0.5).Floor as real / scale
    else -((-x * scale + 0.5).Floor as real / scale)
  }

  /** `round(x, 2)`: money rounded to whole pence. */
  function Round2(x: real): real
  {
    RoundTo(x, 2)
  }

  /** `x` is a whole number of pence. */
  predicate IsCents(x: real)
  {
    (x * 100.0).Floor as real == x * 100.0
  }

  lemma FloorMonotone(a: real, b: real)
    requires a <= b
    ensures a.Floor <= b.Floor
  {
  }

  lemma DivMonotone(a: real, b: real, s: real)
    requires a <= b && s > 0.0
    ensures a / s <= b / s
  {
    assert b / s - a / s == (b - a) / s;
  }

  lemma MulMonotone(a: real, b: real, s: real)
    requires a <= b && s >= 0.0
    ensures a * s <= b * s
  {
    assert b * s - a * s == (b - a) * s;
  }

  lemma DivMulCancel(k: real, s: real)
    requires s > 0.0
    ensures (k / s) * s == k
  {
  }

  lemma MulDivCancel(x: real, s: real)
    requires s > 0.0
    ensures (x * s) / s == x
  {
  }

  /** The scaled value of a non-negative amount, rounded half up. */
  function HalfUp(v: real): int
  {
    (v + 0.5).Floor
  }

  lemma ScaledUnfold(x: real, s: real)
    requires s > 0.0
    ensures x >= 0.0 ==> RoundScaled(x, s) == HalfUp(x * s) as real / s
    ensures x < 0.0 ==> RoundScaled(x, s) == -(HalfUp((-x) * s) as real / s)
  {
  }

  /** The arithmetic core of monotonicity: half-up rounding of scaled values keeps order. */
  lemma HalfUpScaledMonotone(x: real, y: real, s: real)
    requires x <= y && s > 0.0
    ensures HalfUp(x * s) as real / s <= HalfUp(y * s) as real / s
  {
    MulMonotone(x, y, s);
    FloorMonotone(x * s + 0.5, y * s + 0.5);
    DivMonotone(HalfUp(x * s) as real, HalfUp(y * s) as real, s);
  }

  lemma ScaledNonNegative(x: real, s: real)
    requires x >= 0.0 && s > 0.0
    ensures RoundScaled(x, s) >= 0.0
  {
    ScaledUnfold(x, s);
    HalfUpScaledMonotone(0.0, x, s);
    assert HalfUp(0.0 * s) == 0;
  }

  lemma ScaledMonotoneNonNegative(x: real, y: real, s: real)
    requires 0.0 <= x <= y && s > 0.0
    ensures RoundScaled(x, s) <= RoundScaled(y, s)
  {
    ScaledUnfold(x, s);
    ScaledUnfold(y, s);
    HalfUpScaledMonotone(x, y, s);
  }

  lemma ScaledOdd(x: real, s: real)
    requires x < 0.0 && s > 0.0
    ensures RoundScaled(x, s) == -RoundScaled(-x, s)
  {
    ScaledUnfold(x, s);
    ScaledUnfold(-x, s);
  }

  lemma ScaledMonotone(x: real, y: real, s: real)
    requires x <= y && s > 0.0
    ensures RoundScaled(x, s) <= RoundScaled(y, s)
  {
    if 0.0 <= x {
      ScaledMonotoneNonNegative(x, y, s);
    } else if y < 0.0 {
      ScaledOdd(x, s);
      ScaledOdd(y, s);
      ScaledMonotoneNonNegative(-y, -x, s);
    } else {
      ScaledNonNegative(y, s);
      ScaledNonNegative(-x, s);
      ScaledOdd(x, s);
    }
  }

  lemma ScaledExact(x: real, s: real)
    requires s > 0.0
    requires (x * s).Floor as real == x * s
    ensures RoundScaled(x, s) == x
  {
    ScaledUnfold(x, s);
    var k := (x * s).Floor;
    MulDivCancel(x, s);
    if x >= 0.0 {
      assert HalfUp(x * s) == k;
    } else {
      assert (-x) * s == -(x * s);
      assert HalfUp((-x) * s) == -k;
      assert -(k as real) / s == -((k as real) / s);
    }
  }

  lemma NegDivMul(k: real, s: real)
    requires s > 0.0
    ensures (-(k / s)) * s == -k
  {
    DivMulCancel(k, s);
  }

  lemma WholeFloor(v: real, k: int)
    requires v == k as real
    ensures v.Floor as real == v
  {
  }

  lemma ScaledTimesScale(x: real, s: real) returns (k: int)
    requires s > 0.0
    ensures RoundScaled(x, s) * s == k as real
  {
    ScaledUnfold(x, s);
    if x >= 0.0 {
      k := HalfUp(x * s);
      DivMulCancel(k as real, s);
    } else {
      var h := HalfUp((-x) * s);
      NegDivMul(h as real, s);
      k := -h;
    }
  }

  lemma ScaledIsMultiple(x: real, s: real)
    requires s > 0.0
    ensures (RoundScaled(x, s) * s).Floor as real == RoundScaled(x, s) * s
  {
    var k := ScaledTimesScale(x, s);
    WholeFloor(RoundScaled(x, s) * s, k);
  }

  lemma HalfUpBounds(v: real)
    ensures v - 0.5 < HalfUp(v) as real <= v + 0.5
  {
  }

  lemma DivShift(v: real, d: real, s: real)
    requires s > 0.0
    ensures (v * s + d) / s == v + d / s
  {
  }

  lemma ScaledErrorNonNegative(x: real, s: real)
    requires x >= 0.0 && s > 0.0
    ensures -0.5 / s <= RoundScaled(x, s) - x <= 0.5 / s
  {
    ScaledUnfold(x, s);
    var v := x * s;
    var k := HalfUp(v) as real;
    assert RoundScaled(x, s) == k / s;
    HalfUpBounds(v);
    DivMonotone(v + -0.5, k, s);
    DivMonotone(k, v + 0.5, s);
    DivShift(x, -0.5, s);
    DivShift(x, 0.5, s);
    assert -0.5 / s == -(0.5 / s);
  }

  lemma ScaledError(x: real, s: real)
    requires s > 0.0
    ensures -0.5 / s <= RoundScaled(x, s) - x <= 0.5 / s
  {
    if x >= 0.0 {
      ScaledErrorNonNegative(x, s);
    } else {
      ScaledOdd(x, s);
      ScaledErrorNonNegative(-x, s);
      assert -0.5 / s == -(0.5 / s);
    }
  }

  /** Rounding never turns a non-negative amount negative. */
  lemma RoundNonNegative(x: real, places: nat)
    requires x >= 0.0
    ensures RoundTo(x, places) >= 0.0
  {
    ScaledNonNegative(x, Pow10(places) as real);
  }

  /** Rounding is monotone: it never reverses the order of two amounts. */
  lemma RoundMonotone(x: real, y: real, places: nat)
    requires x <= y
    ensures RoundTo(x, places) <= RoundTo(y, places)
  {
    ScaledMonotone(x, y, Pow10(places) as real);
  }

  /** Rounding zero gives zero. */
  lemma RoundZero(places: nat)
    ensures RoundTo(0.0, places) == 0.0
  {
    var s := Pow10(places) as real;
    assert 0.0 * s == 0.0;
    assert (0.0 * s + 0.5).Floor == 0;
  }

  /** An amount that is already a whole number of pence is left unchanged. */
  lemma Round2Exact(x: real)
    requires IsCents(x)
    ensures Round2(x) == x
  {
    assert Round2(x) == RoundScaled(x, 100.0);
    ScaledExact(x, 100.0);
  }

  /** The result of Round2 is a whole number of pence. */
  lemma Round2IsCents(x: real)
    ensures IsCents(Round2(x))
  {
    var r := Round2(x);
    assert r == RoundScaled(x, 100.0);
    ScaledIsMultiple(x, 100.0);
  }

  /** Rounding to pence twice is rounding once. */
  lemma Round2Idempotent(x: real)
    ensures Round2(Round2(x)) == Round2(x)
  {
    Round2IsCents(x);
    Round2Exact(Round2(x));
  }

  /** Rounding moves a value by at most half a unit. */
  lemma RoundError(x: real, places: nat)
    ensures -0.5 / Pow10(places) as real <= RoundTo(x, places) - x <= 0.5 / Pow10(places) as real
  {
    ScaledError(x, Pow10(places) as real);
  }

  /** Whole numbers of pounds are whole numbers of pence. */
  lemma WholeIsCents(n: int)
    ensures IsCents(n as real)
  {
    assert (n as real) * 100.0 == (n * 100) as real;
  }

  /** Equal amounts round equally; stated so that a caller can name the two
      forms of an amount it has shown equal. */
  lemma Round2Congruent(a: real, b: real)
    requires a == b
    ensures Round2(a) == Round2(b)
  {
  }

  /** Round2 facts in one place: zero, sign, monotonicity, idempotence. */
  lemma Round2Facts(x: real, y: real)
    ensures Round2(0.0) == 0.0
    ensures x >= 0.0 ==> Round2(x) >= 0.0
    ensures x <= y ==> Round2(x) <= Round2(y)
    ensures Round2(Round2(x)) == Round2(x)
    ensures IsCents(Round2(x))
  {
    RoundZero(2);
    if x >= 0.0 { RoundNonNegative(x, 2); }
    if x <= y { RoundMonotone(x, y, 2); }
    Round2Idempotent(x);
    Round2IsCents(x);
  }
}

=== FILE: sorting.dfy ===
/** Stable sorting by a caller-chosen order, the behaviour of Python's
    `list.sort(key=..., reverse=...)` and of JavaScript's `Array.prototype.sort`
    with a consistent comparator: the result is a permutation of the input,
    ordered, and elements the order cannot tell apart keep their input order. */
module Sorting {

  /** `before(a, b)`: `a` may be placed before `b`. It must be a total preorder. */
  ghost predicate TotalPreorder<T(!new)>(before: (T, T) -> bool)
  {
    && (forall a, b :: before(a, b) || before(b, a))
    && (forall a, b, c :: before(a, b) && before(b, c) ==> before(a, c))
  }

  ghost predicate Sorted<T>(s: seq<T>, before: (T, T) -> bool)
  {
    forall i, j :: 0 <= i < j < |s| ==> before(s[i], s[j])
  }

  /** `before` cannot tell `a` and `b` apart. */
  predicate Tied<T>(before: (T, T) -> bool, a: T, b: T)
  {
    before(a, b) && before(b, a)
  }

  /** The elements of `s` tied with `z`, in order. */
  function TiesOf<T>(s: seq<T>, before: (T, T) -> bool, z: T): seq<T>
  {
    Filter(s, y => Tied(before, z, y))
  }

  /** The elements of `s` satisfying `p`, in order. */
  function Filter<T>(s: seq<T>, p: T -> bool): (r: seq<T>)
    ensures |r| <= |s|
    ensures forall x :: x in r ==> x in s && p(x)
    ensures forall i :: 0 <= i < |s| && p(s[i]) ==> s[i] in r
  {
    if |s| == 0 then []
    else if p(s[0]) then [s[0]] + Filter(s[1..], p)
    else Filter(s[1..], p)
  }

  lemma {:induction false} FilterAppend<T>(a: seq<T>, b: seq<T>, p: T -> bool)
    ensures Filter(a + b, p) == Filter(a, p) + Filter(b, p)
    decreases |a|
  {
    if |a| == 0 {
      assert a + b == b;
    } else {
      assert (a + b)[1..] == a[1..] + b;
      FilterAppend(a[1..], b, p);
    }
  }

  /** Filtering keeps a sequence whose every element passes. */
  lemma {:induction false} FilterAll<T>(s: seq<T>, p: T -> bool)
    requires forall i :: 0 <= i < |s| ==> p(s[i])
    ensures Filter(s, p) == s
  {
    if |s| > 0 {
      FilterAll(s[1..], p);
    }
  }

  /** Filtering drops a sequence none of whose elements pass. */
  lemma {:induction false} FilterNone<T>(s: seq<T>, p: T -> bool)
    requires forall i :: 0 <= i < |s| ==> !p(s[i])
    ensures Filter(s, p) == []
  {
    if |s| > 0 {
      FilterNone(s[1..], p);
    }
  }

  /** The first element of a filtered sequence is the first element that
      passes; a sequence without one filters to nothing. */
  lemma {:induction false} FilterFirst<T>(s: seq<T>, p: T -> bool, i: int)
    requires 0 <= i < |s| && p(s[i])
    requires forall j :: 0 <= j < i ==> !p(s[j])
    ensures |Filter(s, p)| > 0 && Filter(s, p)[0] == s[i]
  {
    if i > 0 {
      FilterFirst(s[1..], p, i - 1);
    }
  }

  /** `[f(x) for x in s if p(x)]`. */
  function MapFiltered<T, U>(s: seq<T>, p: T -> bool, f: T -> U): (r: seq<U>)
    ensures |r| == |Filter(s, p)|
    ensures forall i :: 0 <= i < |r| ==> r[i] == f(Filter(s, p)[i])
  {
    if |s| == 0 then []
    else if p(s[0]) then [f(s[0])] + MapFiltered(s[1..], p, f)
    else MapFiltered(s[1..], p, f)
  }

  /** Inserts `x` before the first element it may precede. */
  function Insert<T>(x: T, s: seq<T>, before: (T, T) -> bool): (r: seq<T>)
    ensures multiset(r) == multiset(s) + multiset{x}
    ensures |r| == |s| + 1
  {
    if |s| == 0 then [x]
    else if before(x, s[0]) then [x] + s
    else
      var r := [s[0]] + Insert(x, s[1..], before);
      assert s == [s[0]] + s[1..];
      r
  }

  /** Insertion sort; the first element goes in last, so it lands before its ties. */
  function Sort<T>(s: seq<T>, before: (T, T) -> bool): (r: seq<T>)
    ensures multiset(r) == multiset(s)
    ensures |r| == |s|
  {
    if |s| == 0 then []
    else
      var rest := Sort(s[1..], before);
      assert s == [s[0]] + s[1..];
      Insert(s[0], rest, before)
  }

  lemma {:induction false} InsertSorted<T(!new)>(x: T, s: seq<T>, before: (T, T) -> bool)
    requires TotalPreorder(before)
    requires Sorted(s, before)
    ensures Sorted(Insert(x, s, before), before)
    decreases |s|
  {
    if |s| > 0 && !before(x, s[0]) {
      var t := Insert(x, s[1..], before);
      InsertSorted(x, s[1..], before);
      assert multiset(t) == multiset(s[1..]) + multiset{x};
      forall j | 0 <= j < |t|
        ensures before(s[0], t[j])
      {
        assert t[j] in multiset(t);
        if t[j] != x {
          assert t[j] in multiset(s[1..]);
          var k :| 0 <= k < |s[1..]| && s[1..][k] == t[j];
          assert s[k + 1] == t[j];
        }
      }
    }
  }

  /** The sort result is ordered by `before`. */
  lemma {:induction false} SortSorted<T(!new)>(s: seq<T>, before: (T, T) -> bool)
    requires TotalPreorder(before)
    ensures Sorted(Sort(s, before), before)
    decreases |s|
  {
    if |s| > 0 {
      SortSorted(s[1..], before);
      InsertSorted(s[0], Sort(s[1..], before), before);
    }
  }

  lemma {:induction false} InsertStable<T(!new)>(x: T, s: seq<T>, before: (T, T) -> bool, z: T)
    requires TotalPreorder(before)
    ensures Filter(Insert(x, s, before), y => Tied(before, z, y))
         == (if Tied(before, z, x) then [x] else []) + Filter(s, y => Tied(before, z, y))
    decreases |s|
  {
    var p := y => Tied(before, z, y);
    if |s| == 0 {
    } else if before(x, s[0]) {
      assert Insert(x, s, before) == [x] + s;
      FilterAppend([x], s, p);
    } else {
      var t := Insert(x, s[1..], before);
      assert Insert(x, s, before) == [s[0]] + t;
      InsertStable(x, s[1..], before, z);
      FilterAppend([s[0]], t, p);
      FilterAppend([s[0]], s[1..], p);
      assert [s[0]] + s[1..] == s;
      var head := Filter([s[0]], p);
      var mid: seq<T> := if Tied(before, z, x) then [x] else [];
      if Tied(before, z, x) {
        assert !Tied(before, z, s[0]);
      }
      assert head == [] || mid == [];
      SwapEmpty(head, mid, Filter(s[1..], p));
    }
  }

  /** An empty sequence can change places with its neighbour. */
  lemma SwapEmpty<T>(a: seq<T>, x: seq<T>, b: seq<T>)
    requires a == [] || x == []
    ensures a + (x + b) == x + (a + b)
  {
  }

  /** Stability: among elements tied with any `z`, the sort keeps the input order. */
  lemma {:induction false} SortStable<T(!new)>(s: seq<T>, before: (T, T) -> bool, z: T)
    requires TotalPreorder(before)
    ensures TiesOf(Sort(s, before), before, z) == TiesOf(s, before, z)
    decreases |s|
  {
    if |s| > 0 {
      SortStable(s[1..], before, z);
      InsertStable(s[0], Sort(s[1..], before), before, z);
    }
  }

  /** Sorting with a total preorder: a permutation that is ordered and stable. */
  lemma SortSpec<T(!new)>(s: seq<T>, before: (T, T) -> bool)
    requires TotalPreorder(before)
    ensures multiset(Sort(s, before)) == multiset(s)
    ensures Sorted(Sort(s, before), before)
    ensures forall z :: TiesOf(Sort(s, before), before, z) == TiesOf(s, before, z)
  {
    SortSorted(s, before);
    forall z
      ensures TiesOf(Sort(s, before), before, z) == TiesOf(s, before, z)
    {
      SortStable(s, before, z);
    }
  }
}

=== FILE: sums.dfy ===
/** Sums of real-valued fields over sequences. */
module Sums {

  /** `sum(f(x) for x in s)`. */
  function SumOf<T>(s: seq<T>, f: T -> real): real
  {
    if |s| == 0 then 0.0 else f(s[0]) + SumOf(s[1..], f)
  }

  lemma {:induction false} SumAppend<T>(a: seq<T>, b: seq<T>, f: T -> real)
    ensures SumOf(a + b, f) == SumOf(a, f) + SumOf(b, f)
    decreases |a|
  {
    if |a| > 0 {
      assert (a + b)[1..] == a[1..] + b;
      SumAppend(a[1..], b, f);
    } else {
      assert a + b == b;
    }
  }

  /** Summing the last element separately. */
  lemma SumSnoc<T>(s: seq<T>, f: T -> real)
    requires |s| > 0
    ensures SumOf(s, f) == SumOf(s[..|s| - 1], f) + f(s[|s| - 1])
  {
    assert s == s[..|s| - 1] + [s[|s| - 1]];
    SumAppend(s[..|s| - 1], [s[|s| - 1]], f);
  }

  lemma {:induction false} SumNonNegative<T>(s: seq<T>, f: T -> real)
    requires forall i :: 0 <= i < |s| ==> f(s[i]) >= 0.0
    ensures SumOf(s, f) >= 0.0
    decreases |s|
  {
    if |s| > 0 {
      SumNonNegative(s[1..], f);
    }
  }

  /** A sum of non-negative terms with one positive term is positive. */
  lemma {:induction false} SumPositive<T>(s: seq<T>, f: T -> real, x: T)
    requires forall i :: 0 <= i < |s| ==> f(s[i]) >= 0.0
    requires x in s && f(x) > 0.0
    ensures SumOf(s, f) > 0.0
    decreases |s|
  {
    if s[0] == x {
      SumNonNegative(s[1..], f);
    } else {
      assert x in s[1..];
      SumPositive(s[1..], f, x);
    }
  }

  /** A constant factor can be taken out of a sum. */
  lemma {:induction false} SumScale<T>(s: seq<T>, f: T -> real, g: T -> real, c: real)
    requires forall i :: 0 <= i < |s| ==> g(s[i]) == c * f(s[i])
    ensures SumOf(s, g) == c * SumOf(s, f)
    decreases |s|
  {
    if |s| > 0 {
      SumScale(s[1..], f, g, c);
      assert c * SumOf(s, f) == c * f(s[0]) + c * SumOf(s[1..], f);
    }
  }
}

=== FILE: tables.dfy ===
/** Literal lookup tables (Python dict literals) as ordered key/value lists. */
module Tables {
  import opened Wrappers

  /** `d.get(key)`: the value of the first entry with `key`, if any. */
  function Lookup<V>(table: seq<(string, V)>, key: string): (r: Option<V>)
    ensures r.Some? ==> exists i :: 0 <= i < |table| && table[i] == (key, r.value)
    ensures r.None? <==> forall i :: 0 <= i < |table| ==> table[i].0 != key
  {
    if |table| == 0 then None
    else if table[0].0 == key then Some(table[0].1)
    else Lookup(table[1..], key)
  }

  /** No key appears twice, as in a dict literal. */
  predicate DistinctKeys<V>(table: seq<(string, V)>)
  {
    forall i, j :: 0 <= i < j < |table| ==> table[i].0 != table[j].0
  }

  /** With distinct keys, each entry is found under its own key. */
  lemma {:induction false} LookupEntry<V>(table: seq<(string, V)>, i: int)
    requires DistinctKeys(table) && 0 <= i < |table|
    ensures Lookup(table, table[i].0) == Some(table[i].1)
  {
    if i > 0 {
      assert table[0].0 != table[i].0;
      assert DistinctKeys(table[1..]) by {
        forall a, b | 0 <= a < b < |table[1..]|
          ensures table[1..][a].0 != table[1..][b].0
        {
          assert table[1..][a] == table[a + 1] && table[1..][b] == table[b + 1];
        }
      }
      LookupEntry(table[1..], i - 1);
    }
  }

  /** `d[key] = value`: an existing key keeps its position and takes the new
      value; a new key goes at the end. */
  function Put<V>(table: seq<(string, V)>, key: string, value: V): (r: seq<(string, V)>)
    ensures Lookup(r, key) == Some(value)
    ensures forall k :: k != key ==> Lookup(r, k) == Lookup(table, k)
  {
    if |table| == 0 then [(key, value)]
    else if table[0].0 == key then [(key, value)] + table[1..]
    else [table[0]] + Put(table[1..], key, value)
  }

  /** Assigning an existing key keeps every key in place. */
  lemma {:induction false} PutExisting<V>(table: seq<(string, V)>, key: string, value: V, i: int)
    requires 0 <= i < |table| && table[i].0 == key
    ensures var r := Put(table, key, value);
      |r| == |table| && forall j :: 0 <= j < |r| ==> r[j].0 == table[j].0
  {
    if table[0].0 != key {
      PutExisting(table[1..], key, value, i - 1);
    }
  }

  /** Assigning a new key appends it. */
  lemma {:induction false} PutNew<V>(table: seq<(string, V)>, key: string, value: V)
    requires forall i :: 0 <= i < |table| ==> table[i].0 != key
    ensures Put(table, key, value) == table + [(key, value)]
  {
    if |table| > 0 {
      PutNew(table[1..], key, value);
      assert table == [table[0]] + table[1..];
    }
  }

  /** Assignment keeps the keys distinct. */
  lemma PutDistinct<V>(table: seq<(string, V)>, key: string, value: V)
    requires DistinctKeys(table)
    ensures DistinctKeys(Put(table, key, value))
  {
    if i :| 0 <= i < |table| && table[i].0 == key {
      PutExisting(table, key, value, i);
    } else {
      PutNew(table, key, value);
    }
  }
}

=== FILE: tax_params.dfy ===
/** The rate table for a tax year and the policy-override patch applied to it
    (`TaxParameters`, `TAX_PARAMETERS_BY_YEAR`, `get_tax_parameters`,
    `PolicyOverrides`, `_apply_policy_overrides`). */
module TaxParams {
  import opened Wrappers

  /** Allowances, band limits and rates used by every calculator. */
  datatype TaxParameters = TaxParameters(
    personalAllowance: real,
    basicRateLimit: real,
    higherRateThreshold: real,
    basicRate: real,
    higherRate: real,
    additionalRate: real,
    niPrimaryThreshold: real,
    niUpperEarningsLimit: real,
    niMainRate: real,
    niUpperRate: real,
    vatRate: real)

  /** The dataclass defaults. */
  const Defaults := TaxParameters(
    personalAllowance := 12570.0,
    basicRateLimit := 37700.0,
    higherRateThreshold := 125140.0,
    basicRate := 0.20,
    higherRate := 0.40,
    additionalRate := 0.45,
    niPrimaryThreshold := 12570.0,
    niUpperEarningsLimit := 50270.0,
    niMainRate := 0.08,
    niUpperRate := 0.02,
    vatRate := 0.20)

  const LatestYear := "2025-26"

  /** The per-year tables; only the NI rates are set per year. */
  const TaxParametersByYear: map<string, TaxParameters> := map[
    "2023-24" := Defaults.(niMainRate := 0.12, niUpperRate := 0.02),
    "2024-25" := Defaults.(niMainRate := 0.08, niUpperRate := 0.02),
    LatestYear := Defaults.(niMainRate := 0.08, niUpperRate := 0.02)
  ]

  /** A rate lies in [0, 1]. */
  predicate IsRate(r: real)
  {
    0.0 <= r <= 1.0
  }

  /** The shape every table in use has: non-negative limits, rates in [0, 1],
      the NI primary threshold below the upper earnings limit. */
  predicate ValidParameters(p: TaxParameters)
  {
    && 0.0 <= p.personalAllowance <= 25000.0
    && p.basicRateLimit >= 0.0
    && p.higherRateThreshold >= 0.0
    && IsRate(p.basicRate) && IsRate(p.higherRate) && IsRate(p.additionalRate)
    && 0.0 <= p.niPrimaryThreshold <= p.niUpperEarningsLimit
    && IsRate(p.niMainRate) && IsRate(p.niUpperRate)
    && IsRate(p.vatRate)
  }

  /** `get_tax_parameters`: the year's table, or the latest year's for an unknown key.
      All tables are the defaults; 2023-24 differs only in its 12% NI main rate. */
  function GetTaxParameters(taxYear: string): (p: TaxParameters)
    ensures p == Defaults.(niMainRate := p.niMainRate)
    ensures p.niMainRate == (if taxYear == "2023-24" then 0.12 else 0.08)
    ensures ValidParameters(p)
  {
    if taxYear in TaxParametersByYear then TaxParametersByYear[taxYear]
    else TaxParametersByYear[LatestYear]
  }

  /** Any key outside the table is served the latest year's table. */
  lemma UnknownYearFallsBack(taxYear: string)
    requires taxYear != "2023-24" && taxYear != "2024-25" && taxYear != "2025-26"
    ensures GetTaxParameters(taxYear) == GetTaxParameters(LatestYear)
  {
  }

  /** Optional replacements for seven fields of the table. */
  datatype PolicyOverrides = PolicyOverrides(
    personalAllowance: Option<real>,
    basicRate: Option<real>,
    higherRate: Option<real>,
    additionalRate: Option<real>,
    niMainRate: Option<real>,
    niUpperRate: Option<real>,
    vatRate: Option<real>)

  const NoOverrides := PolicyOverrides(None, None, None, None, None, None, None)

  predicate OptionalRate(r: Option<real>)
  {
    r.Some? ==> IsRate(r.value)
  }

  /** The request model's field bounds: rates in [0, 1], the allowance in [0, 25000]. */
  predicate ValidOverrides(o: PolicyOverrides)
  {
    && (o.personalAllowance.Some? ==> 0.0 <= o.personalAllowance.value <= 25000.0)
    && OptionalRate(o.basicRate) && OptionalRate(o.higherRate) && OptionalRate(o.additionalRate)
    && OptionalRate(o.niMainRate) && OptionalRate(o.niUpperRate) && OptionalRate(o.vatRate)
  }

  /** `_apply_policy_overrides`: replaces exactly the overridden fields. */
  function ApplyPolicyOverrides(base: TaxParameters, overrides: Option<PolicyOverrides>): (p: TaxParameters)
    ensures overrides.None? ==> p == base
    ensures p.basicRateLimit == base.basicRateLimit
    ensures p.higherRateThreshold == base.higherRateThreshold
    ensures p.niPrimaryThreshold == base.niPrimaryThreshold
    ensures p.niUpperEarningsLimit == base.niUpperEarningsLimit
    ensures overrides.Some? ==>
      var o := overrides.value;
      && p.personalAllowance == o.personalAllowance.GetOr(base.personalAllowance)
      && p.basicRate == o.basicRate.GetOr(base.basicRate)
      && p.higherRate == o.higherRate.GetOr(base.higherRate)
      && p.additionalRate == o.additionalRate.GetOr(base.additionalRate)
      && p.niMainRate == o.niMainRate.GetOr(base.niMainRate)
      && p.niUpperRate == o.niUpperRate.GetOr(base.niUpperRate)
      && p.vatRate == o.vatRate.GetOr(base.vatRate)
    ensures ValidParameters(base) && (overrides.Some? ==> ValidOverrides(overrides.value)) ==> ValidParameters(p)
  {
    match overrides
    case None => base
    case Some(o) =>
      base.(
        personalAllowance := o.personalAllowance.GetOr(base.personalAllowance),
        basicRate := o.basicRate.GetOr(base.basicRate),
        higherRate := o.higherRate.GetOr(base.higherRate),
        additionalRate := o.additionalRate.GetOr(base.additionalRate),
        niMainRate := o.niMainRate.GetOr(base.niMainRate),
        niUpperRate := o.niUpperRate.GetOr(base.niUpperRate),
        vatRate := o.vatRate.GetOr(base.vatRate))
  }

  /** An override object with every field absent changes nothing. */
  lemma EmptyOverridesChangeNothing(base: TaxParameters)
    ensures ApplyPolicyOverrides(base, Some(NoOverrides)) == base
  {
  }
}

=== FILE: text.dfy ===
/** String helpers shared by the Python and JavaScript code: whitespace
    classes, trimming, ASCII case mapping, prefixes, substring search, digit
    runs and code-point string order. Case mapping covers ASCII letters only. */
module Text {

  /** Python's `str.isspace()` / regex `\s` on `str` patterns. */
  predicate IsPySpace(c: char)
  {
    c == ' ' || ('\t' <= c <= '\r') || ('\U{1C}' <= c <= '\U{1F}') || c == '\U{85}' || c == '\U{A0}'
    || c == '\U{1680}' || ('\U{2000}' <= c <= '\U{200A}') || c == '\U{2028}' || c == '\U{2029}'
    || c == '\U{202F}' || c == '\U{205F}' || c == '\U{3000}'
  }

  /** JavaScript's regex `\s` and `String.prototype.trim` whitespace. */
  predicate IsJsSpace(c: char)
  {
    c == ' ' || ('\t' <= c <= '\r') || c == '\U{A0}' || c == '\U{1680}'
    || ('\U{2000}' <= c <= '\U{200A}') || c == '\U{2028}' || c == '\U{2029}'
    || c == '\U{202F}' || c == '\U{205F}' || c == '\U{3000}' || c == '\U{FEFF}'
  }

  predicate IsDigit(c: char)
  {
    '0' <= c <= '9'
  }

  predicate IsAsciiLower(c: char)
  {
    'a' <= c <= 'z'
  }

  predicate IsAsciiUpper(c: char)
  {
    'A' <= c <= 'Z'
  }

  function LowerChar(c: char): (r: char)
    ensures !IsAsciiUpper(r)
    ensures IsAsciiUpper(c) || r == c
  {
    if IsAsciiUpper(c) then (c as int + 32) as char else c
  }

  function UpperChar(c: char): (r: char)
    ensures !IsAsciiLower(r)
    ensures IsAsciiLower(c) || r == c
  {
    if IsAsciiLower(c) then (c as int - 32) as char else c
  }

  /** `s.lower()` on ASCII letters. */
  function Lower(s: string): (r: string)
    ensures |r| == |s|
    ensures forall i :: 0 <= i < |s| ==> r[i] == LowerChar(s[i])
  {
    seq(|s|, i requires 0 <= i < |s| => LowerChar(s[i]))
  }

  /** `s.upper()` on ASCII letters. */
  function Upper(s: string): (r: string)
    ensures |r| == |s|
    ensures forall i :: 0 <= i < |s| ==> r[i] == UpperChar(s[i])
  {
    seq(|s|, i requires 0 <= i < |s| => UpperChar(s[i]))
  }

  /** Drops the leading characters satisfying `drop`. */
  function TrimStart(s: string, drop: char -> bool): (r: string)
    ensures |r| <= |s| && r == s[|s| - |r|..]
    ensures r == [] || !drop(r[0])
    ensures forall i :: 0 <= i < |s| - |r| ==> drop(s[i])
  {
    if |s| > 0 && drop(s[0]) then
      var r := TrimStart(s[1..], drop);
      assert s[1..][|s| - 1 - |r|..] == s[|s| - |r|..];
      assert forall i :: 1 <= i < |s| - |r| ==> s[i] == s[1..][i - 1];
      r
    else s
  }

  /** Drops the trailing characters satisfying `drop`. */
  function TrimEnd(s: string, drop: char -> bool): (r: string)
    ensures |r| <= |s| && r == s[..|r|]
    ensures r == [] || !drop(r[|r| - 1])
    ensures forall i :: |r| <= i < |s| ==> drop(s[i])
  {
    if |s| > 0 && drop(s[|s| - 1]) then TrimEnd(s[..|s| - 1], drop) else s
  }

  /** Drops leading and trailing characters satisfying `drop`. */
  function Trim(s: string, drop: char -> bool): string
  {
    TrimEnd(TrimStart(s, drop), drop)
  }

  /** Python's `s.strip()`. */
  function Strip(s: string): (r: string)
    ensures r == [] || (!IsPySpace(r[0]) && !IsPySpace(r[|r| - 1]))
  {
    Trim(s, IsPySpace)
  }

  /** Trimming keeps a contiguous part of the text. */
  lemma TrimWithin(s: string, drop: char -> bool)
    ensures var t := Trim(s, drop);
      && |t| <= |s|
      && forall i :: 0 <= i < |t| ==> t[i] == s[|s| - |TrimStart(s, drop)| + i]
  {
  }

  /** Every character of the stripped text comes from the text. */
  lemma StripWithin(s: string)
    ensures forall c :: c in Strip(s) ==> c in s
  {
    TrimWithin(s, IsPySpace);
    var t := Strip(s);
    forall c | c in t
      ensures c in s
    {
      var i :| 0 <= i < |t| && t[i] == c;
      assert s[|s| - |TrimStart(s, IsPySpace)| + i] == c;
    }
  }

  /** Whitespace padding around a string does not change what `Strip` returns. */
  lemma {:induction false} StripPadding(pre: string, s: string, post: string)
    requires forall i :: 0 <= i < |pre| ==> IsPySpace(pre[i])
    requires forall i :: 0 <= i < |post| ==> IsPySpace(post[i])
    ensures Strip(pre + s + post) == Strip(s)
  {
    assert pre + s + post == pre + (s + post);
    TrimStartPadding(pre, s + post, IsPySpace);
    var t := TrimStart(s, IsPySpace);
    TrimStartAppend(s, post, IsPySpace);
    if TrimStart(s + post, IsPySpace) == t + post {
      TrimEndPadding(t, post, IsPySpace);
    } else {
      assert t == [] && TrimStart(s + post, IsPySpace) == [];
    }
  }

  lemma TrimStartKeeps(s: string, drop: char -> bool)
    requires s == [] || !drop(s[0])
    ensures TrimStart(s, drop) == s
  {
  }

  lemma TrimEndKeeps(s: string, drop: char -> bool)
    requires s == [] || !drop(s[|s| - 1])
    ensures TrimEnd(s, drop) == s
  {
  }

  /** Text with no whitespace at either end is already stripped. */
  lemma StripKeeps(s: string)
    requires s == [] || (!IsPySpace(s[0]) && !IsPySpace(s[|s| - 1]))
    ensures Strip(s) == s
  {
  }

  /** Text without upper-case ASCII letters is already lower-case. */
  lemma LowerKeeps(s: string)
    requires forall i :: 0 <= i < |s| ==> !IsAsciiUpper(s[i])
    ensures Lower(s) == s
  {
  }

  lemma {:induction false} TrimStartPadding(pre: string, s: string, drop: char -> bool)
    requires forall i :: 0 <= i < |pre| ==> drop(pre[i])
    ensures TrimStart(pre + s, drop) == TrimStart(s, drop)
    decreases |pre|
  {
    if |pre| > 0 {
      assert (pre + s)[1..] == pre[1..] + s;
      TrimStartPadding(pre[1..], s, drop);
    } else {
      assert pre + s == s;
    }
  }

  /** Trimming the start of `s + post` trims only inside `s` unless `s` is all dropped. */
  lemma {:induction false} TrimStartAppend(s: string, post: string, drop: char -> bool)
    requires forall i :: 0 <= i < |post| ==> drop(post[i])
    ensures TrimStart(s + post, drop) == TrimStart(s, drop) + post
         || (TrimStart(s, drop) == [] && TrimStart(s + post, drop) == [])
    decreases |s|
  {
    if |s| == 0 {
      assert s + post == post;
      TrimStartPadding(post, [], drop);
      assert post + [] == post;
    } else if drop(s[0]) {
      assert (s + post)[1..] == s[1..] + post;
      TrimStartAppend(s[1..], post, drop);
    }
  }

  lemma {:induction false} TrimEndPadding(s: string, post: string, drop: char -> bool)
    requires forall i :: 0 <= i < |post| ==> drop(post[i])
    ensures TrimEnd(s + post, drop) == TrimEnd(s, drop)
    decreases |post|
  {
    if |post| > 0 {
      var post' := post[..|post| - 1];
      assert (s + post)[..|s + post| - 1] == s + post';
      TrimEndPadding(s, post', drop);
    } else {
      assert s + post == s;
    }
  }

  /** `s.startswith(p)`. */
  predicate StartsWith(s: string, p: string)
  {
    |p| <= |s| && s[..|p|] == p
  }

  /** `sub in s`. */
  predicate Contains(s: string, sub: string)
    decreases |s|
  {
    StartsWith(s, sub) || (|s| > 0 && Contains(s[1..], sub))
  }

  /** The position of the first occurrence of `sub` in `s`, if any. */
  function IndexOf(s: string, sub: string): (r: int)
    ensures -1 <= r <= |s|
    ensures r == -1 <==> !Contains(s, sub)
    ensures r >= 0 ==> r + |sub| <= |s| && s[r..r + |sub|] == sub
    ensures r >= 0 ==> forall j :: 0 <= j < r ==> !StartsWith(s[j..], sub)
    decreases |s|
  {
    if StartsWith(s, sub) then 0
    else if |s| == 0 then -1
    else
      var k := IndexOf(s[1..], sub);
      if k == -1 then -1
      else
        assert forall j :: 1 <= j < k + 1 ==> s[j..] == s[1..][j - 1..];
        k + 1
  }

  /** `s.split(sep)[0]`: the text before the first occurrence of `sep`. */
  function BeforeFirst(s: string, sep: string): (r: string)
    ensures StartsWith(s, r)
    ensures !Contains(s, sep) ==> r == s
  {
    var k := IndexOf(s, sep);
    if k == -1 then s else s[..k]
  }

  /** The number of leading ASCII digits of `s`. */
  function DigitRun(s: string): (n: nat)
    ensures n <= |s|
    ensures forall i :: 0 <= i < n ==> IsDigit(s[i])
    ensures n == |s| || !IsDigit(s[n])
  {
    if |s| > 0 && IsDigit(s[0]) then 1 + DigitRun(s[1..]) else 0
  }

  /** The leading digit run of `d + rest` is exactly `d` when `rest` does not start with a digit. */
  lemma {:induction false} DigitRunOf(d: string, rest: string)
    requires forall i :: 0 <= i < |d| ==> IsDigit(d[i])
    requires rest == [] || !IsDigit(rest[0])
    ensures DigitRun(d + rest) == |d|
    decreases |d|
  {
    if |d| > 0 {
      assert (d + rest)[1..] == d[1..] + rest;
      DigitRunOf(d[1..], rest);
    } else {
      assert d + rest == rest;
    }
  }

  /** Python's `a <= b` on strings: lexicographic order of code points. */
  predicate LexLe(a: string, b: string)
    decreases |a|
  {
    |a| == 0 || (|b| > 0 && (a[0] < b[0] || (a[0] == b[0] && LexLe(a[1..], b[1..]))))
  }

  lemma {:induction false} LexLeTotal(a: string, b: string)
    ensures LexLe(a, b) || LexLe(b, a)
    decreases |a|
  {
    if |a| > 0 && |b| > 0 && a[0] == b[0] {
      LexLeTotal(a[1..], b[1..]);
    }
  }

  lemma {:induction false} LexLeTransitive(a: string, b: string, c: string)
    requires LexLe(a, b) && LexLe(b, c)
    ensures LexLe(a, c)
    decreases |a|
  {
    if |a| > 0 && a[0] == b[0] && b[0] == c[0] {
      LexLeTransitive(a[1..], b[1..], c[1..]);
    }
  }

  lemma {:induction false} LexLeAntisymmetric(a: string, b: string)
    requires LexLe(a, b) && LexLe(b, a)
    ensures a == b
    decreases |a|
  {
    if |a| > 0 {
      LexLeAntisymmetric(a[1..], b[1..]);
    }
  }

  /** The test "is the character `c`", as used by `rstrip(c)` and `split(c)`. */
  function IsChar(c: char): char -> bool
  {
    (x: char) => x == c
  }

  /** The position just after the last `c` in `s`, or 0 when there is none. */
  function LastCut(s: string, c: char): (k: nat)
    ensures k <= |s|
    ensures forall i :: k <= i < |s| ==> s[i] != c
    ensures k == 0 || s[k - 1] == c
  {
    if |s| == 0 then 0
    else if s[|s| - 1] == c then |s|
    else LastCut(s[..|s| - 1], c)
  }

  /** `s.split(c)[-1]`: the text after the last `c`, or all of `s` when it has none. */
  function AfterLast(s: string, c: char): (r: string)
    ensures |r| <= |s| && r == s[|s| - |r|..]
    ensures c !in r
    ensures |r| == |s| || s[|s| - |r| - 1] == c
  {
    s[LastCut(s, c)..]
  }

  /** `s.rstrip("/").split("/")[-1]`: the last segment of a slash-separated path. */
  function LastSegment(s: string): (r: string)
    ensures '/' !in r
  {
    AfterLast(TrimEnd(s, IsChar('/')), '/')
  }

  /** Appending a slash-free segment and any trailing slashes to a path ending in
      a slash gives back that segment. */
  lemma LastSegmentOf(dir: string, seg: string, slashes: nat)
    requires dir == [] || dir[|dir| - 1] == '/'
    requires '/' !in seg && seg != []
    ensures LastSegment(dir + seg + seq(slashes, _ => '/')) == seg
  {
    var tail := seq(slashes, _ => '/');
    var t := TrimEnd(dir + seg + tail, IsChar('/'));
    TrimEndPadding(dir + seg, tail, IsChar('/'));
    assert TrimEnd(dir + seg, IsChar('/')) == dir + seg;
    AfterLastOf(dir, seg);
  }

  lemma AfterLastOf(dir: string, seg: string)
    requires dir == [] || dir[|dir| - 1] == '/'
    requires '/' !in seg
    ensures AfterLast(dir + seg, '/') == seg
  {
    var s := dir + seg;
    var k := LastCut(s, '/');
    assert dir == [] || s[|dir| - 1] == '/';
    assert forall i :: |dir| <= i < |s| ==> s[i] == seg[i - |dir|];
    assert s[|dir|..] == seg;
  }

  /** The longest prefix of `s` without a character satisfying `stop`: the
      text before the first such character. */
  function TakeUntil(s: string, stop: char -> bool): (r: string)
    ensures |r| <= |s| && r == s[..|r|]
    ensures forall i :: 0 <= i < |r| ==> !stop(r[i])
    ensures |r| == |s| || stop(s[|r|])
  {
    if |s| == 0 || stop(s[0]) then [] else [s[0]] + TakeUntil(s[1..], stop)
  }

  /** A prefix free of stop characters followed by a stop character (or by
      nothing) is exactly what `TakeUntil` returns. */
  lemma {:induction false} TakeUntilOf(a: string, b: string, stop: char -> bool)
    requires forall i :: 0 <= i < |a| ==> !stop(a[i])
    requires b == [] || stop(b[0])
    ensures TakeUntil(a + b, stop) == a
    decreases |a|
  {
    if |a| == 0 {
      assert a + b == b;
    } else {
      assert (a + b)[1..] == a[1..] + b;
      TakeUntilOf(a[1..], b, stop);
    }
  }

  /** `sub` occurring at position `k` means `sub in s`. */
  lemma {:induction false} ContainsAt(s: string, sub: string, k: nat)
    requires k <= |s| && StartsWith(s[k..], sub)
    ensures Contains(s, sub)
    decreases k
  {
    if k > 0 {
      assert s[1..][k - 1..] == s[k..];
      ContainsAt(s[1..], sub, k - 1);
    }
  }

  /** A character that is not in `s` does not occur in it as a substring. */
  lemma {:induction false} CharNotContained(s: string, c: char)
    requires c !in s
    ensures !Contains(s, [c])
    decreases |s|
  {
    if |s| > 0 {
      assert s[..1] == [s[0]];
      assert c !in s[1..];
      CharNotContained(s[1..], c);
    }
  }

  /** Trimming a string that starts with a dropped character shortens it. */
  lemma TrimStartShrinks(s: string, drop: char -> bool)
    requires |s| > 0 && drop(s[0])
    ensures |TrimStart(s, drop)| < |s|
  {
  }

  /** The first occurrence is where `sub` occurs with no earlier occurrence. */
  lemma IndexOfIs(s: string, sub: string, k: nat)
    requires k <= |s| && StartsWith(s[k..], sub)
    requires forall j :: 0 <= j < k ==> !StartsWith(s[j..], sub)
    ensures IndexOf(s, sub) == k
  {
    ContainsAt(s, sub, k);
    var r := IndexOf(s, sub);
    assert s[r..][..|sub|] == s[r..r + |sub|];
  }
}

=== FILE: worksheet.dfy ===
/** A spreadsheet worksheet as the extraction scripts read it through
    openpyxl: the sheet's extent and a function from (row, column) to the
    cell's value. Rows and columns are numbered from 1. */
module Worksheet {

  /** A cell value: empty, a number, or text. */
  datatype Cell = Blank | Num(n: real) | Str(s: string)

  datatype Sheet = Sheet(title: string, maxRow: nat, maxColumn: nat, cell: (int, int) -> Cell)

  /** Python truthiness of a cell value: blank, empty text and zero are false. */
  predicate Truthy(c: Cell)
  {
    match c
    case Blank => false
    case Num(n) => n != 0.0
    case Str(s) => s != []
  }

  /** `str(value)` of a non-blank cell; numbers go through `render`. */
  function CellText(c: Cell, render: real -> string): string
  {
    match c
    case Blank => "None"
    case Num(n) => render(n)
    case Str(s) => s
  }

  /** The cells of rows 1..maxRow in two columns, top to bottom. */
  function ColumnPairs(ws: Sheet, left: int, right: int): (pairs: seq<(Cell, Cell)>)
    ensures |pairs| == ws.maxRow
    ensures forall i :: 0 <= i < |pairs| ==> pairs[i] == (ws.cell(i + 1, left), ws.cell(i + 1, right))
  {
    seq(ws.maxRow, i requires 0 <= i < ws.maxRow => (ws.cell(i + 1, left), ws.cell(i + 1, right)))
  }
}

=== FILE: wrappers.dfy ===
/** Optional values and results with an error, used wherever the modelled code
    returns None or raises. */
module Wrappers {

  /** A value that may be absent: Python's `None`, or a JavaScript `null`. */
  datatype Option<+T> = None | Some(value: T) {

    /** The carried value, or `default` when there is none. */
    function GetOr(default: T): T {
      match this
      case Some(v) => v
      case None => default
    }
  }

  /** A computation that either produced a value or failed with an error
      (the modelled code raises an exception in that case). */
  datatype Result<+R, +E> = Success(value: R) | Failure(error: E) {

    predicate IsFailure() {
      Failure?
    }

    function PropagateFailure<U>(): Result<U, E>
      requires Failure?
    {
      Failure(error)
    }

    function Extract(): R
      requires Success?
    {
      value
    }
  }
}
